=== FILE: README.md ===
# jUtils core, modelled in Dafny

A model of the logic at the core of jUtils, a Java utility library, together with proofs about it. The library's threading and run-control classes are modelled with their threads abstracted away. Every block that runs under the object's lock becomes one atomic step: a pure function from one state to the next. Wall-clock time, random pauses and interrupts become inputs to those steps.

What is covered:

- **Batch service** (`BatchService`, `PoolSizeTuner`, `BatchServiceTask`).
  - The submission and completion accounting, modelled as a state machine.
  - The fold of task exit codes into one value.
  - The pool-size tuner's hill-climbing tick, with its validation and its start and stop.
  - `TaskComparator`, which orders tasks by priority.
- **Batch processor pipeline** (`BatchProcessor`, `ItemizedBatchProcessor`, the sized list and set collectors).
  - Batches are handed over when they are ready.
  - The residue is force-flushed at the end.
  - The partition theorem: the submitted batches concatenate back to the input, and all but the last are full.
- **Execution decorators** (`MultipleAttemptsExecutor`, `ChainExecutor`, `ChainedWrappedInvoker`, `StatsExecutor`, `StatsInvoker`, `ProgressLogger`, `PercentProgressLogger`).
  - The retry loop, over the sequence of per-attempt outcomes.
  - Nested composition, stated on call traces.
  - The windowed failure counters, over an elapsed-time input.
  - The checkpoint rule that decides when progress is reported.
- **Collections and strings**:
  - the natural-order comparator `AlphaNumComparator`;
  - the two-level `ObjectStore` and its sorted variant;
  - `TupleIterator` and `TupleSpliterator`, which zip several inputs;
  - `MapCollection`, a map seen as a collection;
  - the older LRU `SimpleCache`;
  - `ArraySearchUtils` and `StringSearchUtils`;
  - `ExceptionUtils.getRootCause`;
  - the HQL and SQL clause builders.

The repository holds two revisions of several classes: the current one under `jutils/` and an older one under `src/`.

- Where the core differs between them, both are modelled, and a lemma relates them:
  - `ChainExecutor` (the older revision lacks the null guard);
  - `StatsExecutor`.
- `StatsInvoker`, `ChainedWrappedInvoker` and the HQL/SQL builders exist only in the older revision.
- `BatchService` has the same accounting in both revisions. The older revision's constructors and inner tuner hook are the ones cited.

Shared modules:

- `Results` gives `Option` and `Result`.
- `JavaLang` models the parts of Java the code relies on:
  - `int` wrap-around;
  - truncating division;
  - `Math.round`;
  - throwables with a class hierarchy and a cause.

Java `null` is `None` wherever the code checks for it or fails on it.

Java's fixed-width arithmetic is modelled where the core computes with it. `Wrap32` reduces a sum to an `int`, `Wrap64` to a `long`. The tuner's sizes and steps are `int`s and its task counts are `long`s. The retry pause bounds and the progress counter are `long`s. Lemmas that need a sum not to wrap say so in their hypotheses. Example lemmas show what the code does past those bounds.

Some behaviours of the code that a reader might not expect:

- `PoolSizeTuner.Tick`: when the previous throughput is 0, the relative change `deltaThru / prevThroughput` is a `double` division by zero, which gives positive infinity. So any positive change in throughput then counts as an improvement.
- `PoolSizeTuner.InitialIncr`: the initial increment, `round((minThreadIncr + maxThreadIncr) / 3)`, can be smaller than `minThreadIncr`. For example, 50 and 50 give 33. So the step bound proved is `|threadIncr| <= maxThreadIncr`, and the lower bound is not claimed.
- `PoolSizeTuner.Validate` does not reject a `minThreadIncr` of 0 or below.
- `BatchService.AllFinishedMeansDrained`: the Javadoc of `waitAllFinished` says it waits until all submitted tasks complete. The code waits only for the busy count to reach 0. That is the same thing exactly when every submitted task has been counted as completed.

## Model

| member | source | states |
|---|---|---|
| BatchService.New | src/main/java/uk/ac/ebi/utils/threading/BatchService.java:115-132 | a new service has the given pool size and tuner, no busy or completed task and exit code 0 |
| BatchService.DefaultTuner | jutils/src/main/java/uk/ac/ebi/utils/threading/BatchService.java:113-130 | the tuner the one-argument constructor installs is inactive and has a configuration that passes validation |
| BatchService.Submit | jutils/src/main/java/uk/ac/ebi/utils/threading/BatchService.java:159-235 | a submission is admitted only while busy tasks are fewer than the pool size and then raises the busy count by exactly one; it must wait exactly when the pool is full; it fails exactly when an inactive tuner has an invalid configuration; otherwise an active tuner is left as it is and an inactive one becomes the tuner started from the current pool size; a submission that must wait leaves the busy count alone; the other counters are unchanged |
| BatchService.StartTuner | jutils/src/main/java/uk/ac/ebi/utils/threading/BatchService.java:161 | the check fails iff the tuner is inactive and its configuration invalid, with the violation start reports; no tuner or an active one is left as it is; an inactive one becomes the tuner started from the current pool size; nothing but the tuner changes |
| BatchService.StartTunerOnce | jutils/src/main/java/uk/ac/ebi/utils/threading/BatchService.java:161 | once a submission has passed the check, the check changes nothing, so a later submission never restarts the tuner or resets its bookkeeping |
| BatchService.Complete | jutils/src/main/java/uk/ac/ebi/utils/threading/BatchService.java:186-207 | a completion adds one completed task and removes one busy task, leaves the exit code alone for a zero code, signals a free thread exactly when the busy count drops below the pool size, and signals "no tasks" only when none is busy |
| BatchService.Resize | jutils/src/main/java/uk/ac/ebi/utils/threading/BatchService.java:314-328 | resizing changes the pool size and nothing else |
| BatchService.TunerStep | jutils/src/main/java/uk/ac/ebi/utils/threading/BatchService.java:76-98 | a tuner run leaves the busy and completed counters and the exit code alone; without a tuner, or with a stopped one, it does nothing; otherwise the pool takes the last size the monitoring step sets and the service keeps the stepped tuner |
| BatchService.TunerStepKeepsBounds | jutils/src/main/java/uk/ac/ebi/utils/threading/BatchService.java:76-98 | with a sane tuner whose sums cannot wrap, a pool size within bounds and a completed counter that has not gone backwards, a tuner run keeps the pool size within [minThreads, maxThreads] and the tuner sane |
| BatchService.FoldMeansSummary | jutils/src/main/java/uk/ac/ebi/utils/threading/BatchService.java:196-200 | folding exit codes in completion order gives the documented summary: 0 if all are 0, the common code if the non-zero codes agree, 1 if they differ |
| BatchService.FoldCharacterisation | jutils/src/main/java/uk/ac/ebi/utils/threading/BatchService.java:196-200 | the summary is 0 iff every code is 0, and equals a code c other than 0 and 1 iff c occurred and is the only non-zero code |
| BatchService.FoldOrderIndependent | jutils/src/main/java/uk/ac/ebi/utils/threading/BatchService.java:196-200 | the summary depends only on the multiset of exit codes, not on the completion order |
| BatchService.RunAccounting | jutils/src/main/java/uk/ac/ebi/utils/threading/BatchService.java:194-223 | from a new service, after any feasible sequence of events, completed = number of completions, busy = admitted submissions minus completions and never negative, and the exit code is the summary of the completed codes |
| BatchService.Run | jutils/src/main/java/uk/ac/ebi/utils/threading/BatchService.java:159-235 | no event installs or removes the tuner; the counters are stated by BatchService.RunAccounting |
| BatchService.AllFinishedMeansDrained | jutils/src/main/java/uk/ac/ebi/utils/threading/BatchService.java:244-255 | the wait loop of `waitAllFinished` exits iff every admitted submission has completed |
| PoolSizeTuner.DefaultConfig | src/main/java/uk/ac/ebi/utils/threading/PoolSizeTuner.java:29-41 | the default parameters pass validation |
| PoolSizeTuner.Validate | src/main/java/uk/ac/ebi/utils/threading/PoolSizeTuner.java:215-224 | validation succeeds iff the configuration is valid; a non-positive minThreads is always the reported violation; a period violation is reported only when every other check passes |
| PoolSizeTuner.InitialIncr | src/main/java/uk/ac/ebi/utils/threading/PoolSizeTuner.java:207-213 | for a valid configuration whose step bounds sum to an `int` the initial step lies between 0 and maxThreadIncr; when the sum wraps, the step is negative and still no larger than maxThreadIncr in size |
| PoolSizeTuner.InitialIncrWraps | src/main/java/uk/ac/ebi/utils/threading/PoolSizeTuner.java:207-213 | step bounds of 2^30 each pass validation, and their `int` sum wraps to `Integer.MIN_VALUE`, so the initial step is negative: -715827883 with the third taken exactly, where the code's `float` division gives -715827904 |
| PoolSizeTuner.Start | src/main/java/uk/ac/ebi/utils/threading/PoolSizeTuner.java:166-186 | starting fails iff the configuration is invalid; on success the tuner is active, remembers the current pool size, has zero throughput bookkeeping, takes the initial step and, for an `int` configuration, has a step within the maximum |
| PoolSizeTuner.Stop | src/main/java/uk/ac/ebi/utils/threading/PoolSizeTuner.java:192-205 | stopping makes the tuner inactive and changes nothing else |
| PoolSizeTuner.WeightedSize | src/main/java/uk/ac/ebi/utils/threading/PoolSizeTuner.java:123-125 | with non-negative throughputs not both zero, the throughput-weighted size lies between the previous and the current size |
| PoolSizeTuner.Throughput | src/main/java/uk/ac/ebi/utils/threading/PoolSizeTuner.java:94-95 | the throughput is the `long` difference of the completed readings, exact when that difference is a `long` |
| PoolSizeTuner.ThroughputChange | src/main/java/uk/ac/ebi/utils/threading/PoolSizeTuner.java:94-96 | the throughput change is the `long` difference of successive throughputs, exact when no difference wraps |
| PoolSizeTuner.Tick | src/main/java/uk/ac/ebi/utils/threading/PoolSizeTuner.java:92-157 | a monitoring step records the reading, the throughput and the size it saw, keeps the configuration, and resizes the pool (at most twice) iff the throughput changed significantly |
| PoolSizeTuner.ThroughputExact | src/main/java/uk/ac/ebi/utils/threading/PoolSizeTuner.java:94-96 | for a sane tuner and a reading no lower than the previous one and within `long`, throughput and change are the exact differences |
| PoolSizeTuner.StartIsSane | src/main/java/uk/ac/ebi/utils/threading/PoolSizeTuner.java:166-213 | a successful start of an `int` configuration from a pool size within bounds gives a tuner whose invariant holds |
| PoolSizeTuner.TickKeepsBounds | src/main/java/uk/ac/ebi/utils/threading/PoolSizeTuner.java:92-157 | when no `int` sum can wrap and the reading has not gone backwards, every size a step sets lies within [minThreads, maxThreads] and the invariant is preserved |
| PoolSizeTuner.TickDirection | src/main/java/uk/ac/ebi/utils/threading/PoolSizeTuner.java:102-145 | while twice the step is an `int`, an improvement keeps the step's sign (zero becomes positive), a worsening flips it (zero becomes negative), no significant change resets it to 0 |
| PoolSizeTuner.TickMovesByStep | src/main/java/uk/ac/ebi/utils/threading/PoolSizeTuner.java:102-141 | when no `int` sum can wrap, an improvement with a positive step grows the pool by the step capped at maxThreads and never moves against the step; a worsening with a zero step sets two sizes, the second the current size less minThreadIncr, floored at minThreads |
| PoolSizeTuner.GrowthPastIntMaxWraps | src/main/java/uk/ac/ebi/utils/threading/PoolSizeTuner.java:104-108 | with maxThreads at `Integer.MAX_VALUE`, a pool ten short of it grown by 50 is set to the wrapped size `Integer.MIN_VALUE + 39` |
| PoolSizeTuner.DoubledStepWraps | src/main/java/uk/ac/ebi/utils/threading/PoolSizeTuner.java:104-108 | a step of 2^30 with maxThreadIncr at `Integer.MAX_VALUE` doubles to `Integer.MIN_VALUE` after an improvement |
| PoolSizeTuner.RunKeepsBounds | src/main/java/uk/ac/ebi/utils/threading/PoolSizeTuner.java:92-186 | when no `int` sum can wrap, over any run of steps with non-decreasing `long` completed-task readings, the pool size stays within bounds and the configuration never changes |
| PoolSizeTuner.Run | src/main/java/uk/ac/ebi/utils/threading/PoolSizeTuner.java:92-157 | no contract of its own: successive runs of the timer task, the pool resized in between; its meaning is stated by PoolSizeTuner.RunKeepsBounds |
| BatchServiceTask.NewTask | src/main/java/uk/ac/ebi/utils/threading/BatchServiceTask.java:20-22 | a new task has the given name, exit code 0 and priority 0 |
| BatchServiceTask.CompareToAsWritten | src/main/java/uk/ac/ebi/utils/threading/BatchServiceTask.java:80-87 | null and non-task arguments compare as +1; the result is always an int, and for tasks it is the difference of the priorities whenever that difference fits in an int |
| BatchServiceTask.AsWrittenNotAntisymmetric | src/main/java/uk/ac/ebi/utils/threading/BatchServiceTask.java:80-87 | priorities 0 and Integer.MIN_VALUE make each task compare as smaller than the other |
| BatchServiceTask.AsWrittenMisordersExtremes | src/main/java/uk/ac/ebi/utils/threading/BatchServiceTask.java:80-87 | with priorities Integer.MIN_VALUE and 1 the lower-priority task is ordered first |
| BatchServiceTask.Compare | src/main/java/uk/ac/ebi/utils/threading/BatchServiceTask.java:35-45 | the intended comparator: non-tasks come first, then tasks by decreasing priority; zero exactly for two non-tasks or equal priorities |
| BatchServiceTask.CompareIsOrder | src/main/java/uk/ac/ebi/utils/threading/BatchServiceTask.java:35-45 | the intended comparator is antisymmetric in sign and transitive |
| BatchServiceTask.AsWrittenAgreesWithoutOverflow | src/main/java/uk/ac/ebi/utils/threading/BatchServiceTask.java:35-87 | when the priority difference fits in an int, the code as written orders like the intended comparator |
| BatchProcessor.NewProcessorIsIdle | jutils/src/main/java/uk/ac/ebi/utils/threading/batchproc/BatchProcessor.java:76-93 | a new processor logs every 1000 jobs and has submitted, completed and waited for nothing |
| BatchProcessor.HandleNewBatch | jutils/src/main/java/uk/ac/ebi/utils/threading/batchproc/BatchProcessor.java:137-149 | a batch is handed to a job iff it is ready or a flush is forced; then the submitted counter grows by one, the batch is queued as the last job and a fresh batch is returned; otherwise processor and batch are unchanged; progress is logged only for a submitted job with a positive period, exactly when the new count is a multiple of it |
| BatchProcessor.Feed | jutils/src/main/java/uk/ac/ebi/utils/threading/batchproc/ItemizedBatchProcessor.java:65-73 | feeding items only appends jobs, counting each in the submitted counter, and never touches the completed counter or the log period |
| BatchProcessor.Process | jutils/src/main/java/uk/ac/ebi/utils/threading/batchproc/ItemizedBatchProcessor.java:56-81 | processing a source submits at least one job (the residue is always flushed), keeps the earlier jobs as a prefix and counts every new job as submitted |
| BatchProcessor.ChunksPartition | jutils/src/main/java/uk/ac/ebi/utils/threading/batchproc/ItemizedBatchProcessor.java:65-76 | cutting a sequence into chunks of m gives n / m chunks of exactly m items and a residue of n % m items which, concatenated, give back the sequence |
| BatchProcessor.FeedListChunks | jutils/src/main/java/uk/ac/ebi/utils/threading/batchproc/ItemizedBatchProcessor.java:65-73 | with a list collector of size m, feeding items onto a partial batch submits exactly the full chunks of (batch + items) and keeps their residue as the current batch |
| BatchProcessor.ListBatchesPartitionItems | jutils/src/main/java/uk/ac/ebi/utils/threading/batchproc/ItemizedBatchProcessor.java:56-81 | processing n items with a list collector of size m submits n / m jobs of exactly m items and then one job with the n % m remaining ones, and the jobs hold exactly the items, in order |
| BatchProcessor.FeedSetBatches | jutils/src/main/java/uk/ac/ebi/utils/threading/batchproc/ItemizedBatchProcessor.java:65-73 | with a set collector of size m, every job submitted while feeding holds exactly m distinct items, the current batch stays below m, and jobs plus batch hold every item fed |
| BatchProcessor.SetBatchesCoverItems | jutils/src/main/java/uk/ac/ebi/utils/threading/batchproc/ItemizedBatchProcessor.java:56-81 | processing items with a set collector of size m submits jobs of exactly m distinct items but the last, which has fewer, and the new jobs together hold exactly the distinct items of the source |
| BatchProcessor.JobFinished | jutils/src/main/java/uk/ac/ebi/utils/threading/batchproc/BatchProcessor.java:247-280 | a finished job always adds one to the completed counter; only a throwable that is not an Exception propagates; the waiter is notified iff completed reaches submitted; progress is logged iff the period is positive and either the last job finished while someone waits or a multiple of the period was reached |
| BatchProcessor.AllJobsFinish | jutils/src/main/java/uk/ac/ebi/utils/threading/batchproc/BatchProcessor.java:247-280 | whatever the jobs' outcomes, once every submitted job has run, completed equals submitted and the last job notified the waiter |
| BatchProcessor.FinishAll | jutils/src/main/java/uk/ac/ebi/utils/threading/batchproc/BatchProcessor.java:247-280 | no contract of its own: the jobs' wrappers run one after another; its meaning is stated by BatchProcessor.AllJobsFinish |
| BatchProcessor.WaitExecutor | jutils/src/main/java/uk/ac/ebi/utils/threading/batchproc/BatchProcessor.java:213-238 | the wait ends normally iff some observation shows completed equal to submitted with no interrupted wait before it, at the first such observation; an interrupted wait ends it with an UnexpectedEventException caused by the InterruptedException; every earlier round saw unequal counters and was not interrupted; a progress message is written per round iff the log period is above -1 |
| BatchCollectors.Sized | jutils/src/main/java/uk/ac/ebi/utils/threading/batchproc/SizedBatchCollector.java:14-27 | a sized collector deems a batch ready iff its size reaches the maximum batch size |
| BatchCollectors.ListCollector | jutils/src/main/java/uk/ac/ebi/utils/threading/batchproc/collectors/ListBatchCollector.java:20-23 | a list collector appends each item at the end of the batch and deems it ready iff it holds at least the maximum batch size |
| BatchCollectors.ListCollectorOfSizeReady | jutils/src/main/java/uk/ac/ebi/utils/threading/batchproc/collectors/ListBatchCollector.java:28-30 | batches start empty and are ready at the given size |
| BatchCollectors.DefaultListCollectorReady | jutils/src/main/java/uk/ac/ebi/utils/threading/batchproc/collectors/ListBatchCollector.java:35-37 | batches start empty and are ready at 1000 items, the default of AbstractSizedBatchCollector |
| BatchCollectors.SetCollector | jutils/src/main/java/uk/ac/ebi/utils/threading/batchproc/collectors/SetBatchCollector.java:20-23 | a set collector adds each item to the batch, absorbing an item already present, and deems it ready iff it holds at least the maximum batch size |
| BatchCollectors.SetCollectorOfSizeReady | jutils/src/main/java/uk/ac/ebi/utils/threading/batchproc/collectors/SetBatchCollector.java:25-27 | batches start empty and are ready at the given size |
| BatchCollectors.DefaultSetCollectorReady | jutils/src/main/java/uk/ac/ebi/utils/threading/batchproc/collectors/SetBatchCollector.java:29-31 | batches start empty and are ready at 1000 distinct items |
| MultipleAttempts.DefaultConfig | jutils/src/main/java/uk/ac/ebi/utils/runcontrol/MultipleAttemptsExecutor.java:46-49 | the constructor without numbers allows 3 attempts with pauses of 0 to 3000 ms and keeps the intercepted classes |
| MultipleAttempts.Uninterrupted | jutils/src/main/java/uk/ac/ebi/utils/runcontrol/MultipleAttemptsExecutor.java:128-130 | an InterruptedException becomes an UncheckedInterruptedException caused by it; anything else passes unchanged |
| MultipleAttempts.PauseEnd | jutils/src/main/java/uk/ac/ebi/utils/runcontrol/MultipleAttemptsExecutor.java:116-117 | the exclusive end of the random pause is `maxPauseTime + 1`, and wraps to `Long.MIN_VALUE` when the maximum is `Long.MAX_VALUE` |
| MultipleAttempts.Loop | jutils/src/main/java/uk/ac/ebi/utils/runcontrol/MultipleAttemptsExecutor.java:89-125 | the loop runs at most its remaining attempts and none when none remain; every attempt before the last one run failed with an intercepted runtime exception and was followed by a pause that did not end the call; every pause is at least a non-negative minPauseTime and, for a `long` maximum, at most maxPauseTime; there is none unless the `long` difference maxPauseTime - minPauseTime is positive |
| MultipleAttempts.Pauses | jutils/src/main/java/uk/ac/ebi/utils/runcontrol/MultipleAttemptsExecutor.java:116 | no contract of its own: the `long` difference test for pausing; its effect is stated by MultipleAttempts.Loop and MultipleAttempts.WideRangeSkipsPause |
| MultipleAttempts.Final | jutils/src/main/java/uk/ac/ebi/utils/runcontrol/MultipleAttemptsExecutor.java:122-130 | no contract of its own: how the last attempt ends the call; its meaning is stated by MultipleAttempts.LoopExhausted, MultipleAttempts.NotInterceptedRethrownAtOnce and MultipleAttempts.CheckedEscapesAtOnce |
| MultipleAttempts.WideRangeSkipsPause | jutils/src/main/java/uk/ac/ebi/utils/runcontrol/MultipleAttemptsExecutor.java:116-117 | with pause bounds -1 and `Long.MAX_VALUE` the difference wraps negative: three intercepted failures run all three attempts without a pause and rethrow the last exception |
| MultipleAttempts.LongMaxPauseRejected | jutils/src/main/java/uk/ac/ebi/utils/runcontrol/MultipleAttemptsExecutor.java:116-117 | with pause bounds 0 and `Long.MAX_VALUE` the end of the random range wraps, and the first intercepted failure ends the call with an IllegalArgumentException |
| MultipleAttempts.ExecuteChecked | jutils/src/main/java/uk/ac/ebi/utils/runcontrol/MultipleAttemptsExecutor.java:82-131 | a call runs at most maxAttempts attempts, none exactly when maxAttempts is not positive, and then returns normally |
| MultipleAttempts.Execute | jutils/src/main/java/uk/ac/ebi/utils/runcontrol/MultipleAttemptsExecutor.java:56-70 | execute runs the same attempts and pauses as executeChecked, never lets a checked exception reach the caller, and passes errors unchanged |
| MultipleAttempts.LoopStopsAtFirstNonRetryable | jutils/src/main/java/uk/ac/ebi/utils/runcontrol/MultipleAttemptsExecutor.java:89-119 | with pauses that cannot fail, a loop ending before its attempts run out ends at the first attempt that is not an intercepted runtime failure, with that attempt's outcome |
| MultipleAttempts.LoopExhausted | jutils/src/main/java/uk/ac/ebi/utils/runcontrol/MultipleAttemptsExecutor.java:89-125 | with pauses that cannot fail, a loop that uses every attempt ends with the last attempt's outcome, the last intercepted exception being rethrown as it is |
| MultipleAttempts.LoopPauseCount | jutils/src/main/java/uk/ac/ebi/utils/runcontrol/MultipleAttemptsExecutor.java:112-117 | with pauses on and unable to fail, exactly one pause follows every intercepted failure |
| MultipleAttempts.FirstSuccessRunsOnce | jutils/src/main/java/uk/ac/ebi/utils/runcontrol/MultipleAttemptsExecutor.java:89-94 | a first attempt that succeeds is the only one, with no pause |
| MultipleAttempts.AllInterceptedRethrowsLast | jutils/src/main/java/uk/ac/ebi/utils/runcontrol/MultipleAttemptsExecutor.java:89-125 | when every attempt fails with an intercepted exception, exactly maxAttempts attempts run, each followed by a pause when pauses are on, and the last exception reaches the caller |
| MultipleAttempts.NotInterceptedRethrownAtOnce | jutils/src/main/java/uk/ac/ebi/utils/runcontrol/MultipleAttemptsExecutor.java:95-113 | a runtime exception of no intercepted class ends the call after one attempt and reaches the caller unchanged |
| MultipleAttempts.ThirdAttemptSucceeds | jutils/src/main/java/uk/ac/ebi/utils/runcontrol/MultipleAttemptsExecutor.java:89-119 | two intercepted failures and then a success make three attempts and a normal return |
| MultipleAttempts.CheckedEscapesAtOnce | jutils/src/main/java/uk/ac/ebi/utils/runcontrol/MultipleAttemptsExecutor.java:91-130 | a checked exception is never re-attempted: one attempt, and the exception (an interruption converted) reaches the caller |
| ChainExecutor.Repeat | jutils/src/main/java/uk/ac/ebi/utils/runcontrol/ChainExecutor.java:41-49 | running a job zero times does nothing and records nothing |
| ChainExecutor.Single | jutils/src/main/java/uk/ac/ebi/utils/runcontrol/ChainExecutor.java:32-35 | the one-argument constructor builds a chain with no external executor around the given one |
| ChainExecutor.Wrap | jutils/src/main/java/uk/ac/ebi/utils/runcontrol/ChainExecutor.java:62-64 | wrap returns a new chain whose external executor is the argument and whose internal executor is the receiver |
| ChainExecutor.StackNests | jutils/src/main/java/uk/ac/ebi/utils/runcontrol/ChainExecutor.java:41-64 | a chain built with wrap runs the pre-logic of its executors from the outermost in, then the action once, then the post-logic from the innermost out |
| ChainExecutor.Execute | jutils/src/main/java/uk/ac/ebi/utils/runcontrol/ChainExecutor.java:44-50 | no contract of its own: `execute` on a base executor and on a chain in either revision; its meaning is stated by ChainExecutor.StackNests, ChainExecutor.NullExternal, ChainExecutor.ExternalEncloses and ChainExecutor.RevisionsAgree |
| ChainExecutor.StackOfOne | jutils/src/main/java/uk/ac/ebi/utils/runcontrol/ChainExecutor.java:32-49 | a chain of one executor runs its pre-logic, the action and its post-logic |
| ChainExecutor.WrapOnce | jutils/src/main/java/uk/ac/ebi/utils/runcontrol/ChainExecutor.java:41-64 | wrapping a chain that ends normally adds the new executor's pre-logic before and its post-logic after the chain's trace |
| ChainExecutor.ThreeWrappersExample | jutils/src/main/java/uk/ac/ebi/utils/runcontrol/ChainExecutor.java:41-64 | wrapping e1 in e2 and then e3 runs e3, e2, e1 pre-logic, the action, then e1, e2, e3 post-logic |
| ChainExecutor.RepeatCountsActions | jutils/src/main/java/uk/ac/ebi/utils/runcontrol/ChainExecutor.java:41-49 | a job that does not fail, run n times, runs the action n times as often as one run does |
| ChainExecutor.ActionRunsPerCallback | jutils/src/main/java/uk/ac/ebi/utils/runcontrol/ChainExecutor.java:41-49 | the action runs as many times as the external executor calls back, times the internal executor's runs, and not at all when it never calls back |
| ChainExecutor.NullExternal | jutils/src/main/java/uk/ac/ebi/utils/runcontrol/ChainExecutor.java:44-45 | with no external executor the newer revision runs the internal executor alone, while the older one fails with a NullPointerException before anything runs |
| ChainExecutor.ExternalEncloses | jutils/src/main/java/uk/ac/ebi/utils/runcontrol/ChainExecutor.java:46-49 | a chain's run starts with the external executor's pre-logic and, when nothing fails, ends with its post-logic |
| ChainExecutor.RevisionsAgree | src/main/java/uk/ac/ebi/utils/runcontrol/ChainExecutor.java:31-41 | the two revisions behave alike on every chain whose external executors are all present |
| ChainExecutor.RunAgrees | src/main/java/uk/ac/ebi/utils/runcontrol/ChainExecutor.java:31-41 | running a job whose executors are all present is the same in both revisions |
| ChainExecutor.RepeatAgrees | src/main/java/uk/ac/ebi/utils/runcontrol/ChainExecutor.java:31-41 | repeating such a job is the same in both revisions |
| ChainExecutor.Invoke | src/main/java/uk/ac/ebi/utils/runcontrol/ChainedWrappedInvoker.java:24-34 | a chained invoker nests like the older chain executor, and returns a value iff the run does not fail |
| ChainExecutor.ExternalValueReturned | src/main/java/uk/ac/ebi/utils/runcontrol/ChainedWrappedInvoker.java:24-34 | a chained invoker returns its external invoker's value, whatever the internal invoker returns |
| StatsExecutor.DefaultConfig | jutils/src/main/java/uk/ac/ebi/utils/runcontrol/StatsExecutor.java:38-40 | the one-argument constructor samples every five minutes (300000 ms) and pops exceptions up |
| StatsExecutor.SetPopUpExceptions | jutils/src/main/java/uk/ac/ebi/utils/runcontrol/StatsExecutor.java:145-149 | the setter changes the flag and keeps the sampling time |
| StatsExecutor.NewStats | jutils/src/main/java/uk/ac/ebi/utils/runcontrol/StatsExecutor.java:20-27 | a new executor has counted nothing and its stop watch is stopped |
| StatsExecutor.DoStats | jutils/src/main/java/uk/ac/ebi/utils/runcontrol/StatsExecutor.java:71-101 | the first call starts the window; a window closes iff the sampling time has elapsed since it started, and then the counters move to the last-window record, are reset to zero and a new window starts now; otherwise nothing changes |
| StatsExecutor.Execute | jutils/src/main/java/uk/ac/ebi/utils/runcontrol/StatsExecutor.java:48-66 | every call is counted; an Exception counts as failed; an error, or an exception while popping up is on, reaches the caller without closing a window; a closing call records the window's calls including itself |
| StatsExecutor.ExecuteKeepsConsistent | jutils/src/main/java/uk/ac/ebi/utils/runcontrol/StatsExecutor.java:48-101 | failed calls never outnumber calls, in the current and the last closed window |
| StatsExecutor.WindowCounts | jutils/src/main/java/uk/ac/ebi/utils/runcontrol/StatsExecutor.java:48-101 | within one sampling window the counters grow by exactly the number of calls and of failed calls |
| StatsExecutor.RunKeepsConsistent | jutils/src/main/java/uk/ac/ebi/utils/runcontrol/StatsExecutor.java:48-101 | any run of calls keeps failed calls at most calls |
| StatsExecutor.OriginalDoStats | src/main/java/uk/ac/ebi/utils/runcontrol/StatsExecutor.java:69-93 | in the older revision a window closes iff the sampling time has elapsed, resetting both counters and restarting the window |
| StatsExecutor.RevisionsAgree | src/main/java/uk/ac/ebi/utils/runcontrol/StatsExecutor.java:45-93 | the two revisions count, reset, rethrow and close windows alike; the newer one only adds the record of the last window |
| StatsExecutor.OriginalExecute | src/main/java/uk/ac/ebi/utils/runcontrol/StatsExecutor.java:45-64 | no contract of its own: the older `execute`; its meaning is stated by StatsExecutor.RevisionsAgree |
| StatsExecutor.Invoke | src/main/java/uk/ac/ebi/utils/runcontrol/StatsInvoker.java:37-82 | StatsInvoker returns true iff the call closed a window, which happens only when no exception reaches the caller and the sampling time has elapsed, and then the counters are reset |
| ProgressLogger.NewLogger | jutils/src/main/java/uk/ac/ebi/utils/runcontrol/ProgressLogger.java:23-24 | a new logger is at progress 0 and reports every 1000 items |
| ProgressLogger.WithResolution | jutils/src/main/java/uk/ac/ebi/utils/runcontrol/ProgressLogger.java:37-39 | the resolution constructor starts at 0 with the given resolution |
| ProgressLogger.CheckpointReport | jutils/src/main/java/uk/ac/ebi/utils/runcontrol/ProgressLogger.java:92-105 | a zero resolution is exactly the case that throws; a report always carries the new value; an unchanged value is never reported |
| ProgressLogger.ReportsIffCrossing | jutils/src/main/java/uk/ac/ebi/utils/runcontrol/ProgressLogger.java:92-105 | for non-negative values and a positive resolution, the new value is reported iff a multiple of the resolution lies between the old value (excluded) and the new one, whichever direction the move takes |
| ProgressLogger.Update | jutils/src/main/java/uk/ac/ebi/utils/runcontrol/ProgressLogger.java:49-64 | update stores the new progress and reports by the checkpoint rule from the previous progress |
| ProgressLogger.UpdateWithIncrement | jutils/src/main/java/uk/ac/ebi/utils/runcontrol/ProgressLogger.java:69-87 | an increment adds to the progress as a `long`, exactly when the sum fits and going backwards when a positive increment overflows; it keeps the resolution and reports, if anything, the new total |
| ProgressLogger.IncrementPastLongMaxWraps | jutils/src/main/java/uk/ac/ebi/utils/runcontrol/ProgressLogger.java:69-75 | one step past `Long.MAX_VALUE` sets the progress to `Long.MIN_VALUE` and logs it |
| ProgressLogger.SameCheckpointSilent | jutils/src/main/java/uk/ac/ebi/utils/runcontrol/ProgressLogger.java:97-99 | a move within one checkpoint is never reported |
| ProgressLogger.UnitStepsInsideCheckpoint | jutils/src/main/java/uk/ac/ebi/utils/runcontrol/ProgressLogger.java:69-105 | unit increments that stay within one checkpoint and below `Long.MAX_VALUE` report nothing and advance the progress by their number |
| ProgressLogger.UnitStepsReachCheckpoint | jutils/src/main/java/uk/ac/ebi/utils/runcontrol/ProgressLogger.java:69-105 | unit increments, staying below `Long.MAX_VALUE`, whose last one reaches the next checkpoint report exactly that last total |
| ProgressLogger.ResolutionHundredExample | jutils/src/test/java/uk/ac/ebi/utils/runcontrol/ProgressLoggerTest.java:29-48 | with resolution 100, updating to 100 and then adding 1, 100, 50 and 49 ones reports 100, 201 and 300 and nothing else |
| ProgressLogger.DecreaseReported | jutils/src/main/java/uk/ac/ebi/utils/runcontrol/ProgressLogger.java:92-105 | a decrease that crosses a checkpoint is reported too |
| ProgressLogger.Percent | jutils/src/main/java/uk/ac/ebi/utils/runcontrol/PercentProgressLogger.java:42-43 | the percentage is Math.round of 100 * progress / max whenever that fits an int; a rounded value past the `long` range saturates, so the cast gives -1 above it and 0 below it; a zero maximum gives -1 for positive progress and 0 otherwise, as the infinite or NaN quotient and the int cast make it |
| ProgressLogger.PercentSaturates | jutils/src/main/java/uk/ac/ebi/utils/runcontrol/PercentProgressLogger.java:42-43 | a progress of `Long.MAX_VALUE` out of 1 gives -1 percent, and `Long.MIN_VALUE` out of 1 gives 0 |
| ProgressLogger.PercentInRange | jutils/src/main/java/uk/ac/ebi/utils/runcontrol/PercentProgressLogger.java:42-43 | progress between 0 and a positive maximum gives a percentage between 0 and 100, exactly 100 at the maximum, with no wrap-around |
| ProgressLogger.PercentMonotone | jutils/src/main/java/uk/ac/ebi/utils/runcontrol/PercentProgressLogger.java:42-43 | more progress never gives a lower percentage |
| ProgressLogger.NewPercentLogger | jutils/src/main/java/uk/ac/ebi/utils/runcontrol/PercentProgressLogger.java:29-37 | a new percent logger starts at 0 with a 10-point resolution |
| ProgressLogger.PercentUpdate | jutils/src/main/java/uk/ac/ebi/utils/runcontrol/PercentProgressLogger.java:39-45 | a percent update stores the absolute progress and applies the checkpoint rule to the old and new percentages, so what it reports is the new percentage |
| ProgressLogger.PercentReportsIffCrossing | jutils/src/main/java/uk/ac/ebi/utils/runcontrol/PercentProgressLogger.java:39-45 | within 0 and a positive maximum, a percent update reports iff the percentage crosses a multiple of the resolution, and a move towards the maximum never lowers the percentage |
| ProgressLogger.PercentsOfThousand | jutils/src/main/java/uk/ac/ebi/utils/runcontrol/PercentProgressLogger.java:42-43 | out of 1000: 0, 100, 150, 450, 455 and 1000 are 0%, 10%, 15%, 45%, 46% and 100% (455 rounds half up) |
| ProgressLogger.PercentExample | jutils/src/test/java/uk/ac/ebi/utils/runcontrol/ProgressLoggerTest.java:60-76 | out of 1000, updates to 100, 150, 450, 455 and 1000 report 10%, 45% and 100% only |
| AlphaNum.RunEndIsMaximal | jutils/src/main/java/uk/ac/ebi/utils/collections/AlphaNumComparator.java:99-120 | the scan from a position stops at the first character whose digit-ness differs, and covers only characters of the same kind |
| AlphaNum.RunEnd | jutils/src/main/java/uk/ac/ebi/utils/collections/AlphaNumComparator.java:99-120 | the scan ends between its start and the end of the string; that it ends at the first character of the other kind is AlphaNum.RunEndIsMaximal |
| AlphaNum.Chunk | jutils/src/main/java/uk/ac/ebi/utils/collections/AlphaNumComparator.java:91-123 | a chunk is never empty and never runs past the string |
| AlphaNum.ChunkIsMaximalRun | jutils/src/main/java/uk/ac/ebi/utils/collections/AlphaNumComparator.java:91-123 | a chunk is the longest run of digits, or of non-digits, starting at the marker |
| AlphaNum.ChunksPartition | jutils/src/main/java/uk/ac/ebi/utils/collections/AlphaNumComparator.java:141-148 | the chunks from a marker are non-empty, concatenate to the rest of the string, and alternate between digit and non-digit runs |
| AlphaNum.Chunks | jutils/src/main/java/uk/ac/ebi/utils/collections/AlphaNumComparator.java:141-148 | no contract of its own: the chunks from a marker on; their meaning is stated by AlphaNum.ChunksPartition |
| AlphaNum.Key | jutils/src/main/java/uk/ac/ebi/utils/collections/AlphaNumComparator.java:170 | case-sensitive comparison compares character codes; ignoring case, exactly the ASCII letters of either case get the keys of the small ASCII letters |
| AlphaNum.KeyEquivalence | jutils/src/main/java/uk/ac/ebi/utils/collections/AlphaNumComparator.java:170 | ignoring case, two characters compare equal exactly when they are equal or are the two cases of one ASCII letter |
| AlphaNum.Lex | jutils/src/main/java/uk/ac/ebi/utils/collections/AlphaNumComparator.java:170 | String.compareTo returns 0 on equal strings |
| AlphaNum.LexAntisymmetric | jutils/src/main/java/uk/ac/ebi/utils/collections/AlphaNumComparator.java:170 | swapping the strings negates String.compareTo, with or without case folding |
| AlphaNum.CompareChunk | jutils/src/main/java/uk/ac/ebi/utils/collections/AlphaNumComparator.java:149-171 | a chunk compared with itself gives 0 |
| AlphaNum.CompareChunkAntisymmetric | jutils/src/main/java/uk/ac/ebi/utils/collections/AlphaNumComparator.java:149-171 | swapping two chunks negates their comparison |
| AlphaNum.Compare | jutils/src/main/java/uk/ac/ebi/utils/collections/AlphaNumComparator.java:125-134 | null comes before every string and equals null |
| AlphaNum.DefaultCompare | jutils/src/main/java/uk/ac/ebi/utils/collections/AlphaNumComparator.java:79-81 | the no-argument comparator is the case-sensitive one |
| AlphaNum.CompareFromAntisymmetric | jutils/src/main/java/uk/ac/ebi/utils/collections/AlphaNumComparator.java:136-179 | the chunk loop gives the negated result when the two strings swap |
| AlphaNum.CompareFrom | jutils/src/main/java/uk/ac/ebi/utils/collections/AlphaNumComparator.java:136-179 | no contract of its own: the chunk loop of `compare`; its meaning is stated by AlphaNum.CompareFromAntisymmetric, AlphaNum.CompareFromReflexive and AlphaNum.SameWordThenNumbers |
| AlphaNum.CompareFromReflexive | jutils/src/main/java/uk/ac/ebi/utils/collections/AlphaNumComparator.java:136-179 | a string compares equal to itself |
| AlphaNum.CompareAntisymmetric | jutils/src/main/java/uk/ac/ebi/utils/collections/AlphaNumComparator.java:125-179 | compare(a, b) == -compare(b, a) for all strings and nulls, and equal arguments compare as 0 |
| AlphaNum.ValueBound | jutils/src/main/java/uk/ac/ebi/utils/collections/AlphaNumComparator.java:151-167 | a digit string of length n denotes a number below 10^n |
| AlphaNum.CanonicalLowerBound | jutils/src/main/java/uk/ac/ebi/utils/collections/AlphaNumComparator.java:151-167 | a digit string of length n > 1 without a leading zero denotes at least 10^(n-1) |
| AlphaNum.LexIsNumeric | jutils/src/main/java/uk/ac/ebi/utils/collections/AlphaNumComparator.java:157-166 | on digit strings of one length, the first differing digit orders them as their numeric values |
| AlphaNum.DigitChunksCompareNumerically | jutils/src/main/java/uk/ac/ebi/utils/collections/AlphaNumComparator.java:151-167 | two digit chunks without leading zeros compare exactly as the numbers they denote: below iff smaller, 0 iff equal |
| AlphaNum.LongerIsLarger | jutils/src/main/java/uk/ac/ebi/utils/collections/AlphaNumComparator.java:151-155 | a longer digit string without leading zero denotes a larger number |
| AlphaNum.WordThenNumber | jutils/src/main/java/uk/ac/ebi/utils/collections/AlphaNumComparator.java:91-123 | a word followed by a number is cut into exactly those two chunks |
| AlphaNum.WordOnly | jutils/src/main/java/uk/ac/ebi/utils/collections/AlphaNumComparator.java:91-123 | a string without digits is a single chunk |
| AlphaNum.SameWordThenNumbers | jutils/src/main/java/uk/ac/ebi/utils/collections/AlphaNumComparator.java:136-179 | two strings with one word part and then numbers compare by the number chunks, then by length |
| AlphaNum.BasicNeighbours | src/test/java/uk/ac/ebi/utils/collections/AlphaNumComparatorTest.java:16-21 | each neighbouring pair of the expected basic sort order compares as below |
| AlphaNum.BasicSortExample | src/test/java/uk/ac/ebi/utils/collections/AlphaNumComparatorTest.java:14-25 | the expected basic order is a rearrangement of the input in strictly increasing order, the only order a sort can return |
| AlphaNum.ZeroPaddingNeighbours | src/test/java/uk/ac/ebi/utils/collections/AlphaNumComparatorTest.java:31-36 | null, "Abc", "Item 3", "Item 01", "Item 02", "Item 100" are pairwise increasing: zero padding makes "Item 01" longer than "Item 3" |
| AlphaNum.ZeroPaddingExample | src/test/java/uk/ac/ebi/utils/collections/AlphaNumComparatorTest.java:29-40 | the expected zero-padding order is a rearrangement of the input in strictly increasing order |
| ObjectStore.NewStoreIsEmpty | jutils/src/main/java/uk/ac/ebi/utils/collections/ObjectStore.java:63-64 | a new store has no types and a size counter that matches its zero entries |
| ObjectStore.Get | jutils/src/main/java/uk/ac/ebi/utils/collections/ObjectStore.java:120-125 | get finds a value exactly when the type is known and holds the key, and gives null otherwise |
| ObjectStore.Put | jutils/src/main/java/uk/ac/ebi/utils/collections/ObjectStore.java:79-99 | after put(t, k, v), get(t, k) is v (null deletes); every other (type, key) pair reads as before; the type becomes known even for a null value |
| ObjectStore.RemoveType | jutils/src/main/java/uk/ac/ebi/utils/collections/ObjectStore.java:105-112 | remove(t) empties type t, keeps it known, and leaves every other type as it was |
| ObjectStore.Types | jutils/src/main/java/uk/ac/ebi/utils/collections/ObjectStore.java:134-136 | every type that holds a value is listed |
| ObjectStore.TypeKeys | jutils/src/main/java/uk/ac/ebi/utils/collections/ObjectStore.java:139-143 | typeKeys is null exactly for an unknown type, and otherwise lists exactly the keys whose get finds a value |
| ObjectStore.Values | jutils/src/main/java/uk/ac/ebi/utils/collections/ObjectStore.java:147-152 | values(t) agrees with get on every key and is empty for an unknown type |
| ObjectStore.PutKeepsConsistent | jutils/src/main/java/uk/ac/ebi/utils/collections/ObjectStore.java:79-99 | put keeps the size counter equal to the number of stored entries: one more for a new key, one less for a deleted key, the same otherwise |
| ObjectStore.PutEntries | jutils/src/main/java/uk/ac/ebi/utils/collections/ObjectStore.java:79-99 | the stored (type, key) pairs gain the pair on a non-null put and lose it on a null one |
| ObjectStore.RemoveTypeKeepsConsistent | jutils/src/main/java/uk/ac/ebi/utils/collections/ObjectStore.java:105-112 | remove(t) keeps the counter equal to the number of entries, taking off exactly the entries of t |
| ObjectStore.DeleteIdempotent | jutils/src/main/java/uk/ac/ebi/utils/collections/ObjectStore.java:89-94 | deleting an entry twice is the same as deleting it once |
| ObjectStore.NullPutCreatesType | jutils/src/main/java/uk/ac/ebi/utils/collections/ObjectStore.java:84-94 | a null put under an unknown type makes the type known with no keys and leaves the size alone |
| ObjectStore.SizeExample | jutils/src/test/java/uk/ac/ebi/utils/collections/ObjectStoreTest.java:71-148 | three puts give size 3; a deletion gives 2; deleting absent keys, under a known or unknown type, and deleting again leave 2; a deletion from an empty store leaves 0 |
| SortedMap.TotalIsWeak | jutils/src/main/java/uk/ac/ebi/utils/collections/SortedObjectStore.java:68-76 | a comparator consistent with equality obeys the comparator contract, and the keys it cannot tell apart are the equal ones |
| SortedMap.EquivOrdered | jutils/src/main/java/uk/ac/ebi/utils/collections/SortedObjectStore.java:68-76 | under the comparator contract, keys the comparator cannot tell apart compare alike against every other key |
| SortedMap.NaturalOrderIsTotal | jutils/src/main/java/uk/ac/ebi/utils/collections/SortedObjectStore.java:68-70 | the natural order a null comparator stands for is a strict total order |
| SortedMap.LookupFound | jutils/src/main/java/uk/ac/ebi/utils/collections/SortedObjectStore.java:88-109 | a lookup finds a pair whose key the comparator cannot tell from the one asked for, and nothing only when no such pair exists |
| SortedMap.Lookup | jutils/src/main/java/uk/ac/ebi/utils/collections/SortedObjectStore.java:88-109 | no contract of its own: `get` on a sorted map; its meaning is stated by SortedMap.LookupFound and SortedMap.LookupEquiv |
| SortedMap.LookupEquiv | jutils/src/main/java/uk/ac/ebi/utils/collections/SortedObjectStore.java:88-109 | keys the comparator cannot tell apart look up the same value |
| SortedMap.LookupIsView | jutils/src/main/java/uk/ac/ebi/utils/collections/SortedObjectStore.java:88-109 | with a comparator consistent with equality, looking a key up in a sorted map agrees with the map it represents |
| SortedMap.LookupInsert | jutils/src/main/java/uk/ac/ebi/utils/collections/SortedObjectStore.java:96-107 | after a put, every key the comparator cannot tell from the one put gives the new value and every other key is unchanged |
| SortedMap.Insert | jutils/src/main/java/uk/ac/ebi/utils/collections/SortedObjectStore.java:96-107 | no contract of its own: `put` on a sorted map; its meaning is stated by SortedMap.LookupInsert, SortedMap.InsertSorted and SortedMap.InsertPairs |
| SortedMap.InsertView | jutils/src/main/java/uk/ac/ebi/utils/collections/SortedObjectStore.java:96-107 | with a comparator consistent with equality, inserting into a sorted map updates the represented map at exactly that key |
| SortedMap.BelowAllKeys | jutils/src/main/java/uk/ac/ebi/utils/collections/SortedObjectStore.java:88-109 | a key below the first key of a sorted map finds nothing |
| SortedMap.BelowAllKeysView | jutils/src/main/java/uk/ac/ebi/utils/collections/SortedObjectStore.java:88-109 | with a comparator consistent with equality, a key below the first key is not in the represented map |
| SortedMap.InsertSorted | jutils/src/main/java/uk/ac/ebi/utils/collections/SortedObjectStore.java:96-107 | under the comparator contract, inserting keeps a sorted map sorted |
| SortedMap.DeleteSorted | jutils/src/main/java/uk/ac/ebi/utils/collections/SortedObjectStore.java:99-103 | under the comparator contract, removing a key keeps a sorted map sorted |
| SortedMap.LookupDelete | jutils/src/main/java/uk/ac/ebi/utils/collections/SortedObjectStore.java:99-103 | after a remove, every key the comparator cannot tell from the one removed finds nothing and every other key is unchanged |
| SortedMap.Delete | jutils/src/main/java/uk/ac/ebi/utils/collections/SortedObjectStore.java:99-103 | no contract of its own: `remove` on a sorted map; its meaning is stated by SortedMap.LookupDelete, SortedMap.DeleteSorted and SortedMap.DeleteView |
| SortedMap.DeleteView | jutils/src/main/java/uk/ac/ebi/utils/collections/SortedObjectStore.java:99-103 | with a comparator consistent with equality, removing a key removes exactly that key from the represented map |
| SortedMap.SortedViewSize | jutils/src/main/java/uk/ac/ebi/utils/collections/SortedObjectStore.java:88-109 | with a comparator consistent with equality, a sorted map has one pair per key |
| SortedMap.InsertPairs | jutils/src/main/java/uk/ac/ebi/utils/collections/SortedObjectStore.java:96-107 | every pair after a put holds the new value or is an old pair |
| SortedObjectStore.NewSortedStoreIsNew | jutils/src/main/java/uk/ac/ebi/utils/collections/SortedObjectStore.java:68-76 | a new sorted store stands for a new object store |
| SortedObjectStore.TypeMapSorted | jutils/src/main/java/uk/ac/ebi/utils/collections/SortedObjectStore.java:88-109 | every type's key map in a well-formed sorted store is sorted |
| SortedObjectStore.SortedPutWellFormed | jutils/src/main/java/uk/ac/ebi/utils/collections/SortedObjectStore.java:88-109 | the sorted put keeps types and every type's keys in comparator order |
| SortedObjectStore.SortedPut | jutils/src/main/java/uk/ac/ebi/utils/collections/SortedObjectStore.java:88-109 | no contract of its own: the overriding `put`; its meaning is stated by SortedObjectStore.SortedPutWellFormed, SortedObjectStore.SortedGetAfterPut and SortedObjectStore.SortedPutIsPut |
| SortedObjectStore.SortedRemoveTypeWellFormed | jutils/src/main/java/uk/ac/ebi/utils/collections/ObjectStore.java:105-112 | the inherited remove keeps the sorted store well formed |
| SortedObjectStore.SortedRemoveType | jutils/src/main/java/uk/ac/ebi/utils/collections/ObjectStore.java:105-112 | no contract of its own: the inherited `remove(type)`; its meaning is stated by SortedObjectStore.SortedRemoveTypeWellFormed and SortedObjectStore.SortedRemoveTypeIsRemoveType |
| SortedObjectStore.SortedGetAfterPut | jutils/src/main/java/uk/ac/ebi/utils/collections/SortedObjectStore.java:88-109 | under any comparators obeying the contract, after a put the type and key put, and any the comparators cannot tell from them, give the value put (nothing for null), and every other pair is unchanged |
| SortedObjectStore.SortedGet | jutils/src/main/java/uk/ac/ebi/utils/collections/ObjectStore.java:120-125 | no contract of its own: the inherited `get`; its meaning is stated by SortedObjectStore.SortedGetAfterPut and SortedObjectStore.SortedGetIsGet |
| SortedObjectStore.SortedPutIsPut | jutils/src/main/java/uk/ac/ebi/utils/collections/SortedObjectStore.java:88-109 | with comparators consistent with equality, the overriding put does to the represented store exactly what ObjectStore's put does |
| SortedObjectStore.SortedRemoveTypeIsRemoveType | jutils/src/main/java/uk/ac/ebi/utils/collections/ObjectStore.java:105-112 | with comparators consistent with equality, the inherited remove on sorted maps does what it does on the plain store |
| SortedObjectStore.SortedGetIsGet | jutils/src/main/java/uk/ac/ebi/utils/collections/ObjectStore.java:120-125 | with comparators consistent with equality, the inherited get on sorted maps agrees with the plain store's get |
| SortedObjectStore.SortedTypes | jutils/src/main/java/uk/ac/ebi/utils/collections/ObjectStore.java:134-136 | the types are listed in map order |
| SortedObjectStore.SortedTypesAscending | jutils/src/main/java/uk/ac/ebi/utils/collections/SortedObjectStore.java:72-76 | the listed types are strictly ascending under the type comparator |
| SortedObjectStore.SortedTypesAreTypes | jutils/src/main/java/uk/ac/ebi/utils/collections/SortedObjectStore.java:72-76 | with a type comparator consistent with equality, the listed types are exactly the store's types |
| SortedObjectStore.SortedTypeKeys | jutils/src/main/java/uk/ac/ebi/utils/collections/ObjectStore.java:139-143 | a type's keys are listed in map order, null for a type never used |
| SortedObjectStore.SortedTypeKeysAscending | jutils/src/main/java/uk/ac/ebi/utils/collections/SortedObjectStore.java:92-97 | the listed keys are strictly ascending under the key comparator, and a key gets a value exactly when the comparator cannot tell it from a listed one |
| SortedObjectStore.SortedTypeKeysAreKeys | jutils/src/main/java/uk/ac/ebi/utils/collections/SortedObjectStore.java:92-97 | with comparators consistent with equality, the listed keys are exactly the type's keys in the represented store |
| SortedObjectStore.TestStoreThree | jutils/src/main/java/uk/ac/ebi/utils/collections/SortedObjectStore.java:88-109 | putting the test entries in another order gives sorted types and keys and size 3 |
| SortedObjectStore.SortedExample | jutils/src/test/java/uk/ac/ebi/utils/collections/ObjectStoreTest.java:167-184 | the sorted store lists types type1, type2 and the keys of type1 as 1, 2 |
| SortedObjectStore.CaseInsensitiveKeysMerge | jutils/src/main/java/uk/ac/ebi/utils/collections/SortedObjectStore.java:96-107 | under a case-insensitive key comparator, "Ab" then "AB" make one entry that keeps the first spelling and the second value, with size 1, found by "ab" too |
| Tuples.FirstBlocked | jutils/src/main/java/uk/ac/ebi/utils/collections/TupleIterator.java:41-42 | the scan finds the first null or exhausted base at or after a position, or runs to the end |
| Tuples.HasNextFrom | jutils/src/main/java/uk/ac/ebi/utils/collections/TupleIterator.java:41-44 | the check is true iff no base from the position on is blocked, and throws NullPointerException iff the first blocked one is null |
| Tuples.HasNext | jutils/src/main/java/uk/ac/ebi/utils/collections/TupleIterator.java:34-45 | hasNext throws on a null array, is true iff no base is null or exhausted (so always for no bases), and never throws when no base is null |
| Tuples.NextFrom | jutils/src/main/java/uk/ac/ebi/utils/collections/TupleIterator.java:53-54 | the loop succeeds iff every base from the position on has an element, advancing them and leaving earlier bases alone |
| Tuples.Next | jutils/src/main/java/uk/ac/ebi/utils/collections/TupleIterator.java:47-57 | next succeeds iff hasNext would say true, and then takes the head of every base into the tuple and leaves each base its tail |
| Tuples.Shortest | jutils/src/main/java/uk/ac/ebi/utils/collections/TupleIterator.java:41-44 | the length of the shortest base |
| Tuples.HasNextIffShortest | jutils/src/main/java/uk/ac/ebi/utils/collections/TupleIterator.java:34-45 | with non-null bases, hasNext holds iff there are no bases or the shortest is not empty |
| Tuples.NextShortens | jutils/src/main/java/uk/ac/ebi/utils/collections/TupleIterator.java:47-57 | a successful next keeps the bases non-null and shortens the shortest by one |
| Tuples.DrainIsZip | jutils/src/main/java/uk/ac/ebi/utils/collections/TupleIterator.java:10-13 | reading all tuples gives the bases zipped up to the shortest one: tuple k holds element k of every base, and as many tuples as the shortest base has elements |
| Tuples.Drain | jutils/src/main/java/uk/ac/ebi/utils/collections/TupleIterator.java:35-56 | no contract of its own: `next()` while `hasNext()`; its meaning is stated by Tuples.DrainIsZip |
| Tuples.UnevenExample | jutils/src/test/java/uk/ac/ebi/utils/collections/TupleIteratorTest.java:50-63 | with bases A B C, X Y and 0 1 2 the tuples are A X 0 and B Y 1 |
| Tuples.BaseSplit | jutils/src/main/java/uk/ac/ebi/utils/collections/TupleSpliterator.java:137 | a base's split hands out a prefix and keeps a tail that together are its elements |
| Tuples.MinEstimate | jutils/src/main/java/uk/ac/ebi/utils/collections/TupleSpliterator.java:57-61 | the smallest estimate among the bases, a null one counting as 0, and 0 for no bases |
| Tuples.NewTupleSplit | jutils/src/main/java/uk/ac/ebi/utils/collections/TupleSpliterator.java:40-62 | the tuple spliterator always has NONNULL, DISTINCT and IMMUTABLE, never SORTED or CONCURRENT, has ORDERED, SIZED and SUBSIZED iff every non-null base has them, and its size is the smallest base estimate |
| Tuples.FirstStuck | jutils/src/main/java/uk/ac/ebi/utils/collections/TupleSpliterator.java:88-94 | the scan finds the first null or exhausted base at or after a position |
| Tuples.AdvanceFrom | jutils/src/main/java/uk/ac/ebi/utils/collections/TupleSpliterator.java:88-94 | the loop yields a tuple iff no base from the position on is stuck; the bases before the first stuck one each give up an element |
| Tuples.TryAdvance | jutils/src/main/java/uk/ac/ebi/utils/collections/TupleSpliterator.java:82-98 | tryAdvance gives a tuple iff the array and every base are non-null and every base has an element, the tuple holding each base's first element; on failure the bases before the first stuck one have lost an element and the later ones are untouched |
| Tuples.ElementsOf | jutils/src/main/java/uk/ac/ebi/utils/collections/TupleSpliterator.java:82-98 | the elements each base has left, null for a null base |
| Tuples.TryAdvanceIsNext | jutils/src/main/java/uk/ac/ebi/utils/collections/TupleSpliterator.java:82-98 | the spliterator gives a tuple exactly when the tuple iterator's next over the same elements succeeds, and the same tuple |
| Tuples.SplitStop | jutils/src/main/java/uk/ac/ebi/utils/collections/TupleSpliterator.java:133-152 | the split loop stops at the first base that is null, declines, or hands out a prefix of another size than the first base's |
| Tuples.SplitCount | jutils/src/main/java/uk/ac/ebi/utils/collections/TupleSpliterator.java:133-152 | the number of bases the loop split |
| Tuples.MinTail | jutils/src/main/java/uk/ac/ebi/utils/collections/TupleSpliterator.java:131-140 | the size field ends as Long.MAX_VALUE lowered to every split tail's estimate |
| Tuples.SplitFromMeaning | jutils/src/main/java/uk/ac/ebi/utils/collections/TupleSpliterator.java:124-154 | the split loop returns the prefixes iff every base splits evenly, replaces the split bases by their tails, and sets the size to the smallest tail estimate |
| Tuples.SplitFrom | jutils/src/main/java/uk/ac/ebi/utils/collections/TupleSpliterator.java:124-154 | the loop leaves one base in place of every base; what it returns is stated by Tuples.SplitFromMeaning |
| Tuples.TrySplit | jutils/src/main/java/uk/ac/ebi/utils/collections/TupleSpliterator.java:124-154 | trySplit throws on a null array; otherwise it returns a spliterator over the prefixes iff every base splits with prefixes of one size; either way the split bases keep only their tails and the size becomes the smallest tail estimate |
| Tuples.DocSplitLoop | jutils/src/main/java/uk/ac/ebi/utils/collections/TupleSpliterator.java:115-121 | in the documented example both bases split after three elements, leaving tails 4 5 6 and d |
| Tuples.SplitOfTwo | jutils/src/main/java/uk/ac/ebi/utils/collections/TupleSpliterator.java:124-154 | two bases with three-element prefixes and a one-element shortest tail split into a three-tuple spliterator and a receiver of estimate one |
| Tuples.AdvanceLeftovers | jutils/src/main/java/uk/ac/ebi/utils/collections/TupleSpliterator.java:82-98 | bases left with 4 5 6 and d give the tuple 4 d and then nothing |
| Tuples.DocumentedSplit | jutils/src/main/java/uk/ac/ebi/utils/collections/TupleSpliterator.java:101-122 | the documented outcome: the split yields three tuples and the receiver keeps the single tuple 4 d |
| MapCollection.Size | jutils/src/main/java/uk/ac/ebi/utils/collections/MapCollection.java:33-37 | the collection's size is the number of keys of the base map |
| MapCollection.IsEmpty | jutils/src/main/java/uk/ac/ebi/utils/collections/MapCollection.java:39-43 | empty exactly when the base map has no entry |
| MapCollection.Elements | jutils/src/main/java/uk/ac/ebi/utils/collections/MapCollection.java:58-80 | the iterated elements are as many as the entries and are exactly the base's values |
| MapCollection.Contains | jutils/src/main/java/uk/ac/ebi/utils/collections/MapCollection.java:48-53 | `contains(o)` holds exactly when the key of `o` is a key of the base, whatever value it maps to |
| MapCollection.ContainsIsMembership | jutils/src/main/java/uk/ac/ebi/utils/collections/MapCollection.java:48-53 | for a base keyed by an injective key function, `contains` is plain membership among the values |
| MapCollection.Add | jutils/src/main/java/uk/ac/ebi/utils/collections/MapCollection.java:85-90 | `add(e)` stores `e` under its key, keeps every other entry, and reports true unless `e` was already stored there |
| MapCollection.AddReportsChange | jutils/src/main/java/uk/ac/ebi/utils/collections/MapCollection.java:85-90 | `add` returns true exactly when the base changes, as the `Collection` contract asks |
| MapCollection.AddKeyed | jutils/src/main/java/uk/ac/ebi/utils/collections/MapCollection.java:85-90 | `add` keeps the base keyed, and returns true exactly when the element was not contained before |
| MapCollection.Remove | jutils/src/main/java/uk/ac/ebi/utils/collections/MapCollection.java:95-100 | `remove(o)` drops only the key of `o`, and reports whether `o` was contained |
| MapCollection.RemoveReportsChange | jutils/src/main/java/uk/ac/ebi/utils/collections/MapCollection.java:95-100 | `remove` returns true exactly when the base changes, and the element is no longer contained afterwards |
| MapCollection.AddThenRemove | jutils/src/main/java/uk/ac/ebi/utils/collections/MapCollection.java:85-100 | removing a newly added element gives the base back and reports a change |
| MapCollection.ContainsAll | jutils/src/main/java/uk/ac/ebi/utils/collections/MapCollection.java:105-110 | true exactly when every element of the argument has its key in the base |
| MapCollection.AddAllKeys | jutils/src/main/java/uk/ac/ebi/utils/collections/MapCollection.java:115-123 | after `addAll`, the keys are the old ones plus those of the added elements, and each added element is contained |
| MapCollection.AddAll | jutils/src/main/java/uk/ac/ebi/utils/collections/MapCollection.java:115-123 | no contract of its own: `add` on each element in turn; its meaning is stated by MapCollection.AddAllKeys and MapCollection.AddAllKeyed |
| MapCollection.AddAllKeyed | jutils/src/main/java/uk/ac/ebi/utils/collections/MapCollection.java:115-123 | on a keyed base, `addAll` keeps it keyed, its values become the old values plus the added ones, and it reports true exactly when some element was missing |
| MapCollection.ValuesOfAdd | jutils/src/main/java/uk/ac/ebi/utils/collections/MapCollection.java:85-90 | on a keyed base, the values after `add(e)` are the old values plus `e` |
| MapCollection.ContainsAfterAdd | jutils/src/main/java/uk/ac/ebi/utils/collections/MapCollection.java:115-123 | the step of the `addAll` result: what the tail reports on the grown base combines with the first `add` into "some element was missing" |
| MapCollection.RemoveAll | jutils/src/main/java/uk/ac/ebi/utils/collections/MapCollection.java:128-136 | `removeAll` keeps exactly the keys no argument element maps to, with their values, and reports whether some argument element was contained |
| MapCollection.RemoveAllReportsChange | jutils/src/main/java/uk/ac/ebi/utils/collections/MapCollection.java:128-136 | `removeAll` returns true exactly when the base changes |
| MapCollection.RetainAll | jutils/src/main/java/uk/ac/ebi/utils/collections/MapCollection.java:138-151 | `retainAll` keeps exactly the entries whose value is in the argument, and reports whether one was dropped |
| MapCollection.RetainAllMeaning | jutils/src/main/java/uk/ac/ebi/utils/collections/MapCollection.java:138-151 | `retainAll` reports exactly a change, leaves the values common to base and argument, and keeps a keyed base keyed |
| MapCollection.Clear | jutils/src/main/java/uk/ac/ebi/utils/collections/MapCollection.java:153-157 | after `clear` the collection is empty and has size 0 |
| ArraySearch.IsOneOf | jutils/src/main/java/uk/ac/ebi/utils/collections/ArraySearchUtils.java:27-33 | false for a null array, else true exactly when the comparator finds the value equal to some array element |
| ArraySearch.EqualsCompare | jutils/src/main/java/uk/ac/ebi/utils/collections/ArraySearchUtils.java:44 | the `equals` comparator answers 0 exactly for two nulls or two objects with equal contents |
| ArraySearch.IsOneOfEquals | jutils/src/main/java/uk/ac/ebi/utils/collections/ArraySearchUtils.java:39-49 | true exactly when the array is not null and holds an element equal to the value, null matching null |
| ArraySearch.IdentityCompare | jutils/src/main/java/uk/ac/ebi/utils/collections/ArraySearchUtils.java:61 | the identity comparator answers 0 exactly when both references are null or denote one object |
| ArraySearch.IsOneOfByIdentity | jutils/src/main/java/uk/ac/ebi/utils/collections/ArraySearchUtils.java:56-66 | true exactly when the array is not null and holds the very same object (or null for null) |
| ArraySearch.IdentityImpliesEquals | jutils/src/main/java/uk/ac/ebi/utils/collections/ArraySearchUtils.java:39-66 | in one heap, a value found by identity is also found by `equals` |
| ArraySearch.EqualsIsNotIdentity | jutils/src/main/java/uk/ac/ebi/utils/collections/ArraySearchUtils.java:39-66 | the converse fails: two distinct objects with equal contents are equal but not identical |
| StringSearch.ContainsOneOf | jutils/src/main/java/uk/ac/ebi/utils/string/StringSearchUtils.java:57-68 | an illegal argument exactly for a null target or a null or empty array; true only when some match is a substring; false exactly when no match is null and none is a substring; a null pointer only when some match is null |
| StringSearch.ScanMatches | jutils/src/main/java/uk/ac/ebi/utils/string/StringSearchUtils.java:64-67 | the loop stops at the first match that is null (throwing) or contained (true), and is false when there is none |
| StringSearch.ContainsOneOfWithoutNulls | jutils/src/main/java/uk/ac/ebi/utils/string/StringSearchUtils.java:57-68 | without null matches, the result is "some match is a substring of the target" |
| StringSearch.ContainsIgnoreCase | jutils/src/main/java/uk/ac/ebi/utils/string/StringSearchUtils.java:81 | a non-null search string occurs at some position, character by character ignoring case; a null one never does |
| StringSearch.MatchIgnoreCaseFrom | jutils/src/main/java/uk/ac/ebi/utils/string/StringSearchUtils.java:81 | true iff the search string occurs ignoring case at some position from the given one on |
| StringSearch.CharEqualsIsLowerEquals | jutils/src/main/java/uk/ac/ebi/utils/string/StringSearchUtils.java:81 | two characters match ignoring case exactly when their lower cases are equal |
| StringSearch.ContainsIgnoreCaseIsLowerContains | jutils/src/main/java/uk/ac/ebi/utils/string/StringSearchUtils.java:81 | containment ignoring case is plain containment of the lower-cased strings |
| StringSearch.ContainsOneOfIgnoreCase | jutils/src/main/java/uk/ac/ebi/utils/string/StringSearchUtils.java:73-84 | the same illegal-argument cases; otherwise true exactly when some match occurs ignoring case, a null match never matching |
| StringSearch.ExactHitIsIgnoreCaseHit | jutils/src/main/java/uk/ac/ebi/utils/string/StringSearchUtils.java:57-84 | whatever `containsOneOf` finds, `containsOneOfIgnoreCase` finds too |
| StringSearch.SearchChars | jutils/src/main/java/uk/ac/ebi/utils/string/StringSearchUtils.java:92 | -1 exactly when no character of the string is a search character, else the first position holding one |
| StringSearch.SearchStrings | jutils/src/main/java/uk/ac/ebi/utils/string/StringSearchUtils.java:101 | -1 exactly when no non-null key occurs, else the smallest position where some key occurs |
| StringSearch.ScanKeys | jutils/src/main/java/uk/ac/ebi/utils/string/StringSearchUtils.java:101 | the loop's result is at most the position found so far, and is either that position or an occurrence of a non-null key from the current one on, with no occurrence of those keys before it |
| StringSearch.IndexOfAny | jutils/src/main/java/uk/ac/ebi/utils/string/StringSearchUtils.java:109-115 | a null string throws, a start position outside the string throws, otherwise the search on the suffix from the start position, shifted back |
| StringSearch.IndexOfAnyChar | jutils/src/main/java/uk/ac/ebi/utils/string/StringSearchUtils.java:90-93 | the error cases, and otherwise the first position at or after the start holding one of the characters, measured in the whole string, -1 exactly when there is none |
| StringSearch.IsAtSuffix | jutils/src/main/java/uk/ac/ebi/utils/string/StringSearchUtils.java:111-114 | an occurrence in the suffix from `p` is an occurrence in the string shifted by `p` |
| StringSearch.ShiftedSearch | jutils/src/main/java/uk/ac/ebi/utils/string/StringSearchUtils.java:111-114 | the key search on the suffix, read back in the whole string, is the first occurrence at or after the start |
| StringSearch.IndexOfAnyString | jutils/src/main/java/uk/ac/ebi/utils/string/StringSearchUtils.java:99-102 | the error cases, and otherwise the first position at or after the start where some non-null key occurs, -1 exactly when there is none |
| StringSearch.IndexOfAnyExamples | jutils/src/test/java/uk/ac/ebi/utils/string/StringSearchUtilsTest.java:19-22 | the four `indexOfAny` cases of the unit test give 6, 1, -1 and 1 |
| SimpleCache.NewCache | src/main/java/uk/ac/ebi/utils/memory/SimpleCache.java:19-23 | an empty cache for capacities from 1 to `Integer.MAX_VALUE - 1`; any other capacity gives `LinkedHashMap` a negative initial capacity or a non-positive load factor, an illegal argument |
| SimpleCache.Get | src/main/java/uk/ac/ebi/utils/memory/SimpleCache.java:14-21 | a `get` keeps capacity and size, and a miss changes nothing |
| SimpleCache.GetKeepsContents | src/main/java/uk/ac/ebi/utils/memory/SimpleCache.java:14-21 | a `get` returns the stored value, changes no stored value, and on a hit moves the key to the most recent place |
| SimpleCache.ContainsKey | src/main/java/uk/ac/ebi/utils/memory/SimpleCache.java:14 | true exactly when the key has a value |
| SimpleCache.Size | src/main/java/uk/ac/ebi/utils/memory/SimpleCache.java:25-28 | the number of distinct keys, never above the capacity |
| SimpleCache.Put | src/main/java/uk/ac/ebi/utils/memory/SimpleCache.java:14-28 | a `put` keeps the capacity |
| SimpleCache.PutLookups | src/main/java/uk/ac/ebi/utils/memory/SimpleCache.java:14-28 | a `put` returns the previous value, maps the key to the new value, keeps the other values unless one key is evicted, and keeps the cache well formed |
| SimpleCache.PutKeys | src/main/java/uk/ac/ebi/utils/memory/SimpleCache.java:25-28 | an update moves the key to the end; a new key is appended, evicting the eldest key when the cache is full; the size becomes the old size plus one for a new key, capped at the capacity |
| SimpleCache.Remove | src/main/java/uk/ac/ebi/utils/memory/SimpleCache.java:14 | a `remove` keeps the capacity, shrinks the cache by one on a hit and changes nothing on a miss |
| SimpleCache.RemoveLookups | src/main/java/uk/ac/ebi/utils/memory/SimpleCache.java:14 | a `remove` returns the value of the key, forgets that key only, and keeps the others in order |
| SimpleCache.NewTracks | src/main/java/uk/ac/ebi/utils/memory/SimpleCache.java:19-23 | a new cache follows the empty access history |
| SimpleCache.GetTracks | src/main/java/uk/ac/ebi/utils/memory/SimpleCache.java:14-21 | a hit is recorded as an access and the cache still holds the most recently used keys; a miss records nothing |
| SimpleCache.TouchCachedTracks | src/main/java/uk/ac/ebi/utils/memory/SimpleCache.java:14-21 | moving an accessed cached key to the end keeps the cache's keys the tail of the recency order |
| SimpleCache.PutTracks | src/main/java/uk/ac/ebi/utils/memory/SimpleCache.java:14-28 | a `put` is an access after which the cache still holds the most recently used keys, as many as the capacity allows |
| SimpleCache.RemoveTracks | src/main/java/uk/ac/ebi/utils/memory/SimpleCache.java:14 | a removal, recorded as such, keeps the cache's keys the tail of the recency order |
| SimpleCache.CachedAreMostRecent | src/main/java/uk/ac/ebi/utils/memory/SimpleCache.java:6-8 | in a cache that follows its history, every key it does not hold was used less recently than every key it holds, and its eldest entry is the least recently used key it holds: the least-recently-used eviction the class is documented to give |
| ExceptionUtils.CauseChain | jutils/src/main/java/uk/ac/ebi/utils/exceptions/ExceptionUtils.java:23-24 | the chain starts at the throwable, each element's cause is the next one, and the last has no cause |
| ExceptionUtils.Root | jutils/src/main/java/uk/ac/ebi/utils/exceptions/ExceptionUtils.java:18-25 | the root cause has no cause, and a throwable without a cause is its own root |
| ExceptionUtils.GetRootCause | jutils/src/main/java/uk/ac/ebi/utils/exceptions/ExceptionUtils.java:21-25 | a null argument throws a null pointer exception; otherwise the result is the end of the cause chain and has no cause |
| ExceptionUtils.RootIsChainEnd | src/main/java/uk/ac/ebi/utils/exceptions/ExceptionUtils.java:17-21 | the root cause, defined by recursion, is the last element of the cause chain the loop walks |
| ExceptionUtils.ChainSharesRoot | jutils/src/main/java/uk/ac/ebi/utils/exceptions/ExceptionUtils.java:21-25 | every throwable on the chain has the same root cause |
| ExceptionUtils.RootIdempotent | jutils/src/main/java/uk/ac/ebi/utils/exceptions/ExceptionUtils.java:21-25 | the root cause of the root cause is itself, and its chain is just itself |
| SqlClauses.Str | src/main/java/uk/ac/ebi/utils/sql/HqlUtils.java:21 | `%s` renders a name as itself and null as "null" |
| SqlClauses.And3 | src/main/java/uk/ac/ebi/utils/sql/HqlUtils.java:21 | SQL's AND: true exactly when both sides are true, false exactly when one side is false |
| SqlClauses.Or3 | src/main/java/uk/ac/ebi/utils/sql/HqlUtils.java:21 | SQL's OR: true exactly when one side is true, false exactly when both sides are false |
| SqlClauses.ParameterizedWithNullHql | src/main/java/uk/ac/ebi/utils/sql/HqlUtils.java:20-22 | the clause is a single parenthesised condition |
| SqlClauses.ParameterizedWithNullSql | src/main/java/uk/ac/ebi/utils/sql/SqlUtils.java:16-18 | the SQL builder writes exactly the HQL builder's text |
| SqlClauses.WithNullHqlRenders | src/main/java/uk/ac/ebi/utils/sql/HqlUtils.java:16-22 | the text is "parameter null and field null, or field equals parameter", with AND binding tighter than OR |
| SqlClauses.WithNullMatchesNull | src/main/java/uk/ac/ebi/utils/sql/HqlUtils.java:16-22 | the clause selects exactly the rows whose field equals the bound value, null matching null, which a plain `f = :p` does not do |
| SqlClauses.ParameterizedRangeClause | src/main/java/uk/ac/ebi/utils/sql/HqlUtils.java:31-38 | the clause is the printed range condition chosen by which bounds are null, and empty exactly when both are |
| SqlClauses.RangeClauseIgnoresValues | src/main/java/uk/ac/ebi/utils/sql/HqlUtils.java:24-38 | the text depends only on which bounds are null, never on their values |
| SqlClauses.RangeMeaning | src/main/java/uk/ac/ebi/utils/sql/HqlUtils.java:24-38 | once the non-null bounds are bound, the clause keeps exactly the rows whose field is not null and lies within each given bound, and all rows when no bound is given |
| SqlClauses.WithNullText | src/main/java/uk/ac/ebi/utils/sql/HqlUtils.java:21 | for field `f` and parameter `p` the text is `(:p IS NULL AND f IS NULL OR f = :p)` |
| SqlClauses.BetweenText | src/main/java/uk/ac/ebi/utils/sql/HqlUtils.java:37 | with both bounds the text is `f BETWEEN ( :lo AND :hi )` |
| SqlClauses.UpperBoundText | src/main/java/uk/ac/ebi/utils/sql/HqlUtils.java:34 | with only an upper bound the text is `f <= :hi` |
| SqlClauses.LowerBoundText | src/main/java/uk/ac/ebi/utils/sql/HqlUtils.java:36 | with only a lower bound the text is `f >= :lo` |

## Left out

- Threads, locks, condition variables and the executor itself. Each locked block is one atomic step, and blocking is a step that is not enabled. Fairness, wake-up order and the interleaving of steps are not modelled.
- Logging: message texts, log levels and templates. Where the code decides whether to log, that decision is modelled; the text is not.
- Floating-point arithmetic. The tuner's tolerance test, the percentages and `Math.round` are computed on exact rationals, so rounding error in `double` and `float` is not modelled. `Math.round`'s saturation to the `long` range is modelled. The statistics `StatsExecutor` only logs are left out.
- PoolSizeTuner.InitialIncr: the code divides by `3.0f`, in `float`, and the model divides exactly before `Math.round`. The two can round differently. A sum of 12582913 gives 4194305 in Java, because the `float` quotient is 4194304.5, and 4194304 here. The wrapped sum of PoolSizeTuner.InitialIncrWraps gives -715827904 in Java and -715827883 here.
- PoolSizeTuner.TickKeepsBounds: it does not claim that `|threadIncr| >= minThreadIncr`. The initial increment the code computes can break that bound, as noted above.
- PoolSizeTuner.TickKeepsBounds: it assumes `NoOverflow`, i.e. `maxThreads + maxThreadIncr` and `2 * maxThreadIncr` are `int`s. Past that the sums wrap and the bound fails; PoolSizeTuner.GrowthPastIntMaxWraps shows a negative size.
- PoolSizeTuner.TickMovesByStep: it assumes `NoOverflow` for the same reason.
- PoolSizeTuner.RunKeepsBounds: it assumes `NoOverflow`, and readings no larger than `Long.MAX_VALUE`.
- PoolSizeTuner.TickDirection: it assumes twice the step is an `int`. Past that the doubled step wraps and changes sign; PoolSizeTuner.DoubledStepWraps shows it.
- PoolSizeTuner.WeightedSize: the weighted average is computed on exact rationals. The `long` product `curThreadPoolSize * curThru` and the `float` arithmetic around it are not reduced to Java's widths.
- Convergence of the pool-size tuner to a good size. Stating it would need a model of how throughput depends on the pool size.
- The rate limiters, `MemoryUtils`, the I/O and ID helpers, `XStopWatch`, `StreamUtils`, and the reflection in `ExceptionUtils.buildEx`/`throwEx`. None of them is part of this model.
- `HqlUtils.parameterizedRangeBinding`: it calls into the JPA `Query` interface. SqlClauses.RangeMeaning takes the binding it performs as its hypothesis.
- The `BETWEEN ( … )` text is rendered with its parentheses but not parsed back. SqlClauses.RangeMeaning reads the condition tree, not the text.
- The newer `SimpleCache` (under `jutils/`) delegates to Guava's cache. It is not part of this model; the older `LinkedHashMap` version is.
- SimpleCache.Put: null keys and values, `putIfAbsent`, `putAll` and the entry, key and value views of `LinkedHashMap` are not modelled.
- SortedObjectStore.SortedPutIsPut: it requires comparators consistent with equality. With other comparators the sorted store merges keys the hash-based store keeps apart, so there is nothing to agree with. SortedObjectStore.SortedGetAfterPut states the general law.
- SortedObjectStore.SortedGetIsGet: it requires comparators consistent with equality, for the same reason.
- SortedObjectStore.SortedRemoveTypeIsRemoveType: it requires comparators consistent with equality, for the same reason.
- SortedMap.LookupIsView: it requires a comparator consistent with equality, because `View` is a map keyed by equality. SortedMap.LookupInsert and SortedMap.LookupDelete hold for any comparator obeying the contract.
- SortedMap.InsertView: it requires a comparator consistent with equality, for the same reason.
- StatsExecutor.Execute: the call counters are unbounded integers. Java's `int` and `AtomicInteger` counters wrap after 2^31 calls in one window, and past that StatsExecutor.ExecuteKeepsConsistent does not hold for them.
- ExceptionUtils.GetRootCause: a `Throwable` value contains its cause, so every cause chain is finite and acyclic. Java lets two throwables be each other's cause (`a.initCause(b); b.initCause(a)`), and on such a chain the loop of `getRootCause` never returns. That case is not modelled.
- BatchService.Run: a submission is one event, enabled only once it is admitted. In Java a submitter that must wait has already started the tuner before it blocks. In a run, that start happens at the admission instead, so a sequence whose submission would wait is not a run. From a new service this arises only for a pool size of 0 or less.
- ObjectStore.Put: the running `size` counter is an unbounded integer. The 32-bit overflow after more than `Integer.MAX_VALUE` entries is not modelled.
- `ObjectStore.toStringVerbose` and the `toString` texts: formatting only.
- MapCollection.Elements: the iteration order and `toArray` into a given array are not modelled. Null elements are not modelled.
- The older `MapCollection` under `src/` is not part of this model.
- Tuples.NewTupleSplit: a base spliterator is modelled by what the tuple spliterator asks of it. That is its remaining elements, its characteristics, where it would split and its size estimate. How a real base splits is not modelled.
- AlphaNum.Key: case folding covers the ASCII letters only. Java's `compareToIgnoreCase` folds every character with a case mapping, so "É" and "é" compare equal in Java and differ here.
- AlphaNum.Lex: characters are compared as Unicode scalar values, while `String.compareTo` compares UTF-16 code units. The two agree within the Basic Multilingual Plane. A supplementary character such as U+1F600 is a surrogate pair in Java and sorts below U+FF21 there, but above it here.
- AlphaNum.CompareChunk: non-digit chunks are compared by AlphaNum.Lex, with both of its restrictions.
- AlphaNum.Compare: the same restrictions apply through AlphaNum.CompareChunk.
- StringSearch.ContainsIgnoreCase: case folding covers ASCII letters only. Other Unicode case mappings and surrogate pairs are not modelled.
- StringSearch.IndexOfAnyChar: a null varargs array is not modelled. With a null array, Commons Lang answers -1 without throwing.
- StringSearch.IndexOfAnyString: a null CharSequence array is not modelled (the keys are a sequence, never null). With a null array, Commons Lang answers -1 without throwing, as the model does for the empty sequence.
- ChainExecutor: the base executors are `Wrapper`s only. Any failure ends every enclosing wrapper at once. Executors that catch a failure and go on, or that run their job on another thread, are not modelled.
- The Commons Lang helpers `StringUtils.containsIgnoreCase` and `StringUtils.indexOfAny` are not part of the repository. They are modelled from their documented behaviour.
- The `ProgressLogger` test that calls `appendProgressReportAction` is not modelled, because that method is not defined in `ProgressLogger`. Report listeners are reduced to the value reported.
- The `Stream` and `Iterator` overloads of `ItemizedBatchProcessor.process` are not modelled separately. They feed items in their iteration order, which is the sequence `Process` takes.
- Interfaces and classes without behaviour of their own are not modelled. These are the executor and invoker interfaces, the unchecked exception wrappers, and the getters and setters.

## Findings

| source | as written | input that shows it | evidently intended | confidence | as-written member | corrected member |
|---|---|---|---|---|---|---|
| src/main/java/uk/ac/ebi/utils/threading/BatchServiceTask.java:80-87 | `compareTo` returns `o.priority - this.priority` in 32-bit `int` arithmetic, which wraps around when the priorities are far apart | priorities 0 and `Integer.MIN_VALUE`: each task compares as smaller than the other | `Integer.compare(o.priority, this.priority)`, a total order with higher priorities first | not executed | BatchServiceTask.AsWrittenNotAntisymmetric | BatchServiceTask.CompareIsOrder |

=== FILE: alphanum.dfy ===
/** `AlphaNumComparator`: a natural-order string comparison. Strings are
    cut into maximal runs of digits and of non-digits ("chunks"); two digit
    chunks compare as numbers written with the same number of digits, any
    other pair compares as Java strings.

    The objects compared are represented by their `toString()` value, with
    `None` for null (a null object and a null `toString()` are handled
    alike). */
module AlphaNum {
  import opened Results
  import opened JavaLang

  predicate IsDigit(c: char) {
    '0' <= c <= '9'
  }

  /** Where the run of characters of the same kind as `s[i]` ends. */
  function ChunkEnd(s: string, i: nat): (e: nat)
    requires i < |s|
    ensures i < e <= |s|
  {
    RunEnd(s, i + 1, IsDigit(s[i]))
  }

  function RunEnd(s: string, k: nat, digit: bool): (e: nat)
    requires k <= |s|
    ensures k <= e <= |s|
    decreases |s| - k
  {
    if k == |s| || IsDigit(s[k]) != digit then k else RunEnd(s, k + 1, digit)
  }

  /** `RunEnd` stops at the first character of the other kind. */
  lemma {:induction false} RunEndIsMaximal(s: string, k: nat, digit: bool)
    requires k <= |s|
    ensures forall j :: k <= j < RunEnd(s, k, digit) ==> IsDigit(s[j]) == digit
    ensures RunEnd(s, k, digit) < |s| ==> IsDigit(s[RunEnd(s, k, digit)]) != digit
    decreases |s| - k
  {
    if k < |s| && IsDigit(s[k]) == digit {
      RunEndIsMaximal(s, k + 1, digit);
    }
  }

  /** `getChunk(s, length, marker)`. */
  function Chunk(s: string, marker: nat): (chunk: string)
    requires marker < |s|
    ensures 0 < |chunk| <= |s| - marker
  {
    s[marker..ChunkEnd(s, marker)]
  }

  /** A chunk is the longest run of digits, or of non-digits, at the
      marker. */
  lemma ChunkIsMaximalRun(s: string, marker: nat)
    requires marker < |s|
    ensures var chunk := Chunk(s, marker);
            chunk == s[marker..marker + |chunk|]
            && (forall k :: 0 <= k < |chunk| ==> IsDigit(chunk[k]) == IsDigit(s[marker]))
            && (marker + |chunk| < |s| ==> IsDigit(s[marker + |chunk|]) != IsDigit(s[marker]))
  {
    RunEndIsMaximal(s, marker + 1, IsDigit(s[marker]));
  }

  /** The chunks of `s` from `marker` on. */
  function Chunks(s: string, marker: nat): (r: seq<string>)
    requires marker <= |s|
    decreases |s| - marker
  {
    if marker == |s| then [] else [Chunk(s, marker)] + Chunks(s, marker + |Chunk(s, marker)|)
  }

  function Flatten(parts: seq<string>): string {
    if |parts| == 0 then [] else parts[0] + Flatten(parts[1..])
  }

  /** The chunks cut the string into non-empty pieces, and two neighbouring
      chunks are of different kinds, so every chunk is a maximal run. */
  lemma {:induction false} ChunksPartition(s: string, marker: nat)
    requires marker <= |s|
    ensures Flatten(Chunks(s, marker)) == s[marker..]
    ensures forall k :: 0 <= k < |Chunks(s, marker)| ==> |Chunks(s, marker)[k]| > 0
    ensures forall k :: 0 <= k < |Chunks(s, marker)| - 1 ==>
              IsDigit(Chunks(s, marker)[k][0]) != IsDigit(Chunks(s, marker)[k + 1][0])
    decreases |s| - marker
  {
    if marker < |s| {
      var c := Chunk(s, marker);
      var next := marker + |c|;
      ChunkIsMaximalRun(s, marker);
      ChunksPartition(s, next);
      var rest := Chunks(s, next);
      assert Chunks(s, marker) == [c] + rest;
      assert s[marker..] == c + s[next..];
      if 0 < |rest| {
        assert rest[0] == Chunk(s, next);
        assert rest[0][0] == s[next];
      }
      forall k | 0 <= k < |Chunks(s, marker)| - 1
        ensures IsDigit(Chunks(s, marker)[k][0]) != IsDigit(Chunks(s, marker)[k + 1][0])
      {
        if k > 0 {
          assert Chunks(s, marker)[k] == rest[k - 1];
        }
      }
    }
  }

  /** The key a character is compared by: its code, or, ignoring case, the
      code of its case-folded form (`toLowerCase(toUpperCase(c))`, here on
      ASCII letters only). */
  function Key(c: char, ignoreCase: bool): (k: int)
    ensures !ignoreCase ==> k == c as int
    ensures ignoreCase ==> ('a' as int <= k <= 'z' as int <==> 'a' <= c <= 'z' || 'A' <= c <= 'Z')
  {
    if ignoreCase && 'A' <= c <= 'Z' then c as int + 32 else c as int
  }

  /** Ignoring case, two characters have the same key exactly when they are
      equal or are the capital and the small form of one ASCII letter. */
  lemma KeyEquivalence(c: char, d: char)
    ensures Key(c, true) == Key(d, true) <==>
              c == d || ('A' <= c <= 'Z' && d as int == c as int + 32) || ('A' <= d <= 'Z' && c as int == d as int + 32)
  {
  }

  /** `String.compareTo` (or `compareToIgnoreCase`): the key difference at
      the first position where the keys differ, else the length
      difference. */
  function Lex(a: string, b: string, ignoreCase: bool): (r: int)
    ensures a == b ==> r == 0
    decreases |a|
  {
    if |a| == 0 || |b| == 0 then |a| - |b|
    else if Key(a[0], ignoreCase) != Key(b[0], ignoreCase) then Key(a[0], ignoreCase) - Key(b[0], ignoreCase)
    else Lex(a[1..], b[1..], ignoreCase)
  }

  lemma {:induction false} LexAntisymmetric(a: string, b: string, ignoreCase: bool)
    ensures Lex(a, b, ignoreCase) == -Lex(b, a, ignoreCase)
    decreases |a|
  {
    if |a| > 0 && |b| > 0 && Key(a[0], ignoreCase) == Key(b[0], ignoreCase) {
      LexAntisymmetric(a[1..], b[1..], ignoreCase);
    }
  }

  /** How two chunks compare: two digit chunks by length, then by their
      first differing digit; any other pair as strings. */
  function CompareChunk(caseSensitive: bool, c1: string, c2: string): (r: int)
    requires 0 < |c1| && 0 < |c2|
    ensures c1 == c2 ==> r == 0
  {
    if IsDigit(c1[0]) && IsDigit(c2[0]) then
      if |c1| != |c2| then |c1| - |c2| else Lex(c1, c2, false)
    else Lex(c1, c2, !caseSensitive)
  }

  lemma CompareChunkAntisymmetric(caseSensitive: bool, c1: string, c2: string)
    requires 0 < |c1| && 0 < |c2|
    ensures CompareChunk(caseSensitive, c1, c2) == -CompareChunk(caseSensitive, c2, c1)
  {
    LexAntisymmetric(c1, c2, false);
    LexAntisymmetric(c1, c2, !caseSensitive);
  }

  /** The loop of `compare`: chunk pairs are compared from the two markers
      until one string is used up; then the length difference decides. */
  function CompareFrom(caseSensitive: bool, s1: string, s2: string, m1: nat, m2: nat): (r: int)
    requires m1 <= |s1| && m2 <= |s2|
    decreases |s1| - m1
  {
    if m1 < |s1| && m2 < |s2| then
      var c1, c2 := Chunk(s1, m1), Chunk(s2, m2);
      var result := CompareChunk(caseSensitive, c1, c2);
      if result != 0 then result else CompareFrom(caseSensitive, s1, s2, m1 + |c1|, m2 + |c2|)
    else |s1| - |s2|
  }

  /** `compare(o1, o2)`: null is below everything else. */
  function Compare(caseSensitive: bool, o1: Option<string>, o2: Option<string>): (r: int)
    ensures o1.None? ==> r == (if o2.None? then 0 else -1)
    ensures o1.Some? && o2.None? ==> r == 1
  {
    match (o1, o2)
    case (None, None) => 0
    case (None, _) => -1
    case (_, None) => 1
    case (Some(s1), Some(s2)) => CompareFrom(caseSensitive, s1, s2, 0, 0)
  }

  /** The default comparator is case-sensitive. */
  function DefaultCompare(o1: Option<string>, o2: Option<string>): (r: int)
    ensures r == Compare(true, o1, o2)
  {
    Compare(true, o1, o2)
  }

  lemma {:induction false} CompareFromAntisymmetric(caseSensitive: bool, s1: string, s2: string, m1: nat, m2: nat)
    requires m1 <= |s1| && m2 <= |s2|
    ensures CompareFrom(caseSensitive, s1, s2, m1, m2) == -CompareFrom(caseSensitive, s2, s1, m2, m1)
    decreases |s1| - m1
  {
    if m1 < |s1| && m2 < |s2| {
      var c1, c2 := Chunk(s1, m1), Chunk(s2, m2);
      var r := CompareChunk(caseSensitive, c1, c2);
      CompareChunkAntisymmetric(caseSensitive, c1, c2);
      if r == 0 {
        CompareFromAntisymmetric(caseSensitive, s1, s2, m1 + |c1|, m2 + |c2|);
      }
    }
  }

  lemma {:induction false} CompareFromReflexive(caseSensitive: bool, s: string, m: nat)
    requires m <= |s|
    ensures CompareFrom(caseSensitive, s, s, m, m) == 0
    decreases |s| - m
  {
    if m < |s| {
      CompareFromReflexive(caseSensitive, s, m + |Chunk(s, m)|);
    }
  }

  /** Swapping the arguments negates the result, and every string is equal
      to itself. */
  lemma CompareAntisymmetric(caseSensitive: bool, o1: Option<string>, o2: Option<string>)
    ensures Compare(caseSensitive, o1, o2) == -Compare(caseSensitive, o2, o1)
    ensures o1 == o2 ==> Compare(caseSensitive, o1, o2) == 0
  {
    if o1.Some? && o2.Some? {
      CompareFromAntisymmetric(caseSensitive, o1.value, o2.value, 0, 0);
      CompareFromReflexive(caseSensitive, o1.value, 0);
    }
  }

  /** Every character is a digit. */
  predicate AllDigits(s: string) {
    |s| == 0 || (IsDigit(s[0]) && AllDigits(s[1..]))
  }

  /** The number a digit string denotes. */
  function Value(digits: string): (v: nat)
    requires AllDigits(digits)
  {
    if |digits| == 0 then 0
    else DigitValue(digits[0]) * Pow10(|digits| - 1) + Value(digits[1..])
  }

  function DigitValue(c: char): (d: nat)
    requires IsDigit(c)
    ensures d <= 9
  {
    c as int - '0' as int
  }

  /** A number written with n digits is below 10^n. */
  lemma {:induction false} ValueBound(digits: string)
    requires AllDigits(digits)
    ensures Value(digits) < Pow10(|digits|)
    decreases |digits|
  {
    if |digits| > 0 {
      var p := Pow10(|digits| - 1);
      ValueBound(digits[1..]);
      MulMonotone(DigitValue(digits[0]), 9, p);
    }
  }

  function Pow10(n: nat): (p: nat)
    ensures 0 < p
  {
    if n == 0 then 1 else 10 * Pow10(n - 1)
  }

  /** A digit chunk with no leading zero, or the single digit "0". */
  predicate Canonical(digits: string) {
    0 < |digits| && AllDigits(digits) && (|digits| == 1 || digits[0] != '0')
  }

  lemma CanonicalLowerBound(digits: string)
    requires Canonical(digits) && 1 < |digits|
    ensures Pow10(|digits| - 1) <= Value(digits)
  {
    MulMonotone(1, DigitValue(digits[0]), Pow10(|digits| - 1));
  }

  /** Equal-length digit strings compare digit by digit as their numbers
      do. */
  lemma {:induction false} LexIsNumeric(a: string, b: string)
    requires |a| == |b|
    requires AllDigits(a) && AllDigits(b)
    ensures Lex(a, b, false) < 0 <==> Value(a) < Value(b)
    ensures Lex(a, b, false) == 0 <==> Value(a) == Value(b)
    decreases |a|
  {
    if |a| > 0 {
      if a[0] < b[0] {
        LeadingDigitDecides(a, b);
      } else if b[0] < a[0] {
        LeadingDigitDecides(b, a);
      } else {
        assert Lex(a, b, false) == Lex(a[1..], b[1..], false);
        LexIsNumeric(a[1..], b[1..]);
        assert Value(a) - Value(b) == Value(a[1..]) - Value(b[1..]);
      }
    }
  }

  /** Of two digit strings of one length, the one with the smaller first
      digit is the smaller number. */
  lemma LeadingDigitDecides(a: string, b: string)
    requires |a| == |b| && 0 < |a| && AllDigits(a) && AllDigits(b) && a[0] < b[0]
    ensures Lex(a, b, false) < 0 && Value(a) < Value(b)
  {
    assert Lex(a, b, false) == a[0] as int - b[0] as int;
    ValueBound(a[1..]);
    PositionalLess(DigitValue(a[0]), DigitValue(b[0]), Pow10(|a| - 1), Value(a[1..]), Value(b[1..]));
  }

  lemma PositionalLess(da: nat, db: nat, p: nat, ra: nat, rb: nat)
    requires da < db && ra < p
    ensures da * p + ra < db * p + rb
  {
    MulMonotone(da + 1, db, p);
  }

  /** Two digit chunks without leading zeros compare as the numbers they
      denote: the natural order the comparator is named for. */
  lemma DigitChunksCompareNumerically(caseSensitive: bool, c1: string, c2: string)
    requires Canonical(c1) && Canonical(c2)
    ensures CompareChunk(caseSensitive, c1, c2) < 0 <==> Value(c1) < Value(c2)
    ensures CompareChunk(caseSensitive, c1, c2) == 0 <==> Value(c1) == Value(c2)
  {
    if |c1| < |c2| {
      LongerIsLarger(c1, c2);
    } else if |c2| < |c1| {
      LongerIsLarger(c2, c1);
    } else {
      LexIsNumeric(c1, c2);
    }
  }

  lemma LongerIsLarger(short: string, long: string)
    requires Canonical(short) && Canonical(long) && |short| < |long|
    ensures Value(short) < Value(long)
  {
    ValueBound(short);
    CanonicalLowerBound(long);
    Pow10Monotone(|short|, |long| - 1);
  }

  lemma {:induction false} Pow10Monotone(m: nat, n: nat)
    requires m <= n
    ensures Pow10(m) <= Pow10(n)
    decreases n
  {
    if m < n {
      Pow10Monotone(m, n - 1);
    }
  }

  /** `RunEnd` finds exactly the end of a run: with `RunEndIsMaximal`, a
      characterisation of chunks. */
  lemma {:induction false} RunEndAt(s: string, k: nat, digit: bool, e: nat)
    requires k <= e <= |s|
    requires forall j :: k <= j < e ==> IsDigit(s[j]) == digit
    requires e < |s| ==> IsDigit(s[e]) != digit
    ensures RunEnd(s, k, digit) == e
    decreases e - k
  {
    if k < e {
      RunEndAt(s, k + 1, digit, e);
    }
  }

  /** A string made of a word part and then a number part. */
  lemma WordThenNumber(s: string, e: nat)
    requires 0 < e < |s|
    requires forall j :: 0 <= j < e ==> !IsDigit(s[j])
    requires forall j :: e <= j < |s| ==> IsDigit(s[j])
    ensures Chunk(s, 0) == s[..e] && Chunk(s, e) == s[e..]
  {
    RunEndAt(s, 1, false, e);
    RunEndAt(s, e + 1, true, |s|);
    assert ChunkEnd(s, 0) == e;
    assert ChunkEnd(s, e) == |s|;
  }

  /** A string without digits is a single chunk. */
  lemma WordOnly(s: string)
    requires 0 < |s|
    requires forall j :: 0 <= j < |s| ==> !IsDigit(s[j])
    ensures Chunk(s, 0) == s
  {
    RunEndAt(s, 1, false, |s|);
  }

  /** `ys` is `xs` rearranged: position `i` of `ys` holds the element at
      position `perm[i]` of `xs`, and no position of `xs` is used twice. */
  predicate Rearranges<T(==)>(ys: seq<T>, xs: seq<T>, perm: seq<nat>) {
    |ys| == |xs| == |perm|
    && (forall i :: 0 <= i < |perm| ==> perm[i] < |xs| && ys[i] == xs[perm[i]])
    && (forall i, j :: 0 <= i < j < |perm| ==> perm[i] != perm[j])
  }

  /** Every neighbouring pair is in strictly increasing order. */
  predicate StrictlyAscending(caseSensitive: bool, xs: seq<Option<string>>) {
    forall i :: 0 <= i < |xs| - 1 ==> Compare(caseSensitive, xs[i], xs[i + 1]) < 0
  }

  /** Two strings with the same word part and number parts: the number
      parts decide, then the lengths. */
  lemma SameWordThenNumbers(caseSensitive: bool, s1: string, s2: string, e: nat)
    requires 0 < e < |s1| && e < |s2| && s1[..e] == s2[..e]
    requires forall j :: 0 <= j < e ==> !IsDigit(s1[j])
    requires forall j :: e <= j < |s1| ==> IsDigit(s1[j])
    requires forall j :: e <= j < |s2| ==> IsDigit(s2[j])
    ensures var r := CompareChunk(caseSensitive, s1[e..], s2[e..]);
            CompareFrom(caseSensitive, s1, s2, 0, 0) == if r != 0 then r else |s1| - |s2|
  {
    WordThenNumber(s1, e);
    WordThenNumber(s2, e);
    assert CompareChunk(caseSensitive, s1[..e], s2[..e]) == 0;
    assert CompareFrom(caseSensitive, s1, s2, 0, 0) == CompareFrom(caseSensitive, s1, s2, e, e);
    assert |s1[e..]| == |s1| - e && |s2[e..]| == |s2| - e;
    assert CompareFrom(caseSensitive, s1, s2, |s1|, |s2|) == |s1| - |s2|;
  }

  /** The neighbours of the expected result of the basic sorting example. */
  lemma BasicNeighbours()
    ensures Compare(true, Some("Foo"), Some("Foo 1")) < 0
    ensures Compare(true, Some("Foo 1"), Some("Foo 10")) < 0
    ensures Compare(true, Some("Foo 10"), Some("Item 1")) < 0
    ensures Compare(true, Some("Item 1"), Some("Item 2")) < 0
    ensures Compare(true, Some("Item 2"), Some("Item 3")) < 0
    ensures Compare(true, Some("Item 3"), Some("Ultra-Foo")) < 0
  {
    FooNeighbours();
    ItemNeighbours();
  }

  lemma FooNeighbours()
    ensures Compare(true, Some("Foo"), Some("Foo 1")) < 0
    ensures Compare(true, Some("Foo 1"), Some("Foo 10")) < 0
    ensures Compare(true, Some("Foo 10"), Some("Item 1")) < 0
  {
    WordOnly("Foo");
    WordThenNumber("Foo 1", 4);
    assert CompareChunk(true, "Foo", "Foo ") < 0;
    SameWordThenNumbers(true, "Foo 1", "Foo 10", 4);
    assert CompareChunk(true, "1", "10") < 0;
    WordThenNumber("Foo 10", 4);
    WordThenNumber("Item 1", 5);
    assert CompareChunk(true, "Foo ", "Item ") < 0;
  }

  lemma ItemNeighbours()
    ensures Compare(true, Some("Item 1"), Some("Item 2")) < 0
    ensures Compare(true, Some("Item 2"), Some("Item 3")) < 0
    ensures Compare(true, Some("Item 3"), Some("Ultra-Foo")) < 0
  {
    SameWordThenNumbers(true, "Item 1", "Item 2", 5);
    assert CompareChunk(true, "1", "2") < 0;
    SameWordThenNumbers(true, "Item 2", "Item 3", 5);
    assert CompareChunk(true, "2", "3") < 0;
    WordThenNumber("Item 3", 5);
    WordOnly("Ultra-Foo");
    assert CompareChunk(true, "Item ", "Ultra-Foo") < 0;
  }

  /** Sorting "Item 2", "Item 1", "Foo", "Foo 10", "Foo 1", "Item 3" and
      "Ultra-Foo" gives "Foo", "Foo 1", "Foo 10", "Item 1", "Item 2",
      "Item 3", "Ultra-Foo": the latter is a rearrangement of the former in
      strictly increasing order, the only order `Arrays.sort` can return. */
  lemma BasicSortExample()
    ensures var input := [Some("Item 2"), Some("Item 1"), Some("Foo"), Some("Foo 10"), Some("Foo 1"), Some("Item 3"), Some("Ultra-Foo")];
            var sorted := [Some("Foo"), Some("Foo 1"), Some("Foo 10"), Some("Item 1"), Some("Item 2"), Some("Item 3"), Some("Ultra-Foo")];
            StrictlyAscending(true, sorted) && Rearranges(sorted, input, [2, 4, 3, 1, 0, 5, 6])
  {
    var input := [Some("Item 2"), Some("Item 1"), Some("Foo"), Some("Foo 10"), Some("Foo 1"), Some("Item 3"), Some("Ultra-Foo")];
    var sorted := [Some("Foo"), Some("Foo 1"), Some("Foo 10"), Some("Item 1"), Some("Item 2"), Some("Item 3"), Some("Ultra-Foo")];
    assert StrictlyAscending(true, sorted) by {
      BasicNeighbours();
    }
    assert Rearranges(sorted, input, [2, 4, 3, 1, 0, 5, 6]);
  }

  /** The neighbours of the expected result of the zero-padding example. */
  lemma ZeroPaddingNeighbours()
    ensures Compare(true, None, Some("Abc")) < 0
    ensures Compare(true, Some("Abc"), Some("Item 3")) < 0
    ensures Compare(true, Some("Item 3"), Some("Item 01")) < 0
    ensures Compare(true, Some("Item 01"), Some("Item 02")) < 0
    ensures Compare(true, Some("Item 02"), Some("Item 100")) < 0
  {
    WordOnly("Abc");
    WordThenNumber("Item 3", 5);
    assert CompareChunk(true, "Abc", "Item ") < 0;
    SameWordThenNumbers(true, "Item 3", "Item 01", 5);
    assert CompareChunk(true, "3", "01") < 0;
    SameWordThenNumbers(true, "Item 01", "Item 02", 5);
    assert CompareChunk(true, "01", "02") < 0;
    SameWordThenNumbers(true, "Item 02", "Item 100", 5);
    assert CompareChunk(true, "02", "100") < 0;
  }

  /** Null first, and zero padding counts: "Item 3" comes before "Item 01". */
  lemma ZeroPaddingExample()
    ensures var input := [Some("Item 02"), Some("Item 01"), Some("Item 3"), Some("Abc"), None, Some("Item 100")];
            var sorted := [None, Some("Abc"), Some("Item 3"), Some("Item 01"), Some("Item 02"), Some("Item 100")];
            StrictlyAscending(true, sorted) && Rearranges(sorted, input, [4, 3, 2, 1, 0, 5])
  {
    var input := [Some("Item 02"), Some("Item 01"), Some("Item 3"), Some("Abc"), None, Some("Item 100")];
    var sorted := [None, Some("Abc"), Some("Item 3"), Some("Item 01"), Some("Item 02"), Some("Item 100")];
    assert StrictlyAscending(true, sorted) by {
      ZeroPaddingNeighbours();
      forall i | 0 <= i < |sorted| - 1
        ensures Compare(true, sorted[i], sorted[i + 1]) < 0
      {
        if i == 0 {
          assert sorted[0] == None && sorted[1] == Some("Abc");
        } else if i == 1 {
          assert sorted[1] == Some("Abc") && sorted[2] == Some("Item 3");
        } else if i == 2 {
          assert sorted[2] == Some("Item 3") && sorted[3] == Some("Item 01");
        } else if i == 3 {
          assert sorted[3] == Some("Item 01") && sorted[4] == Some("Item 02");
        } else {
          assert sorted[4] == Some("Item 02") && sorted[5] == Some("Item 100");
        }
      }
    }
    assert Rearranges(sorted, input, [4, 3, 2, 1, 0, 5]);
  }
}

=== FILE: array_search.dfy ===
/** `ArraySearchUtils.isOneOf`: is a value one of an array's values, under
    a comparator, under `equals`, or by identity.

    A Java object is an identity and a content; `equals` compares contents
    and `==` compares identities. Null is `None`. */
module ArraySearch {
  import opened Results

  /** An object: the identity `==` compares and the content `equals`
      compares. */
  datatype Obj<T> = Obj(id: nat, content: T)

  /** A reference: null or an object. */
  type Ref<T> = Option<Obj<T>>

  /** `isOneOf(value, comparator, testValues...)`: false for a null array,
      else true when the comparator finds the value equal (0) to one of
      the array's values, scanned in order. */
  method IsOneOf<T>(value: T, compare: (T, T) -> int, testValues: Option<seq<T>>) returns (r: bool)
    ensures testValues.None? ==> !r
    ensures testValues.Some? ==> (r <==> exists i :: 0 <= i < |testValues.value| && compare(value, testValues.value[i]) == 0)
  {
    if testValues.None? {
      return false;
    }
    var values := testValues.value;
    var i := 0;
    while i < |values|
      invariant 0 <= i <= |values|
      invariant forall j :: 0 <= j < i ==> compare(value, values[j]) != 0
    {
      if compare(value, values[i]) == 0 {
        return true;
      }
      i := i + 1;
    }
    return false;
  }

  /** The comparator of the `equals` variant: null is equal only to null,
      an object to any object with an equal content; unequal is -1. */
  function EqualsCompare<T(==)>(a: Ref<T>, b: Ref<T>): (c: int)
    ensures c == 0 || c == -1
    ensures c == 0 <==> (a.None? && b.None?) || (a.Some? && b.Some? && a.value.content == b.value.content)
  {
    if a.None? then (if b.None? then 0 else -1)
    else if b.Some? && a.value.content == b.value.content then 0 else -1
  }

  /** Java's `a == b` on references: both null, or one object. */
  predicate SameObject<T>(a: Ref<T>, b: Ref<T>) {
    (a.None? && b.None?) || (a.Some? && b.Some? && a.value.id == b.value.id)
  }

  /** Java's `a.equals(b)` extended to null: both null, or objects with
      equal contents. */
  predicate Same<T(==)>(a: Ref<T>, b: Ref<T>) {
    if a.None? then b.None? else b.Some? && a.value.content == b.value.content
  }

  /** The comparator of the identity variant: 0 for `a == b`, else -1. */
  function IdentityCompare<T>(a: Ref<T>, b: Ref<T>): (c: int)
    ensures c == 0 || c == -1
    ensures c == 0 <==> SameObject(a, b)
  {
    if a.None? && b.None? then 0
    else if a.Some? && b.Some? && a.value.id == b.value.id then 0 else -1
  }

  /** `isOneOf(value, testValues...)`: `isOneOf` with `equals`. */
  method IsOneOfEquals<T(==)>(value: Ref<T>, testValues: Option<seq<Ref<T>>>) returns (r: bool)
    ensures r <==> testValues.Some? && exists i :: 0 <= i < |testValues.value| && Same(value, testValues.value[i])
  {
    r := IsOneOf(value, EqualsCompare, testValues);
  }

  /** `isOneOfByIdentity(value, testValues...)`: `isOneOf` with `==`. */
  method IsOneOfByIdentity<T>(value: Ref<T>, testValues: Option<seq<Ref<T>>>) returns (r: bool)
    ensures r <==> testValues.Some? && exists i :: 0 <= i < |testValues.value| && SameObject(value, testValues.value[i])
  {
    r := IsOneOf(value, IdentityCompare, testValues);
  }

  /** References into one heap: objects with one identity have one
      content. */
  ghost predicate Heap<T>(refs: seq<Ref<T>>) {
    forall i, j :: 0 <= i < |refs| && 0 <= j < |refs| && SameObject(refs[i], refs[j]) ==> refs[i] == refs[j]
  }

  /** In one heap, a value found by identity is found by `equals` too;
      the converse fails for distinct objects with equal contents. */
  lemma IdentityImpliesEquals<T>(value: Ref<T>, testValues: seq<Ref<T>>)
    requires Heap([value] + testValues)
    requires exists i :: 0 <= i < |testValues| && SameObject(value, testValues[i])
    ensures exists i :: 0 <= i < |testValues| && Same(value, testValues[i])
  {
    var refs := [value] + testValues;
    var i :| 0 <= i < |testValues| && SameObject(value, testValues[i]);
    assert refs[0] == value && refs[i + 1] == testValues[i];
    assert Same(value, testValues[i]);
  }

  /** Two distinct objects with equal contents: equal, but not the same. */
  lemma EqualsIsNotIdentity()
    ensures var a, b := Some(Obj(1, "x")), Some(Obj(2, "x"));
            Same(a, b) && !SameObject(a, b) && Heap([a, b])
  {
  }
}

=== FILE: batch_collectors.dfy ===
/** Batch collectors: how a batch processor creates a batch, adds an item to
    it and decides that it is ready to be sent to a job.

    Java batches are mutable collections filled in place; here a batch is a
    value and the accumulator returns the grown batch. */
module BatchCollectors {

  /** A collector: the batch factory's product, the accumulator, and the
      readiness test. */
  datatype Collector<!B, !E> = Collector(factory: B, accumulate: (B, E) -> B, ready: B -> bool)

  /** `maxBatchSize` when none is given, for `SizedBatchCollector` and
      `AbstractSizedBatchCollector` alike. */
  const DefaultMaxBatchSize: int := 1000

  /** `SizedBatchCollector.batchReadyFlag`: ready once the sizer reports at
      least `maxBatchSize`. */
  function Sized<B(!new), E(!new)>(factory: B, accumulate: (B, E) -> B, sizer: B -> int, maxBatchSize: int): (c: Collector<B, E>)
    ensures forall b :: c.ready(b) <==> sizer(b) >= maxBatchSize
    ensures c.factory == factory
  {
    Collector(factory, accumulate, b => sizer(b) >= maxBatchSize)
  }

  /** `ListBatchCollector(factory, maxBatchSize)`: items are appended to a
      list; the size is the list's length. */
  function ListCollector<E(!new)>(factory: seq<E>, maxBatchSize: int): (c: Collector<seq<E>, E>)
    ensures c.factory == factory
    ensures forall b: seq<E>, e :: c.accumulate(b, e) == b + [e]
    ensures forall b: seq<E> :: c.ready(b) <==> |b| >= maxBatchSize
  {
    Sized(factory, (b: seq<E>, e: E) => b + [e], (b: seq<E>) => |b|, maxBatchSize)
  }

  /** `ListBatchCollector(maxBatchSize)`: `ArrayList::new` as factory (see
      `ListCollectorOfSizeReady`). */
  function ListCollectorOfSize<E(!new)>(maxBatchSize: int): Collector<seq<E>, E> {
    ListCollector([], maxBatchSize)
  }

  /** Batches start empty and are ready at `maxBatchSize` items. */
  lemma ListCollectorOfSizeReady<E(!new)>(c: Collector<seq<E>, E>, maxBatchSize: int)
    requires c == ListCollectorOfSize(maxBatchSize)
    ensures c.factory == []
    ensures forall b: seq<E> :: c.ready(b) <==> |b| >= maxBatchSize
  {
  }

  /** `ListBatchCollector()` (see `DefaultListCollectorReady`). */
  function DefaultListCollector<E(!new)>(): Collector<seq<E>, E> {
    ListCollector([], DefaultMaxBatchSize)
  }

  /** Batches start empty and are ready at 1000 items. */
  lemma DefaultListCollectorReady<E(!new)>(c: Collector<seq<E>, E>)
    requires c == DefaultListCollector()
    ensures c.factory == []
    ensures forall b: seq<E> :: c.ready(b) <==> |b| >= 1000
  {
  }

  /** `SetBatchCollector(factory, maxBatchSize)`: items are added to a set,
      so a repeated item does not grow the batch. */
  function SetCollector<E(==,!new)>(factory: set<E>, maxBatchSize: int): (c: Collector<set<E>, E>)
    ensures c.factory == factory
    ensures forall b: set<E>, e :: c.accumulate(b, e) == b + {e}
    ensures forall b: set<E>, e :: e in b ==> c.accumulate(b, e) == b
    ensures forall b: set<E> :: c.ready(b) <==> |b| >= maxBatchSize
  {
    Sized(factory, (b: set<E>, e: E) => b + {e}, (b: set<E>) => |b|, maxBatchSize)
  }

  /** `SetBatchCollector(maxBatchSize)`: `HashSet::new` as factory (see
      `SetCollectorOfSizeReady`). */
  function SetCollectorOfSize<E(==,!new)>(maxBatchSize: int): Collector<set<E>, E> {
    SetCollector({}, maxBatchSize)
  }

  /** Batches start empty and are ready at `maxBatchSize` distinct items. */
  lemma SetCollectorOfSizeReady<E(!new)>(c: Collector<set<E>, E>, maxBatchSize: int)
    requires c == SetCollectorOfSize(maxBatchSize)
    ensures c.factory == {}
    ensures forall b: set<E> :: c.ready(b) <==> |b| >= maxBatchSize
  {
  }

  /** `SetBatchCollector()` (see `DefaultSetCollectorReady`). */
  function DefaultSetCollector<E(==,!new)>(): Collector<set<E>, E> {
    SetCollector({}, DefaultMaxBatchSize)
  }

  /** Batches start empty and are ready at 1000 distinct items. */
  lemma DefaultSetCollectorReady<E(!new)>(c: Collector<set<E>, E>)
    requires c == DefaultSetCollector()
    ensures c.factory == {}
    ensures forall b: set<E> :: c.ready(b) <==> |b| >= 1000
  {
  }
}

=== FILE: batch_processor.dfy ===
/** `BatchProcessor` and `ItemizedBatchProcessor`: items are accumulated into
    a current batch, which is handed to a new job whenever the collector says
    it is ready; the last, possibly partial (even empty) batch is always
    flushed.

    The executor is abstracted to the sequence of batches handed to jobs, in
    submission order. Job completion is a separate step, `JobFinished`, and
    waiting is the polling loop `WaitExecutor` over the counter values it
    observes and the interruptions of its waits. */
module BatchProcessor {
  import opened Results
  import opened JavaLang
  import opened BatchCollectors

  datatype Processor<B> = Processor(jobLogPeriod: int, submitted: int, completed: int, waitingCompletion: bool,
                                    jobs: seq<B>)

  /** A new processor (see `NewProcessorIsIdle`). */
  function NewProcessor<B>(): Processor<B> {
    Processor(1000, 0, 0, false, [])
  }

  /** A new processor logs every 1000 jobs and has submitted, completed
      and waited for nothing. */
  lemma NewProcessorIsIdle<B>(p: Processor<B>)
    requires p == NewProcessor()
    ensures p.jobLogPeriod == 1000 && p.submitted == 0 && p.completed == 0 && !p.waitingCompletion && p.jobs == []
  {
  }

  /** What `handleNewBatch` leaves behind: the processor, the batch to keep
      filling, whether a job was submitted and whether that was logged. */
  datatype Handled<B> = Handled(processor: Processor<B>, batch: B, submittedJob: bool, logged: bool)

  /** `handleNewBatch(batch, forceFlush)`: unless flushing is forced or the
      batch is ready, nothing happens and the same batch is kept; otherwise
      a job gets the batch, the submitted counter grows (logged every
      `jobLogPeriod` submissions when that is positive) and a fresh batch
      from the factory is returned. */
  function HandleNewBatch<B, E>(p: Processor<B>, c: Collector<B, E>, batch: B, forceFlush: bool): (r: Handled<B>)
    ensures r.submittedJob <==> forceFlush || c.ready(batch)
    ensures !r.submittedJob ==> r.processor == p && r.batch == batch && !r.logged
    ensures r.submittedJob ==> r.processor == p.(submitted := p.submitted + 1, jobs := p.jobs + [batch])
                               && r.batch == c.factory
    ensures r.logged ==> r.submittedJob && 0 < p.jobLogPeriod
    ensures r.submittedJob && 0 < p.jobLogPeriod && 0 <= p.submitted ==>
              (r.logged <==> (p.submitted + 1) % p.jobLogPeriod == 0)
  {
    if !(forceFlush || c.ready(batch)) then Handled(p, batch, false, false)
    else
      var submitted := p.submitted + 1;
      var logged := p.jobLogPeriod > 0 && JavaRem(submitted, p.jobLogPeriod) == 0;
      Handled(p.(submitted := submitted, jobs := p.jobs + [batch]), c.factory, true, logged)
  }

  /** The item consumer `process` feeds to the source: add each item to the
      current batch and hand the batch over when it is ready. */
  function Feed<B, E>(p: Processor<B>, c: Collector<B, E>, current: B, items: seq<E>): (r: (Processor<B>, B))
    ensures r.0.jobLogPeriod == p.jobLogPeriod && r.0.completed == p.completed
    ensures r.0.waitingCompletion == p.waitingCompletion
    ensures p.jobs <= r.0.jobs
    ensures r.0.submitted - p.submitted == |r.0.jobs| - |p.jobs|
    decreases |items|
  {
    if |items| == 0 then (p, current)
    else
      var h := HandleNewBatch(p, c, c.accumulate(current, items[0]), false);
      Feed(h.processor, c, h.batch, items[1..])
  }

  /** `ItemizedBatchProcessor.process`: a fresh batch, every item fed in
      source order, then the residue flushed whatever its size. */
  function Process<B, E>(p: Processor<B>, c: Collector<B, E>, items: seq<E>): (r: Processor<B>)
    ensures |r.jobs| > |p.jobs| && r.jobs[..|p.jobs|] == p.jobs
    ensures r.submitted - p.submitted == |r.jobs| - |p.jobs|
    ensures r.completed == p.completed && r.jobLogPeriod == p.jobLogPeriod
  {
    var fed := Feed(p, c, c.factory, items);
    var r := HandleNewBatch(fed.0, c, fed.1, true).processor;
    assert r.jobs[..|p.jobs|] == fed.0.jobs[..|p.jobs|];
    r
  }

  /** The list of lists concatenated. */
  function Concat<E>(ss: seq<seq<E>>): seq<E>
    decreases |ss|
  {
    if |ss| == 0 then [] else ss[0] + Concat(ss[1..])
  }

  /** The consecutive full chunks of `m` items of `s`. */
  function Chunks<E>(s: seq<E>, m: int): seq<seq<E>>
    requires 1 <= m
    decreases |s|
  {
    if |s| < m then [] else [s[..m]] + Chunks(s[m..], m)
  }

  /** What is left of `s` after its full chunks. */
  function Residue<E>(s: seq<E>, m: int): seq<E>
    requires 1 <= m
    decreases |s|
  {
    if |s| < m then s else Residue(s[m..], m)
  }

  /** The chunks and the residue partition `s`: `|s| / m` chunks of exactly
      `m` items, then `|s| % m` items, together the whole of `s` in order. */
  lemma {:induction false} ChunksPartition<E>(s: seq<E>, m: int)
    requires 1 <= m
    ensures Concat(Chunks(s, m)) + Residue(s, m) == s
    ensures |Chunks(s, m)| == |s| / m && |Residue(s, m)| == |s| % m
    ensures forall i :: 0 <= i < |Chunks(s, m)| ==> |Chunks(s, m)[i]| == m
    decreases |s|
  {
    if |s| >= m {
      var rest := s[m..];
      ChunksPartition(rest, m);
      assert Chunks(s, m) == [s[..m]] + Chunks(rest, m);
      assert Chunks(s, m)[1..] == Chunks(rest, m);
      assert s == s[..m] + rest;
      assert |s| / m == |rest| / m + 1 by {
        DivStep(|rest|, m);
      }
      assert |s| % m == |rest| % m by {
        DivStep(|rest|, m);
      }
    }
  }

  lemma ChunksCons<E>(b: seq<E>, rest: seq<E>, m: int)
    requires 1 <= m && |b| == m
    ensures Chunks(b + rest, m) == [b] + Chunks(rest, m) && Residue(b + rest, m) == Residue(rest, m)
  {
    assert (b + rest)[..m] == b && (b + rest)[m..] == rest;
  }

  /** What the list collector of batch size `m` does with a batch. */
  ghost predicate ListLike<E(!new)>(c: Collector<seq<E>, E>, m: int) {
    c.factory == []
    && (forall b: seq<E>, e :: c.accumulate(b, e) == b + [e])
    && (forall b: seq<E> :: c.ready(b) <==> |b| >= m)
  }

  /** Feeding a list collector of `m` items from an empty or partial batch
      hands the full chunks of (batch + items) to jobs and keeps their
      residue as the current batch. */
  lemma {:induction false} FeedListChunks<E(!new)>(p: Processor<seq<E>>, c: Collector<seq<E>, E>, m: int, current: seq<E>, items: seq<E>)
    requires 1 <= m && ListLike(c, m) && |current| < m
    ensures var r := Feed(p, c, current, items);
            r.0.jobs == p.jobs + Chunks(current + items, m) && r.1 == Residue(current + items, m)
    decreases |items|, 1
  {
    if |items| == 0 {
      assert current + items == current;
    } else if |current| + 1 == m {
      FeedListFullBatch(p, c, m, current, items);
    } else {
      FeedListPartialBatch(p, c, m, current, items);
    }
  }

  /** The step of `FeedListChunks` where the first item completes a batch. */
  lemma {:induction false} FeedListFullBatch<E(!new)>(p: Processor<seq<E>>, c: Collector<seq<E>, E>, m: int, current: seq<E>, items: seq<E>)
    requires 1 <= m && ListLike(c, m) && |current| + 1 == m && |items| > 0
    ensures var r := Feed(p, c, current, items);
            r.0.jobs == p.jobs + Chunks(current + items, m) && r.1 == Residue(current + items, m)
    decreases |items|, 0
  {
    var b := current + [items[0]];
    var q := p.(submitted := p.submitted + 1, jobs := p.jobs + [b]);
    var h := HandleNewBatch(p, c, c.accumulate(current, items[0]), false);
    assert h.processor == q && h.batch == [] by {
      assert c.accumulate(current, items[0]) == b && c.ready(b);
    }
    assert Feed(p, c, current, items) == Feed(q, c, [], items[1..]) by {
      FeedStep(p, c, current, items);
    }
    assert Feed(q, c, [], items[1..]).0.jobs == q.jobs + Chunks([] + items[1..], m)
        && Feed(q, c, [], items[1..]).1 == Residue([] + items[1..], m) by {
      FeedListChunks(q, c, m, [], items[1..]);
    }
    var rest := Chunks([] + items[1..], m);
    assert q.jobs + rest == p.jobs + ([b] + rest);
    ChunksAfterFullBatch(current, items, m);
  }

  /** The step of `FeedListChunks` where the first item leaves the batch
      partial. */
  lemma {:induction false} FeedListPartialBatch<E(!new)>(p: Processor<seq<E>>, c: Collector<seq<E>, E>, m: int, current: seq<E>, items: seq<E>)
    requires 1 <= m && ListLike(c, m) && |current| + 1 < m && |items| > 0
    ensures var r := Feed(p, c, current, items);
            r.0.jobs == p.jobs + Chunks(current + items, m) && r.1 == Residue(current + items, m)
    decreases |items|, 0
  {
    var b := current + [items[0]];
    FeedStep(p, c, current, items);
    assert c.accumulate(current, items[0]) == b && !c.ready(b);
    assert current + items == b + items[1..];
    FeedListChunks(p, c, m, b, items[1..]);
  }

  /** The chunks after a first full batch `current + [items[0]]`. */
  lemma ChunksAfterFullBatch<E>(current: seq<E>, items: seq<E>, m: int)
    requires 1 <= m && |current| + 1 == m && |items| > 0
    ensures Chunks(current + items, m) == [current + [items[0]]] + Chunks([] + items[1..], m)
    ensures Residue(current + items, m) == Residue([] + items[1..], m)
  {
    var b := current + [items[0]];
    assert current + items == b + items[1..];
    assert [] + items[1..] == items[1..];
    ChunksCons(b, items[1..], m);
  }

  /** One step of `Feed`: the first item is accumulated and the batch handled. */
  lemma FeedStep<B, E>(p: Processor<B>, c: Collector<B, E>, current: B, items: seq<E>)
    requires |items| > 0
    ensures var h := HandleNewBatch(p, c, c.accumulate(current, items[0]), false);
            Feed(p, c, current, items) == Feed(h.processor, c, h.batch, items[1..])
  {
  }

  /** Processing `n` items with a list collector of batch size `m >= 1`
      submits `n / m` jobs of exactly `m` items, then one job with the
      remaining `n % m` (possibly none); in order, the jobs hold exactly the
      items. */
  lemma ListBatchesPartitionItems<E(!new)>(p: Processor<seq<E>>, m: int, items: seq<E>)
    requires 1 <= m
    ensures var r := Process(p, ListCollector([], m), items);
            var newJobs := r.jobs[|p.jobs|..];
            |newJobs| == |items| / m + 1
            && (forall i :: 0 <= i < |newJobs| - 1 ==> |newJobs[i]| == m)
            && |newJobs[|newJobs| - 1]| == |items| % m
            && Concat(newJobs) == items
            && r.submitted == p.submitted + |items| / m + 1
  {
    var c := ListCollector([], m);
    FeedListChunks(p, c, m, [], items);
    assert [] + items == items;
    ChunksPartition(items, m);
    var r := Process(p, c, items);
    var chunks, res := Chunks(items, m), Residue(items, m);
    assert r.jobs == p.jobs + chunks + [res];
    assert r.jobs[|p.jobs|..] == chunks + [res];
    ConcatSnoc(chunks, res);
  }

  lemma {:induction false} ConcatSnoc<E>(ss: seq<seq<E>>, s: seq<E>)
    ensures Concat(ss + [s]) == Concat(ss) + s
    decreases |ss|
  {
    if |ss| == 0 {
      assert [] + [s] == [s];
      assert [s][1..] == [];
    } else {
      assert (ss + [s])[1..] == ss[1..] + [s];
      ConcatSnoc(ss[1..], s);
    }
  }

  /** The distinct items of a source. */
  function Elems<E(==)>(items: seq<E>): set<E> {
    set i | 0 <= i < |items| :: items[i]
  }

  /** The union of a sequence of sets. */
  function Union<E>(ss: seq<set<E>>): set<E>
    decreases |ss|
  {
    if |ss| == 0 then {} else ss[0] + Union(ss[1..])
  }

  lemma {:induction false} UnionSnoc<E>(ss: seq<set<E>>, s: set<E>)
    ensures Union(ss + [s]) == Union(ss) + s
    decreases |ss|
  {
    if |ss| == 0 {
      assert [] + [s] == [s];
      assert [s][1..] == [];
    } else {
      assert (ss + [s])[1..] == ss[1..] + [s];
      UnionSnoc(ss[1..], s);
    }
  }

  /** What the set collector of batch size `m` does with a batch. */
  ghost predicate SetLike<E(!new)>(c: Collector<set<E>, E>, m: int) {
    c.factory == {}
    && (forall b: set<E>, e :: c.accumulate(b, e) == b + {e})
    && (forall b: set<E> :: c.ready(b) <==> |b| >= m)
  }

  lemma ElemsCons<E>(items: seq<E>)
    requires |items| > 0
    ensures Elems(items) == {items[0]} + Elems(items[1..])
  {
    forall x | x in Elems(items) ensures x in {items[0]} + Elems(items[1..]) {
      var i :| 0 <= i < |items| && items[i] == x;
      if i > 0 {
        assert items[1..][i - 1] == x;
      }
    }
    forall x | x in Elems(items[1..]) ensures x in Elems(items) {
      var i :| 0 <= i < |items[1..]| && items[1..][i] == x;
      assert items[i + 1] == x;
    }
  }

  lemma AddOneCard<E>(s: set<E>, x: E)
    ensures |s + {x}| <= |s| + 1
  {
    if x in s {
      assert s + {x} == s;
    }
  }

  /** Feeding a set collector of `m` items: the batches handed to jobs have
      exactly `m` distinct items, and together with the current batch they
      hold every item fed on top of what earlier jobs held (repeated items
      are absorbed). */
  lemma {:induction false} FeedSetBatches<E(!new)>(p: Processor<set<E>>, c: Collector<set<E>, E>, m: int, current: set<E>, items: seq<E>)
    requires 1 <= m && SetLike(c, m) && |current| < m
    ensures var r := Feed(p, c, current, items);
            Union(r.0.jobs) + r.1 == Union(p.jobs) + current + Elems(items)
            && (forall j :: |p.jobs| <= j < |r.0.jobs| ==> |r.0.jobs[j]| == m)
            && |r.1| < m
    decreases |items|, 1
  {
    if |items| == 0 {
      assert Elems(items) == {};
    } else {
      var b := current + {items[0]};
      AddOneCard(current, items[0]);
      ElemsCons(items);
      if |b| >= m {
        FeedSetFullBatch(p, c, m, current, items);
      } else {
        FeedSetPartialBatch(p, c, m, current, items);
      }
    }
  }

  /** The step of `FeedSetBatches` where a new item completes a batch. */
  lemma {:induction false} FeedSetFullBatch<E(!new)>(p: Processor<set<E>>, c: Collector<set<E>, E>, m: int, current: set<E>, items: seq<E>)
    requires 1 <= m && SetLike(c, m) && |items| > 0 && |current + {items[0]}| == m
    requires Elems(items) == {items[0]} + Elems(items[1..])
    ensures var r := Feed(p, c, current, items);
            Union(r.0.jobs) + r.1 == Union(p.jobs) + current + Elems(items)
            && (forall j :: |p.jobs| <= j < |r.0.jobs| ==> |r.0.jobs[j]| == m)
            && |r.1| < m
    decreases |items|, 0
  {
    var b := current + {items[0]};
    var q := p.(submitted := p.submitted + 1, jobs := p.jobs + [b]);
    var h := HandleNewBatch(p, c, c.accumulate(current, items[0]), false);
    assert h.processor == q && h.batch == {} by {
      assert c.accumulate(current, items[0]) == b && c.ready(b);
    }
    assert Feed(p, c, current, items) == Feed(q, c, {}, items[1..]) by {
      FeedStep(p, c, current, items);
    }
    var r := Feed(q, c, {}, items[1..]);
    assert Union(r.0.jobs) + r.1 == Union(q.jobs) + {} + Elems(items[1..])
        && (forall j :: |q.jobs| <= j < |r.0.jobs| ==> |r.0.jobs[j]| == m)
        && |r.1| < m by {
      FeedSetBatches(q, c, m, {}, items[1..]);
    }
    assert Union(q.jobs) + {} + Elems(items[1..]) == Union(p.jobs) + current + Elems(items) by {
      UnionSnoc(p.jobs, b);
    }
    forall j | |p.jobs| <= j < |r.0.jobs| ensures |r.0.jobs[j]| == m {
      if j == |p.jobs| {
        assert q.jobs <= r.0.jobs;
        assert r.0.jobs[j] == q.jobs[j] == b;
      }
    }
  }

  /** The step of `FeedSetBatches` where a new item leaves the batch partial. */
  lemma {:induction false} FeedSetPartialBatch<E(!new)>(p: Processor<set<E>>, c: Collector<set<E>, E>, m: int, current: set<E>, items: seq<E>)
    requires 1 <= m && SetLike(c, m) && |items| > 0 && |current + {items[0]}| < m
    requires Elems(items) == {items[0]} + Elems(items[1..])
    ensures var r := Feed(p, c, current, items);
            Union(r.0.jobs) + r.1 == Union(p.jobs) + current + Elems(items)
            && (forall j :: |p.jobs| <= j < |r.0.jobs| ==> |r.0.jobs[j]| == m)
            && |r.1| < m
    decreases |items|, 0
  {
    var b := current + {items[0]};
    var h := HandleNewBatch(p, c, c.accumulate(current, items[0]), false);
    assert h.processor == p && h.batch == b by {
      assert c.accumulate(current, items[0]) == b && !c.ready(b);
    }
    assert Feed(p, c, current, items) == Feed(p, c, b, items[1..]) by {
      FeedStep(p, c, current, items);
    }
    FeedSetBatches(p, c, m, b, items[1..]);
  }

  /** Processing with a set collector of batch size `m >= 1`: every new job
      but the last gets exactly `m` distinct items, the last fewer, and the
      new jobs add exactly the distinct items of the source. */
  lemma SetBatchesCoverItems<E(!new)>(p: Processor<set<E>>, m: int, items: seq<E>)
    requires 1 <= m
    ensures var r := Process(p, SetCollector({}, m), items);
            Union(r.jobs) == Union(p.jobs) + Elems(items)
            && (forall j :: |p.jobs| <= j < |r.jobs| - 1 ==> |r.jobs[j]| == m)
            && |r.jobs| > |p.jobs| && |r.jobs[|r.jobs| - 1]| < m
  {
    var c := SetCollector({}, m);
    var fed := Feed(p, c, {}, items);
    SetFeedCovers(p, m, items);
    var r := Process(p, c, items);
    ProcessFlushesResidue(p, c, items);
    UnionSnoc(fed.0.jobs, fed.1);
    forall j | |p.jobs| <= j < |r.jobs| - 1
      ensures |r.jobs[j]| == m
    {
      assert r.jobs[j] == fed.0.jobs[j];
    }
  }

  /** Feeding a source to a set collector of batch size `m` from an empty
      batch: full new jobs, a smaller residue, and together the distinct
      items of the source. */
  lemma SetFeedCovers<E(!new)>(p: Processor<set<E>>, m: int, items: seq<E>)
    requires 1 <= m
    ensures var fed := Feed(p, SetCollector({}, m), {}, items);
            Union(fed.0.jobs) + fed.1 == Union(p.jobs) + Elems(items)
            && (forall j :: |p.jobs| <= j < |fed.0.jobs| ==> |fed.0.jobs[j]| == m)
            && |fed.1| < m
  {
    var c := SetCollector({}, m);
    assert SetLike(c, m);
    FeedSetBatches(p, c, m, {}, items);
    assert Union(p.jobs) + {} + Elems(items) == Union(p.jobs) + Elems(items);
  }

  /** `process` ends by submitting the residue of the feed as the last job. */
  lemma ProcessFlushesResidue<B, E>(p: Processor<B>, c: Collector<B, E>, items: seq<E>)
    ensures var fed := Feed(p, c, c.factory, items);
            Process(p, c, items).jobs == fed.0.jobs + [fed.1]
  {
  }

  /** What the wrapper around every job does when the job ends. */
  datatype Finished<B> = Finished(processor: Processor<B>, logged: bool, notified: bool, rethrown: Option<Throwable>)

  /** The job wrapper: exceptions from the job are logged and swallowed (an
      `Error` is not an `Exception` and propagates), and in every case the
      completed counter grows; progress is logged when the period is
      positive and either this was the last submitted job while someone
      waits or a multiple of the period was reached; the waiter is notified
      when completed equals submitted. */
  function JobFinished<B>(p: Processor<B>, outcome: Completion): (r: Finished<B>)
    ensures r.processor == p.(completed := p.completed + 1)
    ensures r.notified <==> p.completed + 1 == p.submitted
    ensures r.rethrown.Some? <==> outcome.Raised? && !IsException(outcome.ex)
    ensures r.rethrown.Some? ==> r.rethrown.value == outcome.ex
    ensures r.logged ==> 0 < p.jobLogPeriod
    ensures 0 < p.jobLogPeriod && 0 <= p.completed ==>
              (r.logged <==> (r.notified && p.waitingCompletion) || (p.completed + 1) % p.jobLogPeriod == 0)
  {
    var completed := p.completed + 1;
    var logged := p.jobLogPeriod > 0
                  && ((completed == p.submitted && p.waitingCompletion) || JavaRem(completed, p.jobLogPeriod) == 0);
    var rethrown := if outcome.Raised? && !IsException(outcome.ex) then Some(outcome.ex) else None;
    Finished(p.(completed := completed), logged, completed == p.submitted, rethrown)
  }

  /** Running every submitted job of a processor, whatever their outcomes,
      brings the completed counter to the submitted one, and the last job
      notifies the waiter. */
  lemma {:induction false} AllJobsFinish<B>(p: Processor<B>, outcomes: seq<Completion>)
    requires 0 <= p.completed && p.completed + |outcomes| == p.submitted && |outcomes| > 0
    ensures var r := FinishAll(p, outcomes);
            r.0.completed == r.0.submitted == p.submitted && r.1
    decreases |outcomes|
  {
    if |outcomes| > 1 {
      AllJobsFinish(JobFinished(p, outcomes[0]).processor, outcomes[1..]);
    }
  }

  /** The jobs' wrappers run one after another; the flag says whether the
      last one notified. */
  function FinishAll<B>(p: Processor<B>, outcomes: seq<Completion>): (Processor<B>, bool)
    decreases |outcomes|
  {
    if |outcomes| == 0 then (p, false)
    else
      var f := JobFinished(p, outcomes[0]);
      if |outcomes| == 1 then (f.processor, f.notified) else FinishAll(f.processor, outcomes[1..])
  }

  /** `waitExecutor`: each round logs the wait message (for a log period
      above -1), then looks at the counters and leaves once completed equals
      submitted; otherwise it waits, and an interruption of that wait ends
      the loop with an `UnexpectedEventException` caused by the
      `InterruptedException`. `observed` holds the (completed, submitted)
      pairs the rounds see and `interrupted(i)` whether the wait of round `i`
      is interrupted. The result is the number of rounds run, the number of
      messages logged, whether the loop ended normally and the exception it
      ended with, if any. */
  method WaitExecutor(jobLogPeriod: int, observed: seq<(int, int)>, interrupted: nat -> bool)
    returns (rounds: nat, messages: nat, done: bool, failure: Option<Throwable>)
    ensures done <==> exists i :: 0 <= i < |observed| && observed[i].0 == observed[i].1
                                  && forall j :: 0 <= j < i ==> !interrupted(j)
    ensures rounds <= |observed| && !(done && failure.Some?)
    ensures done ==> 1 <= rounds && observed[rounds - 1].0 == observed[rounds - 1].1
    ensures failure.Some? ==> 1 <= rounds && observed[rounds - 1].0 != observed[rounds - 1].1 && interrupted(rounds - 1)
                              && failure.value == NewUnchecked(UnexpectedEventClass, Some(SleepInterrupted))
    ensures forall i :: 0 <= i < rounds - 1 ==> observed[i].0 != observed[i].1 && !interrupted(i)
    ensures !done && failure.None? ==> rounds == |observed|
    ensures messages == if jobLogPeriod > -1 then rounds else 0
  {
    rounds, messages, done, failure := 0, 0, false, None;
    while rounds < |observed| && !done && failure.None?
      invariant 0 <= rounds <= |observed| && !(done && failure.Some?)
      invariant done ==> 1 <= rounds && observed[rounds - 1].0 == observed[rounds - 1].1
      invariant failure.Some? ==> 1 <= rounds && observed[rounds - 1].0 != observed[rounds - 1].1 && interrupted(rounds - 1)
                                  && failure.value == NewUnchecked(UnexpectedEventClass, Some(SleepInterrupted))
      invariant forall i :: 0 <= i < (if done || failure.Some? then rounds - 1 else rounds) ==>
                  observed[i].0 != observed[i].1 && !interrupted(i)
      invariant messages == if jobLogPeriod > -1 then rounds else 0
      decreases |observed| - rounds, if done || failure.Some? then 0 else 1
    {
      if jobLogPeriod > -1 {
        messages := messages + 1;
      }
      done := observed[rounds].0 == observed[rounds].1;
      if !done && interrupted(rounds) {
        failure := Some(NewUnchecked(UnexpectedEventClass, Some(SleepInterrupted)));
      }
      rounds := rounds + 1;
    }
  }
}

=== FILE: batch_service.dfy ===
/** `BatchService`: a fixed-size thread pool whose submissions block while
    all threads are busy, with a completed-task counter, an exit-code
    summary of the finished tasks and an optional `PoolSizeTuner`.

    Every block the service runs under its submission lock is one atomic
    step here: `Submit` (the part of `submit` after the tuner check),
    `Complete` (the releasing code wrapped around each task), `Resize`
    (`setThreadPoolSize`) and `TunerStep` (one run of the tuner's timer).
    Blocking on a condition is a step that is not enabled. */
module BatchService {
  import opened Results
  import opened JavaLang
  import PoolSizeTuner

  datatype Service = Service(threadPoolSize: int, busyTasks: int, completedTasks: int, lastExitCode: int,
                             tuner: Option<PoolSizeTuner.Tuner>)

  /** `BatchService(n)` / `BatchService(n, tuner)`: pool size `n`, nothing
      running or completed, exit code 0. The one-argument constructor uses
      the default tuner; passing `None` is the null tuner. */
  function New(initialThreadPoolSize: int, tuner: Option<PoolSizeTuner.Tuner>): (s: Service)
    ensures s.busyTasks == 0 && s.completedTasks == 0 && s.lastExitCode == 0
    ensures s.threadPoolSize == initialThreadPoolSize && s.tuner == tuner
  {
    Service(initialThreadPoolSize, 0, 0, 0, tuner)
  }

  /** The tuner the one-argument constructor creates: default parameters,
      not yet started. */
  function DefaultTuner(): (t: PoolSizeTuner.Tuner)
    ensures !t.active && PoolSizeTuner.ValidConfig(t.config)
  {
    PoolSizeTuner.NewTuner(PoolSizeTuner.DefaultConfig())
  }

  /** One exit code folded into the summary: zero codes are ignored, the
      first non-zero code is kept, and a second, different non-zero code
      turns the summary into 1. */
  function FoldExitCode(lastExitCode: int, taskExitCode: int): int {
    if taskExitCode == 0 then lastExitCode
    else if lastExitCode == 0 then taskExitCode
    else if lastExitCode != taskExitCode then 1
    else lastExitCode
  }

  /** The summary of a whole sequence of exit codes, folded in order from 0. */
  function FoldExitCodes(codes: seq<int>): int
    decreases |codes|
  {
    if |codes| == 0 then 0 else FoldExitCode(FoldExitCodes(codes[..|codes| - 1]), codes[|codes| - 1])
  }

  /** The first non-zero code, or 0 when every code is 0. */
  function FirstNonZero(codes: seq<int>): (c: int)
    ensures c == 0 <==> forall i :: 0 <= i < |codes| ==> codes[i] == 0
    ensures c != 0 ==> c in codes
    decreases |codes|
  {
    if |codes| == 0 then 0 else if codes[0] != 0 then codes[0] else FirstNonZero(codes[1..])
  }

  /** Every non-zero code in `codes` is `c`. */
  predicate OnlyCode(codes: seq<int>, c: int) {
    forall i :: 0 <= i < |codes| ==> codes[i] == 0 || codes[i] == c
  }

  /** The documented meaning of the summary: 0 when every task exited with
      0, the common code when all non-zero codes agree, and 1 when they
      differ. */
  function ExitSummary(codes: seq<int>): int {
    var c := FirstNonZero(codes);
    if c == 0 then 0 else if OnlyCode(codes, c) then c else 1
  }

  lemma {:induction false} FirstNonZeroSnoc(codes: seq<int>, c: int)
    ensures FirstNonZero(codes + [c]) == if FirstNonZero(codes) != 0 then FirstNonZero(codes) else c
    decreases |codes|
  {
    if |codes| == 0 {
      assert codes + [c] == [c];
      assert [c][1..] == [];
    } else {
      assert (codes + [c])[0] == codes[0];
      assert (codes + [c])[1..] == codes[1..] + [c];
      FirstNonZeroSnoc(codes[1..], c);
    }
  }

  lemma SummarySnoc(codes: seq<int>, c: int)
    ensures ExitSummary(codes + [c]) == FoldExitCode(ExitSummary(codes), c)
  {
    FirstNonZeroSnoc(codes, c);
    var xs := codes + [c];
    assert forall i :: 0 <= i < |codes| ==> xs[i] == codes[i];
    assert xs[|codes|] == c;
    var f := FirstNonZero(codes);
    if f != 0 && !OnlyCode(codes, f) {
      var i :| 0 <= i < |codes| && codes[i] != 0 && codes[i] != f;
      assert xs[i] == codes[i];
    }
  }

  /** Folding the exit codes in completion order gives the documented
      summary. */
  lemma {:induction false} FoldMeansSummary(codes: seq<int>)
    ensures FoldExitCodes(codes) == ExitSummary(codes)
    decreases |codes|
  {
    if |codes| > 0 {
      var init, c := codes[..|codes| - 1], codes[|codes| - 1];
      assert codes == init + [c];
      FoldMeansSummary(init);
      SummarySnoc(init, c);
    }
  }

  /** The summary is 0 exactly when every task exited with 0, and equals a
      code `c` other than 0 and 1 exactly when some task exited with `c` and
      none with another non-zero code. */
  lemma FoldCharacterisation(codes: seq<int>, c: int)
    ensures FoldExitCodes(codes) == 0 <==> forall i :: 0 <= i < |codes| ==> codes[i] == 0
    ensures c != 0 && c != 1 ==> (FoldExitCodes(codes) == c <==> c in codes && OnlyCode(codes, c))
  {
    FoldMeansSummary(codes);
    var f := FirstNonZero(codes);
    if c != 0 && c != 1 && c in codes && OnlyCode(codes, c) {
      var i :| 0 <= i < |codes| && codes[i] == c;
    }
  }

  /** The summary does not depend on the order in which tasks complete. */
  lemma FoldOrderIndependent(a: seq<int>, b: seq<int>)
    requires multiset(a) == multiset(b)
    ensures FoldExitCodes(a) == FoldExitCodes(b)
  {
    FoldMeansSummary(a);
    FoldMeansSummary(b);
    forall x ensures x in a <==> x in b {
      assert x in a <==> x in multiset(a);
      assert x in b <==> x in multiset(b);
    }
    var fa, fb := FirstNonZero(a), FirstNonZero(b);
    if fa != 0 {
      assert fa in b;
      assert fb != 0;
      forall d ensures OnlyCode(a, d) <==> OnlyCode(b, d) {
        if OnlyCode(a, d) {
          forall i | 0 <= i < |b| ensures b[i] == 0 || b[i] == d {
            assert b[i] in a;
          }
        }
        if OnlyCode(b, d) {
          forall i | 0 <= i < |a| ensures a[i] == 0 || a[i] == d {
            assert a[i] in b;
          }
        }
      }
      if OnlyCode(a, fa) {
        assert fb in a;
      }
      if OnlyCode(b, fb) {
        assert fa in b;
      }
    } else {
      assert fb != 0 ==> fb in a;
    }
  }

  /** What a call to `submit` does up to the point where it either hands
      the submitted job over or must wait: the tuner's `start` may throw first. */
  datatype Admission = Admitted(service: Service) | MustWait(service: Service) | TunerRejected(violation: PoolSizeTuner.Violation)

  /** `submit`: start the tuner if there is one and it is not active (its
      validation may throw), then, under the lock, wait while every thread
      is busy, otherwise count one more busy thread. */
  function Submit(s: Service): (r: Admission)
    ensures r.Admitted? ==> s.busyTasks < s.threadPoolSize && r.service.busyTasks == s.busyTasks + 1
    ensures r.Admitted? ==> r.service.busyTasks <= r.service.threadPoolSize
    ensures r.MustWait? <==> StartTuner(s).Success? && s.busyTasks >= s.threadPoolSize
    ensures r.TunerRejected? <==> s.tuner.Some? && !s.tuner.value.active && !PoolSizeTuner.ValidConfig(s.tuner.value.config)
    ensures !r.TunerRejected? ==> r.service.completedTasks == s.completedTasks
                                  && r.service.lastExitCode == s.lastExitCode
                                  && r.service.threadPoolSize == s.threadPoolSize
                                  && (r.service.tuner.Some? <==> s.tuner.Some?)
                                  && (r.service.tuner.Some? ==> r.service.tuner.value.active)
    ensures !r.TunerRejected? && s.tuner.Some? && s.tuner.value.active ==> r.service.tuner == s.tuner
    ensures !r.TunerRejected? && s.tuner.Some? && !s.tuner.value.active ==>
              r.service.tuner == Some(PoolSizeTuner.Start(s.tuner.value, s.threadPoolSize).value)
    ensures r.MustWait? ==> r.service.busyTasks == s.busyTasks
  {
    match StartTuner(s)
    case Failure(v) => TunerRejected(v)
    case Success(s1) =>
      if s1.busyTasks >= s1.threadPoolSize then MustWait(s1)
      else Admitted(s1.(busyTasks := s1.busyTasks + 1))
  }

  /** The tuner check at the head of `submit`: a tuner that is not active
      is started from the current pool size, and an active one is left as
      it is. Nothing but the tuner changes. */
  function StartTuner(s: Service): (r: Result<Service, PoolSizeTuner.Violation>)
    ensures r.Failure? <==> s.tuner.Some? && !s.tuner.value.active && !PoolSizeTuner.ValidConfig(s.tuner.value.config)
    ensures r.Failure? ==> r == Failure(PoolSizeTuner.Start(s.tuner.value, s.threadPoolSize).error)
    ensures r.Success? ==> r.value == s.(tuner := r.value.tuner)
    ensures s.tuner.None? || s.tuner.value.active ==> r == Success(s)
    ensures s.tuner.Some? && !s.tuner.value.active && r.Success? ==>
              r.value.tuner == Some(PoolSizeTuner.Start(s.tuner.value, s.threadPoolSize).value)
    ensures r.Success? && r.value.tuner.Some? ==> r.value.tuner.value.active
  {
    match s.tuner
    case None => Success(s)
    case Some(t) =>
      if t.active then Success(s)
      else
        match PoolSizeTuner.Start(t, s.threadPoolSize)
        case Failure(v) => Failure(v)
        case Success(t1) => Success(s.(tuner := Some(t1)))
  }

  /** The tuner is started at most once: on a service that a submission
      has passed, the tuner check succeeds and changes nothing, so a later
      submission never restarts the tuner and its bookkeeping. */
  lemma StartTunerOnce(s: Service)
    requires StartTuner(s).Success?
    ensures StartTuner(StartTuner(s).value) == StartTuner(s)
    ensures !Submit(s).TunerRejected? ==> Submit(Submit(s).service).TunerRejected? == false
                                          && Submit(Submit(s).service).service.tuner == Submit(s).service.tuner
  {
  }

  /** The state after a task finished, and which waiters it wakes. */
  datatype Release = Release(service: Service, signalFreeThread: bool, signalNoTasks: bool)

  /** The releasing code run after each task, however it ended: count
      it as completed, fold its exit code, decrement the busy count, and
      signal a waiting submitter when the count is below the pool size (and
      every drain waiter when, in addition, nothing is running). */
  function Complete(s: Service, taskExitCode: int): (r: Release)
    requires s.busyTasks > 0
    ensures r.service.busyTasks == s.busyTasks - 1
    ensures r.service.completedTasks == s.completedTasks + 1
    ensures taskExitCode == 0 ==> r.service.lastExitCode == s.lastExitCode
    ensures r.service.threadPoolSize == s.threadPoolSize && r.service.tuner == s.tuner
    ensures r.signalFreeThread <==> r.service.busyTasks < s.threadPoolSize
    ensures r.signalNoTasks ==> r.service.busyTasks == 0
    ensures 0 < s.threadPoolSize ==> (r.signalNoTasks <==> r.service.busyTasks == 0)
  {
    var busy := s.busyTasks - 1;
    var s1 := s.(completedTasks := s.completedTasks + 1, lastExitCode := FoldExitCode(s.lastExitCode, taskExitCode),
                 busyTasks := busy);
    Release(s1, busy < s.threadPoolSize, busy < s.threadPoolSize && busy == 0)
  }

  /** `setThreadPoolSize`: only the size changes; running tasks are not
      affected (the executor's own resizing is not modelled). */
  function Resize(s: Service, size: int): (r: Service)
    ensures r.threadPoolSize == size
    ensures r.(threadPoolSize := s.threadPoolSize) == s
  {
    s.(threadPoolSize := size)
  }

  /** One run of the tuner's timer: it reads the completed counter and the
      pool size, and the sizes it sets are applied in order. The timer only
      runs between the tuner's `start` and `stop`. */
  function TunerStep(s: Service): (r: Service)
    ensures r.busyTasks == s.busyTasks && r.completedTasks == s.completedTasks && r.lastExitCode == s.lastExitCode
    ensures s.tuner.None? || !s.tuner.value.active ==> r == s
    ensures s.tuner.Some? && s.tuner.value.active ==>
              var step := PoolSizeTuner.Tick(s.tuner.value, s.completedTasks, s.threadPoolSize);
              r.threadPoolSize == PoolSizeTuner.SizeAfter(step, s.threadPoolSize)
              && r.tuner == Some(step.tuner) && r.tuner.value.active
  {
    match s.tuner
    case None => s
    case Some(t) =>
      if !t.active then s
      else
        var step := PoolSizeTuner.Tick(t, s.completedTasks, s.threadPoolSize);
        s.(threadPoolSize := PoolSizeTuner.SizeAfter(step, s.threadPoolSize), tuner := Some(step.tuner))
  }

  /** A sane tuner whose sums cannot wrap keeps the pool size of the service
      within `[minThreads, maxThreads]` and stays sane, as long as the
      completed counter has not gone backwards since its previous run. */
  lemma TunerStepKeepsBounds(s: Service)
    requires s.tuner.Some? && PoolSizeTuner.Sane(s.tuner.value) && PoolSizeTuner.NoOverflow(s.tuner.value.config)
    requires PoolSizeTuner.InBounds(s.tuner.value.config, s.threadPoolSize)
    requires s.tuner.value.prevCompletedTasks <= s.completedTasks <= LongMax
    ensures var r := TunerStep(s);
            r.tuner.Some? && PoolSizeTuner.Sane(r.tuner.value) && r.tuner.value.config == s.tuner.value.config
            && PoolSizeTuner.InBounds(s.tuner.value.config, r.threadPoolSize)
  {
    PoolSizeTuner.TickKeepsBounds(s.tuner.value, s.completedTasks, s.threadPoolSize);
  }

  /** `waitAllFinished` may return: its wait loop ends once the busy count is
      no longer positive. */
  predicate AllFinished(s: Service) {
    !(s.busyTasks > 0)
  }

  /** What happens to the service, as seen from the lock. */
  datatype Event = SubmitEvent | CompleteEvent(exitCode: int) | ResizeEvent(size: int) | TunerEvent

  /** The state after a sequence of events, or `None` if some event in it
      could not happen then (a submission that would wait or whose tuner
      throws, a completion with nothing running). */
  function Run(s: Service, events: seq<Event>): (r: Option<Service>)
    ensures r.Some? ==> (r.value.tuner.Some? <==> s.tuner.Some?)
    decreases |events|
  {
    if |events| == 0 then Some(s)
    else
      var e := events[|events| - 1];
      match Run(s, events[..|events| - 1])
      case None => None
      case Some(s1) =>
        match e
        case SubmitEvent => (match Submit(s1) case Admitted(s2) => Some(s2) case _ => None)
        case CompleteEvent(code) => if s1.busyTasks > 0 then Some(Complete(s1, code).service) else None
        case ResizeEvent(n) => Some(Resize(s1, n))
        case TunerEvent => Some(TunerStep(s1))
  }

  function Submissions(events: seq<Event>): nat
    decreases |events|
  {
    if |events| == 0 then 0
    else Submissions(events[..|events| - 1]) + (if events[|events| - 1].SubmitEvent? then 1 else 0)
  }

  /** The exit codes of the completions, in order. */
  function ExitCodes(events: seq<Event>): seq<int>
    decreases |events|
  {
    if |events| == 0 then []
    else
      var rest := ExitCodes(events[..|events| - 1]);
      match events[|events| - 1]
      case CompleteEvent(c) => rest + [c]
      case _ => rest
  }

  /** One event's effect on the counters the accounting follows. */
  lemma StepAccounting(s1: Service, events: seq<Event>)
    requires |events| > 0
    requires var init := events[..|events| - 1];
             Run(s1, events).Some? && Run(s1, init).Some?
    ensures var init := events[..|events| - 1];
            var a, b := Run(s1, init).value, Run(s1, events).value;
            b.completedTasks == a.completedTasks + |ExitCodes(events)| - |ExitCodes(init)|
            && b.busyTasks == a.busyTasks + Submissions(events) - Submissions(init) - (|ExitCodes(events)| - |ExitCodes(init)|)
            && b.busyTasks >= 0 <== a.busyTasks >= 0
            && (ExitCodes(events) == ExitCodes(init) ==> b.lastExitCode == a.lastExitCode)
            && (ExitCodes(events) != ExitCodes(init) ==>
                  ExitCodes(events) == ExitCodes(init) + [events[|events| - 1].exitCode]
                  && b.lastExitCode == FoldExitCode(a.lastExitCode, events[|events| - 1].exitCode))
  {
  }

  /** The service's counters account for every task: from a new service, the
      completed tasks are the completions, the busy ones are the admitted
      submissions not completed yet (never negative), and the exit code is
      the summary of the completed tasks' codes. */
  lemma {:induction false} RunAccounting(n: int, tuner: Option<PoolSizeTuner.Tuner>, events: seq<Event>)
    requires Run(New(n, tuner), events).Some?
    ensures var s := Run(New(n, tuner), events).value;
            s.completedTasks == |ExitCodes(events)|
            && s.busyTasks == Submissions(events) - |ExitCodes(events)| >= 0
            && s.lastExitCode == FoldExitCodes(ExitCodes(events))
    decreases |events|
  {
    if |events| > 0 {
      var init := events[..|events| - 1];
      RunAccounting(n, tuner, init);
      StepAccounting(New(n, tuner), events);
      var codes := ExitCodes(init);
      if ExitCodes(events) != codes {
        var c := events[|events| - 1].exitCode;
        assert (codes + [c])[..|codes|] == codes;
      }
    }
  }

  /** When `waitAllFinished` returns on a service reached from a new one,
      every admitted task has completed. */
  lemma AllFinishedMeansDrained(n: int, tuner: Option<PoolSizeTuner.Tuner>, events: seq<Event>)
    requires Run(New(n, tuner), events).Some?
    ensures AllFinished(Run(New(n, tuner), events).value) <==> Submissions(events) == |ExitCodes(events)|
  {
    RunAccounting(n, tuner, events);
  }
}

=== FILE: batch_service_task.dfy ===
/** `BatchServiceTask`: a named task with an exit code (0 by default) and a
    priority (0 by default; higher runs first), and the `TaskComparator`
    meant for priority queues of runnables.

    `compareTo` subtracts the two `int` priorities, which wraps around in
    32 bits when they are far apart. `CompareAsWritten` models that code;
    `Compare` is the comparison the documentation describes (and what
    `Integer.compare` would give), and is the one proved to be an order. */
module BatchServiceTask {
  import opened JavaLang

  datatype Task = Task(name: string, exitCode: int, priority: int)

  /** A runnable reference as the comparator sees it: null, some other
      runnable, or a batch task. */
  datatype Runnable = NullRef | OtherRunnable | TaskRef(task: Task)

  /** `new BatchServiceTask(name)`: exit code and priority 0. */
  function NewTask(name: string): (t: Task)
    ensures t.name == name && t.exitCode == 0 && t.priority == 0
  {
    Task(name, 0, 0)
  }

  /** Priorities are Java `int`s. */
  predicate WellFormed(r: Runnable) {
    r.TaskRef? ==> IsInt(r.task.priority)
  }

  /** `compareTo` as written: null and non-task arguments sort first (+1),
      otherwise the other priority minus this one, in 32-bit arithmetic. */
  function CompareToAsWritten(t: Task, o: Runnable): (r: int)
    requires IsInt(t.priority) && WellFormed(o)
    ensures IsInt(r)
    ensures !o.TaskRef? ==> r == 1
    ensures o.TaskRef? && IsInt(o.task.priority - t.priority) ==> r == o.task.priority - t.priority
  {
    match o
    case NullRef => 1
    case OtherRunnable => 1
    case TaskRef(u) => Wrap32(u.priority - t.priority)
  }

  /** `TaskComparator.compare` over the code as written. */
  function CompareAsWritten(r1: Runnable, r2: Runnable): int
    requires WellFormed(r1) && WellFormed(r2)
  {
    if !r1.TaskRef? then (if !r2.TaskRef? then 0 else -1)
    else CompareToAsWritten(r1.task, r2)
  }

  /** With priorities 0 and `Integer.MIN_VALUE` each task compares as
      smaller than the other: the subtraction wraps to `MIN_VALUE` both
      ways, so the comparator is not antisymmetric. */
  lemma AsWrittenNotAntisymmetric()
    ensures var a, b := TaskRef(Task("a", 0, 0)), TaskRef(Task("b", 0, IntMin));
            CompareAsWritten(a, b) < 0 && CompareAsWritten(b, a) < 0
  {
  }

  /** With priorities `Integer.MIN_VALUE` and 1 the lowest-priority task is
      ordered first, although higher priorities should come first. */
  lemma AsWrittenMisordersExtremes()
    ensures var low, high := TaskRef(Task("low", 0, IntMin)), TaskRef(Task("high", 0, 1));
            CompareAsWritten(low, high) < 0 && CompareAsWritten(high, low) > 0
  {
  }

  /** `Integer.compare(y, x)`: the sign of `y - x` without overflow. */
  function CompareInts(x: int, y: int): int {
    if x < y then -1 else if x == y then 0 else 1
  }

  /** The comparator as documented: null and non-task runnables first (all
      equal), then tasks by descending priority. */
  function Compare(r1: Runnable, r2: Runnable): (r: int)
    ensures r < 0 <==> (!r1.TaskRef? && r2.TaskRef?) || (r1.TaskRef? && r2.TaskRef? && r1.task.priority > r2.task.priority)
    ensures r == 0 <==> (!r1.TaskRef? && !r2.TaskRef?) || (r1.TaskRef? && r2.TaskRef? && r1.task.priority == r2.task.priority)
  {
    if !r1.TaskRef? then (if !r2.TaskRef? then 0 else -1)
    else if !r2.TaskRef? then 1
    else CompareInts(r2.task.priority, r1.task.priority)
  }

  function Sign(x: int): int {
    if x < 0 then -1 else if x == 0 then 0 else 1
  }

  /** `Compare` is a total preorder: antisymmetric in sign and transitive. */
  lemma CompareIsOrder(a: Runnable, b: Runnable, c: Runnable)
    ensures Sign(Compare(a, b)) == -Sign(Compare(b, a))
    ensures Compare(a, b) <= 0 && Compare(b, c) <= 0 ==> Compare(a, c) <= 0
  {
  }

  /** The code as written agrees with the documented order whenever the
      difference of the priorities fits in an `int`. */
  lemma AsWrittenAgreesWithoutOverflow(r1: Runnable, r2: Runnable)
    requires WellFormed(r1) && WellFormed(r2)
    requires r1.TaskRef? && r2.TaskRef? ==> IsInt(r2.task.priority - r1.task.priority)
    ensures Sign(CompareAsWritten(r1, r2)) == Sign(Compare(r1, r2))
  {
  }
}

=== FILE: chain_executor.dfy ===
/** `ChainExecutor` (two revisions) and `ChainedWrappedInvoker`: an external
    executor runs a callback that makes the internal executor run the
    action, so that the two wrap their logic around the action in a nested
    way.

    A base executor is `Wrapper(id, calls, value)`: it records `Pre(id)`,
    runs the job it is given `calls` times, records `Post(id)` and, as a
    wrapped invoker, returns `value`. The observable behaviour is the trace
    of these events, and a `NullPointerException` where a null executor is
    called; a failure ends every enclosing wrapper's run at once. */
module ChainExecutor {
  import opened Results
  import opened JavaLang

  datatype Event = Pre(id: int) | Action | Post(id: int)

  datatype Executor =
    | Wrapper(id: int, calls: nat, value: int)
    | Chain(external: Option<Executor>, internal: Option<Executor>)

  /** The job an executor is asked to run: the action itself, or the
      callback `() -> internal.execute(action)` a chain hands to its
      external executor. */
  datatype Job = ActionJob | Callback(executor: Option<Executor>, inner: Job)

  /** `jutils` guards against a null external executor; the original
      revision (like `ChainedWrappedInvoker`) does not. */
  datatype Revision = NullGuarded | Unguarded

  /** The events recorded, and the exception that ended the run, if any. */
  datatype Outcome = Outcome(trace: seq<Event>, failure: Option<Throwable>)

  function Npe(): Throwable {
    NewUnchecked(NullPointerClass, None)
  }

  function ExecutorSize(e: Executor): nat {
    match e
    case Wrapper(_, _, _) => 1
    case Chain(ext, intl) => 1 + OptionSize(ext) + OptionSize(intl)
  }

  function OptionSize(e: Option<Executor>): nat {
    match e
    case None => 0
    case Some(x) => 1 + ExecutorSize(x)
  }

  function JobSize(j: Job): nat {
    match j
    case ActionJob => 0
    case Callback(e, inner) => 1 + OptionSize(e) + JobSize(inner)
  }

  /** `e.execute(job)`. */
  function Execute(rev: Revision, e: Executor, job: Job): (r: Outcome)
    decreases ExecutorSize(e) + JobSize(job), 2, 0
  {
    match e
    case Wrapper(id, calls, _) =>
      var body := Repeat(rev, job, calls);
      if body.failure.Some? then Outcome([Pre(id)] + body.trace, body.failure)
      else Outcome([Pre(id)] + body.trace + [Post(id)], None)
    case Chain(None, intl) =>
      if rev == NullGuarded then Run(rev, Callback(intl, job)) else Outcome([], Some(Npe()))
    case Chain(Some(ext), intl) =>
      assert ExecutorSize(e) == 2 + ExecutorSize(ext) + OptionSize(intl);
      Execute(rev, ext, Callback(intl, job))
  }

  /** Running a job once. */
  function Run(rev: Revision, job: Job): (r: Outcome)
    decreases JobSize(job), 0, 0
  {
    match job
    case ActionJob => Outcome([Action], None)
    case Callback(e, inner) =>
      if e.None? then Outcome([], Some(Npe())) else Execute(rev, e.value, inner)
  }

  /** Running a job `n` times, stopping at the first failure. */
  function Repeat(rev: Revision, job: Job, n: nat): (r: Outcome)
    ensures n == 0 ==> r == Outcome([], None)
    decreases JobSize(job), 1, n
  {
    if n == 0 then Outcome([], None)
    else
      var first := Run(rev, job);
      if first.failure.Some? then first
      else
        var rest := Repeat(rev, job, n - 1);
        Outcome(first.trace + rest.trace, rest.failure)
  }

  /** `new ChainExecutor(internal)`: no external executor. */
  function Single(internal: Executor): (c: Executor)
    ensures c.Chain? && c.external.None? && c.internal == Some(internal)
  {
    Chain(None, Some(internal))
  }

  /** `chain.wrap(external)`: a new chain around the receiver, which is not
      changed (it is a value). */
  function Wrap(chain: Executor, external: Executor): (c: Executor)
    ensures c.Chain? && c.external == Some(external) && c.internal == Some(chain)
  {
    Chain(Some(external), Some(chain))
  }

  /** `e` as a wrapper that runs its job once. */
  function Once(id: int): Executor {
    Wrapper(id, 1, 0)
  }

  /** `new ChainExecutor(Once(ids[0])).wrap(Once(ids[1]))...`. */
  function Stack(ids: seq<int>): Executor
    requires |ids| > 0
    decreases |ids|
  {
    if |ids| == 1 then Single(Once(ids[0])) else Wrap(Stack(ids[..|ids| - 1]), Once(ids[|ids| - 1]))
  }

  function Reverse<T>(s: seq<T>): (r: seq<T>)
    ensures |r| == |s|
    decreases |s|
  {
    if |s| == 0 then [] else Reverse(s[1..]) + [s[0]]
  }

  function Pres(ids: seq<int>): (r: seq<Event>)
    ensures |r| == |ids| && forall k :: 0 <= k < |ids| ==> r[k] == Pre(ids[k])
  {
    seq(|ids|, k requires 0 <= k < |ids| => Pre(ids[k]))
  }

  function Posts(ids: seq<int>): (r: seq<Event>)
    ensures |r| == |ids| && forall k :: 0 <= k < |ids| ==> r[k] == Post(ids[k])
  {
    seq(|ids|, k requires 0 <= k < |ids| => Post(ids[k]))
  }

  /** With a null guard, a stack built with `wrap` from `ids[0]` outwards
      runs the pre-logic from the last wrapper inwards, then the action,
      then the post-logic from the first wrapper outwards: `wrap(e1)
      .wrap(e2).wrap(e3)` is `e3(e2(e1(action)))`. */
  lemma {:induction false} StackNests(ids: seq<int>)
    requires |ids| > 0
    ensures Execute(NullGuarded, Stack(ids), ActionJob) == Outcome(Pres(Reverse(ids)) + [Action] + Posts(ids), None)
    decreases |ids|
  {
    if |ids| == 1 {
      assert Reverse(ids) == Reverse(ids[1..]) + [ids[0]] == [ids[0]];
      StackOfOne(ids[0]);
      assert Stack(ids) == Single(Once(ids[0]));
    } else {
      var init, last := ids[..|ids| - 1], ids[|ids| - 1];
      assert ids == init + [last];
      StackNests(init);
      assert Stack(ids) == Wrap(Stack(init), Once(last));
      WrapOnce(Stack(init), last);
      ReverseSnoc(init, last);
      assert Pres(Reverse(ids)) == [Pre(last)] + Pres(Reverse(init));
      assert Posts(ids) == Posts(init) + [Post(last)];
    }
  }

  /** A single wrapper around the action. */
  lemma StackOfOne(id: int)
    ensures Execute(NullGuarded, Single(Once(id)), ActionJob) == Outcome([Pre(id), Action, Post(id)], None)
  {
    var once := Once(id);
    assert Repeat(NullGuarded, ActionJob, 1) == Outcome([Action], None);
    assert Execute(NullGuarded, once, ActionJob) == Outcome([Pre(id)] + [Action] + [Post(id)], None);
    assert Execute(NullGuarded, Single(once), ActionJob) == Run(NullGuarded, Callback(Some(once), ActionJob));
  }

  /** One more wrapper around a chain that ends normally: its pre-logic
      before, its post-logic after what the chain traces. */
  lemma WrapOnce(chain: Executor, id: int)
    requires Execute(NullGuarded, chain, ActionJob).failure.None?
    ensures var inner := Execute(NullGuarded, chain, ActionJob);
            Execute(NullGuarded, Wrap(chain, Once(id)), ActionJob) == Outcome([Pre(id)] + inner.trace + [Post(id)], None)
  {
    var inner := Execute(NullGuarded, chain, ActionJob);
    var job := Callback(Some(chain), ActionJob);
    assert Run(NullGuarded, job) == inner;
    assert Repeat(NullGuarded, job, 1) == Outcome(inner.trace + [], None);
  }

  lemma {:induction false} ReverseSnoc<T>(s: seq<T>, x: T)
    ensures Reverse(s + [x]) == [x] + Reverse(s)
    decreases |s|
  {
    if |s| == 0 {
      assert Reverse([x]) == Reverse([x][1..]) + [x];
    } else {
      assert (s + [x])[1..] == s[1..] + [x];
      ReverseSnoc(s[1..], x);
    }
  }

  /** The three-executor example: pre-logic e3, e2, e1, the action, then
      post-logic e1, e2, e3. */
  lemma ThreeWrappersExample()
    ensures Execute(NullGuarded, Wrap(Wrap(Single(Once(1)), Once(2)), Once(3)), ActionJob).trace
            == [Pre(3), Pre(2), Pre(1), Action, Post(1), Post(2), Post(3)]
  {
    StackNests([1, 2, 3]);
    assert Stack([1, 2, 3]) == Wrap(Wrap(Single(Once(1)), Once(2)), Once(3)) by {
      assert [1, 2, 3][..2] == [1, 2];
      assert [1, 2][..1] == [1];
    }
    assert Reverse([1, 2, 3]) == [3, 2, 1] by {
      ReverseSnoc([1, 2], 3);
      ReverseSnoc([1], 2);
      assert Reverse([1]) == Reverse([1][1..]) + [1];
    }
  }

  /** How many times the action runs in a trace. */
  function ActionCount(t: seq<Event>): (n: nat)
    ensures n <= |t|
    decreases |t|
  {
    if |t| == 0 then 0 else (if t[0] == Action then 1 else 0) + ActionCount(t[1..])
  }

  lemma {:induction false} ActionCountAppend(a: seq<Event>, b: seq<Event>)
    ensures ActionCount(a + b) == ActionCount(a) + ActionCount(b)
    decreases |a|
  {
    if |a| == 0 {
      assert a + b == b;
    } else {
      assert (a + b)[1..] == a[1..] + b;
      ActionCountAppend(a[1..], b);
    }
  }

  /** Repeating a job that does not fail `n` times runs its action `n` times
      as often as one run does. */
  lemma {:induction false} RepeatCountsActions(rev: Revision, job: Job, n: nat)
    requires Run(rev, job).failure.None?
    ensures Repeat(rev, job, n).failure.None?
    ensures ActionCount(Repeat(rev, job, n).trace) == n * ActionCount(Run(rev, job).trace)
    decreases n
  {
    if n > 0 {
      var k := ActionCount(Run(rev, job).trace);
      RepeatCountsActions(rev, job, n - 1);
      ActionCountAppend(Run(rev, job).trace, Repeat(rev, job, n - 1).trace);
      assert n * k == k + (n - 1) * k;
    }
  }

  /** The action runs exactly as many times as the external executor calls
      back (times the runs of the internal executor), and not at all when
      the external executor never calls back. */
  lemma ActionRunsPerCallback(rev: Revision, id: int, calls: nat, value: int, internal: Executor)
    requires Execute(rev, internal, ActionJob).failure.None?
    ensures var r := Execute(rev, Chain(Some(Wrapper(id, calls, value)), Some(internal)), ActionJob);
            r.failure.None? && ActionCount(r.trace) == calls * ActionCount(Execute(rev, internal, ActionJob).trace)
            && (calls == 0 ==> r.trace == [Pre(id), Post(id)])
  {
    var job := Callback(Some(internal), ActionJob);
    RepeatCountsActions(rev, job, calls);
    var body := Repeat(rev, job, calls);
    ActionCountAppend([Pre(id)], body.trace);
    ActionCountAppend([Pre(id)] + body.trace, [Post(id)]);
  }

  /** Without the null guard, a chain with no external executor fails
      before anything runs; with it, the chain is its internal executor. */
  lemma NullExternal(internal: Executor, job: Job)
    ensures Execute(Unguarded, Chain(None, Some(internal)), job) == Outcome([], Some(Npe()))
    ensures Execute(NullGuarded, Chain(None, Some(internal)), job) == Execute(NullGuarded, internal, job)
  {
  }

  /** A chain's run starts with the external executor's pre-logic and, when
      nothing fails, ends with its post-logic: the external wrapping
      encloses the internal one. */
  lemma ExternalEncloses(rev: Revision, id: int, calls: nat, value: int, internal: Option<Executor>, job: Job)
    ensures var r := Execute(rev, Chain(Some(Wrapper(id, calls, value)), internal), job);
            |r.trace| >= 1 && r.trace[0] == Pre(id)
            && (r.failure.None? ==> |r.trace| >= 2 && r.trace[|r.trace| - 1] == Post(id))
  {
  }

  /** The two revisions agree on every chain that has an external executor
      at every level. */
  ghost predicate Guarded(e: Executor) {
    match e
    case Wrapper(_, _, _) => true
    case Chain(ext, intl) => ext.Some? && Guarded(ext.value) && (intl.Some? ==> Guarded(intl.value))
  }

  ghost predicate GuardedJob(j: Job) {
    match j
    case ActionJob => true
    case Callback(e, inner) => (e.Some? ==> Guarded(e.value)) && GuardedJob(inner)
  }

  lemma {:induction false} RevisionsAgree(e: Executor, job: Job)
    requires Guarded(e) && GuardedJob(job)
    ensures Execute(NullGuarded, e, job) == Execute(Unguarded, e, job)
    decreases ExecutorSize(e) + JobSize(job), 2, 0
  {
    match e
    case Wrapper(_, calls, _) => RepeatAgrees(job, calls);
    case Chain(Some(ext), intl) =>
      assert ExecutorSize(e) == 2 + ExecutorSize(ext) + OptionSize(intl);
      RevisionsAgree(ext, Callback(intl, job));
  }

  lemma {:induction false} RunAgrees(job: Job)
    requires GuardedJob(job)
    ensures Run(NullGuarded, job) == Run(Unguarded, job)
    decreases JobSize(job), 0, 0
  {
    match job
    case ActionJob =>
    case Callback(e, inner) => if e.Some? { RevisionsAgree(e.value, inner); }
  }

  lemma {:induction false} RepeatAgrees(job: Job, n: nat)
    requires GuardedJob(job)
    ensures Repeat(NullGuarded, job, n) == Repeat(Unguarded, job, n)
    decreases JobSize(job), 1, n
  {
    if n > 0 {
      RunAgrees(job);
      RepeatAgrees(job, n - 1);
    }
  }

  /** `ChainedWrappedInvoker.run(job)`: the same nesting as the unguarded
      chain; the value is the one the external invoker returns, and none
      when the run fails. */
  function Invoke(e: Executor, job: Job): (r: (Outcome, Option<int>))
    ensures r.0 == Execute(Unguarded, e, job)
    ensures r.1.Some? <==> r.0.failure.None?
    decreases ExecutorSize(e)
  {
    match e
    case Wrapper(_, _, v) =>
      var outcome := Execute(Unguarded, e, job);
      (outcome, if outcome.failure.None? then Some(v) else None)
    case Chain(None, _) => (Outcome([], Some(Npe())), None)
    case Chain(Some(ext), intl) =>
      assert ExecutorSize(e) == 2 + ExecutorSize(ext) + OptionSize(intl);
      Invoke(ext, Callback(intl, job))
  }

  /** The value of a chained invoker is its external invoker's, whatever the
      internal invoker is and returns. */
  lemma ExternalValueReturned(id: int, calls: nat, v: int, internal: Option<Executor>, job: Job)
    ensures var r := Invoke(Chain(Some(Wrapper(id, calls, v)), internal), job);
            r.0.failure.None? ==> r.1 == Some(v)
  {
  }
}

=== FILE: exception_utils.dfy ===
/** `ExceptionUtils.getRootCause`: follow `getCause()` until a throwable
    has no cause. Both revisions of the class have the same loop.

    A `Throwable` value holds its cause, so every cause chain is finite
    and acyclic by construction: the precondition the Java loop needs to
    terminate is built into the data model. */
module ExceptionUtils {
  import opened Results
  import opened JavaLang

  /** The throwables met by following causes from `ex`, `ex` first: an
      independent description of the chain the loop walks. */
  function CauseChain(ex: Throwable): (r: seq<Throwable>)
    ensures |r| >= 1 && r[0] == ex
    ensures r[|r| - 1].cause == None
    ensures forall i :: 0 <= i < |r| - 1 ==> r[i].cause == Some(r[i + 1])
    decreases ex
  {
    match ex.cause
    case None => [ex]
    case Some(c) => [ex] + CauseChain(c)
  }

  /** The root cause, by recursion on the cause. */
  function Root(ex: Throwable): (r: Throwable)
    ensures r.cause == None
    ensures ex.cause == None ==> r == ex
    decreases ex
  {
    match ex.cause
    case None => ex
    case Some(c) => Root(c)
  }

  /** `getRootCause(ex)`: the loop; a null argument fails on its first
      `getCause()`. */
  method GetRootCause(ex: Option<Throwable>) returns (r: Result<Throwable, Throwable>)
    ensures ex.None? ==> r.Failure? && IsInstance(r.error, NullPointerClass)
    ensures ex.Some? ==> r.Success? && r.value.cause == None
    ensures ex.Some? ==> r.value == CauseChain(ex.value)[|CauseChain(ex.value)| - 1]
    ensures ex.Some? && ex.value.cause == None ==> r == Success(ex.value)
  {
    if ex.None? {
      return Failure(NewUnchecked(NullPointerClass, None));
    }
    var current := ex.value;
    var cause := current.cause;
    while cause.Some?
      invariant cause == current.cause
      invariant Last(CauseChain(current)) == Last(CauseChain(ex.value))
      invariant ex.value.cause == None ==> current == ex.value
      decreases current
    {
      assert CauseChain(current) == [current] + CauseChain(cause.value);
      current := cause.value;
      cause := current.cause;
    }
    return Success(current);
  }

  function Last<T>(s: seq<T>): T
    requires |s| > 0
  {
    s[|s| - 1]
  }

  /** The recursive root is the last link of the cause chain. */
  lemma {:induction false} RootIsChainEnd(ex: Throwable)
    ensures Root(ex) == Last(CauseChain(ex))
    decreases ex
  {
    match ex.cause
    case None =>
    case Some(c) =>
      RootIsChainEnd(c);
      assert CauseChain(ex) == [ex] + CauseChain(c);
  }

  /** Every throwable on the chain has the same root cause: the root is
      reached from the input by following causes, from any point on the
      way. */
  lemma {:induction false} ChainSharesRoot(ex: Throwable, i: int)
    requires 0 <= i < |CauseChain(ex)|
    ensures Root(CauseChain(ex)[i]) == Root(ex)
    decreases ex
  {
    if i > 0 {
      var c := ex.cause.value;
      assert CauseChain(ex) == [ex] + CauseChain(c);
      ChainSharesRoot(c, i - 1);
    }
  }

  /** `getRootCause(getRootCause(ex)) == getRootCause(ex)`. */
  lemma RootIdempotent(ex: Throwable)
    ensures Root(Root(ex)) == Root(ex)
    ensures CauseChain(Root(ex)) == [Root(ex)]
  {
  }
}

=== FILE: java_lang.dfy ===
/** The few pieces of Java semantics the model needs spelled out: 32-bit
    `int` and 64-bit `long` wrap-around, truncating integer division,
    `Math.round`, and throwables with their class hierarchy and cause
    chain. */
module JavaLang {
  import opened Results

  const IntMin: int := -0x8000_0000
  const IntMax: int := 0x7FFF_FFFF
  const IntModulus: int := 0x1_0000_0000
  const LongMax: int := 0x7FFF_FFFF_FFFF_FFFF
  const LongMin: int := -0x8000_0000_0000_0000
  const LongModulus: int := 0x1_0000_0000_0000_0000

  predicate IsInt(x: int) {
    IntMin <= x <= IntMax
  }

  /** The value a Java `int` expression holds once the exact result `x`
      is reduced to 32 bits (two's complement). */
  function Wrap32(x: int): (r: int)
    ensures IsInt(r)
    ensures (x - r) % IntModulus == 0
    ensures IsInt(x) ==> r == x
    ensures IntMax < x <= IntMax + IntModulus ==> r == x - IntModulus
    ensures IntMin - IntModulus <= x < IntMin ==> r == x + IntModulus
  {
    (x - IntMin) % IntModulus + IntMin
  }

  predicate IsLong(x: int) {
    LongMin <= x <= LongMax
  }

  /** The value a Java `long` expression holds once the exact result `x`
      is reduced to 64 bits (two's complement). */
  function Wrap64(x: int): (r: int)
    ensures IsLong(r)
    ensures (x - r) % LongModulus == 0
    ensures IsLong(x) ==> r == x
    ensures LongMax < x <= LongMax + LongModulus ==> r == x - LongModulus
    ensures LongMin - LongModulus <= x < LongMin ==> r == x + LongModulus
  {
    (x - LongMin) % LongModulus + LongMin
  }

  function Abs(x: int): nat {
    if x < 0 then -x else x
  }

  /** Java's integer `/`: the quotient truncated toward zero. */
  function JavaDiv(a: int, b: int): (q: int)
    requires b != 0
    ensures Abs(q) * Abs(b) <= Abs(a) < (Abs(q) + 1) * Abs(b)
    ensures q != 0 ==> ((q > 0) <==> ((a > 0) == (b > 0)))
  {
    var m := Abs(a) / Abs(b);
    if (a >= 0) == (b > 0) then m else -m
  }

  /** `Math.round` of an exact value: the nearest integer, halves rounded up. */
  function MathRound(x: real): (r: int)
    ensures x - 1.0 / 2.0 < r as real <= x + 1.0 / 2.0
  {
    (x + 1.0 / 2.0).Floor
  }

  /** `Math.round(double)` of an exact value: the nearest integer, halves
      rounded up, saturated to the `long` range. */
  function RoundToLong(x: real): (r: int)
    ensures IsLong(r)
    ensures IsLong(MathRound(x)) ==> r == MathRound(x)
    ensures MathRound(x) > LongMax ==> r == LongMax
    ensures MathRound(x) < LongMin ==> r == LongMin
  {
    var n := MathRound(x);
    if n > LongMax then LongMax else if n < LongMin then LongMin else n
  }

  /** Java's integer `%`: the remainder takes the sign of the dividend. */
  function JavaRem(a: int, b: int): (r: int)
    requires b != 0
    ensures 0 <= a ==> r == a % Abs(b)
  {
    a - JavaDiv(a, b) * b
  }

  lemma DivStep(n: nat, m: int)
    requires 1 <= m
    ensures (n + m) / m == n / m + 1 && (n + m) % m == n % m
  {
    var q, r := n / m, n % m;
    assert n == q * m + r;
    assert n + m == (q + 1) * m + r;
    DivUnique(n + m, m, q + 1, r);
  }

  /** Euclidean division has one quotient and remainder. */
  lemma DivUnique(a: int, m: int, q: int, r: int)
    requires 1 <= m && 0 <= r < m && a == q * m + r
    ensures a / m == q && a % m == r
  {
    var q' := a / m;
    if q > q' {
      MulMonotone(q' + 1, q, m);
    } else if q < q' {
      MulMonotone(q + 1, q', m);
    }
  }

  lemma MulMonotone(x: int, y: int, m: int)
    requires x <= y && 0 <= m
    ensures x * m <= y * m
  {
  }

  function Min(a: int, b: int): int {
    if a <= b then a else b
  }

  function Max(a: int, b: int): int {
    if a >= b then a else b
  }

  /** How Java classifies a throwable: a checked exception, an unchecked
      one (a `RuntimeException`), or an `Error`. */
  datatype Kind = Checked | Unchecked | Fatal

  /** A throwable: its class, every class and interface it is an instance
      of, its kind, and its cause (null in Java is `None`). The cause chain
      is finite by construction. */
  datatype Throwable = Throwable(className: string, classes: set<string>, kind: Kind, cause: Option<Throwable>)

  /** `cls.isAssignableFrom(t.getClass())` / `cls.isInstance(t)`. */
  predicate IsInstance(t: Throwable, cls: string) {
    cls == t.className || cls in t.classes
  }

  /** Caught by `catch (Exception e)`. */
  predicate IsException(t: Throwable) {
    t.kind != Fatal
  }

  const RuntimeExceptionClass: string := "java.lang.RuntimeException"
  const IllegalArgumentClass: string := "java.lang.IllegalArgumentException"
  const InterruptedClass: string := "java.lang.InterruptedException"
  const NullPointerClass: string := "java.lang.NullPointerException"
  const ArithmeticClass: string := "java.lang.ArithmeticException"
  const StringIndexOutOfBoundsClass: string := "java.lang.StringIndexOutOfBoundsException"
  const NoSuchElementClass: string := "java.util.NoSuchElementException"
  const UncheckedInterruptedClass: string := "uk.ac.ebi.utils.exceptions.UncheckedInterruptedException"
  const UnexpectedEventClass: string := "uk.ac.ebi.utils.exceptions.UnexpectedEventException"

  /** The `InterruptedException` a sleeping or waiting thread gets. */
  const SleepInterrupted: Throwable :=
    Throwable(InterruptedClass, {InterruptedClass, "java.lang.Exception", "java.lang.Throwable"}, Checked, None)

  /** A freshly created unchecked exception of the given class. */
  function NewUnchecked(cls: string, cause: Option<Throwable>): (t: Throwable)
    ensures t.kind == Unchecked && IsInstance(t, cls) && IsInstance(t, RuntimeExceptionClass)
    ensures t.cause == cause
  {
    Throwable(cls, {cls, RuntimeExceptionClass, "java.lang.Exception", "java.lang.Throwable"}, Unchecked, cause)
  }

  /** How a piece of user code (a task, a `Runnable`) ends. */
  datatype Completion = Normal | Raised(ex: Throwable)
}

=== FILE: map_collection.dfy ===
/** `MapCollection`: a map seen as the collection of its values, an
    element `e` being stored under the key `keyFunc(e)`.

    The view is the base map itself (the collection owns no other state)
    and the key function is a parameter of every operation. Collections
    passed to the bulk operations are sequences in their iteration order;
    `c.contains(e)` is membership. Values are never null here. */
module MapCollection {
  import opened Results

  /** The key function returns different keys for different values (a
      Dafny function is deterministic by construction). */
  ghost predicate Injective<K(!new), V(!new)>(key: V -> K) {
    forall a, b :: key(a) == key(b) ==> a == b
  }

  /** Every entry of the base is stored under its own key, as `add`
      leaves it. */
  ghost predicate Keyed<K(!new), V(!new)>(base: map<K, V>, key: V -> K) {
    forall k :: k in base ==> key(base[k]) == k
  }

  /** `size()`: the number of entries of the base. */
  function Size<K(==,!new), V(==,!new)>(base: map<K, V>): (n: nat)
    ensures n == |base.Keys|
  {
    |base|
  }

  /** `isEmpty()`. */
  function IsEmpty<K(==,!new), V(==,!new)>(base: map<K, V>): (r: bool)
    ensures r <==> base == map[]
  {
    |base| == 0
  }

  /** `iterator()` and `toArray()`: the base's values, each entry giving
      one element (equal values under different keys are repeated). The
      iteration order is the base map's and is not modelled. */
  ghost function Elements<K(!new), V(!new)>(base: map<K, V>): (b: multiset<V>)
    ensures |b| == |base|
    ensures forall v :: v in b <==> v in base.Values
    decreases |base|
  {
    if |base| == 0 then multiset{}
    else
      var k :| k in base;
      var rest := base - {k};
      assert |rest| == |base| - 1 by {
        assert rest.Keys == base.Keys - {k};
      }
      assert forall v :: v in base.Values <==> v == base[k] || v in rest.Values by {
        forall v | v in base.Values ensures v == base[k] || v in rest.Values {
          var k' :| k' in base && base[k'] == v;
          if k' != k {
            assert rest[k'] == v;
          }
        }
      }
      multiset{base[k]} + Elements(rest)
  }

  /** `contains(o)`: the base has the key of `o`, whatever is stored
      under it. */
  function Contains<K(==,!new), V(==,!new)>(base: map<K, V>, key: V -> K, o: V): (r: bool)
    ensures r <==> key(o) in base.Keys
  {
    key(o) in base
  }

  /** In a keyed base with an injective key function, `contains` is
      membership among the values. */
  lemma ContainsIsMembership<K(!new), V(!new)>(base: map<K, V>, key: V -> K, o: V)
    requires Keyed(base, key) && Injective(key)
    ensures Contains(base, key, o) <==> o in base.Values
  {
    if key(o) in base {
      assert key(base[key(o)]) == key(o);
    }
    if o in base.Values {
      var k :| k in base && base[k] == o;
      assert key(o) == k;
    }
  }

  /** `add(e)`: `e` is stored under its key, replacing what was there; the
      result tells whether there was nothing or something not equal to `e`. */
  function Add<K(==,!new), V(==,!new)>(base: map<K, V>, key: V -> K, e: V): (r: (map<K, V>, bool))
    ensures r.0.Keys == base.Keys + {key(e)} && r.0[key(e)] == e
    ensures forall k :: k in base && k != key(e) ==> r.0[k] == base[k]
    ensures r.1 <==> key(e) !in base || base[key(e)] != e
  {
    var k := key(e);
    var previous := if k in base then Some(base[k]) else None;
    (base[k := e], previous.None? || previous.value != e)
  }

  /** `add` reports exactly the calls that change the base. */
  lemma AddReportsChange<K(!new), V(!new)>(base: map<K, V>, key: V -> K, e: V)
    ensures Add(base, key, e).1 <==> Add(base, key, e).0 != base
  {
    var r := Add(base, key, e);
    if !r.1 {
      assert r.0 == base;
    } else if key(e) in base {
      assert r.0[key(e)] != base[key(e)];
    }
  }

  /** In a keyed base with an injective key function, `add` reports exactly
      the elements not yet in the collection, and keeps the base keyed. */
  lemma AddKeyed<K(!new), V(!new)>(base: map<K, V>, key: V -> K, e: V)
    requires Keyed(base, key) && Injective(key)
    ensures Keyed(Add(base, key, e).0, key)
    ensures Add(base, key, e).1 <==> !Contains(base, key, e)
  {
    if key(e) in base {
      assert key(base[key(e)]) == key(e);
    }
  }

  /** `remove(o)`: the key of `o` is removed; the result tells whether a
      value was stored under it. */
  function Remove<K(==,!new), V(==,!new)>(base: map<K, V>, key: V -> K, o: V): (r: (map<K, V>, bool))
    ensures r.0.Keys == base.Keys - {key(o)}
    ensures forall k :: k in r.0 ==> r.0[k] == base[k]
    ensures r.1 <==> Contains(base, key, o)
  {
    var k := key(o);
    (base - {k}, k in base)
  }

  /** `remove` reports exactly the calls that change the base, and a
      removed element is no longer contained. */
  lemma RemoveReportsChange<K(!new), V(!new)>(base: map<K, V>, key: V -> K, o: V)
    ensures Remove(base, key, o).1 <==> Remove(base, key, o).0 != base
    ensures !Contains(Remove(base, key, o).0, key, o)
  {
    var r := Remove(base, key, o);
    if r.1 {
      assert key(o) !in r.0.Keys;
    }
  }

  /** Adding an element the collection does not contain and removing it
      again gives back the base. */
  lemma AddThenRemove<K(!new), V(!new)>(base: map<K, V>, key: V -> K, e: V)
    requires !Contains(base, key, e)
    ensures Remove(Add(base, key, e).0, key, e) == (base, true)
  {
    assert Remove(Add(base, key, e).0, key, e).0 == base;
  }

  /** `containsAll(c)`: every element of `c` is contained (the loop stops
      at the first that is not). */
  function ContainsAll<K(==,!new), V(==,!new)>(base: map<K, V>, key: V -> K, c: seq<V>): (r: bool)
    ensures r <==> forall i :: 0 <= i < |c| ==> key(c[i]) in base
    decreases |c|
  {
    if |c| == 0 then true
    else if !Contains(base, key, c[0]) then false
    else
      var rest := ContainsAll(base, key, c[1..]);
      assert forall i :: 1 <= i < |c| ==> c[i] == c[1..][i - 1];
      rest
  }

  /** `addAll(c)`: `add` on each element in turn; the result is the OR of
      the calls' results. */
  function AddAll<K(==,!new), V(==,!new)>(base: map<K, V>, key: V -> K, c: seq<V>): (r: (map<K, V>, bool))
    decreases |c|
  {
    if |c| == 0 then (base, false)
    else
      var first := Add(base, key, c[0]);
      var rest := AddAll(first.0, key, c[1..]);
      (rest.0, first.1 || rest.1)
  }

  /** The keys after `addAll`: the base's and those of the elements. */
  lemma {:induction false} AddAllKeys<K(!new), V(!new)>(base: map<K, V>, key: V -> K, c: seq<V>)
    ensures forall k :: k in AddAll(base, key, c).0 <==> k in base || exists i :: 0 <= i < |c| && key(c[i]) == k
    ensures forall i :: 0 <= i < |c| ==> Contains(AddAll(base, key, c).0, key, c[i])
    decreases |c|
  {
    if |c| > 0 {
      var first := Add(base, key, c[0]).0;
      AddAllKeys(first, key, c[1..]);
      var r := AddAll(base, key, c).0;
      forall k ensures k in r <==> k in base || exists i :: 0 <= i < |c| && key(c[i]) == k {
        if k in r && k !in base && k != key(c[0]) {
          var j :| 0 <= j < |c[1..]| && key(c[1..][j]) == k;
          assert key(c[j + 1]) == k;
        }
        if exists i :: 0 <= i < |c| && key(c[i]) == k {
          var i :| 0 <= i < |c| && key(c[i]) == k;
          if i > 0 {
            assert c[1..][i - 1] == c[i];
          }
        }
      }
      forall i | 0 <= i < |c| ensures key(c[i]) in r {
        if i > 0 {
          assert c[1..][i - 1] == c[i];
        }
      }
    }
  }

  /** With an injective key function on a keyed base, `addAll` adds
      exactly the elements of `c` to the collection, keeps the base keyed,
      and returns true exactly when some element was not contained before. */
  lemma {:induction false} AddAllKeyed<K(!new), V(!new)>(base: map<K, V>, key: V -> K, c: seq<V>)
    requires Keyed(base, key) && Injective(key)
    ensures Keyed(AddAll(base, key, c).0, key)
    ensures forall o :: o in AddAll(base, key, c).0.Values <==> o in base.Values || o in c
    ensures AddAll(base, key, c).1 <==> exists i :: 0 <= i < |c| && !Contains(base, key, c[i])
    decreases |c|
  {
    if |c| > 0 {
      var first := Add(base, key, c[0]);
      AddKeyed(base, key, c[0]);
      AddAllKeyed(first.0, key, c[1..]);
      var r := AddAll(base, key, c);
      forall o ensures o in r.0.Values <==> o in base.Values || o in c {
        ValuesOfAdd(base, key, c[0], o);
        assert o in c <==> o == c[0] || o in c[1..] by {
          assert c == [c[0]] + c[1..];
        }
      }
      ContainsAfterAdd(base, key, c);
    }
  }

  /** The values after one `add` on a keyed base. */
  lemma ValuesOfAdd<K(!new), V(!new)>(base: map<K, V>, key: V -> K, e: V, o: V)
    requires Keyed(base, key) && Injective(key)
    ensures o in Add(base, key, e).0.Values <==> o in base.Values || o == e
  {
    var m := Add(base, key, e).0;
    if o in base.Values {
      var k :| k in base && base[k] == o;
      assert key(o) == k;
      if k == key(e) {
        assert o == e;
      } else {
        assert m[k] == o;
      }
    }
    if o in m.Values {
      var k :| k in m && m[k] == o;
      if k != key(e) {
        assert base[k] == o;
      }
    }
    assert m[key(e)] == e;
  }

  /** The OR of `addAll` on a keyed base: after the first element, the
      later ones are missing from the grown base exactly when they were
      missing before and differ from the first. */
  lemma ContainsAfterAdd<K(!new), V(!new)>(base: map<K, V>, key: V -> K, c: seq<V>)
    requires Keyed(base, key) && Injective(key) && |c| > 0
    requires var first := Add(base, key, c[0]);
             AddAll(first.0, key, c[1..]).1 <==> exists i :: 0 <= i < |c[1..]| && !Contains(first.0, key, c[1..][i])
    ensures AddAll(base, key, c).1 <==> exists i :: 0 <= i < |c| && !Contains(base, key, c[i])
  {
    var first := Add(base, key, c[0]);
    AddKeyed(base, key, c[0]);
    if AddAll(base, key, c).1 && !first.1 {
      var i :| 0 <= i < |c[1..]| && !Contains(first.0, key, c[1..][i]);
      assert !Contains(base, key, c[i + 1]);
    }
    if exists i :: 0 <= i < |c| && !Contains(base, key, c[i]) {
      var i :| 0 <= i < |c| && !Contains(base, key, c[i]);
      if i > 0 && Contains(base, key, c[0]) {
        assert first.0 == base by {
          AddReportsChange(base, key, c[0]);
        }
        assert c[1..][i - 1] == c[i];
      }
    }
  }

  /** `removeAll(c)`: `remove` on each element in turn; the result is the
      OR of the calls' results. */
  function RemoveAll<K(==,!new), V(==,!new)>(base: map<K, V>, key: V -> K, c: seq<V>): (r: (map<K, V>, bool))
    ensures forall k :: k in r.0 <==> k in base && forall i :: 0 <= i < |c| ==> key(c[i]) != k
    ensures forall k :: k in r.0 ==> r.0[k] == base[k]
    ensures r.1 <==> exists i :: 0 <= i < |c| && Contains(base, key, c[i])
    decreases |c|
  {
    if |c| == 0 then (base, false)
    else
      var first := Remove(base, key, c[0]);
      var rest := RemoveAll(first.0, key, c[1..]);
      assert forall i :: 1 <= i < |c| ==> c[i] == c[1..][i - 1];
      assert rest.1 ==> exists i :: 0 <= i < |c| && Contains(base, key, c[i]) by {
        if rest.1 {
          var i :| 0 <= i < |c[1..]| && Contains(first.0, key, c[1..][i]);
          assert Contains(base, key, c[i + 1]);
        }
      }
      (rest.0, first.1 || rest.1)
  }

  /** `removeAll` reports exactly the calls that change the base. */
  lemma RemoveAllReportsChange<K(!new), V(!new)>(base: map<K, V>, key: V -> K, c: seq<V>)
    ensures RemoveAll(base, key, c).1 <==> RemoveAll(base, key, c).0 != base
  {
    var r := RemoveAll(base, key, c);
    if r.1 {
      var i :| 0 <= i < |c| && Contains(base, key, c[i]);
      assert key(c[i]) !in r.0;
    } else {
      assert r.0.Keys == base.Keys;
    }
  }

  /** `retainAll(c)`: the entries whose value is not in `c` are removed;
      the result tells whether any was. */
  function RetainAll<K(==,!new), V(==,!new)>(base: map<K, V>, c: seq<V>): (r: (map<K, V>, bool))
    ensures forall k :: k in r.0 <==> k in base && base[k] in c
    ensures forall k :: k in r.0 ==> r.0[k] == base[k]
    ensures r.1 <==> exists k :: k in base && base[k] !in c
  {
    var kept := map k | k in base && base[k] in c :: base[k];
    (kept, exists k :: k in base && base[k] !in c)
  }

  /** `retainAll` reports exactly the calls that change the base, and on a
      keyed base what is left is contained in `c` and keyed. */
  lemma RetainAllMeaning<K(!new), V(!new)>(base: map<K, V>, key: V -> K, c: seq<V>)
    ensures RetainAll(base, c).1 <==> RetainAll(base, c).0 != base
    ensures forall o :: o in RetainAll(base, c).0.Values <==> o in base.Values && o in c
    ensures Keyed(base, key) ==> Keyed(RetainAll(base, c).0, key)
  {
    var r := RetainAll(base, c);
    if r.1 {
      var k :| k in base && base[k] !in c;
      assert k !in r.0;
    } else {
      assert r.0.Keys == base.Keys;
    }
    forall o ensures o in r.0.Values <==> o in base.Values && o in c {
      if o in base.Values && o in c {
        var k :| k in base && base[k] == o;
        assert r.0[k] == o;
      }
      if o in r.0.Values {
        var k :| k in r.0 && r.0[k] == o;
        assert base[k] == o;
      }
    }
  }

  /** `clear()`: an empty base. */
  function Clear<K(==,!new), V(==,!new)>(base: map<K, V>): (r: map<K, V>)
    ensures Size(r) == 0 && IsEmpty(r)
  {
    map[]
  }
}

=== FILE: multiple_attempts.dfy ===
/** `MultipleAttemptsExecutor`: runs an action up to `maxAttempts` times,
    re-attempting only after unchecked exceptions of one of the intercepted
    classes, with a random pause after each intercepted failure.

    The action is an oracle giving the outcome of each attempt; the random
    pause lengths and the thread interruptions during pauses are oracles as
    well. `intercepted` is `None` when the array of intercepted classes is
    null. */
module MultipleAttempts {
  import opened Results
  import opened JavaLang

  datatype Config = Config(maxAttempts: int, minPauseTime: int, maxPauseTime: int, intercepted: Option<seq<string>>)

  /** What the world supplies: the outcome of attempt `i`, a free choice
      behind the random pause after attempt `i`, and whether that pause is
      interrupted. */
  datatype Environment = Environment(action: nat -> Completion, choice: nat -> int, interrupted: nat -> bool)

  /** How a call ends: the attempts run, the pauses taken (in ms) and the
      outcome seen by the caller. */
  datatype Attempts = Attempts(runs: nat, pauses: seq<int>, outcome: Completion)

  /** The constructor without numbers: 3 attempts, pauses of 0 to 3000 ms. */
  function DefaultConfig(intercepted: seq<string>): (c: Config)
    ensures c.maxAttempts == 3 && c.minPauseTime == 0 && c.maxPauseTime == 3000
    ensures c.intercepted == Some(intercepted)
  {
    Config(3, 0, 3000, Some(intercepted))
  }

  predicate Intercepts(classes: seq<string>, ex: Throwable) {
    exists j :: 0 <= j < |classes| && IsInstance(ex, classes[j])
  }

  /** An attempt whose failure leads to a pause and, attempts permitting, to
      another attempt. */
  predicate Retryable(c: Config, outcome: Completion) {
    outcome.Raised? && outcome.ex.kind == Unchecked && c.intercepted.Some? && Intercepts(c.intercepted.value, outcome.ex)
  }

  /** Pausing is skipped unless the maximum exceeds the minimum, as the
      `long` difference `maxPauseTime - minPauseTime` says. */
  predicate Pauses(c: Config) {
    Wrap64(c.maxPauseTime - c.minPauseTime) > 0
  }

  /** The exclusive end of the random pause, `maxPauseTime + 1` as a `long`. */
  function PauseEnd(c: Config): (e: int)
    ensures c.maxPauseTime < LongMax && IsLong(c.maxPauseTime) ==> e == c.maxPauseTime + 1
    ensures c.maxPauseTime == LongMax ==> e == LongMin
  {
    Wrap64(c.maxPauseTime + 1)
  }

  /** `RandomUtils.nextLong` refuses the range: a negative start, or an end
      before the start. */
  predicate PauseRejected(c: Config) {
    c.minPauseTime < 0 || PauseEnd(c) < c.minPauseTime
  }

  /** The pause after attempt `i` ends the call: `RandomUtils.nextLong`
      refuses its range, or the sleep is interrupted. */
  predicate PauseFails(c: Config, env: Environment, i: nat) {
    Pauses(c) && (PauseRejected(c) || env.interrupted(i))
  }

  /** The outer handler: an `InterruptedException` becomes an
      `UncheckedInterruptedException` with it as cause; everything else
      passes unchanged. */
  function Uninterrupted(ex: Throwable): (r: Throwable)
    ensures IsInstance(ex, InterruptedClass) ==> IsInstance(r, UncheckedInterruptedClass) && r.cause == Some(ex)
    ensures !IsInstance(ex, InterruptedClass) ==> r == ex
  {
    if IsInstance(ex, InterruptedClass) then NewUnchecked(UncheckedInterruptedClass, Some(ex)) else ex
  }

  /** How an attempt that is not followed by another one ends the call: a
      runtime exception is rethrown as it is (it cannot be an
      `InterruptedException`), anything else goes through the outer
      handler. */
  function Final(outcome: Completion): Completion {
    if outcome.Raised? && outcome.ex.kind != Unchecked then Raised(Uninterrupted(outcome.ex)) else outcome
  }

  /** The attempt loop from attempt `i` with `left` attempts to go; `last` is
      the last intercepted exception. */
  function Loop(c: Config, env: Environment, i: nat, left: int, last: Option<Throwable>): (r: Attempts)
    ensures i <= r.runs <= i + Max(left, 0)
    ensures left <= 0 ==> r.runs == i
    ensures forall j :: i <= j < r.runs - 1 ==> Retryable(c, env.action(j)) && !PauseFails(c, env, j)
    ensures forall k :: 0 <= k < |r.pauses| ==> 0 <= c.minPauseTime <= r.pauses[k]
    ensures IsLong(c.maxPauseTime) ==> forall k :: 0 <= k < |r.pauses| ==> r.pauses[k] <= c.maxPauseTime
    ensures !Pauses(c) ==> r.pauses == []
    decreases Max(left, 0)
  {
    if left <= 0 then
      Attempts(i, [], if last.Some? then Raised(last.value) else Normal)
    else
      var outcome := env.action(i);
      if outcome.Normal? || outcome.ex.kind != Unchecked then
        Attempts(i + 1, [], Final(outcome))
      else if c.intercepted.None? then
        Attempts(i + 1, [], Raised(NewUnchecked(NullPointerClass, None)))
      else if !Intercepts(c.intercepted.value, outcome.ex) then
        Attempts(i + 1, [], outcome)
      else if !Pauses(c) then
        Loop(c, env, i + 1, left - 1, Some(outcome.ex))
      else if PauseRejected(c) then
        Attempts(i + 1, [], Raised(NewUnchecked(IllegalArgumentClass, None)))
      else if env.interrupted(i) then
        Attempts(i + 1, [], Raised(Uninterrupted(SleepInterrupted)))
      else
        var end := PauseEnd(c);
        var pause := if end == c.minPauseTime then end else c.minPauseTime + env.choice(i) % (end - c.minPauseTime);
        var r := Loop(c, env, i + 1, left - 1, Some(outcome.ex));
        r.(pauses := [pause] + r.pauses)
  }

  /** `executeChecked(action)`. */
  function ExecuteChecked(c: Config, env: Environment): (r: Attempts)
    ensures r.runs <= Max(c.maxAttempts, 0)
    ensures r.runs == 0 <==> c.maxAttempts <= 0
    ensures r.runs == 0 ==> r.outcome == Normal
  {
    Loop(c, env, 0, c.maxAttempts, None)
  }

  /** `execute(action)`: unchecked exceptions and errors pass, a checked
      exception is wrapped into a `RuntimeException`. */
  function Execute(c: Config, env: Environment): (r: Attempts)
    ensures r.runs == ExecuteChecked(c, env).runs && r.pauses == ExecuteChecked(c, env).pauses
    ensures r.outcome.Raised? ==> r.outcome.ex.kind != Checked
    ensures r.outcome.Raised? && r.outcome.ex.kind == Fatal ==> r.outcome == ExecuteChecked(c, env).outcome
  {
    var r := ExecuteChecked(c, env);
    if r.outcome.Raised? && r.outcome.ex.kind == Checked then
      r.(outcome := Raised(NewUnchecked(RuntimeExceptionClass, Some(r.outcome.ex))))
    else r
  }

  /** The calls in which no pause can end the call early. */
  ghost predicate PausesSucceed(c: Config, env: Environment) {
    !Pauses(c) || (!PauseRejected(c) && forall i :: !env.interrupted(i))
  }

  /** With pauses that cannot fail, a loop that ends before its attempts
      run out ends at an attempt that is not retryable, with that attempt's
      outcome (an interruption mapped). */
  lemma {:induction false} LoopStopsAtFirstNonRetryable(c: Config, env: Environment, i: nat, left: int, last: Option<Throwable>)
    requires PausesSucceed(c, env) && c.intercepted.Some?
    ensures var r := Loop(c, env, i, left, last);
            r.runs < i + left ==> r.runs > i && !Retryable(c, env.action(r.runs - 1))
                                  && r.outcome == Final(env.action(r.runs - 1))
    decreases Max(left, 0)
  {
    if left > 0 && Retryable(c, env.action(i)) {
      if Pauses(c) {
        assert !env.interrupted(i);
      }
      LoopStopsAtFirstNonRetryable(c, env, i + 1, left - 1, Some(env.action(i).ex));
    }
  }

  /** With pauses that cannot fail, a loop that uses all its attempts ends
      with the last attempt's outcome, or rethrows the last intercepted
      exception unchanged. */
  lemma {:induction false} LoopExhausted(c: Config, env: Environment, i: nat, left: int, last: Option<Throwable>)
    requires PausesSucceed(c, env) && c.intercepted.Some? && 0 < left
    ensures var r := Loop(c, env, i, left, last);
            r.runs == i + left ==>
              if Retryable(c, env.action(i + left - 1)) then r.outcome == env.action(i + left - 1)
              else r.outcome == Final(env.action(i + left - 1))
    decreases left
  {
    if left > 1 && Retryable(c, env.action(i)) {
      if Pauses(c) {
        assert !env.interrupted(i);
      }
      LoopExhausted(c, env, i + 1, left - 1, Some(env.action(i).ex));
    }
  }

  /** With pauses that cannot fail and are on, one pause follows every
      retryable attempt run. */
  lemma {:induction false} LoopPauseCount(c: Config, env: Environment, i: nat, left: int, last: Option<Throwable>)
    requires PausesSucceed(c, env) && c.intercepted.Some? && Pauses(c)
    ensures var r := Loop(c, env, i, left, last);
            (r.runs == i ==> r.pauses == [])
            && (r.runs > i ==> |r.pauses| == (if Retryable(c, env.action(r.runs - 1)) then r.runs - i else r.runs - i - 1))
    decreases Max(left, 0)
  {
    if left > 0 && Retryable(c, env.action(i)) {
      assert !env.interrupted(i);
      LoopPauseCount(c, env, i + 1, left - 1, Some(env.action(i).ex));
    }
  }

  /** One run and a normal return when the first attempt succeeds. */
  lemma FirstSuccessRunsOnce(c: Config, env: Environment)
    requires c.maxAttempts > 0 && env.action(0) == Normal
    ensures ExecuteChecked(c, env) == Attempts(1, [], Normal)
  {
  }

  /** Every attempt failing with an intercepted exception: exactly
      `maxAttempts` runs, a pause after each when pauses are on, and the
      last exception rethrown as it is. */
  lemma {:induction false} AllInterceptedRethrowsLast(c: Config, env: Environment)
    requires c.maxAttempts > 0 && PausesSucceed(c, env) && c.intercepted.Some?
    requires forall i :: 0 <= i < c.maxAttempts ==> Retryable(c, env.action(i))
    ensures var r := ExecuteChecked(c, env);
            r.runs == c.maxAttempts && r.outcome == env.action(c.maxAttempts - 1)
            && (Pauses(c) ==> |r.pauses| == c.maxAttempts)
  {
    LoopStopsAtFirstNonRetryable(c, env, 0, c.maxAttempts, None);
    LoopExhausted(c, env, 0, c.maxAttempts, None);
    if Pauses(c) {
      LoopPauseCount(c, env, 0, c.maxAttempts, None);
    }
  }

  /** A runtime exception outside the intercepted classes ends the call at
      once and reaches the caller unchanged. */
  lemma NotInterceptedRethrownAtOnce(c: Config, env: Environment)
    requires c.maxAttempts > 0 && c.intercepted.Some?
    requires env.action(0).Raised? && env.action(0).ex.kind == Unchecked
    requires !Intercepts(c.intercepted.value, env.action(0).ex)
    ensures ExecuteChecked(c, env) == Attempts(1, [], env.action(0))
  {
  }

  /** Two intercepted failures then a success: three runs, a normal end. */
  lemma ThirdAttemptSucceeds(c: Config, env: Environment)
    requires c.maxAttempts >= 3 && PausesSucceed(c, env) && c.intercepted.Some?
    requires Retryable(c, env.action(0)) && Retryable(c, env.action(1)) && env.action(2) == Normal
    ensures ExecuteChecked(c, env).runs == 3 && ExecuteChecked(c, env).outcome == Normal
  {
    if Pauses(c) {
      assert !env.interrupted(0) && !env.interrupted(1);
    }
    var last := Some(env.action(1).ex);
    assert Loop(c, env, 2, c.maxAttempts - 2, last) == Attempts(3, [], Normal);
    assert Loop(c, env, 1, c.maxAttempts - 1, Some(env.action(0).ex)).runs == 3;
  }

  /** A checked exception from the action is never re-attempted. */
  lemma CheckedEscapesAtOnce(c: Config, env: Environment)
    requires c.maxAttempts > 0 && env.action(0).Raised? && env.action(0).ex.kind == Checked
    ensures ExecuteChecked(c, env).runs == 1
    ensures ExecuteChecked(c, env).outcome == Raised(Uninterrupted(env.action(0).ex))
  {
  }

  /** The `long` difference `maxPauseTime - minPauseTime` wraps: with a
      minimum of -1 and a maximum of `Long.MAX_VALUE` it is negative, so no
      pause is taken and the negative minimum is never refused. Every
      attempt runs and the last exception is rethrown. */
  lemma WideRangeSkipsPause(env: Environment, classes: seq<string>)
    requires forall i :: 0 <= i < 3 ==> Retryable(Config(3, -1, LongMax, Some(classes)), env.action(i))
    ensures var r := ExecuteChecked(Config(3, -1, LongMax, Some(classes)), env);
            r.runs == 3 && r.pauses == [] && r.outcome == env.action(2)
  {
    var c := Config(3, -1, LongMax, Some(classes));
    assert Wrap64(LongMax - -1) == LongMin;
    AllInterceptedRethrowsLast(c, env);
  }

  /** `maxPauseTime + 1` wraps: with a maximum of `Long.MAX_VALUE` the end of
      the random range is `Long.MIN_VALUE`, which `nextLong` refuses, so the
      first intercepted failure ends the call with an
      `IllegalArgumentException`. */
  lemma LongMaxPauseRejected(env: Environment, classes: seq<string>)
    requires Retryable(Config(3, 0, LongMax, Some(classes)), env.action(0))
    ensures ExecuteChecked(Config(3, 0, LongMax, Some(classes)), env)
            == Attempts(1, [], Raised(NewUnchecked(IllegalArgumentClass, None)))
  {
    var c := Config(3, 0, LongMax, Some(classes));
    assert Pauses(c) && PauseRejected(c);
  }
}

=== FILE: object_store.dfy ===
/** `ObjectStore`: objects filed under a type and a key, with a running
    count of the entries. A `null` value is `None`; storing it deletes the
    entry. */
module ObjectStore {
  import opened Results

  /** The type → (key → value) map and the `size` counter. */
  datatype Store<T, K, V> = Store(types: map<T, map<K, V>>, size: int)

  /** A new store (see `NewStoreIsEmpty`). */
  function NewStore<T(==,!new), K(==,!new), V>(): Store<T, K, V> {
    Store(map[], 0)
  }

  /** A new store holds no type, and its counter matches its zero
      entries. */
  lemma NewStoreIsEmpty<T(!new), K(!new), V>(s: Store<T, K, V>)
    requires s == NewStore()
    ensures Consistent(s) && s.types == map[] && s.size == 0
  {
  }

  /** The (type, key) pairs that hold a value. */
  ghost function Entries<T(!new), K(!new), V>(types: map<T, map<K, V>>): set<(T, K)> {
    set t, k | t in types && k in types[t] :: (t, k)
  }

  /** The counter is the number of stored entries. */
  ghost predicate Consistent<T(!new), K(!new), V>(s: Store<T, K, V>) {
    s.size == |Entries(s.types)|
  }

  /** `get(type, key)`: the stored value, `None` for an unknown type or key. */
  function Get<T(==,!new), K(==,!new), V>(s: Store<T, K, V>, t: T, k: K): (r: Option<V>)
    ensures r.Some? <==> t in s.types && k in s.types[t]
  {
    if t in s.types && k in s.types[t] then Some(s.types[t][k]) else None
  }

  /** `put(type, key, value)`. An unseen type first gets an empty key map
      (even when the value is null); a null value removes the key, a value
      replaces or adds it. The counter grows only on a new key and drops
      only when a present key is removed (and never below 0). */
  function Put<T(==,!new), K(==,!new), V>(s: Store<T, K, V>, t: T, k: K, v: Option<V>): (r: Store<T, K, V>)
    ensures Get(r, t, k) == v
    ensures forall t', k' :: t' != t || k' != k ==> Get(r, t', k') == Get(s, t', k')
    ensures r.types.Keys == s.types.Keys + {t}
  {
    var inner := if t in s.types then s.types[t] else map[];
    match v
    case None =>
      if k in inner then Store(s.types[t := inner - {k}], if s.size > 0 then s.size - 1 else s.size)
      else Store(s.types[t := inner], s.size)
    case Some(x) =>
      Store(s.types[t := inner[k := x]], if k in inner then s.size else s.size + 1)
  }

  /** `remove(type)`: the type's key map is cleared (the type itself stays
      known) and its entry count is subtracted; an unknown type changes
      nothing. */
  function RemoveType<T(==,!new), K(==,!new), V>(s: Store<T, K, V>, t: T): (r: Store<T, K, V>)
    ensures forall k :: Get(r, t, k).None?
    ensures forall t', k' :: t' != t ==> Get(r, t', k') == Get(s, t', k')
    ensures r.types.Keys == s.types.Keys
  {
    if t !in s.types then s
    else Store(s.types[t := map[]], s.size - |s.types[t]|)
  }

  /** `types()`: every type ever used in a `put`. */
  function Types<T(==,!new), K(==,!new), V>(s: Store<T, K, V>): (r: set<T>)
    ensures forall t, k :: Get(s, t, k).Some? ==> t in r
  {
    s.types.Keys
  }

  /** `typeKeys(type)`: null for a type never used, else the keys holding a
      value. */
  function TypeKeys<T(==,!new), K(==,!new), V>(s: Store<T, K, V>, t: T): (r: Option<set<K>>)
    ensures r.None? <==> t !in Types(s)
    ensures r.Some? ==> forall k :: k in r.value <==> Get(s, t, k).Some?
  {
    if t in s.types then Some(s.types[t].Keys) else None
  }

  /** `values(type)`, never null: the values of the type's entries, each
      kept with its key so that repeated values stay apart; empty for an
      unknown type. */
  function Values<T(==,!new), K(==,!new), V>(s: Store<T, K, V>, t: T): (r: map<K, V>)
    ensures forall k :: Get(s, t, k) == (if k in r then Some(r[k]) else None)
    ensures t !in Types(s) ==> r == map[]
  {
    if t in s.types then s.types[t] else map[]
  }

  /** The counter equals the number of entries after every `put`: one more
      for a new key, one less for a removed key, the same otherwise. */
  lemma PutKeepsConsistent<T(!new), K(!new), V>(s: Store<T, K, V>, t: T, k: K, v: Option<V>)
    requires Consistent(s)
    ensures Consistent(Put(s, t, k, v))
    ensures Put(s, t, k, v).size == s.size + (if v.Some? && Get(s, t, k).None? then 1
                                              else if v.None? && Get(s, t, k).Some? then -1 else 0)
  {
    var before := Entries(s.types);
    PutEntries(s, t, k, v);
    InEntries(s.types, (t, k));
    if v.Some? && Get(s, t, k).None? {
      assert (t, k) !in before;
    } else if v.None? && Get(s, t, k).Some? {
      assert (t, k) in before;
    }
  }

  /** The entries after a `put`: the pair added for a value, taken away for
      null, every other pair kept. */
  lemma PutEntries<T(!new), K(!new), V>(s: Store<T, K, V>, t: T, k: K, v: Option<V>)
    ensures Entries(Put(s, t, k, v).types) == if v.Some? then Entries(s.types) + {(t, k)} else Entries(s.types) - {(t, k)}
  {
    var r := Put(s, t, k, v);
    var before := Entries(s.types);
    var after := Entries(r.types);
    forall p | p != (t, k) ensures p in after <==> p in before {
      InEntries(s.types, p);
      InEntries(r.types, p);
      assert Get(r, p.0, p.1) == Get(s, p.0, p.1);
    }
    InEntries(r.types, (t, k));
  }

  lemma InEntries<T(!new), K(!new), V>(types: map<T, map<K, V>>, p: (T, K))
    ensures p in Entries(types) <==> p.0 in types && p.1 in types[p.0]
  {
  }

  /** The pairs of one type. */
  ghost function TypePairs<T(!new), K(!new)>(t: T, ks: set<K>): set<(T, K)> {
    set k | k in ks :: (t, k)
  }

  lemma {:induction false} TypePairsCount<T(!new), K(!new)>(t: T, ks: set<K>)
    ensures |TypePairs(t, ks)| == |ks|
    decreases |ks|
  {
    if ks != {} {
      var x :| x in ks;
      TypePairsCount(t, ks - {x});
      assert TypePairs(t, ks) == TypePairs(t, ks - {x}) + {(t, x)};
    } else {
      assert TypePairs(t, ks) == {};
    }
  }

  /** `remove(type)` takes exactly the type's entries off the counter. */
  lemma RemoveTypeKeepsConsistent<T(!new), K(!new), V>(s: Store<T, K, V>, t: T)
    requires Consistent(s)
    ensures Consistent(RemoveType(s, t))
    ensures RemoveType(s, t).size == s.size - (if t in s.types then |s.types[t]| else 0)
  {
    if t in s.types {
      var r := RemoveType(s, t);
      var gone := TypePairs(t, s.types[t].Keys);
      assert Entries(r.types) == Entries(s.types) - gone;
      assert gone <= Entries(s.types);
      TypePairsCount(t, s.types[t].Keys);
    }
  }

  /** Deleting twice is deleting once. */
  lemma DeleteIdempotent<T(!new), K(!new), V>(s: Store<T, K, V>, t: T, k: K)
    ensures Put(Put(s, t, k, None), t, k, None) == Put(s, t, k, None)
  {
    var once := Put(s, t, k, None);
    assert k !in once.types[t];
  }

  /** A `put` of null on a type never seen makes the type known, with no
      keys. */
  lemma NullPutCreatesType<T(!new), K(!new), V>(s: Store<T, K, V>, t: T, k: K)
    requires t !in Types(s)
    ensures TypeKeys(Put(s, t, k, None), t) == Some({})
    ensures Put(s, t, k, None).size == s.size
  {
    var r := Put(s, t, k, None);
    assert r.types[t] == map[];
    assert r.types[t].Keys == {};
  }

  /** The size checks of the store's unit test: three entries; a removal;
      removals of absent keys (also under an unknown type) and a repeated
      removal leave the size alone; a removal from an empty store leaves 0. */
  lemma SizeExample()
    ensures var s0 := Put(Put(Put(NewStore(), "type1", 1, Some("Object 1.1")), "type2", 1, Some("Object 2.1")),
                          "type1", 2, Some("Object 1.2"));
            var s1 := Put(s0, "type1", 1, None);
            var s2 := Put(s1, "type1", 100, None);
            var s3 := Put(s2, "type11", 100, None);
            var s4 := Put(s3, "type1", 1, None);
            s0.size == 3 && s1.size == 2 && s2.size == 2 && s3.size == 2 && s4.size == 2
            && Get(s0, "type2", 1) == Some("Object 2.1") && Get(s1, "type1", 1).None?
    ensures Put(NewStore<int, int, string>(), 1, 2, None).size == 0
  {
  }
}

=== FILE: pool_size_tuner.dfy ===
/** The periodic thread-pool optimiser of `PoolSizeTuner`: every period it
    compares the throughput (tasks completed since the previous run) with
    the previous one and grows, shrinks or averages the pool size.

    The timer is abstracted away: `Tick` is one execution of the monitoring
    step, given the completed-task counter and the pool size it reads. The
    sizes it would set are returned in order (the step may set the size
    twice). */
module PoolSizeTuner {
  import opened Results
  import opened JavaLang

  /** The tuning parameters. `tolerance` is the relative throughput change
      below which nothing is done. */
  datatype Config = Config(minThreads: int, maxThreads: int, maxThreadIncr: int, minThreadIncr: int,
                           tolerance: real, periodMsecs: int)

  /** The field initialisers: 5..200 threads, steps of 5..50, 10% tolerance,
      a five-minute period. */
  function DefaultConfig(): (c: Config)
    ensures ValidConfig(c) && IntConfig(c) && NoOverflow(c) && 0 <= c.minThreadIncr
  {
    Config(5, 200, 50, 5, 10.0 / 100.0, 5 * 60 * 1000)
  }

  datatype Tuner = Tuner(config: Config, threadIncr: int, prevThreadPoolSize: int, prevThroughput: int,
                         prevCompletedTasks: int, active: bool)

  /** A tuner as constructed: not active, all counters zero. */
  function NewTuner(config: Config): Tuner {
    Tuner(config, 0, 0, 0, 0, false)
  }

  /** The parameter a failed validation complains about. */
  datatype Violation = MinThreadsNotPositive | MaxThreadsBelowMin | MaxIncrNotPositive | MaxIncrBelowMinIncr
                     | PeriodNotPositive

  /** The configuration fields are Java `int`s. */
  predicate IntConfig(c: Config) {
    IsInt(c.minThreads) && IsInt(c.maxThreads) && IsInt(c.maxThreadIncr) && IsInt(c.minThreadIncr) && IsInt(c.periodMsecs)
  }

  /** The configurations for which no `int` sum of the monitoring step can
      wrap: a size up to `maxThreads` plus a step up to `maxThreadIncr`, and
      twice such a step, stay below `Integer.MAX_VALUE`. */
  predicate NoOverflow(c: Config) {
    c.maxThreads + c.maxThreadIncr <= IntMax && 2 * c.maxThreadIncr <= IntMax
  }

  /** What a valid configuration is, stated at once. */
  predicate ValidConfig(c: Config) {
    0 < c.minThreads <= c.maxThreads && 0 < c.maxThreadIncr && c.minThreadIncr <= c.maxThreadIncr && 0 < c.periodMsecs
  }

  /** `validateParameters`: the checks in order, the first failing one
      reported. */
  function Validate(c: Config): (r: Option<Violation>)
    ensures r.None? <==> ValidConfig(c)
    ensures r == Some(MinThreadsNotPositive) <==> c.minThreads <= 0
    ensures r == Some(PeriodNotPositive) ==> ValidConfig(c.(periodMsecs := 1))
  {
    if c.minThreads <= 0 then Some(MinThreadsNotPositive)
    else if c.maxThreads < c.minThreads then Some(MaxThreadsBelowMin)
    else if c.maxThreadIncr <= 0 then Some(MaxIncrNotPositive)
    else if c.maxThreadIncr < c.minThreadIncr then Some(MaxIncrBelowMinIncr)
    else if c.periodMsecs <= 0 then Some(PeriodNotPositive)
    else None
  }

  /** The first step `initVariables` sets: a third of the `int` sum of the
      step bounds, rounded. When the sum passes `Integer.MAX_VALUE` it wraps
      to a negative value, and so does the step; either way the step is no
      larger than `maxThreadIncr`. The code divides by `3.0f`, in `float`;
      here the third is exact before `Math.round`. */
  function InitialIncr(c: Config): (incr: int)
    ensures ValidConfig(c) && 0 <= c.minThreadIncr && c.minThreadIncr + c.maxThreadIncr <= IntMax ==>
              0 <= incr <= c.maxThreadIncr
    ensures ValidConfig(c) && IntConfig(c) && 0 <= c.minThreadIncr && IntMax < c.minThreadIncr + c.maxThreadIncr ==>
              incr < 0 && Abs(incr) <= c.maxThreadIncr
  {
    MathRound(Wrap32(c.minThreadIncr + c.maxThreadIncr) as real / 3.0)
  }

  /** Step bounds of 2^30 each pass validation, but their sum wraps to
      `Integer.MIN_VALUE` and the initial step is negative: an exact third
      of it, rounded. (The `float` quotient the code computes is
      -715827904.) */
  lemma InitialIncrWraps()
    ensures var c := Config(5, 200, 0x4000_0000, 0x4000_0000, 1.0 / 10.0, 1000);
            ValidConfig(c) && IntConfig(c) && InitialIncr(c) == -715827883
  {
    var c := Config(5, 200, 0x4000_0000, 0x4000_0000, 1.0 / 10.0, 1000);
    assert Wrap32(c.minThreadIncr + c.maxThreadIncr) == IntMin;
    assert (IntMin as real / 3.0 + 1.0 / 2.0).Floor == -715827883;
  }

  /** `start`: validate (throwing `IllegalArgumentException`), stop any
      running timer, reinitialise the bookkeeping from the current pool size
      and become active. */
  function Start(t: Tuner, poolSize: int): (r: Result<Tuner, Violation>)
    ensures r.Failure? <==> !ValidConfig(t.config)
    ensures r.Success? ==> r.value.active && r.value.config == t.config
    ensures r.Success? ==> r.value.prevThreadPoolSize == poolSize
    ensures r.Success? ==> r.value.prevThroughput == 0 && r.value.prevCompletedTasks == 0
    ensures r.Success? ==> r.value.threadIncr == InitialIncr(t.config)
    ensures r.Success? && IntConfig(t.config) && 0 <= t.config.minThreadIncr ==> Abs(r.value.threadIncr) <= t.config.maxThreadIncr
  {
    match Validate(t.config)
    case Some(v) => Failure(v)
    case None => Success(Stop(t).(threadIncr := InitialIncr(t.config), prevThreadPoolSize := poolSize,
                                  prevThroughput := 0, prevCompletedTasks := 0, active := true))
  }

  /** `stop`: cancels the timer when there is one; the bookkeeping stays. */
  function Stop(t: Tuner): (r: Tuner)
    ensures !r.active
    ensures r.(active := t.active) == t
  {
    t.(active := false)
  }

  /** The throughput rose by more than the tolerance. The relative change is
      a Java `double` division, so a rise after a zero throughput is an
      infinite (hence significant) one. */
  predicate Improving(prevThroughput: int, deltaThru: int, tolerance: real) {
    deltaThru > 0 && (prevThroughput == 0 || deltaThru as real / prevThroughput as real > tolerance)
  }

  /** The throughput fell by more than the tolerance (same double semantics). */
  predicate Worsening(prevThroughput: int, deltaThru: int, tolerance: real) {
    deltaThru < 0 && (prevThroughput == 0 || -(deltaThru as real / prevThroughput as real) > tolerance)
  }

  /** The new size after a worsening: the previous and current sizes
      averaged with the throughputs as weights, rounded by `Math.round`. A
      zero total weight is a float division by zero: `Math.round` turns
      plus or minus infinity into the `int` extremes and NaN into 0. */
  function WeightedSize(prevSize: int, prevThru: int, curSize: int, curThru: int): (r: int)
    ensures 0 <= prevThru && 0 <= curThru && 0 < prevThru + curThru ==>
              Min(prevSize, curSize) <= r <= Max(prevSize, curSize)
  {
    var num := prevSize * prevThru + curSize * curThru;
    var den := prevThru + curThru;
    if den == 0 then
      (if num > 0 then IntMax else if num < 0 then IntMin else 0)
    else
      WeightedAverageBounds(prevSize, prevThru, curSize, curThru);
      MathRound(num as real / den as real)
  }

  lemma WeightedAverageBounds(prevSize: int, prevThru: int, curSize: int, curThru: int)
    requires prevThru + curThru != 0
    ensures 0 <= prevThru && 0 <= curThru ==>
              var avg := (prevSize * prevThru + curSize * curThru) as real / (prevThru + curThru) as real;
              Min(prevSize, curSize) as real <= avg <= Max(prevSize, curSize) as real
  {
    if 0 <= prevThru && 0 <= curThru {
      var lo, hi := Min(prevSize, curSize), Max(prevSize, curSize);
      var num := prevSize * prevThru + curSize * curThru;
      var den := prevThru + curThru;
      assert lo * prevThru <= prevSize * prevThru <= hi * prevThru by {
        MulMonotone(lo, prevSize, prevThru);
        MulMonotone(prevSize, hi, prevThru);
      }
      assert lo * curThru <= curSize * curThru <= hi * curThru by {
        MulMonotone(lo, curSize, curThru);
        MulMonotone(curSize, hi, curThru);
      }
      assert lo * den <= num <= hi * den;
      DivBounds(num, den, lo, hi);
    }
  }

  lemma DivBounds(num: int, den: int, lo: int, hi: int)
    requires 0 < den && lo * den <= num <= hi * den
    ensures lo as real <= num as real / den as real <= hi as real
  {
  }

  /** The outcome of one monitoring step: the new tuner state and the pool
      sizes set, in order. */
  datatype TickResult = TickResult(tuner: Tuner, resizes: seq<int>)

  /** The throughput `run` computes: the tasks completed since the
      previous run, a `long` difference. */
  function Throughput(t: Tuner, completedTasks: int): (thru: int)
    ensures IsLong(completedTasks - t.prevCompletedTasks) ==> thru == completedTasks - t.prevCompletedTasks
  {
    Wrap64(completedTasks - t.prevCompletedTasks)
  }

  /** Its change since the previous run, a `long` difference. */
  function ThroughputChange(t: Tuner, completedTasks: int): (delta: int)
    ensures IsLong(completedTasks - t.prevCompletedTasks)
            && IsLong(completedTasks - t.prevCompletedTasks - t.prevThroughput) ==>
              delta == completedTasks - t.prevCompletedTasks - t.prevThroughput
  {
    Wrap64(Throughput(t, completedTasks) - t.prevThroughput)
  }

  /** The monitoring step `run`, its sums and products in `int` arithmetic
      as Java computes them. */
  function Tick(t: Tuner, completedTasks: int, curSize: int): (r: TickResult)
    ensures r.tuner.prevCompletedTasks == completedTasks
    ensures r.tuner.prevThroughput == Throughput(t, completedTasks)
    ensures r.tuner.prevThreadPoolSize == curSize
    ensures r.tuner.config == t.config && r.tuner.active == t.active
    ensures |r.resizes| <= 2
    ensures var delta := ThroughputChange(t, completedTasks);
            |r.resizes| > 0 <==> Improving(t.prevThroughput, delta, t.config.tolerance)
                                 || Worsening(t.prevThroughput, delta, t.config.tolerance)
  {
    var c := t.config;
    var curThru := Throughput(t, completedTasks);
    var delta := ThroughputChange(t, completedTasks);
    var incr := t.threadIncr;
    var after := t.(prevCompletedTasks := completedTasks, prevThroughput := curThru, prevThreadPoolSize := curSize);
    if Improving(t.prevThroughput, delta, c.tolerance) then
      if incr > 0 then
        TickResult(after.(threadIncr := Min(Wrap32(2 * incr), c.maxThreadIncr)), [Min(Wrap32(curSize + incr), c.maxThreads)])
      else if incr < 0 then
        TickResult(after.(threadIncr := Wrap32(-Min(Wrap32(-2 * incr), c.maxThreadIncr))),
                   [Max(Wrap32(curSize + incr), c.minThreads)])
      else
        TickResult(after.(threadIncr := c.minThreadIncr), [Min(Wrap32(curSize + c.minThreadIncr), c.maxThreads)])
    else if Worsening(t.prevThroughput, delta, c.tolerance) then
      var avg := WeightedSize(t.prevThreadPoolSize, t.prevThroughput, curSize, curThru);
      if incr > 0 then
        TickResult(after.(threadIncr := -Max(MathRound(incr as real / 2.0), c.minThreadIncr)), [avg])
      else if incr < 0 then
        TickResult(after.(threadIncr := Min(Wrap32(-2 * incr), c.maxThreadIncr)), [avg])
      else
        var down := Wrap32(-c.minThreadIncr);
        TickResult(after.(threadIncr := down), [avg, Max(Wrap32(curSize + down), c.minThreads)])
    else
      TickResult(after.(threadIncr := 0), [])
  }

  /** The pool size once a step is over: the last size set, if any. */
  function SizeAfter(r: TickResult, curSize: int): int {
    if |r.resizes| == 0 then curSize else r.resizes[|r.resizes| - 1]
  }

  /** The conditions under which the tuner keeps the pool within bounds: a
      valid `int` configuration with a non-negative minimum step, a step no
      larger than the maximum, a previous size within bounds, and a
      non-negative previous throughput and completed counter (both `long`s). */
  predicate Sane(t: Tuner) {
    ValidConfig(t.config) && IntConfig(t.config) && 0 <= t.config.minThreadIncr
    && Abs(t.threadIncr) <= t.config.maxThreadIncr
    && t.config.minThreads <= t.prevThreadPoolSize <= t.config.maxThreads
    && 0 <= t.prevThroughput <= LongMax && 0 <= t.prevCompletedTasks <= LongMax
  }

  predicate InBounds(c: Config, size: int) {
    c.minThreads <= size <= c.maxThreads
  }

  /** A started tuner is sane when its configuration holds `int`s with a
      non-negative minimum step and the pool size it starts from is within
      bounds. */
  lemma StartIsSane(t: Tuner, poolSize: int)
    requires IntConfig(t.config) && 0 <= t.config.minThreadIncr && InBounds(t.config, poolSize)
    ensures Start(t, poolSize).Success? ==> Sane(Start(t, poolSize).value)
  {
  }

  /** Between sane readings of the counter, the throughput and its change
      are exact: no `long` difference wraps. */
  lemma ThroughputExact(t: Tuner, completedTasks: int)
    requires Sane(t) && t.prevCompletedTasks <= completedTasks <= LongMax
    ensures Throughput(t, completedTasks) == completedTasks - t.prevCompletedTasks
    ensures ThroughputChange(t, completedTasks) == completedTasks - t.prevCompletedTasks - t.prevThroughput
  {
  }

  /** Every size a monitoring step sets stays within `[minThreads,
      maxThreads]`, and the tuner stays sane, provided no `int` sum can wrap,
      the current size is within bounds and the completed-task counter has
      not gone backwards. */
  lemma TickKeepsBounds(t: Tuner, completedTasks: int, curSize: int)
    requires Sane(t) && NoOverflow(t.config) && InBounds(t.config, curSize)
    requires t.prevCompletedTasks <= completedTasks <= LongMax
    ensures var r := Tick(t, completedTasks, curSize);
            (forall i :: 0 <= i < |r.resizes| ==> InBounds(t.config, r.resizes[i]))
            && InBounds(t.config, SizeAfter(r, curSize)) && Sane(r.tuner)
  {
    var c := t.config;
    ThroughputExact(t, completedTasks);
    var curThru := completedTasks - t.prevCompletedTasks;
    var delta := curThru - t.prevThroughput;
    if Worsening(t.prevThroughput, delta, c.tolerance) {
      assert 0 < t.prevThroughput + curThru;
      var avg := WeightedSize(t.prevThreadPoolSize, t.prevThroughput, curSize, curThru);
      assert InBounds(c, avg);
      if t.threadIncr > 0 {
        assert MathRound(t.threadIncr as real / 2.0) <= t.threadIncr;
      }
    }
  }

  /** The direction rules: after an improvement the step keeps its sign
      (a zero step becomes `minThreadIncr`); after a worsening a non-zero
      step changes sign and a zero step becomes `-minThreadIncr`; with no
      significant change the step is reset to zero. They hold while twice
      the step is still an `int`. */
  lemma TickDirection(t: Tuner, completedTasks: int, curSize: int)
    requires 0 < t.config.minThreadIncr <= t.config.maxThreadIncr <= IntMax
    requires 2 * Abs(t.threadIncr) <= IntMax
    ensures var r := Tick(t, completedTasks, curSize);
            var delta := ThroughputChange(t, completedTasks);
            var tol := t.config.tolerance;
            var incr, next := t.threadIncr, r.tuner.threadIncr;
            (Improving(t.prevThroughput, delta, tol) ==> (incr >= 0 ==> next > 0) && (incr < 0 ==> next < 0))
            && (Worsening(t.prevThroughput, delta, tol) ==> (incr >= 0 ==> next < 0) && (incr < 0 ==> next > 0))
            && (!Improving(t.prevThroughput, delta, tol) && !Worsening(t.prevThroughput, delta, tol) ==> next == 0)
  {
  }

  /** After an improvement the pool moves by the current step (capped at the
      bounds); a worsening with a zero step sets the average first and then
      shrinks by `minThreadIncr` from the size the step started with. */
  lemma TickMovesByStep(t: Tuner, completedTasks: int, curSize: int)
    requires Sane(t) && NoOverflow(t.config) && InBounds(t.config, curSize)
    ensures var r := Tick(t, completedTasks, curSize);
            var delta := ThroughputChange(t, completedTasks);
            var c := t.config;
            (Improving(t.prevThroughput, delta, c.tolerance) && t.threadIncr > 0 ==>
               r.resizes == [if curSize + t.threadIncr <= c.maxThreads then curSize + t.threadIncr else c.maxThreads])
            && (Improving(t.prevThroughput, delta, c.tolerance) ==>
                  (t.threadIncr >= 0 ==> curSize <= r.resizes[0]) && (t.threadIncr < 0 ==> r.resizes[0] <= curSize))
            && (Worsening(t.prevThroughput, delta, c.tolerance) && t.threadIncr == 0 ==>
                  |r.resizes| == 2 && r.resizes[1] == Max(curSize - c.minThreadIncr, c.minThreads))
  {
  }

  /** Without `NoOverflow` the sums wrap as Java's do: a pool ten threads
      short of an `Integer.MAX_VALUE` bound, grown by a step of 50 after an
      improvement, is set to a negative size. */
  lemma GrowthPastIntMaxWraps()
    ensures var c := Config(5, IntMax, 50, 5, 1.0 / 10.0, 1000);
            var t := Tuner(c, 50, IntMax - 10, 0, 0, true);
            Sane(t) && !NoOverflow(c) && Tick(t, 1, IntMax - 10).resizes == [IntMin + 39]
  {
    var c := Config(5, IntMax, 50, 5, 1.0 / 10.0, 1000);
    var t := Tuner(c, 50, IntMax - 10, 0, 0, true);
    assert Improving(t.prevThroughput, ThroughputChange(t, 1), c.tolerance);
    assert Wrap32(IntMax - 10 + 50) == IntMin + 39;
  }

  /** Doubling a step of 2^30 wraps to `Integer.MIN_VALUE`: after an
      improvement the growing step turns negative. */
  lemma DoubledStepWraps()
    ensures var c := Config(5, 200, IntMax, 5, 1.0 / 10.0, 1000);
            var t := Tuner(c, 0x4000_0000, 100, 0, 0, true);
            Sane(t) && !NoOverflow(c) && Tick(t, 1, 100).tuner.threadIncr == IntMin
  {
    var c := Config(5, 200, IntMax, 5, 1.0 / 10.0, 1000);
    var t := Tuner(c, 0x4000_0000, 100, 0, 0, true);
    assert Improving(t.prevThroughput, ThroughputChange(t, 1), c.tolerance);
    assert Wrap32(2 * 0x4000_0000) == IntMin;
  }

  /** A run of monitoring steps over successive readings of the completed
      counter, the pool being resized as the tuner says in between. */
  function Run(t: Tuner, readings: seq<int>, size: int): (r: (Tuner, int))
    decreases |readings|
  {
    if |readings| == 0 then (t, size)
    else
      var step := Tick(t, readings[0], size);
      Run(step.tuner, readings[1..], SizeAfter(step, size))
  }

  /** Each reading is at least the one before it, the first at least
      `start`, and none exceeds `Long.MAX_VALUE`. */
  predicate NonDecreasing(start: int, readings: seq<int>)
    decreases |readings|
  {
    |readings| == 0 || (start <= readings[0] <= LongMax && NonDecreasing(readings[0], readings[1..]))
  }

  /** Started from a sane state within bounds, the tuner keeps the pool size
      within `[minThreads, maxThreads]` for any non-decreasing sequence of
      completed-task readings, provided no `int` sum can wrap. */
  lemma {:induction false} RunKeepsBounds(t: Tuner, readings: seq<int>, size: int)
    requires Sane(t) && NoOverflow(t.config) && InBounds(t.config, size) && NonDecreasing(t.prevCompletedTasks, readings)
    ensures Sane(Run(t, readings, size).0) && InBounds(t.config, Run(t, readings, size).1)
    ensures Run(t, readings, size).0.config == t.config
    decreases |readings|
  {
    if |readings| > 0 {
      var step := Tick(t, readings[0], size);
      TickKeepsBounds(t, readings[0], size);
      RunKeepsBounds(step.tuner, readings[1..], SizeAfter(step, size));
    }
  }
}

=== FILE: progress_logger.dfy ===
/** `ProgressLogger` and `PercentProgressLogger`: a progress counter that
    reports a new value only when it falls on a different checkpoint than
    the old one, checkpoints being the value divided by the resolution.

    The report is the value passed to the log template; the template, the
    level and the locks are left out. */
module ProgressLogger {
  import opened JavaLang

  datatype Logger = Logger(progress: int, resolution: int)

  /** What a progress update reports: nothing, the value logged, or the
      `ArithmeticException` of a zero resolution. */
  datatype Report = Silent | Logged(value: int) | DivisionByZero

  /** `new ProgressLogger()`: progress 0, a report every 1000 items. */
  function NewLogger(): (l: Logger)
    ensures l.progress == 0 && l.resolution == 1000
  {
    Logger(0, 1000)
  }

  /** `new ProgressLogger(resolution)`. */
  function WithResolution(resolution: int): (l: Logger)
    ensures l.progress == 0 && l.resolution == resolution
  {
    Logger(0, resolution)
  }

  /** `progressReport(old, new)`: the checkpoints are `value / resolution`
      in Java's truncating `long` division; the new value is logged when
      they differ. */
  function CheckpointReport(resolution: int, oldValue: int, newValue: int): (r: Report)
    ensures r == DivisionByZero <==> resolution == 0
    ensures r.Logged? ==> r.value == newValue
    ensures resolution != 0 && oldValue == newValue ==> r == Silent
  {
    if resolution == 0 then DivisionByZero
    else if JavaDiv(newValue, resolution) - JavaDiv(oldValue, resolution) == 0 then Silent
    else Logged(newValue)
  }

  /** A multiple of the resolution lies in (lo, hi]. */
  ghost predicate CrossesCheckpoint(lo: int, hi: int, resolution: int) {
    exists k :: lo < k * resolution <= hi
  }

  /** For non-negative progress and a positive resolution, a report happens
      exactly when a multiple of the resolution is crossed, upwards or
      downwards. */
  lemma ReportsIffCrossing(resolution: int, oldValue: int, newValue: int)
    requires 0 < resolution && 0 <= oldValue && 0 <= newValue
    ensures CheckpointReport(resolution, oldValue, newValue).Logged?
            <==> CrossesCheckpoint(Min(oldValue, newValue), Max(oldValue, newValue), resolution)
  {
    var lo, hi := Min(oldValue, newValue), Max(oldValue, newValue);
    NonNegativeQuotient(oldValue, resolution);
    NonNegativeQuotient(newValue, resolution);
    if lo / resolution != hi / resolution {
      DistinctCheckpointsCross(lo, hi, resolution);
    }
    if CrossesCheckpoint(lo, hi, resolution) {
      var k :| lo < k * resolution <= hi;
      CrossingSeparatesCheckpoints(lo, hi, resolution, k);
    }
  }

  /** On non-negative values Java's division agrees with Dafny's. */
  lemma NonNegativeQuotient(a: int, m: int)
    requires 0 <= a && 0 < m
    ensures JavaDiv(a, m) == a / m
  {
  }

  /** A value lies between its checkpoint and the next one. */
  lemma CheckpointBounds(a: int, m: int)
    requires 0 < m
    ensures (a / m) * m <= a < (a / m + 1) * m
  {
  }

  lemma DistinctCheckpointsCross(lo: int, hi: int, m: int)
    requires 0 < m && lo <= hi && lo / m != hi / m
    ensures lo < (hi / m) * m <= hi
  {
    CheckpointBounds(lo, m);
    CheckpointBounds(hi, m);
    DivMonotone(lo, hi, m);
    MulMonotone(lo / m + 1, hi / m, m);
  }

  lemma CrossingSeparatesCheckpoints(lo: int, hi: int, m: int, k: int)
    requires 0 < m && lo < k * m <= hi
    ensures lo / m < k <= hi / m
  {
    CheckpointBounds(lo, m);
    CheckpointBounds(hi, m);
    if lo / m >= k {
      MulMonotone(k, lo / m, m);
    }
    if k > hi / m {
      MulMonotone(hi / m + 1, k, m);
    }
  }

  lemma DivMonotone(a: int, b: int, m: int)
    requires 0 < m && a <= b
    ensures a / m <= b / m
  {
    CheckpointBounds(a, m);
    CheckpointBounds(b, m);
    if a / m > b / m {
      MulMonotone(b / m + 1, a / m, m);
    }
  }

  /** `update(newProgress)`: the progress is stored first, then reported. */
  function Update(l: Logger, newProgress: int): (r: (Logger, Report))
    ensures r.0 == l.(progress := newProgress)
    ensures r.1 == CheckpointReport(l.resolution, l.progress, newProgress)
  {
    (l.(progress := newProgress), CheckpointReport(l.resolution, l.progress, newProgress))
  }

  /** `updateWithIncrement(increment)`: an update to the progress plus the
      increment, a `long` sum; the no-argument form increments by 1. Past
      `Long.MAX_VALUE` the sum wraps and the progress goes backwards. */
  function UpdateWithIncrement(l: Logger, increment: int): (r: (Logger, Report))
    ensures IsLong(r.0.progress) && r.0.resolution == l.resolution
    ensures IsLong(l.progress + increment) ==> r.0.progress == l.progress + increment
    ensures IsLong(l.progress) && IsLong(increment) && 0 < increment && !IsLong(l.progress + increment) ==>
              r.0.progress < l.progress
    ensures r.1.Logged? ==> r.1.value == r.0.progress
  {
    Update(l, Wrap64(l.progress + increment))
  }

  /** One step past `Long.MAX_VALUE` wraps to `Long.MIN_VALUE`, which lies on
      another checkpoint and is logged. */
  lemma IncrementPastLongMaxWraps()
    ensures UpdateWithIncrement(Logger(LongMax, 1000), 1) == (Logger(LongMin, 1000), Logged(LongMin))
  {
    assert Wrap64(LongMax + 1) == LongMin;
    assert JavaDiv(LongMin, 1000) < 0 <= JavaDiv(LongMax, 1000);
  }

  /** What a report adds to the log. */
  function LogOf(r: Report): (log: seq<int>)
    ensures r.Logged? ==> log == [r.value]
    ensures !r.Logged? ==> log == []
  {
    if r.Logged? then [r.value] else []
  }

  /** The values logged by a run of increments. */
  function Increments(l: Logger, increments: seq<int>): (r: (Logger, seq<int>))
    ensures r.0.resolution == l.resolution
    decreases |increments|
  {
    if |increments| == 0 then (l, [])
    else
      var step := UpdateWithIncrement(l, increments[0]);
      var rest := Increments(step.0, increments[1..]);
      (rest.0, LogOf(step.1) + rest.1)
  }

  /** Two values on the same checkpoint are not reported. */
  lemma SameCheckpointSilent(resolution: int, oldValue: int, newValue: int)
    requires 0 < resolution && 0 <= oldValue && 0 <= newValue
    requires oldValue / resolution == newValue / resolution
    ensures CheckpointReport(resolution, oldValue, newValue) == Silent
  {
    NonNegativeQuotient(oldValue, resolution);
    NonNegativeQuotient(newValue, resolution);
  }

  /** Single steps within one checkpoint log nothing and advance the
      progress by their number. */
  lemma {:induction false} UnitStepsInsideCheckpoint(l: Logger, n: nat)
    requires 0 < l.resolution && 0 <= l.progress && l.progress + n <= LongMax
    requires (l.progress + n) / l.resolution == l.progress / l.resolution
    ensures Increments(l, Ones(n)) == (l.(progress := l.progress + n), [])
    decreases n
  {
    if n > 0 {
      var p, m := l.progress, l.resolution;
      var next := l.(progress := p + 1);
      assert p / m == (p + 1) / m && (next.progress + (n - 1)) / m == next.progress / m by {
        DivMonotone(p, p + 1, m);
        DivMonotone(p + 1, p + n, m);
      }
      SameCheckpointSilent(m, p, p + 1);
      StepThenRest(l, n, next, Silent);
      UnitStepsInsideCheckpoint(next, n - 1);
      var rest := Increments(next, Ones(n - 1));
      assert rest.0 == l.(progress := p + n) && rest.1 == [];
      assert LogOf(Silent) + rest.1 == [];
    } else {
      assert Ones(0) == [];
      assert l.(progress := l.progress + 0) == l;
    }
  }

  /** The first of `n` single steps, then the rest. */
  lemma StepThenRest(l: Logger, n: nat, next: Logger, report: Report)
    requires 0 < n && UpdateWithIncrement(l, 1) == (next, report)
    ensures Increments(l, Ones(n)) == (Increments(next, Ones(n - 1)).0, LogOf(report) + Increments(next, Ones(n - 1)).1)
  {
    assert Ones(n)[0] == 1;
    assert Ones(n)[1..] == Ones(n - 1);
  }

  /** Single steps ending on the next checkpoint log only their last value. */
  lemma {:induction false} UnitStepsReachCheckpoint(l: Logger, n: nat)
    requires 0 < l.resolution && 0 <= l.progress && 0 < n && l.progress + n <= LongMax
    requires (l.progress + n - 1) / l.resolution == l.progress / l.resolution
    requires (l.progress + n) / l.resolution != l.progress / l.resolution
    ensures Increments(l, Ones(n)) == (l.(progress := l.progress + n), [l.progress + n])
    decreases n
  {
    var p, m := l.progress, l.resolution;
    var next := l.(progress := p + 1);
    if n == 1 {
      NonNegativeQuotient(p, m);
      NonNegativeQuotient(p + 1, m);
      StepThenRest(l, n, next, Logged(p + 1));
      assert Ones(0) == [];
      assert Increments(next, Ones(0)) == (next, []);
      assert LogOf(Logged(p + 1)) + [] == [p + 1];
    } else {
      assert p / m == (p + 1) / m && (next.progress + (n - 1) - 1) / m == next.progress / m by {
        DivMonotone(p, p + 1, m);
        DivMonotone(p + 1, p + n - 1, m);
      }
      SameCheckpointSilent(m, p, p + 1);
      StepThenRest(l, n, next, Silent);
      UnitStepsReachCheckpoint(next, n - 1);
      var rest := Increments(next, Ones(n - 1));
      assert rest.0 == l.(progress := p + n) && rest.1 == [p + n];
      assert LogOf(Silent) + rest.1 == [p + n];
    }
  }

  function Ones(n: nat): (s: seq<int>)
    ensures |s| == n
  {
    if n == 0 then [] else [1] + Ones(n - 1)
  }

  /** With resolution 100: updating to 100, then adding 1, 100, 50 and 49
      times 1 logs 100, 201 and 300 and nothing else. */
  lemma ResolutionHundredExample()
    ensures var first := Update(WithResolution(100), 100);
            var run := Increments(first.0, [1, 100, 50] + Ones(49));
            first.1 == Logged(100) && run.1 == [201, 300]
  {
    NonNegativeQuotient(100, 100);
    assert Update(WithResolution(100), 100) == (Logger(100, 100), Logged(100));
    UnitStepsReachCheckpoint(Logger(251, 100), 49);
    var incs := [1, 100, 50] + Ones(49);
    assert incs[0] == 1 && incs[1..] == [100, 50] + Ones(49);
    assert incs[1..][0] == 100 && incs[1..][1..] == [50] + Ones(49);
    assert incs[1..][1..][0] == 50 && incs[1..][1..][1..] == Ones(49);
    NonNegativeQuotient(101, 100);
    NonNegativeQuotient(201, 100);
    NonNegativeQuotient(251, 100);
    assert UpdateWithIncrement(Logger(100, 100), 1) == (Logger(101, 100), Silent);
    assert UpdateWithIncrement(Logger(101, 100), 100) == (Logger(201, 100), Logged(201));
    assert UpdateWithIncrement(Logger(201, 100), 50) == (Logger(251, 100), Silent);
    assert Increments(Logger(201, 100), incs[1..][1..]).1 == [300];
    assert Increments(Logger(101, 100), incs[1..]).1 == [201, 300];
  }

  /** A decrease that crosses a checkpoint is reported too. */
  lemma DecreaseReported()
    ensures Update(Logger(250, 100), 150).1 == Logged(150)
  {
  }

  /** `(int) Math.round(100d * progress / maxProgress)`. `Math.round`
      saturates to the `long` range, and a zero maximum makes the double
      quotient infinite or NaN, which it turns into `Long.MAX_VALUE`,
      `Long.MIN_VALUE` or 0; the cast then keeps the low 32 bits. */
  function Percent(progress: int, maxProgress: int): (r: int)
    ensures IsInt(r)
    ensures maxProgress != 0 && IsInt(MathRound(100.0 * progress as real / maxProgress as real)) ==>
              r == MathRound(100.0 * progress as real / maxProgress as real)
    ensures maxProgress != 0 && MathRound(100.0 * progress as real / maxProgress as real) > LongMax ==> r == -1
    ensures maxProgress != 0 && MathRound(100.0 * progress as real / maxProgress as real) < LongMin ==> r == 0
    ensures maxProgress == 0 ==> r == (if progress > 0 then -1 else 0)
  {
    if maxProgress == 0 then
      (if progress > 0 then Wrap32(LongMax) else if progress < 0 then Wrap32(LongMin) else 0)
    else Wrap32(RoundToLong(100.0 * progress as real / maxProgress as real))
  }

  /** Progress far beyond the maximum saturates `Math.round` at the ends of
      the `long` range, whose low 32 bits are -1 and 0. */
  lemma PercentSaturates()
    ensures Percent(LongMax, 1) == -1 && Percent(LongMin, 1) == 0
  {
    assert MathRound(100.0 * LongMax as real / 1 as real) > LongMax;
    assert MathRound(100.0 * LongMin as real / 1 as real) < LongMin;
  }

  /** Progress between 0 and the maximum is between 0% and 100%, and more
      progress is never a smaller percentage. */
  lemma PercentInRange(progress: int, maxProgress: int)
    requires 0 <= progress <= maxProgress && 0 < maxProgress
    ensures 0 <= Percent(progress, maxProgress) <= 100
    ensures progress == maxProgress ==> Percent(progress, maxProgress) == 100
    ensures Percent(progress, maxProgress) == MathRound(100.0 * progress as real / maxProgress as real)
  {
    var m := maxProgress as real;
    var q := 100.0 * progress as real / m;
    var f := progress as real / m;
    assert 0.0 <= f <= 1.0 by {
      QuotientMonotone(0.0, progress as real, m);
      QuotientMonotone(progress as real, m, m);
      assert m / m == 1.0;
    }
    assert q == 100.0 * f;
    assert 0.0 <= q <= 100.0;
    assert progress == maxProgress ==> f == 1.0 && q == 100.0;
    assert 0 <= MathRound(q) <= 100;
  }

  lemma PercentMonotone(a: int, b: int, maxProgress: int)
    requires 0 <= a <= b <= maxProgress && 0 < maxProgress
    ensures Percent(a, maxProgress) <= Percent(b, maxProgress)
  {
    PercentInRange(a, maxProgress);
    PercentInRange(b, maxProgress);
    var qa, qb := 100.0 * a as real / maxProgress as real, 100.0 * b as real / maxProgress as real;
    QuotientMonotone(100.0 * a as real, 100.0 * b as real, maxProgress as real);
    RoundMonotone(qa, qb);
    assert Percent(a, maxProgress) == MathRound(qa) <= MathRound(qb) == Percent(b, maxProgress);
  }

  lemma QuotientMonotone(x: real, y: real, m: real)
    requires x <= y && 0.0 < m
    ensures x / m <= y / m
  {
    assert y / m - x / m == (y - x) / m;
  }

  lemma RoundMonotone(x: real, y: real)
    requires x <= y
    ensures MathRound(x) <= MathRound(y)
  {
  }

  /** A percent logger: the absolute progress, the resolution in percent
      points and the maximum. */
  datatype PercentLogger = PercentLogger(logger: Logger, maxProgress: int)

  /** `new PercentProgressLogger(maxProgress)`: 10-point resolution. */
  function NewPercentLogger(maxProgress: int): (p: PercentLogger)
    ensures p.logger.progress == 0 && p.logger.resolution == 10 && p.maxProgress == maxProgress
  {
    PercentLogger(Logger(0, 10), maxProgress)
  }

  /** `update(newProgress)` on a percent logger: the absolute progress is
      stored; old and new values are turned into percentages and the
      checkpoint rule applies to those, so the percentage is logged. */
  function PercentUpdate(p: PercentLogger, newProgress: int): (r: (PercentLogger, Report))
    ensures r.0.logger.progress == newProgress && r.0.maxProgress == p.maxProgress
    ensures r.0.logger.resolution == p.logger.resolution
    ensures r.1.Logged? ==> r.1.value == Percent(newProgress, p.maxProgress)
    ensures r.1 == Update(Logger(Percent(p.logger.progress, p.maxProgress), p.logger.resolution),
                          Percent(newProgress, p.maxProgress)).1
  {
    var report := CheckpointReport(p.logger.resolution, Percent(p.logger.progress, p.maxProgress),
                                   Percent(newProgress, p.maxProgress));
    (p.(logger := p.logger.(progress := newProgress)), report)
  }

  /** Within 0 and the maximum, a percent logger reports exactly when the
      percentage crosses a multiple of the resolution, and a move towards
      the maximum can only cross upwards. */
  lemma PercentReportsIffCrossing(p: PercentLogger, newProgress: int)
    requires 0 < p.logger.resolution && 0 < p.maxProgress
    requires 0 <= p.logger.progress <= p.maxProgress && 0 <= newProgress <= p.maxProgress
    ensures var before, after := Percent(p.logger.progress, p.maxProgress), Percent(newProgress, p.maxProgress);
            PercentUpdate(p, newProgress).1.Logged? <==> CrossesCheckpoint(Min(before, after), Max(before, after), p.logger.resolution)
    ensures p.logger.progress <= newProgress ==> Percent(p.logger.progress, p.maxProgress) <= Percent(newProgress, p.maxProgress)
  {
    PercentInRange(p.logger.progress, p.maxProgress);
    PercentInRange(newProgress, p.maxProgress);
    ReportsIffCrossing(p.logger.resolution, Percent(p.logger.progress, p.maxProgress), Percent(newProgress, p.maxProgress));
    if p.logger.progress <= newProgress {
      PercentMonotone(p.logger.progress, newProgress, p.maxProgress);
    }
  }

  /** The percentages logged by successive updates to the given values. */
  function PercentUpdates(p: PercentLogger, values: seq<int>): (r: seq<int>)
    decreases |values|
  {
    if |values| == 0 then []
    else
      var step := PercentUpdate(p, values[0]);
      LogOf(step.1) + PercentUpdates(step.0, values[1..])
  }

  /** Out of 1000, the percentages of the example below. */
  lemma PercentsOfThousand()
    ensures Percent(0, 1000) == 0 && Percent(100, 1000) == 10 && Percent(150, 1000) == 15
    ensures Percent(450, 1000) == 45 && Percent(455, 1000) == 46 && Percent(1000, 1000) == 100
  {
    assert MathRound(100.0 * 455 as real / 1000 as real) == 46 by {
      assert 100.0 * 455 as real / 1000 as real == 45.5;
    }
    assert MathRound(100.0 * 450 as real / 1000 as real) == 45 by {
      assert 100.0 * 450 as real / 1000 as real == 45.0;
    }
    assert MathRound(100.0 * 150 as real / 1000 as real) == 15 by {
      assert 100.0 * 150 as real / 1000 as real == 15.0;
    }
    assert MathRound(100.0 * 100 as real / 1000 as real) == 10 by {
      assert 100.0 * 100 as real / 1000 as real == 10.0;
    }
    assert MathRound(100.0 * 1000 as real / 1000 as real) == 100 by {
      assert 100.0 * 1000 as real / 1000 as real == 100.0;
    }
    assert MathRound(100.0 * 0 as real / 1000 as real) == 0 by {
      assert 100.0 * 0 as real / 1000 as real == 0.0;
    }
  }

  /** Out of 1000 with 10-point resolution: updates to 100, 150, 450, 455
      and 1000 log 10%, 45% and 100% only. */
  lemma PercentExample()
    ensures PercentUpdates(NewPercentLogger(1000), [100, 150, 450, 455, 1000]) == [10, 45, 100]
  {
    PercentsOfThousand();
    var p0 := NewPercentLogger(1000);
    var values := [100, 150, 450, 455, 1000];
    assert values[1..] == [150, 450, 455, 1000];
    var rest := PercentUpdates(p0.(logger := Logger(100, 10)), values[1..]);
    assert rest == [45, 100] by {
      PercentTail();
    }
    PercentStep(p0, values, 0, 10);
    assert CheckpointReport(10, 0, 10) == Logged(10);
  }

  lemma PercentTail()
    ensures PercentUpdates(NewPercentLogger(1000).(logger := Logger(100, 10)), [150, 450, 455, 1000]) == [45, 100]
  {
    PercentsOfThousand();
    var p0 := NewPercentLogger(1000);
    var values := [150, 450, 455, 1000];
    assert values[1..] == [450, 455, 1000] && values[1..][1..] == [455, 1000];
    assert values[1..][1..][1..] == [1000] && values[1..][1..][1..][1..] == [];
    PercentStep(p0.(logger := Logger(455, 10)), values[1..][1..][1..], 46, 100);
    assert CheckpointReport(10, 46, 100) == Logged(100);
    PercentStep(p0.(logger := Logger(450, 10)), values[1..][1..], 45, 46);
    assert CheckpointReport(10, 45, 46) == Silent;
    PercentStep(p0.(logger := Logger(150, 10)), values[1..], 15, 45);
    assert CheckpointReport(10, 15, 45) == Logged(45);
    PercentStep(p0.(logger := Logger(100, 10)), values, 10, 15);
    assert CheckpointReport(10, 10, 15) == Silent;
  }

  /** The first of a run of percent updates, given the two percentages. */
  lemma PercentStep(p: PercentLogger, values: seq<int>, oldPercent: int, newPercent: int)
    requires 0 < |values|
    requires Percent(p.logger.progress, p.maxProgress) == oldPercent
    requires Percent(values[0], p.maxProgress) == newPercent
    ensures PercentUpdates(p, values)
            == LogOf(CheckpointReport(p.logger.resolution, oldPercent, newPercent))
               + PercentUpdates(p.(logger := p.logger.(progress := values[0])), values[1..])
  {
  }
}

=== FILE: results.dfy ===
/** The wrappers used throughout the model: `Option` stands for a Java
    reference that may be null, `Result` for a call that either returns a
    value or throws. */
module Results {

  datatype Option<+T> = None | Some(value: T) {

    /** The wrapped value, or `default` when there is none. */
    function GetOr(default: T): T {
      match this
      case Some(v) => v
      case None => default
    }
  }

  datatype Result<+R, +E> = Success(value: R) | Failure(error: E)
}

=== FILE: simple_cache.dfy ===
/** `SimpleCache`: a `LinkedHashMap` in access order whose
    `removeEldestEntry` drops the eldest entry as soon as the size exceeds
    the capacity, i.e. a least-recently-used cache.

    The map is its entry list, eldest (least recently accessed) first.
    `get` and `put` are accesses and move their entry to the end;
    `containsKey` and `remove` do not reorder. Null keys and values are not
    modelled: a value is present or absent (`Option`). */
module SimpleCache {
  import opened Results
  import opened JavaLang

  datatype Cache<K, V> = Cache(capacity: int, entries: seq<(K, V)>)

  /** The keys, in access order. */
  function Keys<K, V>(entries: seq<(K, V)>): (ks: seq<K>)
    ensures |ks| == |entries|
    ensures forall i :: 0 <= i < |entries| ==> ks[i] == entries[i].0
  {
    seq(|entries|, i requires 0 <= i < |entries| => entries[i].0)
  }

  ghost predicate Distinct<K>(s: seq<K>) {
    forall i, j :: 0 <= i < j < |s| ==> s[i] != s[j]
  }

  /** What every reachable cache satisfies: a capacity the constructor
      accepts, at most `capacity` entries, one entry per key. */
  ghost predicate Valid<K, V>(c: Cache<K, V>) {
    0 < c.capacity < IntMax && |c.entries| <= c.capacity && Distinct(Keys(c.entries))
  }

  /** Where the entry of `k` is, or -1. */
  function Position<K(==), V>(entries: seq<(K, V)>, k: K): (r: int)
    ensures -1 <= r < |entries|
    ensures r >= 0 ==> entries[r].0 == k
    ensures r == -1 <==> forall j :: 0 <= j < |entries| ==> entries[j].0 != k
  {
    if |entries| == 0 then -1
    else if entries[|entries| - 1].0 == k then |entries| - 1
    else Position(entries[..|entries| - 1], k)
  }

  /** The value stored under `k`: the abstract map a cache stands for. */
  function Lookup<K(==), V>(entries: seq<(K, V)>, k: K): Option<V> {
    var i := Position(entries, k);
    if i < 0 then None else Some(entries[i].1)
  }

  /** With one entry per key, the value stored under a key is the one of
      its entry, wherever that entry is. */
  lemma LookupAt<K, V>(entries: seq<(K, V)>, i: int)
    requires Distinct(Keys(entries)) && 0 <= i < |entries|
    ensures Lookup(entries, entries[i].0) == Some(entries[i].1)
  {
    var p := Position(entries, entries[i].0);
    assert Keys(entries)[p] == Keys(entries)[i];
  }

  /** A key with no entry has no value. */
  lemma LookupAbsent<K, V>(entries: seq<(K, V)>, k: K)
    requires k !in Keys(entries)
    ensures Lookup(entries, k) == None
  {
  }

  /** `new SimpleCache(capacity)`: `new LinkedHashMap(capacity + 1,
      capacity * 1.1f, true)`, which rejects a negative initial capacity
      (the 32-bit `capacity + 1` is negative for `Integer.MAX_VALUE`) and a
      load factor that is not positive (every capacity up to 0). */
  function NewCache<K, V>(capacity: int): (r: Result<Cache<K, V>, Throwable>)
    requires IsInt(capacity)
    ensures r.Success? <==> 0 < capacity < IntMax
    ensures r.Success? ==> Valid(r.value) && r.value.capacity == capacity && r.value.entries == []
    ensures r.Failure? ==> IsInstance(r.error, IllegalArgumentClass) && r.error.cause == None
  {
    if Wrap32(capacity + 1) < 0 then Failure(NewUnchecked(IllegalArgumentClass, None))
    else if capacity <= 0 then Failure(NewUnchecked(IllegalArgumentClass, None))
    else Success(Cache(capacity, []))
  }

  /** The entries with the one at `i` moved to the end, carrying `v`. */
  function MoveToEnd<K, V>(entries: seq<(K, V)>, i: int, v: V): (r: seq<(K, V)>)
    requires 0 <= i < |entries|
    ensures |r| == |entries| && r[|r| - 1] == (entries[i].0, v)
  {
    entries[..i] + entries[i + 1..] + [(entries[i].0, v)]
  }

  /** `get(k)`: the value, and an access that makes `k` the most recently
      used key; a missing key changes nothing. */
  function Get<K(==), V>(c: Cache<K, V>, k: K): (r: (Cache<K, V>, Option<V>))
    ensures r.0.capacity == c.capacity && |r.0.entries| == |c.entries|
    ensures r.1.None? ==> r.0 == c
  {
    var i := Position(c.entries, k);
    if i < 0 then (c, None)
    else (Cache(c.capacity, MoveToEnd(c.entries, i, c.entries[i].1)), Some(c.entries[i].1))
  }

  /** `containsKey(k)`: not an access, the order stays. */
  function ContainsKey<K(==), V>(c: Cache<K, V>, k: K): (r: bool)
    ensures r <==> Lookup(c.entries, k).Some?
    ensures r <==> k in Keys(c.entries)
  {
    var i := Position(c.entries, k);
    if i >= 0 then assert Keys(c.entries)[i] == k; true else false
  }

  /** `size()`: the number of keys with a value, never above the
      capacity. */
  function Size<K(!new), V>(c: Cache<K, V>): (n: int)
    requires Valid(c)
    ensures 0 <= n <= c.capacity
    ensures n == |set k | k in Keys(c.entries)|
  {
    DistinctCard(Keys(c.entries));
    |c.entries|
  }

  /** Whether `put(k, _)` evicts: `k` is new and the cache is full, so
      that the size after the insertion exceeds the capacity. */
  ghost predicate Evicts<K, V>(c: Cache<K, V>, k: K) {
    k !in Keys(c.entries) && |c.entries| == c.capacity
  }

  /** `put(k, v)`: stores `v` under `k` as its most recent access and
      returns the previous value. A new key is appended, then
      `removeEldestEntry` drops the eldest entry if the size exceeds the
      capacity. */
  function Put<K(==), V>(c: Cache<K, V>, k: K, v: V): (r: (Cache<K, V>, Option<V>))
    requires Valid(c)
    ensures r.0.capacity == c.capacity
  {
    var i := Position(c.entries, k);
    if i >= 0 then (c.(entries := MoveToEnd(c.entries, i, v)), Some(c.entries[i].1))
    else
      var e := c.entries + [(k, v)];
      if |e| > c.capacity then (c.(entries := e[1..]), None)
      else (c.(entries := e), None)
  }

  /** `remove(k)`: drops the entry of `k`, keeping the order of the
      others, and returns its value. */
  function Remove<K(==), V>(c: Cache<K, V>, k: K): (r: (Cache<K, V>, Option<V>))
    ensures r.0.capacity == c.capacity
    ensures r.1.None? ==> r.0 == c
    ensures r.1.Some? ==> |r.0.entries| == |c.entries| - 1
  {
    var i := Position(c.entries, k);
    if i < 0 then (c, None)
    else (c.(entries := c.entries[..i] + c.entries[i + 1..]), Some(c.entries[i].1))
  }

  /** A `get` reads the value of the abstract map and changes no value;
      a hit makes `k` the most recently used key and keeps the order of
      the others. */
  lemma GetKeepsContents<K, V>(c: Cache<K, V>, k: K)
    requires Valid(c)
    ensures Get(c, k).1 == Lookup(c.entries, k)
    ensures Valid(Get(c, k).0)
    ensures forall k' :: Lookup(Get(c, k).0.entries, k') == Lookup(c.entries, k')
    ensures Get(c, k).1.Some? ==> Keys(Get(c, k).0.entries) == Without(Keys(c.entries), k) + [k]
  {
    var i := Position(c.entries, k);
    if i >= 0 {
      MovedLookups(c.entries, i, c.entries[i].1);
    }
  }

  /** A `put` returns the previous value, makes `k` map to `v`, and keeps
      every other key's value except the eldest key's, which it evicts
      when `k` is new and the cache is full. Every reachable cache stays
      within its capacity with one entry per key. */
  lemma PutLookups<K, V>(c: Cache<K, V>, k: K, v: V)
    requires Valid(c)
    ensures Put(c, k, v).1 == Lookup(c.entries, k)
    ensures Valid(Put(c, k, v).0)
    ensures Lookup(Put(c, k, v).0.entries, k) == Some(v)
    ensures forall k' :: k' != k ==>
      Lookup(Put(c, k, v).0.entries, k') == if Evicts(c, k) && k' == Keys(c.entries)[0] then None else Lookup(c.entries, k')
  {
    var i := Position(c.entries, k);
    if i >= 0 {
      assert Keys(c.entries)[i] == k;
      MovedLookups(c.entries, i, v);
    } else {
      LookupAbsent(c.entries, k);
      AppendLookups(c.entries, k, v);
      var e := c.entries + [(k, v)];
      if |e| > c.capacity {
        DropEldest(e);
      }
    }
  }

  /** The keys after a `put`, in access order: an update moves `k` to the
      end and evicts nothing; an insertion appends `k` and evicts at most
      one key, the eldest, exactly when the cache was full. */
  lemma PutKeys<K, V>(c: Cache<K, V>, k: K, v: V)
    requires Valid(c)
    ensures k in Keys(c.entries) ==> Keys(Put(c, k, v).0.entries) == Without(Keys(c.entries), k) + [k]
    ensures !Evicts(c, k) && k !in Keys(c.entries) ==> Keys(Put(c, k, v).0.entries) == Keys(c.entries) + [k]
    ensures Evicts(c, k) ==> Keys(Put(c, k, v).0.entries) == Keys(c.entries)[1..] + [k]
    ensures |Put(c, k, v).0.entries| == Min(|c.entries| + (if k in Keys(c.entries) then 0 else 1), c.capacity)
  {
    var i := Position(c.entries, k);
    if i >= 0 {
      assert Keys(c.entries)[i] == k;
      MovedLookups(c.entries, i, v);
    } else {
      LookupAbsent(c.entries, k);
      AppendLookups(c.entries, k, v);
      var e := c.entries + [(k, v)];
      if |e| > c.capacity {
        DropEldest(e);
      }
    }
  }

  /** A `remove` returns the value of `k` and forgets `k` only. */
  lemma RemoveLookups<K, V>(c: Cache<K, V>, k: K)
    requires Valid(c)
    ensures Remove(c, k).1 == Lookup(c.entries, k)
    ensures Valid(Remove(c, k).0)
    ensures Lookup(Remove(c, k).0.entries, k) == None
    ensures forall k' :: k' != k ==> Lookup(Remove(c, k).0.entries, k') == Lookup(c.entries, k')
    ensures Keys(Remove(c, k).0.entries) == Without(Keys(c.entries), k)
  {
    var i := Position(c.entries, k);
    if i < 0 {
      LookupAbsent(c.entries, k);
      WithoutAbsent(Keys(c.entries), k);
    } else {
      RemovedLookups(c.entries, i);
    }
  }

  /** The keys of a sequence, each occurrence of `k` removed. */
  function Without<K(==)>(s: seq<K>, k: K): (r: seq<K>)
    ensures |r| <= |s|
  {
    if s == [] then []
    else if s[0] == k then Without(s[1..], k)
    else [s[0]] + Without(s[1..], k)
  }

  lemma {:induction false} WithoutAbsent<K>(s: seq<K>, k: K)
    requires k !in s
    ensures Without(s, k) == s
  {
    if s != [] {
      WithoutAbsent(s[1..], k);
    }
  }

  lemma {:induction false} WithoutConcat<K>(a: seq<K>, b: seq<K>, k: K)
    ensures Without(a + b, k) == Without(a, k) + Without(b, k)
  {
    if a == [] {
      assert a + b == b;
    } else {
      assert (a + b)[0] == a[0];
      assert (a + b)[1..] == a[1..] + b;
      WithoutConcat(a[1..], b, k);
    }
  }

  /** Removing a key that occurs once shortens a sequence by one. */
  lemma {:induction false} WithoutOnce<K>(s: seq<K>, k: K)
    requires Distinct(s) && k in s
    ensures |Without(s, k)| == |s| - 1
  {
    if s[0] == k {
      WithoutAbsent(s[1..], k);
    } else {
      WithoutOnce(s[1..], k);
    }
  }

  lemma {:induction false} WithoutKeepsDistinct<K>(s: seq<K>, k: K)
    requires Distinct(s)
    ensures Distinct(Without(s, k))
    ensures forall x :: x in Without(s, k) <==> x in s && x != k
  {
    if s != [] {
      WithoutKeepsDistinct(s[1..], k);
      assert s[0] !in s[1..];
      var r := Without(s, k);
      if s[0] != k {
        assert r == [s[0]] + Without(s[1..], k);
        forall i, j | 0 <= i < j < |r| ensures r[i] != r[j] {
          if i == 0 {
            assert r[j] in Without(s[1..], k);
          }
        }
      }
    }
  }

  lemma WithoutSingle<K>(k: K)
    ensures Without([k], k) == []
  {
    assert [k][1..] == [];
  }

  /** Removing `k` from around its only occurrence. */
  lemma WithoutMiddle<K>(p: seq<K>, k: K, q: seq<K>)
    requires k !in p && k !in q
    ensures Without(p + [k] + q, k) == p + q
  {
    WithoutConcat(p + [k], q, k);
    WithoutConcat(p, [k], k);
    WithoutSingle(k);
    WithoutAbsent(p, k);
    WithoutAbsent(q, k);
    assert Without(p + [k], k) == p;
  }

  lemma DistinctAppend<K>(s: seq<K>, x: K)
    requires Distinct(s) && x !in s
    ensures Distinct(s + [x])
  {
  }

  lemma DistinctApart<K>(s: seq<K>, i: int)
    requires Distinct(s) && 0 <= i < |s|
    ensures s[i] !in s[..i] && s[i] !in s[i + 1..]
  {
  }

  lemma KeysConcat<K, V>(a: seq<(K, V)>, b: seq<(K, V)>)
    ensures Keys(a + b) == Keys(a) + Keys(b)
  {
  }

  lemma KeysSlices<K, V>(entries: seq<(K, V)>, i: int)
    requires 0 <= i < |entries|
    ensures Keys(entries[..i]) == Keys(entries)[..i]
    ensures Keys(entries[i + 1..]) == Keys(entries)[i + 1..]
  {
  }

  /** Moving the entry at `i` to the end leaves the other keys in order:
      the keys become those without `k`, then `k`. */
  lemma MovedKeys<K, V>(entries: seq<(K, V)>, i: int, v: V)
    requires Distinct(Keys(entries)) && 0 <= i < |entries|
    ensures Keys(MoveToEnd(entries, i, v)) == Without(Keys(entries), entries[i].0) + [entries[i].0]
    ensures Distinct(Keys(MoveToEnd(entries, i, v)))
  {
    var k := entries[i].0;
    var ks := Keys(entries);
    KeysSlices(entries, i);
    KeysConcat(entries[..i], entries[i + 1..]);
    KeysConcat(entries[..i] + entries[i + 1..], [(k, v)]);
    assert Keys(MoveToEnd(entries, i, v)) == ks[..i] + ks[i + 1..] + [k];
    assert ks == ks[..i] + [k] + ks[i + 1..];
    DistinctApart(ks, i);
    WithoutMiddle(ks[..i], k, ks[i + 1..]);
    WithoutKeepsDistinct(ks, k);
    DistinctAppend(Without(ks, k), k);
  }

  /** After moving the entry of `k` to the end with value `v`, `k` maps
      to `v` and every other key to what it mapped to. */
  lemma MovedLookups<K, V>(entries: seq<(K, V)>, i: int, v: V)
    requires Distinct(Keys(entries)) && 0 <= i < |entries|
    ensures Lookup(MoveToEnd(entries, i, v), entries[i].0) == Some(v)
    ensures forall k' :: k' != entries[i].0 ==> Lookup(MoveToEnd(entries, i, v), k') == Lookup(entries, k')
    ensures |MoveToEnd(entries, i, v)| == |entries|
    ensures Keys(MoveToEnd(entries, i, v)) == Without(Keys(entries), entries[i].0) + [entries[i].0]
    ensures Distinct(Keys(MoveToEnd(entries, i, v)))
  {
    var e := MoveToEnd(entries, i, v);
    MovedKeys(entries, i, v);
    LookupAt(e, |e| - 1);
    forall k' | k' != entries[i].0 ensures Lookup(e, k') == Lookup(entries, k') {
      var p := Position(entries, k');
      if p < 0 {
        WithoutKeepsDistinct(Keys(entries), entries[i].0);
        LookupAbsent(e, k');
      } else {
        var q := if p < i then p else p - 1;
        assert e[q] == entries[p];
        LookupAt(e, q);
        LookupAt(entries, p);
      }
    }
  }

  /** Appending a new key `k` with `v`. */
  lemma AppendLookups<K, V>(entries: seq<(K, V)>, k: K, v: V)
    requires Distinct(Keys(entries)) && k !in Keys(entries)
    ensures Distinct(Keys(entries + [(k, v)]))
    ensures Keys(entries + [(k, v)]) == Keys(entries) + [k]
    ensures Lookup(entries + [(k, v)], k) == Some(v)
    ensures forall k' :: k' != k ==> Lookup(entries + [(k, v)], k') == Lookup(entries, k')
  {
    var e := entries + [(k, v)];
    KeysConcat(entries, [(k, v)]);
    LookupAt(e, |entries|);
    forall k' | k' != k ensures Lookup(e, k') == Lookup(entries, k') {
      assert e[..|e| - 1] == entries;
    }
  }

  /** Dropping the eldest entry of a list with one entry per key. */
  lemma DropEldest<K, V>(e: seq<(K, V)>)
    requires Distinct(Keys(e)) && |e| > 0
    ensures Distinct(Keys(e[1..]))
    ensures Keys(e[1..]) == Keys(e)[1..]
    ensures Lookup(e[1..], e[0].0) == None
    ensures forall k' :: k' != e[0].0 ==> Lookup(e[1..], k') == Lookup(e, k')
  {
    assert Keys(e)[0] == e[0].0;
    LookupAbsent(e[1..], e[0].0);
    forall k' | k' != e[0].0 ensures Lookup(e[1..], k') == Lookup(e, k') {
      var p := Position(e, k');
      if p < 0 {
        LookupAbsent(e[1..], k');
      } else {
        LookupAt(e, p);
        LookupAt(e[1..], p - 1);
      }
    }
  }

  /** Removing the entry at `i`. */
  lemma RemovedLookups<K, V>(entries: seq<(K, V)>, i: int)
    requires Distinct(Keys(entries)) && 0 <= i < |entries|
    ensures Distinct(Keys(entries[..i] + entries[i + 1..]))
    ensures Keys(entries[..i] + entries[i + 1..]) == Without(Keys(entries), entries[i].0)
    ensures Lookup(entries[..i] + entries[i + 1..], entries[i].0) == None
    ensures forall k' :: k' != entries[i].0 ==> Lookup(entries[..i] + entries[i + 1..], k') == Lookup(entries, k')
  {
    var k := entries[i].0;
    var e := entries[..i] + entries[i + 1..];
    var m := MoveToEnd(entries, i, entries[i].1);
    RemovedKeys(entries, i);
    MovedLookups(entries, i, entries[i].1);
    LookupAbsent(e, k);
    forall k' | k' != k ensures Lookup(e, k') == Lookup(entries, k') {
      assert Lookup(m, k') == Lookup(entries, k');
    }
  }

  /** The keys left after removing the entry at `i`: they are the entry
      list moved to the end, without its last entry. */
  lemma RemovedKeys<K, V>(entries: seq<(K, V)>, i: int)
    requires Distinct(Keys(entries)) && 0 <= i < |entries|
    ensures var m := MoveToEnd(entries, i, entries[i].1);
            m[..|m| - 1] == entries[..i] + entries[i + 1..]
    ensures Distinct(Keys(entries[..i] + entries[i + 1..]))
    ensures Keys(entries[..i] + entries[i + 1..]) == Without(Keys(entries), entries[i].0)
  {
    var k := entries[i].0;
    var e := entries[..i] + entries[i + 1..];
    var m := MoveToEnd(entries, i, entries[i].1);
    MovedKeys(entries, i, entries[i].1);
    assert m == e + [entries[i]];
    assert m[..|m| - 1] == e;
    KeysConcat(e, [entries[i]]);
    assert Keys(e) == Keys(m)[..|m| - 1];
    WithoutKeepsDistinct(Keys(entries), k);
  }

  lemma {:induction false} DistinctCard<K>(s: seq<K>)
    requires Distinct(s)
    ensures |set k | k in s| == |s|
  {
    if s != [] {
      var init := s[..|s| - 1];
      DistinctCard(init);
      assert (set k | k in s) == (set k | k in init) + {s[|s| - 1]};
      assert s[|s| - 1] !in init;
    }
  }

  /** One event the access order records: an access or a removal. */
  datatype Event<K> = Touch(key: K) | Forget(key: K)

  /** The keys in the order of their last access, least recent first: an
      access moves its key to the end, a removal drops it. This is the
      least-recently-used order the cache is meant to follow. */
  ghost function Recency<K>(h: seq<Event<K>>): seq<K>
    decreases |h|
  {
    if h == [] then []
    else
      var r := Recency(h[..|h| - 1]);
      match h[|h| - 1]
      case Touch(k) => Without(r, k) + [k]
      case Forget(k) => Without(r, k)
  }

  ghost predicate NoForget<K>(h: seq<Event<K>>) {
    forall i :: 0 <= i < |h| ==> h[i].Touch?
  }

  ghost predicate IsSuffix<K>(a: seq<K>, b: seq<K>) {
    |a| <= |b| && b[|b| - |a|..] == a
  }

  /** The cache holds the most recently used keys: its keys, in access
      order, are the tail of the recency order and, as long as no key was
      removed, as many of them as the capacity allows. */
  ghost predicate Tracks<K, V>(c: Cache<K, V>, h: seq<Event<K>>) {
    IsSuffix(Keys(c.entries), Recency(h))
    && (NoForget(h) ==> |c.entries| == Min(c.capacity, |Recency(h)|))
  }

  lemma RecencyStep<K>(h: seq<Event<K>>, e: Event<K>)
    ensures Recency(h + [e]) == if e.Touch? then Without(Recency(h), e.key) + [e.key] else Without(Recency(h), e.key)
  {
    assert (h + [e])[..|h|] == h;
  }

  lemma {:induction false} RecencyDistinct<K>(h: seq<Event<K>>)
    ensures Distinct(Recency(h))
    decreases |h|
  {
    if h != [] {
      var init, e := h[..|h| - 1], h[|h| - 1];
      assert h == init + [e];
      RecencyDistinct(init);
      RecencyStep(init, e);
      WithoutKeepsDistinct(Recency(init), e.key);
      if e.Touch? {
        DistinctAppend(Without(Recency(init), e.key), e.key);
      }
    }
  }

  lemma NoForgetStep<K>(h: seq<Event<K>>, k: K)
    ensures NoForget(h + [Touch(k)]) <==> NoForget(h)
  {
    if NoForget(h + [Touch(k)]) {
      forall i | 0 <= i < |h| ensures h[i].Touch? {
        assert (h + [Touch(k)])[i] == h[i];
      }
    }
  }

  /** Removing a key keeps a tail a tail. */
  lemma WithoutSuffix<K>(a: seq<K>, b: seq<K>, k: K)
    requires IsSuffix(a, b)
    ensures IsSuffix(Without(a, k), Without(b, k))
  {
    var p := b[..|b| - |a|];
    assert b == p + a;
    WithoutConcat(p, a, k);
    var wp, wa := Without(p, k), Without(a, k);
    assert (wp + wa)[|wp + wa| - |wa|..] == wa;
  }

  lemma SuffixAppend<K>(a: seq<K>, b: seq<K>, x: K)
    requires IsSuffix(a, b)
    ensures IsSuffix(a + [x], b + [x])
  {
    assert (b + [x])[|b + [x]| - |a + [x]|..] == b[|b| - |a|..] + [x];
  }

  lemma SuffixTail<K>(a: seq<K>, b: seq<K>)
    requires IsSuffix(a, b) && |a| > 0
    ensures IsSuffix(a[1..], b)
  {
    assert b[|b| - |a[1..]|..] == b[|b| - |a|..][1..];
  }

  /** The empty cache follows the empty history. */
  lemma NewTracks<K, V>(capacity: int)
    requires 0 < capacity < IntMax
    ensures Tracks(NewCache<K, V>(capacity).value, [])
  {
  }

  /** Removing a key, and recording its removal, keeps the cache's keys
      the tail of the recency order. */
  lemma RemoveTracks<K, V>(c: Cache<K, V>, h: seq<Event<K>>, k: K)
    requires Valid(c) && Tracks(c, h)
    ensures Tracks(Remove(c, k).0, h + [Forget(k)])
  {
    RemoveLookups(c, k);
    RecencyStep(h, Forget(k));
    WithoutSuffix(Keys(c.entries), Recency(h), k);
    assert !NoForget(h + [Forget(k)]) by {
      assert (h + [Forget(k)])[|h|] == Forget(k);
    }
  }

  /** An access to a cached key: it moves to the end of both orders. */
  lemma TouchCachedTracks<K, V>(c: Cache<K, V>, h: seq<Event<K>>, k: K, after: Cache<K, V>)
    requires Valid(c) && Tracks(c, h) && k in Keys(c.entries)
    requires after.capacity == c.capacity && Keys(after.entries) == Without(Keys(c.entries), k) + [k]
    ensures Tracks(after, h + [Touch(k)])
  {
    var r := Recency(h);
    RecencyStep(h, Touch(k));
    WithoutSuffix(Keys(c.entries), r, k);
    SuffixAppend(Without(Keys(c.entries), k), Without(r, k), k);
    RecencyDistinct(h);
    assert k in r;
    WithoutOnce(r, k);
    WithoutOnce(Keys(c.entries), k);
    NoForgetStep(h, k);
  }

  /** A `get` that hits is an access; a miss records nothing and changes
      nothing. */
  lemma GetTracks<K, V>(c: Cache<K, V>, h: seq<Event<K>>, k: K)
    requires Valid(c) && Tracks(c, h)
    ensures Tracks(Get(c, k).0, if ContainsKey(c, k) then h + [Touch(k)] else h)
  {
    GetKeepsContents(c, k);
    if ContainsKey(c, k) {
      TouchCachedTracks(c, h, k, Get(c, k).0);
    }
  }

  /** A `put` is an access: afterwards the cache still holds the most
      recently used keys, so the key it evicts is the least recently used
      one among those it held. */
  lemma PutTracks<K, V>(c: Cache<K, V>, h: seq<Event<K>>, k: K, v: V)
    requires Valid(c) && Tracks(c, h)
    ensures Tracks(Put(c, k, v).0, h + [Touch(k)])
  {
    PutKeys(c, k, v);
    var ks, r := Keys(c.entries), Recency(h);
    if k in ks {
      TouchCachedTracks(c, h, k, Put(c, k, v).0);
    } else {
      RecencyStep(h, Touch(k));
      NoForgetStep(h, k);
      WithoutAbsent(ks, k);
      WithoutSuffix(ks, r, k);
      if Evicts(c, k) {
        SuffixTail(ks, Without(r, k));
        SuffixAppend(ks[1..], Without(r, k), k);
      } else {
        SuffixAppend(ks, Without(r, k), k);
        if NoForget(h) {
          assert |ks| == |r|;
          assert r == ks;
          WithoutAbsent(r, k);
        }
      }
    }
  }

  /** What a cache that follows its history means: every key it lost or
      never stored is less recently used than every key it holds, and its
      eldest entry is the least recently used key it holds. */
  lemma CachedAreMostRecent<K, V>(c: Cache<K, V>, h: seq<Event<K>>)
    requires Tracks(c, h)
    ensures var r, ks := Recency(h), Keys(c.entries);
      forall x :: x in r && x !in ks ==> x in r[..|r| - |ks|]
    ensures var r, ks := Recency(h), Keys(c.entries);
      |ks| > 0 ==> r[|r| - |ks|] == ks[0] && forall x :: x in ks[1..] ==> x in r[|r| - |ks| + 1..]
  {
    var r, ks := Recency(h), Keys(c.entries);
    assert r == r[..|r| - |ks|] + ks;
  }
}

=== FILE: sorted_map.dfy ===
/** Sorted maps (`TreeMap`) under a comparator: a list of (key, value)
    pairs in strictly ascending key order, and the map it stands for.

    The comparator is `less(a, b)`, that is `compare(a, b) < 0`. As in
    `TreeMap`, two keys it cannot tell apart (`compare(a, b) == 0`) are the
    same key: a lookup finds either, and a `put` keeps the key already
    there and replaces its value. */
module SortedMap {
  import opened Results

  /** Keys the comparator cannot tell apart. */
  predicate Equiv<X>(less: (X, X) -> bool, a: X, b: X) {
    !less(a, b) && !less(b, a)
  }

  /** What the `Comparator` contract asks of `compare(a, b) < 0`: a strict
      weak order, under which the keys it cannot tell apart form classes. */
  ghost predicate StrictWeakOrder<X(!new)>(less: (X, X) -> bool) {
    (forall x :: !less(x, x))
    && (forall x, y, z :: less(x, y) && less(y, z) ==> less(x, z))
    && (forall x, y, z :: less(x, z) ==> less(x, y) || less(y, z))
  }

  /** A comparator that is a strict total order: it is consistent with
      equality, telling apart any two different keys. */
  ghost predicate StrictTotalOrder<X(!new)>(less: (X, X) -> bool) {
    (forall x :: !less(x, x))
    && (forall x, y, z :: less(x, y) && less(y, z) ==> less(x, z))
    && (forall x, y :: x == y || less(x, y) || less(y, x))
  }

  /** A total order is a weak one whose classes are single keys. */
  lemma TotalIsWeak<X(!new)>(less: (X, X) -> bool)
    requires StrictTotalOrder(less)
    ensures StrictWeakOrder(less)
    ensures forall a, b :: Equiv(less, a, b) <==> a == b
  {
    forall x, y, z | less(x, z) ensures less(x, y) || less(y, z) {
      if y != x && !less(x, y) {
        assert less(y, x);
      }
    }
  }

  /** Keys that cannot be told apart are ordered alike against any other. */
  lemma EquivOrdered<X(!new)>(less: (X, X) -> bool, a: X, b: X, c: X)
    requires StrictWeakOrder(less) && Equiv(less, a, b)
    ensures less(a, c) <==> less(b, c)
    ensures less(c, a) <==> less(c, b)
    ensures Equiv(less, a, c) <==> Equiv(less, b, c)
  {
    if less(a, c) { assert less(a, b) || less(b, c); }
    if less(b, c) { assert less(b, a) || less(a, c); }
    if less(c, a) { assert less(c, b) || less(b, a); }
    if less(c, b) { assert less(c, a) || less(a, b); }
  }

  /** The natural order of integers, what a null comparator means for
      `Integer` keys. */
  lemma NaturalOrderIsTotal()
    ensures StrictTotalOrder((a: int, b: int) => a < b)
  {
  }

  /** Keys in strictly ascending order. */
  ghost predicate Sorted<X(!new), Y>(less: (X, X) -> bool, xs: seq<(X, Y)>) {
    forall i, j :: 0 <= i < j < |xs| ==> less(xs[i].0, xs[j].0)
  }

  /** The map a list of pairs stands for; an earlier pair wins. */
  function View<X(==), Y>(xs: seq<(X, Y)>): (m: map<X, Y>)
    ensures forall i :: 0 <= i < |xs| ==> xs[i].0 in m
    decreases |xs|
  {
    if |xs| == 0 then map[] else View(xs[1..])[xs[0].0 := xs[0].1]
  }

  /** `get(key)` on a sorted map: the value of the first pair whose key the
      comparator cannot tell from the one asked for. */
  function Lookup<X, Y>(less: (X, X) -> bool, xs: seq<(X, Y)>, x: X): (r: Option<Y>)
    decreases |xs|
  {
    if |xs| == 0 then None else if Equiv(less, xs[0].0, x) then Some(xs[0].1) else Lookup(less, xs[1..], x)
  }

  /** A lookup finds a pair whose key is equivalent to the one asked for,
      and nothing when there is none. */
  lemma {:induction false} LookupFound<X(!new), Y>(less: (X, X) -> bool, xs: seq<(X, Y)>, x: X)
    ensures Lookup(less, xs, x).Some? ==>
              exists i :: 0 <= i < |xs| && Equiv(less, xs[i].0, x) && xs[i].1 == Lookup(less, xs, x).value
    ensures Lookup(less, xs, x).None? ==> forall i :: 0 <= i < |xs| ==> !Equiv(less, xs[i].0, x)
    decreases |xs|
  {
    if |xs| > 0 && !Equiv(less, xs[0].0, x) {
      LookupFound(less, xs[1..], x);
      if Lookup(less, xs, x).Some? {
        var i :| 0 <= i < |xs[1..]| && Equiv(less, xs[1..][i].0, x) && xs[1..][i].1 == Lookup(less, xs, x).value;
        assert xs[i + 1] == xs[1..][i];
      } else {
        forall i | 0 <= i < |xs| ensures !Equiv(less, xs[i].0, x) {
          if i > 0 {
            assert xs[i] == xs[1..][i - 1];
          }
        }
      }
    }
  }

  /** Equivalent keys look up the same value. */
  lemma {:induction false} LookupEquiv<X(!new), Y>(less: (X, X) -> bool, xs: seq<(X, Y)>, x: X, z: X)
    requires StrictWeakOrder(less) && Equiv(less, x, z)
    ensures Lookup(less, xs, x) == Lookup(less, xs, z)
    decreases |xs|
  {
    if |xs| > 0 {
      EquivOrdered(less, x, z, xs[0].0);
      LookupEquiv(less, xs[1..], x, z);
    }
  }

  /** Under a total order the lookup is the map the list stands for. */
  lemma {:induction false} LookupIsView<X(!new), Y>(less: (X, X) -> bool, xs: seq<(X, Y)>, x: X)
    requires StrictTotalOrder(less)
    ensures Lookup(less, xs, x) == (if x in View(xs) then Some(View(xs)[x]) else None)
    decreases |xs|
  {
    TotalIsWeak(less);
    if |xs| > 0 {
      LookupIsView(less, xs[1..], x);
    }
  }

  /** `put(key, value)` on a sorted map: replace the value of the pair
      whose key is equivalent, keeping that key, or insert a new pair
      before the first larger key. */
  function Insert<X, Y>(less: (X, X) -> bool, xs: seq<(X, Y)>, x: X, y: Y): (r: seq<(X, Y)>)
    decreases |xs|
  {
    if |xs| == 0 then [(x, y)]
    else if Equiv(less, xs[0].0, x) then [(xs[0].0, y)] + xs[1..]
    else if less(xs[0].0, x) then [xs[0]] + Insert(less, xs[1..], x, y)
    else [(x, y)] + xs
  }

  /** `remove(key)` on a sorted map: drop the pair whose key is equivalent;
      the search stops at the first larger key. */
  function Delete<X, Y>(less: (X, X) -> bool, xs: seq<(X, Y)>, x: X): (r: seq<(X, Y)>)
    decreases |xs|
  {
    if |xs| == 0 then []
    else if Equiv(less, xs[0].0, x) then xs[1..]
    else if less(xs[0].0, x) then [xs[0]] + Delete(less, xs[1..], x)
    else xs
  }

  /** After a `put`, the keys equivalent to the one put give the new value
      and every other key gives what it gave before. */
  lemma {:induction false} LookupInsert<X(!new), Y>(less: (X, X) -> bool, xs: seq<(X, Y)>, x: X, y: Y, z: X)
    requires StrictWeakOrder(less)
    ensures Lookup(less, Insert(less, xs, x, y), z) == if Equiv(less, z, x) then Some(y) else Lookup(less, xs, z)
    decreases |xs|
  {
    if |xs| > 0 {
      var r := Insert(less, xs, x, y);
      if Equiv(less, xs[0].0, x) {
        EquivOrdered(less, xs[0].0, x, z);
        assert r[1..] == xs[1..];
      } else if less(xs[0].0, x) {
        if Equiv(less, xs[0].0, z) {
          EquivOrdered(less, xs[0].0, z, x);
        }
        assert r[1..] == Insert(less, xs[1..], x, y);
        LookupInsert(less, xs[1..], x, y, z);
      } else {
        assert r[1..] == xs;
      }
    }
  }

  /** Under a total order a `put` updates the map the list stands for. */
  lemma {:induction false} InsertView<X(!new), Y>(less: (X, X) -> bool, xs: seq<(X, Y)>, x: X, y: Y)
    requires StrictTotalOrder(less)
    ensures View(Insert(less, xs, x, y)) == View(xs)[x := y]
    decreases |xs|
  {
    TotalIsWeak(less);
    if |xs| > 0 {
      var r := Insert(less, xs, x, y);
      if Equiv(less, xs[0].0, x) {
        assert r[1..] == xs[1..];
      } else if less(xs[0].0, x) {
        assert r[1..] == Insert(less, xs[1..], x, y);
        InsertView(less, xs[1..], x, y);
      } else {
        assert r[1..] == xs;
      }
    }
  }

  /** No key of a sorted list is equivalent to a key below its first. */
  lemma {:induction false} BelowAllKeys<X(!new), Y>(less: (X, X) -> bool, xs: seq<(X, Y)>, x: X)
    requires StrictWeakOrder(less) && Sorted(less, xs)
    requires |xs| > 0 ==> less(x, xs[0].0)
    ensures Lookup(less, xs, x).None?
    decreases |xs|
  {
    if |xs| > 0 {
      if |xs| > 1 {
        assert less(xs[0].0, xs[1].0);
      }
      BelowAllKeys(less, xs[1..], x);
    }
  }

  /** Under a total order, a key below the first of a sorted list is not
      among its keys. */
  lemma BelowAllKeysView<X(!new), Y>(less: (X, X) -> bool, xs: seq<(X, Y)>, x: X)
    requires StrictTotalOrder(less) && Sorted(less, xs)
    requires |xs| > 0 ==> less(x, xs[0].0)
    ensures x !in View(xs)
  {
    TotalIsWeak(less);
    BelowAllKeys(less, xs, x);
    LookupIsView(less, xs, x);
  }

  /** `put` keeps the keys sorted; the first key stays or is the new one. */
  lemma {:induction false} InsertSorted<X(!new), Y>(less: (X, X) -> bool, xs: seq<(X, Y)>, x: X, y: Y)
    requires StrictWeakOrder(less) && Sorted(less, xs)
    ensures Sorted(less, Insert(less, xs, x, y))
    ensures |xs| > 0 ==> Insert(less, xs, x, y)[0].0 == xs[0].0 || Insert(less, xs, x, y)[0].0 == x
    decreases |xs|
  {
    if |xs| > 0 && Equiv(less, xs[0].0, x) {
      var r := Insert(less, xs, x, y);
      forall i, j | 0 <= i < j < |r| ensures less(r[i].0, r[j].0) {
        assert r[i].0 == xs[i].0 && r[j].0 == xs[j].0;
      }
    } else if |xs| > 0 && less(xs[0].0, x) {
      InsertSorted(less, xs[1..], x, y);
      var r := Insert(less, xs, x, y);
      forall i, j | 0 <= i < j < |r| ensures less(r[i].0, r[j].0) {
        if i == 0 {
          var rest := Insert(less, xs[1..], x, y);
          assert r[j] == rest[j - 1];
          if |xs| > 1 {
            assert rest[0].0 == xs[1].0 || rest[0].0 == x;
            assert less(xs[0].0, rest[0].0);
          }
          if j > 1 {
            assert less(rest[0].0, rest[j - 1].0);
          }
        }
      }
    } else if |xs| > 0 {
      var r := Insert(less, xs, x, y);
      forall i, j | 0 <= i < j < |r| ensures less(r[i].0, r[j].0) {
        if i == 0 {
          assert less(x, xs[0].0);
          if j > 1 {
            assert less(xs[0].0, xs[j - 1].0);
          }
        }
      }
    }
  }

  /** `remove` keeps the keys sorted, and no key comes before the old first. */
  lemma {:induction false} DeleteSorted<X(!new), Y>(less: (X, X) -> bool, xs: seq<(X, Y)>, x: X)
    requires StrictWeakOrder(less) && Sorted(less, xs)
    ensures Sorted(less, Delete(less, xs, x))
    ensures |xs| > 0 && |Delete(less, xs, x)| > 0 ==> !less(Delete(less, xs, x)[0].0, xs[0].0)
    decreases |xs|
  {
    if |xs| > 0 {
      var r := Delete(less, xs, x);
      if Equiv(less, xs[0].0, x) {
        if |xs| > 1 {
          assert less(xs[0].0, xs[1].0);
        }
      } else if less(xs[0].0, x) {
        DeleteSorted(less, xs[1..], x);
        var rest := Delete(less, xs[1..], x);
        assert r[1..] == rest;
        forall i, j | 0 <= i < j < |r| ensures less(r[i].0, r[j].0) {
          if i == 0 {
            assert r[j] == rest[j - 1];
            assert !less(rest[0].0, xs[1].0);
            assert less(xs[0].0, xs[1].0);
            if j > 1 {
              assert less(rest[0].0, rest[j - 1].0);
            }
          }
        }
      }
    }
  }

  /** After a `remove` of a sorted list, the keys equivalent to the one
      removed give nothing and every other key gives what it gave before. */
  lemma {:induction false} LookupDelete<X(!new), Y>(less: (X, X) -> bool, xs: seq<(X, Y)>, x: X, z: X)
    requires StrictWeakOrder(less) && Sorted(less, xs)
    ensures Lookup(less, Delete(less, xs, x), z) == if Equiv(less, z, x) then None else Lookup(less, xs, z)
    decreases |xs|
  {
    if |xs| > 0 {
      if Equiv(less, z, x) {
        EquivOrdered(less, z, x, xs[0].0);
      }
      if Equiv(less, xs[0].0, x) {
        EquivOrdered(less, xs[0].0, x, z);
        if Equiv(less, z, x) && |xs| > 1 {
          assert less(xs[0].0, xs[1].0);
          EquivOrdered(less, z, xs[0].0, xs[1].0);
        }
        if Equiv(less, z, x) {
          BelowAllKeys(less, xs[1..], z);
        }
      } else if less(xs[0].0, x) {
        if Equiv(less, xs[0].0, z) {
          EquivOrdered(less, xs[0].0, z, x);
        }
        var r := Delete(less, xs, x);
        assert r[1..] == Delete(less, xs[1..], x);
        LookupDelete(less, xs[1..], x, z);
      } else if Equiv(less, z, x) {
        assert less(x, xs[0].0);
        BelowAllKeys(less, xs, z);
      }
    }
  }

  /** Under a total order a `remove` takes the key out of the map the
      sorted list stands for. */
  lemma DeleteView<X(!new), Y>(less: (X, X) -> bool, xs: seq<(X, Y)>, x: X)
    requires StrictTotalOrder(less) && Sorted(less, xs)
    ensures View(Delete(less, xs, x)) == View(xs) - {x}
  {
    TotalIsWeak(less);
    var d := Delete(less, xs, x);
    forall z ensures (z in View(d)) == (z in View(xs) - {x}) && (z in View(d) ==> View(d)[z] == View(xs)[z]) {
      LookupDelete(less, xs, x, z);
      LookupIsView(less, d, z);
      LookupIsView(less, xs, z);
    }
  }

  /** Under a total order a sorted list has as many pairs as its map has
      keys. */
  lemma {:induction false} SortedViewSize<X(!new), Y>(less: (X, X) -> bool, xs: seq<(X, Y)>)
    requires StrictTotalOrder(less) && Sorted(less, xs)
    ensures |View(xs)| == |xs|
    decreases |xs|
  {
    if |xs| > 0 {
      SortedViewSize(less, xs[1..]);
      if |xs| > 1 {
        assert less(xs[0].0, xs[1].0);
      }
      BelowAllKeysView(less, xs[1..], xs[0].0);
    }
  }

  /** Every pair of an insertion result holds the new value or is an old
      pair. */
  lemma {:induction false} InsertPairs<X(!new), Y>(less: (X, X) -> bool, xs: seq<(X, Y)>, x: X, y: Y)
    ensures forall i :: 0 <= i < |Insert(less, xs, x, y)| ==>
              Insert(less, xs, x, y)[i].1 == y || exists j :: 0 <= j < |xs| && Insert(less, xs, x, y)[i] == xs[j]
    decreases |xs|
  {
    if |xs| > 0 && !Equiv(less, xs[0].0, x) && less(xs[0].0, x) {
      InsertPairs(less, xs[1..], x, y);
      var r := Insert(less, xs, x, y);
      forall i | 0 <= i < |r| ensures r[i].1 == y || exists j :: 0 <= j < |xs| && r[i] == xs[j] {
        if i > 0 {
          var rest := Insert(less, xs[1..], x, y);
          assert r[i] == rest[i - 1];
          if rest[i - 1].1 != y {
            var j :| 0 <= j < |xs[1..]| && rest[i - 1] == xs[1..][j];
            assert r[i] == xs[j + 1];
          }
        } else {
          assert r[0] == xs[0];
        }
      }
    } else if |xs| > 0 {
      var r := Insert(less, xs, x, y);
      forall i | 0 <= i < |r| ensures r[i].1 == y || exists j :: 0 <= j < |xs| && r[i] == xs[j] {
        if i > 0 && Equiv(less, xs[0].0, x) {
          assert r[i] == xs[i];
        } else if i > 0 {
          assert r[i] == xs[i - 1];
        }
      }
    }
  }
}

=== FILE: sorted_object_store.dfy ===
/** `SortedObjectStore`: the same store over sorted maps (`TreeMap`), the
    types ordered by one comparator and every type's keys by another.

    Any comparator obeying the `Comparator` contract is allowed. Types or
    keys it cannot tell apart are one entry, as in `TreeMap`. The sorted
    store behaves as the plain hash-based store only when both comparators
    are consistent with equality (strict total orders). */
module SortedObjectStore {
  import opened Results
  import ObjectStore
  import opened SortedMap

  /** The sorted type map and the counter. */
  datatype SortedStore<T, K, V> = SortedStore(types: seq<(T, seq<(K, V)>)>, size: int)

  /** Types ascending under `typeLess`, every type's keys under `keyLess`. */
  ghost predicate WellFormed<T(!new), K(!new), V>(typeLess: (T, T) -> bool, keyLess: (K, K) -> bool, s: SortedStore<T, K, V>) {
    StrictWeakOrder(typeLess) && StrictWeakOrder(keyLess)
    && Sorted(typeLess, s.types) && forall i :: 0 <= i < |s.types| ==> Sorted(keyLess, s.types[i].1)
  }

  /** The plain store a sorted one stands for. */
  function AsStore<T(==,!new), K(==,!new), V>(s: SortedStore<T, K, V>): (st: ObjectStore.Store<T, K, V>) {
    var ts := View(s.types);
    ObjectStore.Store(map t | t in ts :: View(ts[t]), s.size)
  }

  /** Both constructors: empty, the comparators (null for the natural
      order) given to every operation (see `NewSortedStoreIsNew`). */
  function NewSortedStore<T(==,!new), K(==,!new), V>(): SortedStore<T, K, V> {
    SortedStore([], 0)
  }

  /** A new sorted store stands for a new object store. */
  lemma NewSortedStoreIsNew<T(!new), K(!new), V>(s: SortedStore<T, K, V>)
    requires s == NewSortedStore()
    ensures AsStore(s) == ObjectStore.NewStore<T, K, V>()
  {
  }

  /** The overriding `put`: the same steps on sorted maps. */
  function SortedPut<T(==,!new), K(==,!new), V>(typeLess: (T, T) -> bool, keyLess: (K, K) -> bool, s: SortedStore<T, K, V>, t: T, k: K, v: Option<V>): (r: SortedStore<T, K, V>)
  {
    var idmap := Lookup(typeLess, s.types, t).GetOr([]);
    var present := Lookup(keyLess, idmap, k).Some?;
    match v
    case None =>
      if present then SortedStore(Insert(typeLess, s.types, t, Delete(keyLess, idmap, k)),
                                  if s.size > 0 then s.size - 1 else s.size)
      else SortedStore(Insert(typeLess, s.types, t, idmap), s.size)
    case Some(x) =>
      SortedStore(Insert(typeLess, s.types, t, Insert(keyLess, idmap, k, x)), if present then s.size else s.size + 1)
  }

  /** The inherited `remove(type)`. */
  function SortedRemoveType<T(==,!new), K(==,!new), V>(typeLess: (T, T) -> bool, s: SortedStore<T, K, V>, t: T): (r: SortedStore<T, K, V>)
  {
    match Lookup(typeLess, s.types, t)
    case None => s
    case Some(idmap) => SortedStore(Insert(typeLess, s.types, t, []), s.size - |idmap|)
  }

  /** The inherited `get`. */
  function SortedGet<T(==,!new), K(==,!new), V>(typeLess: (T, T) -> bool, keyLess: (K, K) -> bool, s: SortedStore<T, K, V>, t: T, k: K): (r: Option<V>)
  {
    match Lookup(typeLess, s.types, t)
    case None => None
    case Some(idmap) => Lookup(keyLess, idmap, k)
  }

  /** A type's key map in a well-formed store is sorted. */
  lemma TypeMapSorted<T(!new), K(!new), V>(typeLess: (T, T) -> bool, keyLess: (K, K) -> bool, s: SortedStore<T, K, V>, t: T)
    requires WellFormed(typeLess, keyLess, s)
    ensures Sorted(keyLess, Lookup(typeLess, s.types, t).GetOr([]))
  {
    LookupFound(typeLess, s.types, t);
  }

  /** `put` keeps types and keys sorted. */
  lemma SortedPutWellFormed<T(!new), K(!new), V>(typeLess: (T, T) -> bool, keyLess: (K, K) -> bool, s: SortedStore<T, K, V>, t: T, k: K, v: Option<V>)
    requires WellFormed(typeLess, keyLess, s)
    ensures WellFormed(typeLess, keyLess, SortedPut(typeLess, keyLess, s, t, k, v))
  {
    var idmap := Lookup(typeLess, s.types, t).GetOr([]);
    TypeMapSorted(typeLess, keyLess, s, t);
    var inner := match v
      case None => if Lookup(keyLess, idmap, k).Some? then Delete(keyLess, idmap, k) else idmap
      case Some(x) => Insert(keyLess, idmap, k, x);
    if v.None? {
      DeleteSorted(keyLess, idmap, k);
    } else {
      InsertSorted(keyLess, idmap, k, v.value);
    }
    assert Sorted(keyLess, inner);
    var r := SortedPut(typeLess, keyLess, s, t, k, v);
    assert r.types == Insert(typeLess, s.types, t, inner);
    InsertSorted(typeLess, s.types, t, inner);
    InsertPairs(typeLess, s.types, t, inner);
  }

  /** `remove(type)` keeps types and keys sorted. */
  lemma SortedRemoveTypeWellFormed<T(!new), K(!new), V>(typeLess: (T, T) -> bool, keyLess: (K, K) -> bool, s: SortedStore<T, K, V>, t: T)
    requires WellFormed(typeLess, keyLess, s)
    ensures WellFormed(typeLess, keyLess, SortedRemoveType(typeLess, s, t))
  {
    if Lookup(typeLess, s.types, t).Some? {
      InsertSorted(typeLess, s.types, t, []);
      InsertPairs(typeLess, s.types, t, []);
    }
  }

  /** With a type order consistent with equality, filing a key map under a
      type in the sorted store files its map under the type in the plain
      one. */
  lemma StoreOfInsert<T(!new), K(!new), V>(typeLess: (T, T) -> bool, s: SortedStore<T, K, V>, t: T, inner: seq<(K, V)>, n: int)
    requires StrictTotalOrder(typeLess)
    ensures AsStore(SortedStore(Insert(typeLess, s.types, t, inner), n)) == ObjectStore.Store(AsStore(s).types[t := View(inner)], n)
  {
    InsertView(typeLess, s.types, t, inner);
  }

  /** With comparators consistent with equality, the sorted `put` is the
      plain `put` on the map the store stands for. */
  lemma SortedPutIsPut<T(!new), K(!new), V>(typeLess: (T, T) -> bool, keyLess: (K, K) -> bool, s: SortedStore<T, K, V>, t: T, k: K, v: Option<V>)
    requires WellFormed(typeLess, keyLess, s) && StrictTotalOrder(typeLess) && StrictTotalOrder(keyLess)
    ensures AsStore(SortedPut(typeLess, keyLess, s, t, k, v)) == ObjectStore.Put(AsStore(s), t, k, v)
  {
    var idmap := Lookup(typeLess, s.types, t).GetOr([]);
    TypeMapSorted(typeLess, keyLess, s, t);
    LookupIsView(typeLess, s.types, t);
    LookupIsView(keyLess, idmap, k);
    var a := AsStore(s);
    assert View(idmap) == (if t in a.types then a.types[t] else map[]);
    var present := Lookup(keyLess, idmap, k).Some?;
    match v
    case None =>
      if present {
        DeleteView(keyLess, idmap, k);
        StoreOfInsert(typeLess, s, t, Delete(keyLess, idmap, k), if s.size > 0 then s.size - 1 else s.size);
      } else {
        StoreOfInsert(typeLess, s, t, idmap, s.size);
      }
    case Some(x) =>
      InsertView(keyLess, idmap, k, x);
      StoreOfInsert(typeLess, s, t, Insert(keyLess, idmap, k, x), if present then s.size else s.size + 1);
  }

  /** With comparators consistent with equality, the inherited
      `remove(type)` is the plain one on the map the store stands for. */
  lemma SortedRemoveTypeIsRemoveType<T(!new), K(!new), V>(typeLess: (T, T) -> bool, keyLess: (K, K) -> bool, s: SortedStore<T, K, V>, t: T)
    requires WellFormed(typeLess, keyLess, s) && StrictTotalOrder(typeLess) && StrictTotalOrder(keyLess)
    ensures AsStore(SortedRemoveType(typeLess, s, t)) == ObjectStore.RemoveType(AsStore(s), t)
  {
    LookupIsView(typeLess, s.types, t);
    if Lookup(typeLess, s.types, t).Some? {
      var idmap := Lookup(typeLess, s.types, t).value;
      TypeMapSorted(typeLess, keyLess, s, t);
      SortedViewSize(keyLess, idmap);
      InsertView(typeLess, s.types, t, []);
      assert AsStore(SortedRemoveType(typeLess, s, t)).types == AsStore(s).types[t := map[]];
    }
  }

  /** With comparators consistent with equality, the inherited `get` reads
      the map the store stands for. */
  lemma SortedGetIsGet<T(!new), K(!new), V>(typeLess: (T, T) -> bool, keyLess: (K, K) -> bool, s: SortedStore<T, K, V>, t: T, k: K)
    requires StrictTotalOrder(typeLess) && StrictTotalOrder(keyLess)
    ensures SortedGet(typeLess, keyLess, s, t, k) == ObjectStore.Get(AsStore(s), t, k)
  {
    LookupIsView(typeLess, s.types, t);
    if Lookup(typeLess, s.types, t).Some? {
      LookupIsView(keyLess, Lookup(typeLess, s.types, t).value, k);
    }
  }

  /** Under any comparators: after a `put`, a type and key the comparators
      cannot tell from the ones put give the value put (nothing after a
      null value), and every other pair gives what it gave before. */
  lemma SortedGetAfterPut<T(!new), K(!new), V>(typeLess: (T, T) -> bool, keyLess: (K, K) -> bool, s: SortedStore<T, K, V>, t: T, k: K, v: Option<V>, t2: T, k2: K)
    requires WellFormed(typeLess, keyLess, s)
    ensures SortedGet(typeLess, keyLess, SortedPut(typeLess, keyLess, s, t, k, v), t2, k2)
            == if Equiv(typeLess, t2, t) && Equiv(keyLess, k2, k) then v else SortedGet(typeLess, keyLess, s, t2, k2)
  {
    var idmap := Lookup(typeLess, s.types, t).GetOr([]);
    TypeMapSorted(typeLess, keyLess, s, t);
    var inner := match v
      case None => if Lookup(keyLess, idmap, k).Some? then Delete(keyLess, idmap, k) else idmap
      case Some(x) => Insert(keyLess, idmap, k, x);
    assert SortedPut(typeLess, keyLess, s, t, k, v).types == Insert(typeLess, s.types, t, inner);
    LookupInsert(typeLess, s.types, t, inner, t2);
    if Equiv(typeLess, t2, t) {
      LookupEquiv(typeLess, s.types, t2, t);
      match v
      case None =>
        if Lookup(keyLess, idmap, k).Some? {
          LookupDelete(keyLess, idmap, k, k2);
        } else if Equiv(keyLess, k2, k) {
          LookupEquiv(keyLess, idmap, k2, k);
        }
      case Some(x) =>
        LookupInsert(keyLess, idmap, k, x, k2);
    }
  }

  /** `types()` of a sorted store: ascending, and exactly the known types. */
  function SortedTypes<T(==,!new), K(==,!new), V>(s: SortedStore<T, K, V>): (r: seq<T>)
    ensures |r| == |s.types| && forall i :: 0 <= i < |r| ==> r[i] == s.types[i].0
  {
    seq(|s.types|, i requires 0 <= i < |s.types| => s.types[i].0)
  }

  /** The listed types are in ascending order. */
  lemma SortedTypesAscending<T(!new), K(!new), V>(typeLess: (T, T) -> bool, keyLess: (K, K) -> bool, s: SortedStore<T, K, V>)
    requires WellFormed(typeLess, keyLess, s)
    ensures forall i, j :: 0 <= i < j < |SortedTypes(s)| ==> typeLess(SortedTypes(s)[i], SortedTypes(s)[j])
  {
  }

  /** With a type order consistent with equality, the listed types are the
      store's types. */
  lemma SortedTypesAreTypes<T(!new), K(!new), V>(typeLess: (T, T) -> bool, s: SortedStore<T, K, V>)
    requires StrictTotalOrder(typeLess)
    ensures forall t :: t in SortedTypes(s) <==> t in ObjectStore.Types(AsStore(s))
  {
    forall t ensures t in SortedTypes(s) <==> t in ObjectStore.Types(AsStore(s)) {
      LookupIsView(typeLess, s.types, t);
      TotalIsWeak(typeLess);
      LookupFound(typeLess, s.types, t);
    }
  }

  /** `typeKeys(type)` of a sorted store: the keys in map order, null for a
      type never used. */
  function SortedTypeKeys<T(==), K, V>(typeLess: (T, T) -> bool, s: SortedStore<T, K, V>, t: T): (r: Option<seq<K>>)
    ensures r.None? <==> Lookup(typeLess, s.types, t).None?
    ensures r.Some? ==> |r.value| == |Lookup(typeLess, s.types, t).value|
                        && forall i :: 0 <= i < |r.value| ==> r.value[i] == Lookup(typeLess, s.types, t).value[i].0
  {
    match Lookup(typeLess, s.types, t)
    case None => None
    case Some(idmap) => Some(seq(|idmap|, i requires 0 <= i < |idmap| => idmap[i].0))
  }

  /** The listed keys of a type are ascending, and a key gets a value
      exactly when it cannot be told apart from one of them. */
  lemma SortedTypeKeysAscending<T(!new), K(!new), V>(typeLess: (T, T) -> bool, keyLess: (K, K) -> bool, s: SortedStore<T, K, V>, t: T)
    requires WellFormed(typeLess, keyLess, s)
    ensures var r := SortedTypeKeys(typeLess, s, t);
            r.Some? ==> forall i, j :: 0 <= i < j < |r.value| ==> keyLess(r.value[i], r.value[j])
    ensures var r := SortedTypeKeys(typeLess, s, t);
            r.Some? ==> forall k :: SortedGet(typeLess, keyLess, s, t, k).Some? <==>
                                      exists i :: 0 <= i < |r.value| && Equiv(keyLess, r.value[i], k)
  {
    TypeMapSorted(typeLess, keyLess, s, t);
    var r := SortedTypeKeys(typeLess, s, t);
    if r.Some? {
      var idmap := Lookup(typeLess, s.types, t).value;
      forall k ensures SortedGet(typeLess, keyLess, s, t, k).Some? <==>
                       exists i :: 0 <= i < |r.value| && Equiv(keyLess, r.value[i], k) {
        LookupFound(keyLess, idmap, k);
        if Lookup(keyLess, idmap, k).Some? {
          var i :| 0 <= i < |idmap| && Equiv(keyLess, idmap[i].0, k) && idmap[i].1 == Lookup(keyLess, idmap, k).value;
          assert r.value[i] == idmap[i].0;
        }
      }
    }
  }

  /** With comparators consistent with equality, the listed keys of a type
      are the type's keys in the plain store. */
  lemma SortedTypeKeysAreKeys<T(!new), K(!new), V>(typeLess: (T, T) -> bool, keyLess: (K, K) -> bool, s: SortedStore<T, K, V>, t: T)
    requires StrictTotalOrder(typeLess) && StrictTotalOrder(keyLess)
    ensures var r := SortedTypeKeys(typeLess, s, t);
            r.Some? <==> ObjectStore.TypeKeys(AsStore(s), t).Some?
    ensures var r := SortedTypeKeys(typeLess, s, t);
            r.Some? ==> forall k :: k in r.value <==> ObjectStore.Get(AsStore(s), t, k).Some?
  {
    LookupIsView(typeLess, s.types, t);
    TotalIsWeak(keyLess);
    var r := SortedTypeKeys(typeLess, s, t);
    if r.Some? {
      var idmap := Lookup(typeLess, s.types, t).value;
      forall k ensures k in r.value <==> ObjectStore.Get(AsStore(s), t, k).Some? {
        LookupIsView(keyLess, idmap, k);
        LookupFound(keyLess, idmap, k);
        if k in r.value {
          var i :| 0 <= i < |r.value| && r.value[i] == k;
          assert idmap[i].0 == k;
        }
      }
    }
  }

  /** `String.compareTo(a, b) < 0`: the natural order of strings. */
  predicate StringLess(a: string, b: string)
    decreases |a|
  {
    |b| > 0 && (|a| == 0 || a[0] < b[0] || (a[0] == b[0] && StringLess(a[1..], b[1..])))
  }

  /** The natural order of `Integer` keys. */
  predicate IntLess(a: int, b: int) {
    a < b
  }

  /** The ASCII capitals turned into lower case. */
  function AsciiLower(a: string): (r: string)
    ensures |r| == |a|
  {
    seq(|a|, i requires 0 <= i < |a| => if 'A' <= a[i] <= 'Z' then (a[i] as int + 32) as char else a[i])
  }

  /** A case-insensitive order, `String.CASE_INSENSITIVE_ORDER` on strings
      whose letters are ASCII. */
  predicate FoldedLess(a: string, b: string) {
    StringLess(AsciiLower(a), AsciiLower(b))
  }

  /** The stores of the sorted-store unit test, the entries put in an order
      of our own (`type2` first, then key 2 of `type1` before key 1). */
  function TestStore(steps: nat): SortedStore<string, int, string>
    requires steps <= 3
  {
    if steps == 0 then NewSortedStore()
    else if steps == 1 then SortedPut(StringLess, IntLess, TestStore(0), "type2", 1, Some("Object 2.1"))
    else if steps == 2 then SortedPut(StringLess, IntLess, TestStore(1), "type1", 2, Some("Object 1.2"))
    else SortedPut(StringLess, IntLess, TestStore(2), "type1", 1, Some("Object 1.1"))
  }

  lemma TestStoreTwo()
    ensures TestStore(2).types == [("type1", [(2, "Object 1.2")]), ("type2", [(1, "Object 2.1")])]
  {
    assert TestStore(1).types == [("type2", [(1, "Object 2.1")])];
    assert StringLess("type1", "type2") && !StringLess("type2", "type1");
    assert Lookup(StringLess, TestStore(1).types, "type1") == None;
  }

  lemma TestStoreThree()
    ensures TestStore(3).types == [("type1", [(1, "Object 1.1"), (2, "Object 1.2")]), ("type2", [(1, "Object 2.1")])]
    ensures TestStore(3).size == 3
  {
    TestStoreTwo();
    assert StringLess("type1", "type2") && !StringLess("type1", "type1");
    assert Lookup(StringLess, TestStore(2).types, "type1") == Some([(2, "Object 1.2")]);
    assert Insert(IntLess, [(2, "Object 1.2")], 1, "Object 1.1") == [(1, "Object 1.1"), (2, "Object 1.2")];
  }

  /** Whatever the order of the `put`s, types and keys come out in natural
      order, as the unit test expects. */
  lemma SortedExample()
    ensures SortedTypes(TestStore(3)) == ["type1", "type2"]
    ensures SortedTypeKeys(StringLess, TestStore(3), "type1") == Some([1, 2])
  {
    TestStoreThree();
    var idmap := [(1, "Object 1.1"), (2, "Object 1.2")];
    assert !StringLess("type1", "type1");
    assert Lookup(StringLess, TestStore(3).types, "type1") == Some(idmap);
    var keys := SortedTypeKeys(StringLess, TestStore(3), "type1").value;
    assert |keys| == 2 && keys[0] == 1 && keys[1] == 2;
    assert keys == [1, 2];
  }

  /** Under a case-insensitive key comparator, keys that differ only in
      case are one key: the second `put` keeps the first spelling, replaces
      the value and leaves the size at 1, and any spelling finds it. */
  lemma CaseInsensitiveKeysMerge()
    ensures var s1 := SortedPut(StringLess, FoldedLess, NewSortedStore<string, string, int>(), "t", "Ab", Some(1));
            var s2 := SortedPut(StringLess, FoldedLess, s1, "t", "AB", Some(2));
            s2.types == [("t", [("Ab", 2)])] && s2.size == 1
            && SortedGet(StringLess, FoldedLess, s2, "t", "ab") == Some(2)
  {
    assert AsciiLower("Ab") == "ab" && AsciiLower("AB") == "ab";
    assert AsciiLower("ab") == "ab";
    assert !StringLess("ab", "ab") && !StringLess("t", "t");
    var s1 := SortedPut(StringLess, FoldedLess, NewSortedStore<string, string, int>(), "t", "Ab", Some(1));
    assert s1.types == [("t", [("Ab", 1)])] && s1.size == 1;
    assert !FoldedLess("Ab", "AB") && !FoldedLess("AB", "Ab");
    assert Lookup(StringLess, s1.types, "t") == Some([("Ab", 1)]);
    assert Insert(FoldedLess, [("Ab", 1)], "AB", 2) == [("Ab", 2)];
    var s2 := SortedPut(StringLess, FoldedLess, s1, "t", "AB", Some(2));
    assert s2.types == [("t", [("Ab", 2)])];
    assert Lookup(StringLess, s2.types, "t") == Some([("Ab", 2)]);
    assert !FoldedLess("Ab", "ab") && !FoldedLess("ab", "Ab");
  }
}

=== FILE: sql_clauses.dfy ===
/** `HqlUtils` and `SqlUtils`: the query fragments built with
    `String.format`, and what they select.

    Names are Java strings that may be null; `String.format("%s", null)`
    renders "null". A fragment is also given as a condition tree, printed
    the way the format strings print it, and evaluated with SQL's
    three-valued logic over a row's field values and the bound parameters
    (null is `None`). */
module SqlClauses {
  import opened Results

  /** How `%s` renders a possibly null string. */
  function Str(s: Option<string>): (r: string)
    ensures s.Some? ==> r == s.value
    ensures s.None? ==> r == "null"
  {
    s.GetOr("null")
  }

  datatype Operand = Field(name: string) | Param(name: string)

  /** The conditions the fragments use. `Paren` is an explicit pair of
      parentheses. */
  datatype Cond =
    | IsNull(o: Operand)
    | Eq(a: Operand, b: Operand)
    | Le(a: Operand, b: Operand)
    | Ge(a: Operand, b: Operand)
    | Between(x: Operand, lo: Operand, hi: Operand)
    | And(l: Cond, r: Cond)
    | Or(l: Cond, r: Cond)
    | Paren(c: Cond)

  function RenderOperand(o: Operand): string {
    match o
    case Field(n) => n
    case Param(n) => ":" + n
  }

  /** The text of a condition. `AND` binds tighter than `OR`, so an `OR`
      under an `AND` is parenthesised and nothing else needs to be. */
  function Render(c: Cond): string
    decreases c, 0
  {
    match c
    case IsNull(o) => RenderOperand(o) + " IS NULL"
    case Eq(a, b) => RenderOperand(a) + " = " + RenderOperand(b)
    case Le(a, b) => RenderOperand(a) + " <= " + RenderOperand(b)
    case Ge(a, b) => RenderOperand(a) + " >= " + RenderOperand(b)
    case Between(x, lo, hi) => RenderOperand(x) + " BETWEEN ( " + RenderOperand(lo) + " AND " + RenderOperand(hi) + " )"
    case And(l, r) => RenderConjunct(l) + " AND " + RenderConjunct(r)
    case Or(l, r) => Render(l) + " OR " + Render(r)
    case Paren(inner) => "(" + Render(inner) + ")"
  }

  function RenderConjunct(c: Cond): string
    decreases c, 1
  {
    if c.Or? then "(" + Render(c) + ")" else Render(c)
  }

  /** SQL's truth values. */
  datatype Truth = True | False | Unknown

  function And3(a: Truth, b: Truth): (r: Truth)
    ensures r == True <==> a == True && b == True
    ensures r == False <==> a == False || b == False
  {
    if a == False || b == False then False
    else if a == True && b == True then True
    else Unknown
  }

  function Or3(a: Truth, b: Truth): (r: Truth)
    ensures r == True <==> a == True || b == True
    ensures r == False <==> a == False && b == False
  {
    if a == True || b == True then True
    else if a == False && b == False then False
    else Unknown
  }

  /** A comparison: unknown as soon as one side is null. */
  function Compare(a: Option<int>, b: Option<int>, holds: (int, int) -> bool): Truth {
    if a.None? || b.None? then Unknown
    else if holds(a.value, b.value) then True
    else False
  }

  /** A row's field values and the values bound to the parameters. */
  datatype Env = Env(fields: string -> Option<int>, params: string -> Option<int>)

  function Value(o: Operand, env: Env): Option<int> {
    match o
    case Field(n) => env.fields(n)
    case Param(n) => env.params(n)
  }

  function Eval(c: Cond, env: Env): Truth {
    match c
    case IsNull(o) => if Value(o, env).None? then True else False
    case Eq(a, b) => Compare(Value(a, env), Value(b, env), (x, y) => x == y)
    case Le(a, b) => Compare(Value(a, env), Value(b, env), (x, y) => x <= y)
    case Ge(a, b) => Compare(Value(a, env), Value(b, env), (x, y) => x >= y)
    case Between(x, lo, hi) =>
      And3(Compare(Value(x, env), Value(lo, env), (u, v) => u >= v), Compare(Value(x, env), Value(hi, env), (u, v) => u <= v))
    case And(l, r) => And3(Eval(l, env), Eval(r, env))
    case Or(l, r) => Or3(Eval(l, env), Eval(r, env))
    case Paren(inner) => Eval(inner, env)
  }

  /** A `WHERE` keeps a row when its condition is true, not unknown. */
  predicate Selects(c: Cond, env: Env) {
    Eval(c, env) == True
  }

  /** The condition `parameterizedWithNullHql` writes out. */
  function WithNullCond(f: Option<string>, p: Option<string>): Cond {
    Paren(Or(And(IsNull(Param(Str(p))), IsNull(Field(Str(f)))), Eq(Field(Str(f)), Param(Str(p)))))
  }

  /** `parameterizedWithNullHql(fieldName, paramName)`: the format
      `(:%2$s IS NULL AND %1$s IS NULL OR %1$s = :%2$s)`, its pieces
      grouped by the clause they print. */
  function ParameterizedWithNullHql(f: Option<string>, p: Option<string>): (r: string)
    ensures |r| > 0 && r[0] == '(' && r[|r| - 1] == ')'
  {
    var pn, fn := Str(p), Str(f);
    "(" + (((":" + pn) + " IS NULL" + " AND " + (fn + " IS NULL")) + " OR " + (fn + " = " + (":" + pn))) + ")"
  }

  /** `parameterizedWithNullSql(fieldName, paramName)`: the same format
      as the HQL builder. */
  function ParameterizedWithNullSql(f: Option<string>, p: Option<string>): (r: string)
    ensures r == ParameterizedWithNullHql(f, p)
  {
    var pn, fn := Str(p), Str(f);
    "(" + (((":" + pn) + " IS NULL" + " AND " + (fn + " IS NULL")) + " OR " + (fn + " = " + (":" + pn))) + ")"
  }

  /** The HQL text is the printed `WithNullCond`: the parameter is null
      and the field is null, or the field equals the parameter, the `AND`
      binding tighter. */
  lemma WithNullHqlRenders(f: Option<string>, p: Option<string>)
    ensures ParameterizedWithNullHql(f, p) == Render(WithNullCond(f, p))
  {
    var pn, fn := Str(p), Str(f);
    var a, b := IsNull(Param(pn)), IsNull(Field(fn));
    var e := Eq(Field(fn), Param(pn));
    assert RenderConjunct(a) == Render(a) == ":" + pn + " IS NULL";
    assert RenderConjunct(b) == Render(b) == fn + " IS NULL";
    assert Render(Or(And(a, b), e)) == Render(And(a, b)) + " OR " + Render(e);
  }

  /** The clause selects exactly the rows whose field equals the bound
      parameter, null matching null: what a plain `f = :p` fails to do,
      since `NULL = NULL` is unknown. */
  lemma WithNullMatchesNull(f: Option<string>, p: Option<string>, env: Env)
    ensures Selects(WithNullCond(f, p), env) <==> env.fields(Str(f)) == env.params(Str(p))
    ensures env.fields(Str(f)).None? && env.params(Str(p)).None? ==> !Selects(Eq(Field(Str(f)), Param(Str(p))), env)
  {
    var x, v := env.fields(Str(f)), env.params(Str(p));
    var nulls := And3(Eval(IsNull(Param(Str(p))), env), Eval(IsNull(Field(Str(f))), env));
    var equal := Compare(x, v, (a, b) => a == b);
    var c := WithNullCond(f, p);
    assert Eval(c.c.l, env) == nulls;
    assert Eval(c.c.r, env) == equal;
    assert Eval(c, env) == Eval(c.c, env) == Or3(nulls, equal);
    assert nulls == True <==> x.None? && v.None?;
    assert equal == True <==> x.Some? && v.Some? && x.value == v.value;
  }

  /** The condition `parameterizedRangeClause` writes out, none when both
      bounds are null. */
  function RangeCond<T>(f: Option<string>, pl: Option<string>, ph: Option<string>, lo: Option<T>, hi: Option<T>): Option<Cond> {
    if lo.None? then
      if hi.None? then None else Some(Le(Field(Str(f)), Param(Str(ph))))
    else if hi.None? then Some(Ge(Field(Str(f)), Param(Str(pl))))
    else Some(Between(Field(Str(f)), Param(Str(pl)), Param(Str(ph))))
  }

  /** `parameterizedRangeClause(fieldName, paramLo, paramHi, lo, hi)`. */
  function ParameterizedRangeClause<T>(f: Option<string>, pl: Option<string>, ph: Option<string>, lo: Option<T>, hi: Option<T>): (r: string)
    ensures r == (if RangeCond(f, pl, ph, lo, hi).Some? then Render(RangeCond(f, pl, ph, lo, hi).value) else "")
    ensures r == "" <==> lo.None? && hi.None?
  {
    if lo.None? then
      if hi.None? then "" else Str(f) + " <= :" + Str(ph)
    else if hi.None? then Str(f) + " >= :" + Str(pl)
    else Str(f) + " BETWEEN ( :" + Str(pl) + " AND :" + Str(ph) + " )"
  }

  /** The clause depends on whether the bounds are null, never on their
      values. */
  lemma RangeClauseIgnoresValues<T, U>(f: Option<string>, pl: Option<string>, ph: Option<string>,
                                       lo: Option<T>, hi: Option<T>, lo': Option<U>, hi': Option<U>)
    requires lo.Some? == lo'.Some? && hi.Some? == hi'.Some?
    ensures ParameterizedRangeClause(f, pl, ph, lo, hi) == ParameterizedRangeClause(f, pl, ph, lo', hi')
  {
  }

  /** Once the bounds are bound to their parameters (as
      `parameterizedRangeBinding` does for the non-null ones), the clause
      keeps exactly the rows within the given bounds: all rows when there
      is none, else those whose field is not null and lies within each
      bound given. */
  lemma RangeMeaning(f: Option<string>, pl: Option<string>, ph: Option<string>,
                     lo: Option<int>, hi: Option<int>, env: Env)
    requires lo.Some? ==> env.params(Str(pl)) == lo
    requires hi.Some? ==> env.params(Str(ph)) == hi
    ensures var c := RangeCond(f, pl, ph, lo, hi);
      var x := env.fields(Str(f));
      (c.None? || Selects(c.value, env))
      <==> (lo.None? || (x.Some? && lo.value <= x.value)) && (hi.None? || (x.Some? && x.value <= hi.value))
  {
  }

  /** The exact text for concrete names. */
  lemma WithNullText()
    ensures ParameterizedWithNullHql(Some("f"), Some("p")) == "(:p IS NULL AND f IS NULL OR f = :p)"
  {
  }

  lemma BetweenText()
    ensures ParameterizedRangeClause(Some("f"), Some("lo"), Some("hi"), Some(1), Some(2)) == "f BETWEEN ( :lo AND :hi )"
  {
    var a := "f" + " BETWEEN ( :";
    assert a == "f BETWEEN ( :";
    var b := a + "lo";
    assert b == "f BETWEEN ( :lo";
    var c := b + " AND :";
    assert c == "f BETWEEN ( :lo AND :";
    var d := c + "hi";
    assert d == "f BETWEEN ( :lo AND :hi";
    assert d + " )" == "f BETWEEN ( :lo AND :hi )";
  }

  lemma UpperBoundText()
    ensures ParameterizedRangeClause(Some("f"), Some("lo"), Some("hi"), None, Some(2)) == "f <= :hi"
  {
  }

  lemma LowerBoundText()
    ensures ParameterizedRangeClause(Some("f"), Some("lo"), Some("hi"), Some(1), None) == "f >= :lo"
  {
  }
}

=== FILE: stats_executor.dfy ===
/** `StatsExecutor` (two revisions) and `StatsInvoker`: every call is
    counted, failed calls are counted apart, and once a sampling window has
    elapsed the counters are reported and reset.

    The stop watch is the start time of the current window (`None` while
    stopped) and the clock reading is an input of every call. The float
    statistics that are only logged are left out. */
module StatsExecutor {
  import opened Results
  import opened JavaLang

  /** Five minutes, in ms: the default sampling time. */
  const DefaultSamplingTime: int := 5 * 60 * 1000

  datatype Config = Config(samplingTime: int, popUpExceptions: bool)

  /** The counters of the current window, those of the last closed window
      (kept by the `jutils` revision only) and the stop watch. */
  datatype Stats = Stats(totalCalls: int, failedCalls: int, lastTotalCalls: int, lastFailedCalls: int,
                         windowStart: Option<int>)

  /** `new StatsExecutor(name)`: five-minute windows, exceptions popped up. */
  function DefaultConfig(): (c: Config)
    ensures c.samplingTime == 300000 && c.popUpExceptions
  {
    Config(DefaultSamplingTime, true)
  }

  /** `setPopUpExceptions(b)`: only the flag changes. */
  function SetPopUpExceptions(c: Config, popUp: bool): (r: Config)
    ensures r.popUpExceptions == popUp && r.samplingTime == c.samplingTime
  {
    c.(popUpExceptions := popUp)
  }

  /** A fresh executor: nothing counted, the watch stopped. */
  function NewStats(): (s: Stats)
    ensures s.totalCalls == 0 && s.failedCalls == 0 && s.windowStart.None?
  {
    Stats(0, 0, 0, 0, None)
  }

  /** The result of `doStats`: the new state and whether a window closed. */
  datatype Sampled = Sampled(stats: Stats, closed: bool)

  /** `doStats` at time `now`: the first call starts the watch; a window
      younger than the sampling time changes nothing; an elapsed window is
      saved as the last one, the counters go back to 0 and the watch
      restarts. */
  function DoStats(c: Config, s: Stats, now: int): (r: Sampled)
    ensures r.closed <==> s.windowStart.Some? && now - s.windowStart.value >= c.samplingTime
    ensures s.windowStart.None? ==> r.stats == s.(windowStart := Some(now))
    ensures !r.closed && s.windowStart.Some? ==> r.stats == s
    ensures r.closed ==> r.stats == Stats(0, 0, s.totalCalls, s.failedCalls, Some(now))
  {
    match s.windowStart
    case None => Sampled(s.(windowStart := Some(now)), false)
    case Some(start) =>
      if now - start < c.samplingTime then Sampled(s, false)
      else Sampled(Stats(0, 0, s.totalCalls, s.failedCalls, Some(now)), true)
  }

  /** What a call leaves: the state, the exception reaching the caller and
      whether `doStats` closed a window (the `StatsInvoker` result). */
  datatype Call = Call(stats: Stats, raised: Option<Throwable>, closed: bool)

  /** `execute(action)` at time `now`, the action ending with `outcome`: an
      `Exception` counts as a failure and is rethrown when exceptions pop up;
      an `Error` is not caught; the total grows in every case (`finally`);
      `doStats` runs only when nothing is thrown. */
  function Execute(c: Config, s: Stats, outcome: Completion, now: int): (r: Call)
    ensures r.stats.totalCalls == (if r.closed then 0 else s.totalCalls + 1)
    ensures !r.closed ==> r.stats.failedCalls == s.failedCalls + (if outcome.Raised? && IsException(outcome.ex) then 1 else 0)
    ensures r.closed ==> r.stats.lastTotalCalls == s.totalCalls + 1
                         && r.stats.lastFailedCalls == s.failedCalls + (if outcome.Raised? && IsException(outcome.ex) then 1 else 0)
    ensures r.raised.Some? <==> outcome.Raised? && (!IsException(outcome.ex) || c.popUpExceptions)
    ensures r.raised.Some? ==> r.raised.value == outcome.ex && !r.closed && r.stats.windowStart == s.windowStart
  {
    match outcome
    case Normal => Counted(c, s.(totalCalls := s.totalCalls + 1), now)
    case Raised(ex) =>
      if !IsException(ex) then Call(s.(totalCalls := s.totalCalls + 1), Some(ex), false)
      else
        var failed := s.(failedCalls := s.failedCalls + 1, totalCalls := s.totalCalls + 1);
        if c.popUpExceptions then Call(failed, Some(ex), false) else Counted(c, failed, now)
  }

  /** The `doStats` call ending a call that returned normally. */
  function Counted(c: Config, s: Stats, now: int): (r: Call)
    ensures r.raised.None? && r.closed == DoStats(c, s, now).closed && r.stats == DoStats(c, s, now).stats
  {
    var d := DoStats(c, s, now);
    Call(d.stats, None, d.closed)
  }

  /** Failed calls never outnumber calls, in the current window and in the
      last closed one. */
  predicate Consistent(s: Stats) {
    0 <= s.failedCalls <= s.totalCalls && 0 <= s.lastFailedCalls <= s.lastTotalCalls
  }

  lemma ExecuteKeepsConsistent(c: Config, s: Stats, outcome: Completion, now: int)
    requires Consistent(s)
    ensures Consistent(Execute(c, s, outcome, now).stats)
  {
  }

  /** A run of calls at increasing times; exceptions reaching the caller do
      not stop it. */
  function RunCalls(c: Config, s: Stats, calls: seq<(Completion, int)>): (r: Stats)
    decreases |calls|
  {
    if |calls| == 0 then s
    else RunCalls(c, Execute(c, s, calls[0].0, calls[0].1).stats, calls[1..])
  }

  /** How many of the outcomes are `Exception`s. */
  function Failures(calls: seq<(Completion, int)>): (n: nat)
    ensures n <= |calls|
    decreases |calls|
  {
    if |calls| == 0 then 0
    else (if calls[0].0.Raised? && IsException(calls[0].0.ex) then 1 else 0) + Failures(calls[1..])
  }

  /** No call of the run closes a window: every `doStats` happens before
      the window's sampling time has passed. */
  predicate WithinWindow(c: Config, s: Stats, calls: seq<(Completion, int)>)
  {
    s.windowStart.Some? && forall k :: 0 <= k < |calls| ==> calls[k].1 - s.windowStart.value < c.samplingTime
  }

  /** Within one window the counters grow by exactly the number of calls and
      of failed calls, and a consistent state stays consistent. */
  lemma {:induction false} WindowCounts(c: Config, s: Stats, calls: seq<(Completion, int)>)
    requires WithinWindow(c, s, calls)
    ensures var r := RunCalls(c, s, calls);
            r.totalCalls == s.totalCalls + |calls| && r.failedCalls == s.failedCalls + Failures(calls)
            && r.windowStart == s.windowStart
    decreases |calls|
  {
    if |calls| > 0 {
      var next := Execute(c, s, calls[0].0, calls[0].1).stats;
      assert next.windowStart == s.windowStart;
      assert WithinWindow(c, next, calls[1..]) by {
        forall k | 0 <= k < |calls[1..]| ensures calls[1..][k].1 - next.windowStart.value < c.samplingTime {
          assert calls[1..][k] == calls[k + 1];
        }
      }
      WindowCounts(c, next, calls[1..]);
    }
  }

  lemma {:induction false} RunKeepsConsistent(c: Config, s: Stats, calls: seq<(Completion, int)>)
    requires Consistent(s)
    ensures Consistent(RunCalls(c, s, calls))
    decreases |calls|
  {
    if |calls| > 0 {
      ExecuteKeepsConsistent(c, s, calls[0].0, calls[0].1);
      RunKeepsConsistent(c, Execute(c, s, calls[0].0, calls[0].1).stats, calls[1..]);
    }
  }

  /** The original revision: no record of the last window. */
  datatype OriginalStats = OriginalStats(totalCalls: int, failedCalls: int, windowStart: Option<int>)

  function OriginalDoStats(c: Config, s: OriginalStats, now: int): (r: (OriginalStats, bool))
    ensures r.1 <==> s.windowStart.Some? && now - s.windowStart.value >= c.samplingTime
    ensures r.1 ==> r.0 == OriginalStats(0, 0, Some(now))
  {
    if s.windowStart.None? then (s.(windowStart := Some(now)), false)
    else if now - s.windowStart.value < c.samplingTime then (s, false)
    else (OriginalStats(0, 0, Some(now)), true)
  }

  /** The original `execute`, with the same exception handling. */
  function OriginalExecute(c: Config, s: OriginalStats, outcome: Completion, now: int): (r: (OriginalStats, Option<Throwable>, bool))
  {
    if outcome.Raised? && !IsException(outcome.ex) then
      (s.(totalCalls := s.totalCalls + 1), Some(outcome.ex), false)
    else
      var failed := if outcome.Raised? then s.failedCalls + 1 else s.failedCalls;
      var counted := s.(failedCalls := failed, totalCalls := s.totalCalls + 1);
      if outcome.Raised? && c.popUpExceptions then (counted, Some(outcome.ex), false)
      else
        var d := OriginalDoStats(c, counted, now);
        (d.0, None, d.1)
  }

  function Project(s: Stats): OriginalStats {
    OriginalStats(s.totalCalls, s.failedCalls, s.windowStart)
  }

  /** The two revisions count, reset and rethrow alike; the newer one only
      adds the record of the last window. */
  lemma RevisionsAgree(c: Config, s: Stats, outcome: Completion, now: int)
    ensures var r := Execute(c, s, outcome, now);
            OriginalExecute(c, Project(s), outcome, now) == (Project(r.stats), r.raised, r.closed)
  {
  }

  /** `StatsInvoker.run(action)`: the original `execute`, returning whether
      `doStats` closed a window. */
  function Invoke(c: Config, s: OriginalStats, outcome: Completion, now: int): (r: (OriginalStats, Option<Throwable>, bool))
    ensures r.2 ==> r.1.None? && r.0 == OriginalStats(0, 0, Some(now))
    ensures r.2 <==> r.1.None? && s.windowStart.Some? && now - s.windowStart.value >= c.samplingTime
  {
    OriginalExecute(c, s, outcome, now)
  }
}

=== FILE: string_search.dfy ===
/** `StringSearchUtils`: does a string contain one of several strings
    (exactly or ignoring case), and where, from a start position, is the
    first occurrence of any of several characters or strings.

    The Commons Lang helpers the code calls (`StringUtils.containsIgnoreCase`
    and the two `StringUtils.indexOfAny`) are modelled after their
    documented behaviour; case is folded for ASCII letters only. */
module StringSearch {
  import opened Results
  import opened JavaLang

  /** The exceptions thrown: `IllegalArgumentException`,
      `NullPointerException`, `StringIndexOutOfBoundsException`. */
  datatype Fault = IllegalArgument | NullPointer | IndexOutOfBounds

  /** `m` occurs in `s` at position `i`. */
  predicate IsAt(s: string, m: string, i: int) {
    0 <= i && i + |m| <= |s| && s[i..i + |m|] == m
  }

  /** `s.indexOf(m, from)`: the first position from `from` on where `m`
      occurs, -1 if there is none. */
  function IndexOf(s: string, m: string, from: nat): (r: int)
    ensures r == -1 || (from <= r && IsAt(s, m, r))
    ensures r == -1 ==> forall i :: from <= i ==> !IsAt(s, m, i)
    ensures r >= 0 ==> forall i :: from <= i < r ==> !IsAt(s, m, i)
    decreases |s| + 1 - from
  {
    if from + |m| > |s| then -1
    else if s[from..from + |m|] == m then from
    else IndexOf(s, m, from + 1)
  }

  /** `s.contains(m)`. */
  function Contains(s: string, m: string): (r: bool)
    ensures r <==> exists i :: IsAt(s, m, i)
  {
    IndexOf(s, m, 0) >= 0
  }

  /** The first match from `i` on that ends the `containsOneOf` loop: a
      null one (the loop throws) or one the target contains (it returns
      true); `|matches|` if none. */
  function FirstHit(target: string, matches: seq<Option<string>>, i: nat): (f: nat)
    requires i <= |matches|
    ensures i <= f <= |matches|
    ensures forall j :: i <= j < f ==> matches[j].Some? && !Contains(target, matches[j].value)
    ensures f < |matches| ==> matches[f].None? || Contains(target, matches[f].value)
    decreases |matches| - i
  {
    if i == |matches| || matches[i].None? || Contains(target, matches[i].value) then i
    else FirstHit(target, matches, i + 1)
  }

  /** The `containsOneOf` loop from match `i` on. */
  function ScanMatches(target: string, matches: seq<Option<string>>, i: nat): (r: Result<bool, Fault>)
    requires i <= |matches|
    ensures var f := FirstHit(target, matches, i);
            r == if f == |matches| then Success(false) else if matches[f].None? then Failure(NullPointer) else Success(true)
    decreases |matches| - i
  {
    if i == |matches| then Success(false)
    else match matches[i]
      case None => Failure(NullPointer)
      case Some(m) => if Contains(target, m) then Success(true) else ScanMatches(target, matches, i + 1)
  }

  /** `containsOneOf(target, matches...)`: a null target or a null or
      empty array is an illegal argument; otherwise true at the first match
      the target contains, a null match met before that throws, and false
      when the target contains none. */
  function ContainsOneOf(target: Option<string>, matches: Option<seq<Option<string>>>): (r: Result<bool, Fault>)
    ensures r == Failure(IllegalArgument) <==> target.None? || matches.None? || |matches.value| == 0
    ensures r == Success(true) ==> exists i :: 0 <= i < |matches.value| && matches.value[i].Some? && Contains(target.value, matches.value[i].value)
    ensures r == Success(false) <==> target.Some? && matches.Some? && |matches.value| > 0
                                     && forall i :: 0 <= i < |matches.value| ==> matches.value[i].Some? && !Contains(target.value, matches.value[i].value)
    ensures r == Failure(NullPointer) ==> exists i :: 0 <= i < |matches.value| && matches.value[i].None?
  {
    if target.None? then Failure(IllegalArgument)
    else if matches.None? || |matches.value| == 0 then Failure(IllegalArgument)
    else ScanMatches(target.value, matches.value, 0)
  }

  /** Without null matches, `containsOneOf` is "some match is a
      substring". */
  lemma ContainsOneOfWithoutNulls(target: string, matches: seq<Option<string>>)
    requires |matches| > 0 && forall i :: 0 <= i < |matches| ==> matches[i].Some?
    ensures ContainsOneOf(Some(target), Some(matches))
            == Success(exists i :: 0 <= i < |matches| && Contains(target, matches[i].value))
  {
  }

  /** `Character.toLowerCase` and `toUpperCase` on ASCII letters. */
  function ToLower(c: char): char {
    if 'A' <= c <= 'Z' then (c as int + 32) as char else c
  }

  function ToUpper(c: char): char {
    if 'a' <= c <= 'z' then (c as int - 32) as char else c
  }

  /** The character test of `regionMatches` ignoring case: equal, equal
      in upper case, or equal in lower case after upper-casing. */
  predicate CharEqualsIgnoreCase(a: char, b: char) {
    a == b || ToUpper(a) == ToUpper(b) || ToLower(ToUpper(a)) == ToLower(ToUpper(b))
  }

  /** Two characters match ignoring case exactly when their lower cases
      are equal. */
  lemma CharEqualsIsLowerEquals(a: char, b: char)
    ensures CharEqualsIgnoreCase(a, b) <==> ToLower(a) == ToLower(b)
  {
  }

  function Lower(s: string): (r: string)
    ensures |r| == |s| && forall i :: 0 <= i < |s| ==> r[i] == ToLower(s[i])
  {
    seq(|s|, i requires 0 <= i < |s| => ToLower(s[i]))
  }

  /** `m` occurs in `s` at position `i`, ignoring case. */
  predicate IsAtIgnoreCase(s: string, m: string, i: int) {
    0 <= i && i + |m| <= |s| && forall k :: 0 <= k < |m| ==> CharEqualsIgnoreCase(s[i + k], m[k])
  }

  /** The `containsIgnoreCase` loop over start positions from `i` on. */
  function MatchIgnoreCaseFrom(s: string, m: string, i: nat): (r: bool)
    ensures r <==> exists j :: i <= j && IsAtIgnoreCase(s, m, j)
    decreases |s| + 1 - i
  {
    if i + |m| > |s| then false
    else IsAtIgnoreCase(s, m, i) || MatchIgnoreCaseFrom(s, m, i + 1)
  }

  /** `StringUtils.containsIgnoreCase(str, searchStr)`: false for a null
      search string. */
  function ContainsIgnoreCase(s: string, m: Option<string>): (r: bool)
    ensures r <==> m.Some? && exists j :: IsAtIgnoreCase(s, m.value, j)
  {
    m.Some? && MatchIgnoreCaseFrom(s, m.value, 0)
  }

  /** Containment ignoring case is containment of the lower-cased
      strings. */
  lemma ContainsIgnoreCaseIsLowerContains(s: string, m: string)
    ensures ContainsIgnoreCase(s, Some(m)) <==> Contains(Lower(s), Lower(m))
  {
    forall j | 0 <= j && j + |m| <= |s|
      ensures IsAtIgnoreCase(s, m, j) <==> IsAt(Lower(s), Lower(m), j)
    {
      forall k | 0 <= k < |m| ensures CharEqualsIgnoreCase(s[j + k], m[k]) <==> Lower(s)[j..j + |m|][k] == Lower(m)[k] {
        CharEqualsIsLowerEquals(s[j + k], m[k]);
      }
      if IsAtIgnoreCase(s, m, j) {
        assert Lower(s)[j..j + |m|] == Lower(m);
      }
    }
    if Contains(Lower(s), Lower(m)) {
      var j :| IsAt(Lower(s), Lower(m), j);
      assert IsAtIgnoreCase(s, m, j);
    }
  }

  /** `containsOneOfIgnoreCase(target, matches...)`: the same argument
      checks; a null match never matches (and does not throw). */
  function ContainsOneOfIgnoreCase(target: Option<string>, matches: Option<seq<Option<string>>>): (r: Result<bool, Fault>)
    ensures r.Failure? <==> target.None? || matches.None? || |matches.value| == 0
    ensures r.Failure? ==> r.error == IllegalArgument
    ensures r.Success? ==> (r.value <==> exists i :: 0 <= i < |matches.value| && ContainsIgnoreCase(target.value, matches.value[i]))
  {
    if target.None? then Failure(IllegalArgument)
    else if matches.None? || |matches.value| == 0 then Failure(IllegalArgument)
    else Success(AnyIgnoreCase(target.value, matches.value, 0))
  }

  /** The `containsOneOfIgnoreCase` loop from match `i` on. */
  function AnyIgnoreCase(target: string, matches: seq<Option<string>>, i: nat): (r: bool)
    requires i <= |matches|
    ensures r <==> exists j :: i <= j < |matches| && ContainsIgnoreCase(target, matches[j])
    decreases |matches| - i
  {
    if i == |matches| then false
    else ContainsIgnoreCase(target, matches[i]) || AnyIgnoreCase(target, matches, i + 1)
  }

  /** A match found by `containsOneOf` is found ignoring case as well. */
  lemma ExactHitIsIgnoreCaseHit(target: Option<string>, matches: Option<seq<Option<string>>>)
    requires ContainsOneOf(target, matches) == Success(true)
    ensures ContainsOneOfIgnoreCase(target, matches) == Success(true)
  {
    var t, ms := target.value, matches.value;
    var i :| 0 <= i < |ms| && ms[i].Some? && Contains(t, ms[i].value);
    var j :| IsAt(t, ms[i].value, j);
    var m := ms[i].value;
    forall k | 0 <= k < |m| ensures CharEqualsIgnoreCase(t[j + k], m[k]) {
      assert t[j..j + |m|][k] == m[k];
    }
    assert IsAtIgnoreCase(t, m, j);
  }

  /** The first position from `i` on holding one of `chars`, -1 if none. */
  function FirstCharIn(s: string, chars: seq<char>, i: nat): (r: int)
    ensures r == -1 || (i <= r < |s| && s[r] in chars)
    ensures r == -1 ==> forall j :: i <= j < |s| ==> s[j] !in chars
    ensures r >= 0 ==> forall j :: i <= j < r ==> s[j] !in chars
    decreases |s| - i
  {
    if i >= |s| then -1
    else if s[i] in chars then i
    else FirstCharIn(s, chars, i + 1)
  }

  /** `StringUtils.indexOfAny(cs, searchChars...)`: -1 for an empty string
      or no characters, else the first position holding one of them. */
  function SearchChars(s: string, chars: seq<char>): (r: int)
    ensures r == -1 <==> forall j :: 0 <= j < |s| ==> s[j] !in chars
    ensures r >= 0 ==> r < |s| && s[r] in chars && forall j :: 0 <= j < r ==> s[j] !in chars
  {
    if |s| == 0 || |chars| == 0 then -1 else FirstCharIn(s, chars, 0)
  }

  /** The loop of `StringUtils.indexOfAny(str, searchStrs...)` from key `i`
      on, `ret` the smallest position found so far (`Integer.MAX_VALUE`
      for none): null keys are skipped. */
  function ScanKeys(s: string, keys: seq<Option<string>>, i: nat, ret: int): (r: int)
    requires i <= |keys|
    ensures r <= ret
    ensures r == ret || exists j :: i <= j < |keys| && keys[j].Some? && IsAt(s, keys[j].value, r)
    ensures forall j, p :: i <= j < |keys| && keys[j].Some? && 0 <= p < r ==> !IsAt(s, keys[j].value, p)
    decreases |keys| - i
  {
    if i == |keys| then ret
    else if keys[i].None? then ScanKeys(s, keys, i + 1, ret)
    else
      var tmp := IndexOf(s, keys[i].value, 0);
      if tmp == -1 then ScanKeys(s, keys, i + 1, ret)
      else ScanKeys(s, keys, i + 1, if tmp < ret then tmp else ret)
  }

  /** `StringUtils.indexOfAny(str, searchStrs...)`: the smallest position
      where one of the non-null keys occurs, -1 if none does. */
  function SearchStrings(s: string, keys: seq<Option<string>>): (r: int)
    requires |s| < IntMax
    ensures r == -1 <==> forall j :: 0 <= j < |keys| && keys[j].Some? ==> !Contains(s, keys[j].value)
    ensures r >= 0 ==> exists j :: 0 <= j < |keys| && keys[j].Some? && IsAt(s, keys[j].value, r)
    ensures r >= 0 ==> forall j, p :: 0 <= j < |keys| && keys[j].Some? && 0 <= p < r ==> !IsAt(s, keys[j].value, p)
  {
    var ret := ScanKeys(s, keys, 0, IntMax);
    if ret == IntMax then -1 else ret
  }

  /** `indexOfAny(s, startPos, searcher, keys)`, the template of both
      variants: the search runs on `s.substring(startPos)` and a position
      found is shifted back by `startPos`. A null string throws, and so
      does a start position outside `0..s.length()`. */
  function IndexOfAny(s: Option<string>, startPos: int, search: string -> int): (r: Result<int, Fault>)
    ensures s.None? ==> r == Failure(NullPointer)
    ensures s.Some? && (startPos < 0 || startPos > |s.value|) ==> r == Failure(IndexOutOfBounds)
    ensures s.Some? && 0 <= startPos <= |s.value| ==>
              var idx := search(s.value[startPos..]);
              r == Success(if idx == -1 then -1 else idx + startPos)
  {
    if s.None? then Failure(NullPointer)
    else if startPos < 0 || startPos > |s.value| then Failure(IndexOutOfBounds)
    else
      var idx := search(s.value[startPos..]);
      if idx == -1 then Success(-1) else Success(idx + startPos)
  }

  /** `indexOfAny(s, startPos, chars...)`: the first position from
      `startPos` on holding one of the characters, measured in `s`; -1 if
      there is none. */
  function IndexOfAnyChar(s: Option<string>, startPos: int, chars: seq<char>): (r: Result<int, Fault>)
    ensures s.None? ==> r == Failure(NullPointer)
    ensures s.Some? && (startPos < 0 || startPos > |s.value|) ==> r == Failure(IndexOutOfBounds)
    ensures s.Some? && 0 <= startPos <= |s.value| ==> r.Success?
    ensures r.Success? ==> (r.value == -1 <==> forall j :: startPos <= j < |s.value| ==> s.value[j] !in chars)
    ensures r.Success? && r.value >= 0 ==>
              startPos <= r.value < |s.value| && s.value[r.value] in chars
              && forall j :: startPos <= j < r.value ==> s.value[j] !in chars
  {
    var r := IndexOfAny(s, startPos, str => SearchChars(str, chars));
    if r.Success? then
      var tail := s.value[startPos..];
      assert forall j :: startPos <= j < |s.value| ==> s.value[j] == tail[j - startPos];
      r
    else r
  }

  /** `m` at position `i` of a suffix is `m` at `i + p` in the string. */
  lemma IsAtSuffix(s: string, p: nat, m: string, i: int)
    requires p <= |s|
    ensures IsAt(s[p..], m, i) <==> i >= 0 && IsAt(s, m, i + p)
  {
    if i >= 0 && i + |m| <= |s| - p {
      assert s[p..][i..i + |m|] == s[i + p..i + p + |m|];
    }
  }

  /** `indexOfAny(s, startPos, keys...)`: the first position from
      `startPos` on where one of the non-null keys occurs, measured in `s`;
      -1 if there is none. */
  function IndexOfAnyString(s: Option<string>, startPos: int, keys: seq<Option<string>>): (r: Result<int, Fault>)
    requires s.Some? ==> |s.value| < IntMax
    ensures s.None? ==> r == Failure(NullPointer)
    ensures s.Some? && (startPos < 0 || startPos > |s.value|) ==> r == Failure(IndexOutOfBounds)
    ensures s.Some? && 0 <= startPos <= |s.value| ==> r.Success?
    ensures r.Success? ==> (r.value == -1 <==> forall j, p :: 0 <= j < |keys| && keys[j].Some? && startPos <= p ==> !IsAt(s.value, keys[j].value, p))
    ensures r.Success? && r.value >= 0 ==>
              startPos <= r.value && (exists j :: 0 <= j < |keys| && keys[j].Some? && IsAt(s.value, keys[j].value, r.value))
              && forall j, p :: 0 <= j < |keys| && keys[j].Some? && startPos <= p < r.value ==> !IsAt(s.value, keys[j].value, p)
  {
    var r := IndexOfAny(s, startPos, str => if |str| < IntMax then SearchStrings(str, keys) else -1);
    if r.Success? then
      ShiftedSearch(s.value, startPos, keys);
      r
    else r
  }

  /** The string search on `s[p..]`, read back in `s`. */
  lemma ShiftedSearch(s: string, p: nat, keys: seq<Option<string>>)
    requires p <= |s| < IntMax
    ensures var idx := SearchStrings(s[p..], keys);
            (idx == -1 <==> forall j, q :: 0 <= j < |keys| && keys[j].Some? && p <= q ==> !IsAt(s, keys[j].value, q))
            && (idx >= 0 ==>
                  (exists j :: 0 <= j < |keys| && keys[j].Some? && IsAt(s, keys[j].value, idx + p))
                  && forall j, q :: 0 <= j < |keys| && keys[j].Some? && p <= q < idx + p ==> !IsAt(s, keys[j].value, q))
  {
    var t := s[p..];
    var idx := SearchStrings(t, keys);
    forall j, q | 0 <= j < |keys| && keys[j].Some? && p <= q
      ensures IsAt(s, keys[j].value, q) <==> IsAt(t, keys[j].value, q - p)
    {
      IsAtSuffix(s, p, keys[j].value, q - p);
    }
    if idx != -1 {
      var j :| 0 <= j < |keys| && keys[j].Some? && IsAt(t, keys[j].value, idx);
      IsAtSuffix(s, p, keys[j].value, idx);
    }
  }

  /** The cases of the `indexOfAny` test: the first blank after position
      2 of "a test string" is at 6; " te" occurs at the start position 1;
      a key occurring only before the start position is not found; the
      second character key is found at 1. */
  lemma IndexOfAnyExamples()
    ensures IndexOfAnyChar(Some("a test string"), 2, [' ']) == Success(6)
    ensures IndexOfAnyString(Some("a test string"), 1, [Some(" te")]) == Success(1)
    ensures IndexOfAnyChar(Some("_test string"), 1, ['_', 'z']) == Success(-1)
    ensures IndexOfAnyChar(Some("A_test string"), 0, [' ', '_']) == Success(1)
  {
    BlankAfterTwo();
    KeyAtStart();
    KeyBeforeStart();
    SecondKey();
  }

  lemma BlankAfterTwo()
    ensures IndexOfAnyChar(Some("a test string"), 2, [' ']) == Success(6)
  {
    var t := "a test string"[2..];
    assert t == "test string";
    assert FirstCharIn(t, [' '], 0) == 4 by {
      assert t[0] !in [' '] && t[1] !in [' '] && t[2] !in [' '] && t[3] !in [' '] && t[4] in [' '];
    }
  }

  lemma KeyAtStart()
    ensures IndexOfAnyString(Some("a test string"), 1, [Some(" te")]) == Success(1)
  {
    var t := "a test string"[1..];
    assert t == " test string";
    assert IsAt(t, " te", 0) by {
      assert t[0..3] == " te";
    }
    assert IndexOf(t, " te", 0) == 0;
    assert SearchStrings(t, [Some(" te")]) == 0;
  }

  lemma KeyBeforeStart()
    ensures IndexOfAnyChar(Some("_test string"), 1, ['_', 'z']) == Success(-1)
  {
    var t := "_test string"[1..];
    assert t == "test string";
    assert forall j :: 0 <= j < |t| ==> t[j] !in ['_', 'z'];
  }

  lemma SecondKey()
    ensures IndexOfAnyChar(Some("A_test string"), 0, [' ', '_']) == Success(1)
  {
    var t := "A_test string"[0..];
    assert t == "A_test string";
    assert t[0] !in [' ', '_'] && t[1] in [' ', '_'];
  }
}

=== FILE: tuples.dfy ===
/** `TupleIterator` and `TupleSpliterator`: several sources read in step,
    one element of each per tuple, until one of them runs out.

    A base iterator or spliterator is the sequence of elements it has left;
    a null array is `None`, and so is a null entry in it. A base
    spliterator also carries its characteristics and the two things the
    tuple spliterator asks of it but cannot see into: where it would split
    and, when it is not `SIZED`, what size it would estimate. */
module Tuples {
  import opened Results
  import opened JavaLang

  /** The exceptions raised on the way: `NullPointerException` from a null
      array or base, `NoSuchElementException` from an exhausted base. */
  datatype Fault = NullPointer | NoSuchElement

  // ---------------------------------------------------------------- iterator

  /** A base that is null or has nothing left. */
  predicate Blocked<T>(bases: seq<Option<seq<T>>>, j: int)
    requires 0 <= j < |bases|
  {
    bases[j].None? || |bases[j].value| == 0
  }

  /** The first base from `i` on that is null or exhausted, `|bases|` if
      none. */
  function FirstBlocked<T>(bases: seq<Option<seq<T>>>, i: nat): (f: nat)
    requires i <= |bases|
    ensures i <= f <= |bases|
    ensures forall j :: i <= j < f ==> !Blocked(bases, j)
    ensures f < |bases| ==> Blocked(bases, f)
    decreases |bases| - i
  {
    if i == |bases| || Blocked(bases, i) then i else FirstBlocked(bases, i + 1)
  }

  /** `hasNext()` from base `i` on: the first null base throws, the first
      exhausted base answers false, and past the last base the answer is
      true. */
  function HasNextFrom<T>(bases: seq<Option<seq<T>>>, i: nat): (r: Result<bool, Fault>)
    requires i <= |bases|
    ensures r == Success(true) <==> FirstBlocked(bases, i) == |bases|
    ensures r == Failure(NullPointer) <==> FirstBlocked(bases, i) < |bases| && bases[FirstBlocked(bases, i)].None?
    ensures r.Failure? ==> r.error == NullPointer
    decreases |bases| - i
  {
    if i == |bases| then Success(true)
    else if bases[i].None? then Failure(NullPointer)
    else if |bases[i].value| == 0 then Success(false)
    else HasNextFrom(bases, i + 1)
  }

  /** `TupleIterator.hasNext()`: a null array throws; otherwise true exactly
      when every base has a next element, so always true for no bases. */
  function HasNext<T>(iterators: Option<seq<Option<seq<T>>>>): (r: Result<bool, Fault>)
    ensures iterators.None? ==> r == Failure(NullPointer)
    ensures iterators.Some? ==> (r == Success(true) <==> forall j :: 0 <= j < |iterators.value| ==> !Blocked(iterators.value, j))
    ensures iterators.Some? ==> var f := FirstBlocked(iterators.value, 0);
              (r == Failure(NullPointer) <==> f < |iterators.value| && iterators.value[f].None?)
    ensures iterators.Some? && |iterators.value| == 0 ==> r == Success(true)
    ensures iterators.Some? && (forall j :: 0 <= j < |iterators.value| ==> iterators.value[j].Some?) ==> r.Success?
  {
    match iterators
    case None => Failure(NullPointer)
    case Some(bases) => HasNextFrom(bases, 0)
  }

  /** `next()` from base `i` on: each base gives up its first element, in
      order; a null or exhausted base throws, after the earlier bases have
      already advanced. */
  function NextFrom<T>(bases: seq<Option<seq<T>>>, i: nat, tuple: seq<T>): (r: (Result<seq<T>, Fault>, seq<Option<seq<T>>>))
    requires i <= |bases| && |tuple| == i
    ensures |r.1| == |bases|
    ensures r.0.Success? <==> forall j :: i <= j < |bases| ==> !Blocked(bases, j)
    ensures forall j :: 0 <= j < i ==> r.1[j] == bases[j]
    ensures r.0.Success? ==> |r.0.value| == |bases| && r.0.value[..i] == tuple
                             && forall j :: i <= j < |bases| ==> !Blocked(bases, j) && r.0.value[j] == bases[j].value[0]
                                                                  && r.1[j] == Some(bases[j].value[1..])
    decreases |bases| - i
  {
    if i == |bases| then (Success(tuple), bases)
    else if bases[i].None? then assert Blocked(bases, i); (Failure(NullPointer), bases)
    else if |bases[i].value| == 0 then assert Blocked(bases, i); (Failure(NoSuchElement), bases)
    else
      var next := bases[i := Some(bases[i].value[1..])];
      assert forall j :: i + 1 <= j < |bases| ==> (Blocked(next, j) <==> Blocked(bases, j));
      var r := NextFrom(next, i + 1, tuple + [bases[i].value[0]]);
      assert r.0.Success? ==> r.0.value[..i] == (tuple + [bases[i].value[0]])[..i];
      r
  }

  /** `TupleIterator.next()`: the tuple of the bases' next elements, each
      base advanced once; it fails exactly when `hasNext()` would not say
      true. */
  function Next<T>(iterators: Option<seq<Option<seq<T>>>>): (r: (Result<seq<T>, Fault>, Option<seq<Option<seq<T>>>>))
    ensures r.0.Success? <==> HasNext(iterators) == Success(true)
    ensures r.0.Success? ==> var bases := iterators.value;
              |r.0.value| == |bases| && r.1.Some? && |r.1.value| == |bases|
              && forall j :: 0 <= j < |bases| ==> !Blocked(bases, j) && r.0.value[j] == bases[j].value[0]
                                                   && r.1.value[j] == Some(bases[j].value[1..])
  {
    match iterators
    case None => (Failure(NullPointer), None)
    case Some(bases) =>
      var r := NextFrom(bases, 0, []);
      (r.0, Some(r.1))
  }

  /** Non-null bases. */
  predicate AllPresent<T>(bases: seq<Option<seq<T>>>) {
    forall j :: 0 <= j < |bases| ==> bases[j].Some?
  }

  /** The shortest base (0 for none). */
  function Shortest<T>(bases: seq<Option<seq<T>>>): (n: nat)
    requires AllPresent(bases)
    ensures forall j :: 0 <= j < |bases| ==> n <= |bases[j].value|
    ensures |bases| > 0 ==> exists j :: 0 <= j < |bases| && n == |bases[j].value|
    decreases |bases|
  {
    if |bases| == 0 then 0
    else if |bases| == 1 then |bases[0].value|
    else
      var rest := Shortest(bases[1..]);
      assert forall j :: 1 <= j < |bases| ==> bases[1..][j - 1] == bases[j];
      if |bases[0].value| <= rest then |bases[0].value| else rest
  }

  /** Reading the tuples the way a stream over the iterator does, at most
      `limit` of them: `next()` as long as `hasNext()` says true. */
  function Drain<T>(bases: seq<Option<seq<T>>>, limit: nat): (r: seq<seq<T>>)
    requires AllPresent(bases)
    decreases limit
  {
    if limit == 0 || HasNext(Some(bases)) != Success(true) then []
    else
      var n := Next(Some(bases));
      [n.0.value] + Drain(n.1.value, limit - 1)
  }

  /** Position `j` of tuple `k` holds element `k` of base `j`. */
  ghost predicate ZipEntry<T>(tuples: seq<seq<T>>, bases: seq<Option<seq<T>>>, k: int, j: int) {
    0 <= k < |tuples| && 0 <= j < |bases| && bases[j].Some? && k < |bases[j].value|
    && |tuples[k]| == |bases| && tuples[k][j] == bases[j].value[k]
  }

  /** Tuple `k` holds element `k` of every base. */
  ghost predicate IsZip<T>(tuples: seq<seq<T>>, bases: seq<Option<seq<T>>>) {
    forall k, j :: 0 <= k < |tuples| && 0 <= j < |bases| ==> ZipEntry(tuples, bases, k, j)
  }

  /** With non-null bases `hasNext()` is true exactly when there are no
      bases or the shortest is not empty. */
  lemma HasNextIffShortest<T>(bases: seq<Option<seq<T>>>)
    requires AllPresent(bases)
    ensures HasNext(Some(bases)) == Success(true) <==> |bases| == 0 || Shortest(bases) > 0
  {
    if |bases| > 0 && Shortest(bases) == 0 {
      var j :| 0 <= j < |bases| && Shortest(bases) == |bases[j].value|;
      assert Blocked(bases, j);
    }
  }

  /** One `next()` on non-null bases with a tuple to give: the bases stay
      non-null and the shortest one loses an element. */
  lemma NextShortens<T>(bases: seq<Option<seq<T>>>)
    requires AllPresent(bases) && HasNext(Some(bases)) == Success(true)
    ensures var tails := Next(Some(bases)).1.value;
            AllPresent(tails) && (|bases| > 0 ==> Shortest(tails) == Shortest(bases) - 1)
  {
    var tails := Next(Some(bases)).1.value;
    assert AllPresent(tails);
    if |bases| > 0 {
      var j :| 0 <= j < |bases| && Shortest(bases) == |bases[j].value|;
      var j' :| 0 <= j' < |tails| && Shortest(tails) == |tails[j'].value|;
      assert |tails[j].value| == |bases[j].value| - 1;
      assert |tails[j'].value| == |bases[j'].value| - 1;
    }
  }

  /** The tuples read are the bases zipped up to the shortest one: tuple `k`
      holds element `k` of every base, and longer bases' extra elements never
      appear. With no bases every tuple is empty and the reading only stops
      at the limit. */
  lemma {:induction false} DrainIsZip<T>(bases: seq<Option<seq<T>>>, limit: nat)
    requires AllPresent(bases)
    ensures |Drain(bases, limit)| == if |bases| == 0 then limit else Min(limit, Shortest(bases))
    ensures IsZip(Drain(bases, limit), bases)
    decreases limit
  {
    HasNextIffShortest(bases);
    if limit > 0 && HasNext(Some(bases)) == Success(true) {
      var n := Next(Some(bases));
      var tails := n.1.value;
      NextShortens(bases);
      DrainIsZip(tails, limit - 1);
      DrainStep(bases, limit, tails, Drain(tails, limit - 1));
    }
  }

  /** The step of `DrainIsZip`: a first tuple, then the tuples of the tails. */
  lemma DrainStep<T>(bases: seq<Option<seq<T>>>, limit: nat, tails: seq<Option<seq<T>>>, rest: seq<seq<T>>)
    requires AllPresent(bases) && limit > 0 && HasNext(Some(bases)) == Success(true)
    requires tails == Next(Some(bases)).1.value && AllPresent(tails) && rest == Drain(tails, limit - 1)
    requires IsZip(rest, tails)
    ensures IsZip(Drain(bases, limit), bases)
  {
    var n := Next(Some(bases));
    var r := Drain(bases, limit);
    assert r == [n.0.value] + rest;
    forall k, j | 0 <= k < |r| && 0 <= j < |bases|
      ensures ZipEntry(r, bases, k, j)
    {
      if k > 0 {
        assert ZipEntry(rest, tails, k - 1, j);
        assert r[k] == rest[k - 1];
        assert tails[j].value == bases[j].value[1..];
      } else {
        assert r[0] == n.0.value;
      }
    }
  }

  /** The uneven case of the unit test: the middle base is one short, so
      two tuples come out. */
  lemma UnevenExample()
    ensures Drain([Some(["A", "B", "C"]), Some(["X", "Y"]), Some(["0", "1", "2"])], 10)
            == [["A", "X", "0"], ["B", "Y", "1"]]
  {
    var bases := [Some(["A", "B", "C"]), Some(["X", "Y"]), Some(["0", "1", "2"])];
    DrainIsZip(bases, 10);
    assert Shortest(bases) == 2;
    var r := Drain(bases, 10);
    assert ZipEntry(r, bases, 0, 0) && ZipEntry(r, bases, 0, 1) && ZipEntry(r, bases, 0, 2);
    assert ZipEntry(r, bases, 1, 0) && ZipEntry(r, bases, 1, 1) && ZipEntry(r, bases, 1, 2);
    assert r[0] == ["A", "X", "0"] && r[1] == ["B", "Y", "1"];
  }

  // ------------------------------------------------------------- spliterator

  /** The `Spliterator` characteristic bits. */
  const Distinct: bv32 := 0x0000_0001
  const SortedFlag: bv32 := 0x0000_0004
  const Ordered: bv32 := 0x0000_0010
  const Sized: bv32 := 0x0000_0040
  const NonNull: bv32 := 0x0000_0100
  const Immutable: bv32 := 0x0000_0400
  const Concurrent: bv32 := 0x0000_1000
  const Subsized: bv32 := 0x0000_4000

  /** A base spliterator: its remaining elements, its characteristics, the
      split point it would choose for given remaining elements (`None` when
      it declines) and the size it would estimate when not `SIZED`. */
  datatype Base<!T> = Base(elems: seq<T>, flags: bv32, splitPoint: seq<T> -> Option<nat>, guess: seq<T> -> int)

  /** `estimateSize()` of a base: exact when `SIZED`. */
  function BaseEstimate<T>(b: Base<T>): int {
    if b.flags & Sized != 0 then |b.elems| else b.guess(b.elems)
  }

  /** `trySplit()` of a base: the prefix handed out and the tail kept. */
  function BaseSplit<T>(b: Base<T>): (r: Option<(Base<T>, Base<T>)>)
    ensures r.Some? ==> r.value.0.elems + r.value.1.elems == b.elems
  {
    match b.splitPoint(b.elems)
    case None => None
    case Some(k) =>
      var at := Min(k, |b.elems|);
      Some((b.(elems := b.elems[..at]), b.(elems := b.elems[at..])))
  }

  /** A base's estimate as the constructor reads it: 0 for a null base. */
  function Estimate<T>(b: Option<Base<T>>): int {
    if b.None? then 0 else BaseEstimate(b.value)
  }

  /** The constructor's minimum of the base estimates, 0 for no bases. */
  function MinEstimate<T>(bases: seq<Option<Base<T>>>): (m: int)
    ensures forall j :: 0 <= j < |bases| ==> m <= Estimate(bases[j])
    ensures |bases| == 0 ==> m == 0
    ensures |bases| > 0 ==> exists j :: 0 <= j < |bases| && m == Estimate(bases[j])
    decreases |bases|
  {
    if |bases| == 0 then 0
    else if |bases| == 1 then Estimate(bases[0])
    else
      var rest := MinEstimate(bases[1..]);
      assert forall j :: 1 <= j < |bases| ==> bases[1..][j - 1] == bases[j];
      Min(Estimate(bases[0]), rest)
  }

  /** Every non-null base has the characteristic. */
  predicate AllHave<T>(bases: seq<Option<Base<T>>>, flag: bv32) {
    forall j :: 0 <= j < |bases| && bases[j].Some? ==> bases[j].value.flags & flag != 0
  }

  /** The tuple spliterator: its bases, its characteristics and its size
      field. */
  datatype TupleSplit<!T> = TupleSplit(bases: Option<seq<Option<Base<T>>>>, characteristics: bv32, size: int)

  /** The constructor. `NONNULL`, `DISTINCT` and `IMMUTABLE` always;
      `ORDERED`, `SIZED` and `SUBSIZED` when every non-null base has them;
      the size is the smallest base estimate, a null base counting as 0. */
  function NewTupleSplit<T>(spliterators: Option<seq<Option<Base<T>>>>): (r: TupleSplit<T>)
    ensures r.bases == spliterators
    ensures r.characteristics & NonNull != 0 && r.characteristics & Distinct != 0 && r.characteristics & Immutable != 0
    ensures r.characteristics & SortedFlag == 0 && r.characteristics & Concurrent == 0
    ensures spliterators.None? ==> r.characteristics == NonNull | Distinct | Immutable && r.size == 0
    ensures spliterators.Some? ==>
              (r.characteristics & Ordered != 0 <==> AllHave(spliterators.value, Ordered))
              && (r.characteristics & Sized != 0 <==> AllHave(spliterators.value, Sized))
              && (r.characteristics & Subsized != 0 <==> AllHave(spliterators.value, Subsized))
    ensures spliterators.Some? ==> r.size == MinEstimate(spliterators.value)
  {
    var always := NonNull | Distinct | Immutable;
    match spliterators
    case None => TupleSplit(None, always, 0)
    case Some(bases) =>
      var ordered := if AllHave(bases, Ordered) then Ordered else 0;
      var sized := if AllHave(bases, Sized) then Sized else 0;
      var subsized := if AllHave(bases, Subsized) then Subsized else 0;
      TupleSplit(spliterators, always | ordered | sized | subsized, MinEstimate(bases))
  }

  /** A base the tuple spliterator cannot advance: null or exhausted. */
  predicate Stuck<T>(bases: seq<Option<Base<T>>>, j: int)
    requires 0 <= j < |bases|
  {
    bases[j].None? || |bases[j].value.elems| == 0
  }

  /** The first base from `i` on that is stuck, `|bases|` if none. */
  function FirstStuck<T>(bases: seq<Option<Base<T>>>, i: nat): (f: nat)
    requires i <= |bases|
    ensures i <= f <= |bases|
    ensures forall j :: i <= j < f ==> !Stuck(bases, j)
    ensures f < |bases| ==> Stuck(bases, f)
    decreases |bases| - i
  {
    if i == |bases| || Stuck(bases, i) then i else FirstStuck(bases, i + 1)
  }

  lemma {:induction false} FirstStuckIgnoresEarlier<T>(a: seq<Option<Base<T>>>, b: seq<Option<Base<T>>>, i: nat)
    requires i <= |a| == |b| && forall j :: i <= j < |a| ==> a[j] == b[j]
    ensures FirstStuck(a, i) == FirstStuck(b, i)
    decreases |a| - i
  {
    if i < |a| && !Stuck(a, i) {
      FirstStuckIgnoresEarlier(a, b, i + 1);
    }
  }

  /** A base after its `tryAdvance`: one element fewer when it had one. */
  function Advanced<T>(b: Option<Base<T>>): Option<Base<T>> {
    if b.Some? && |b.value.elems| > 0 then Some(b.value.(elems := b.value.elems[1..])) else b
  }

  /** The `tryAdvance` loop from base `i` on. */
  function AdvanceFrom<T>(bases: seq<Option<Base<T>>>, i: nat, tuple: seq<T>): (r: (Option<seq<T>>, seq<Option<Base<T>>>))
    requires i <= |bases| && |tuple| == i
    ensures |r.1| == |bases|
    ensures r.0.Some? <==> FirstStuck(bases, i) == |bases|
    ensures forall j :: 0 <= j < |bases| ==> r.1[j] == if i <= j < FirstStuck(bases, i) then Advanced(bases[j]) else bases[j]
    ensures r.0.Some? ==> |r.0.value| == |bases| && r.0.value[..i] == tuple
                          && forall j :: i <= j < |bases| ==> !Stuck(bases, j) && r.0.value[j] == bases[j].value.elems[0]
    decreases |bases| - i
  {
    if i == |bases| then (Some(tuple), bases)
    else if Stuck(bases, i) then (None, bases)
    else
      var next := bases[i := Advanced(bases[i])];
      FirstStuckIgnoresEarlier(bases, next, i + 1);
      var r := AdvanceFrom(next, i + 1, tuple + [bases[i].value.elems[0]]);
      assert r.0.Some? ==> r.0.value[..i] == (tuple + [bases[i].value.elems[0]])[..i];
      r
  }

  /** `tryAdvance(action)`: `Some(tuple)` when the action is called with
      the tuple. It is called exactly when the array and every base are
      non-null and every base has an element, each base then giving one.
      When it is not, the bases before the first stuck one have already
      given up an element, and the later ones are untouched. The size
      field is left as it is. */
  function TryAdvance<T>(s: TupleSplit<T>): (r: (Option<seq<T>>, TupleSplit<T>))
    ensures r.1.characteristics == s.characteristics && r.1.size == s.size
    ensures s.bases.None? ==> r == (None, s)
    ensures s.bases.Some? ==> var bases := s.bases.value; var f := FirstStuck(bases, 0);
              (r.0.Some? <==> f == |bases|)
              && r.1.bases.Some? && |r.1.bases.value| == |bases|
              && (forall j :: 0 <= j < |bases| ==> r.1.bases.value[j] == if j < f then Advanced(bases[j]) else bases[j])
              && (r.0.Some? ==> |r.0.value| == |bases|
                                && forall j :: 0 <= j < |bases| ==> !Stuck(bases, j) && r.0.value[j] == bases[j].value.elems[0])
  {
    match s.bases
    case None => (None, s)
    case Some(bases) =>
      var r := AdvanceFrom(bases, 0, []);
      (r.0, s.(bases := Some(r.1)))
  }

  /** The elements the bases have left, as the iterator sees them. */
  function ElementsOf<T>(bases: seq<Option<Base<T>>>): (r: seq<Option<seq<T>>>)
    ensures |r| == |bases|
    ensures forall j :: 0 <= j < |bases| ==> r[j] == if bases[j].None? then None else Some(bases[j].value.elems)
  {
    seq(|bases|, j requires 0 <= j < |bases| => if bases[j].None? then None else Some(bases[j].value.elems))
  }

  /** The spliterator makes the tuples the iterator makes from the same
      bases: one comes out of `tryAdvance` exactly when `next` succeeds. */
  lemma TryAdvanceIsNext<T>(s: TupleSplit<T>)
    requires s.bases.Some?
    ensures var a := TryAdvance(s);
            var n := Next(Some(ElementsOf(s.bases.value)));
            (a.0.Some? <==> n.0.Success?) && (a.0.Some? ==> a.0.value == n.0.value)
  {
    var bases := s.bases.value;
    var elems := ElementsOf(bases);
    assert forall j :: 0 <= j < |bases| ==> (Blocked(elems, j) <==> Stuck(bases, j));
    var f := FirstStuck(bases, 0);
    if f < |bases| {
      assert Blocked(elems, f);
    }
    var a := TryAdvance(s);
    var n := Next(Some(elems));
    if a.0.Some? {
      assert n.0.Success?;
      assert forall j :: 0 <= j < |bases| ==> a.0.value[j] == n.0.value[j];
    }
  }

  /** A base that is non-null and agrees to split. */
  predicate Splits<T>(b: Option<Base<T>>) {
    b.Some? && BaseSplit(b.value).Some?
  }

  /** The prefix a base hands out when it splits. */
  function Prefix<T>(b: Option<Base<T>>): Option<Base<T>> {
    if Splits(b) then Some(BaseSplit(b.value).value.0) else None
  }

  /** The base after its `trySplit`: its tail when it splits. */
  function Tail<T>(b: Option<Base<T>>): Option<Base<T>> {
    if Splits(b) then Some(BaseSplit(b.value).value.1) else b
  }

  /** Base `j` splits, and its prefix is estimated like base 0's. */
  predicate SplitsEvenly<T>(bases: seq<Option<Base<T>>>, j: int)
    requires 0 <= j < |bases|
  {
    Splits(bases[j]) && (j == 0 || Estimate(Prefix(bases[j])) == Estimate(Prefix(bases[0])))
  }

  /** The first base from `i` on that stops the split, `|bases|` if none. */
  function SplitStop<T>(bases: seq<Option<Base<T>>>, i: nat): (f: nat)
    requires i <= |bases|
    ensures i <= f <= |bases|
    ensures forall j :: i <= j < f ==> SplitsEvenly(bases, j)
    ensures f < |bases| ==> !SplitsEvenly(bases, f)
    decreases |bases| - i
  {
    if i == |bases| || !SplitsEvenly(bases, i) then i else SplitStop(bases, i + 1)
  }

  /** How many bases the split loop has split (and so replaced by their
      tails) by the time it stops: those before the stop, and the stopping
      one too when it split but its prefix had another size. */
  function SplitCount<T>(bases: seq<Option<Base<T>>>): (n: nat)
    ensures n <= |bases|
  {
    var f := SplitStop(bases, 0);
    if f < |bases| && Splits(bases[f]) then f + 1 else f
  }

  /** The smallest estimate among the first `n` bases' tails, starting from
      `Long.MAX_VALUE`. */
  function MinTail<T>(bases: seq<Option<Base<T>>>, n: nat): (m: int)
    requires n <= |bases|
    ensures m <= LongMax
    ensures forall j :: 0 <= j < n ==> m <= Estimate(Tail(bases[j]))
    ensures m == LongMax || exists j :: 0 <= j < n && m == Estimate(Tail(bases[j]))
    decreases n
  {
    if n == 0 then LongMax
    else
      var rest := MinTail(bases, n - 1);
      var e := Estimate(Tail(bases[n - 1]));
      if e < rest then e else rest
  }

  /** The split loop from base `i` on: the bases as they were, the
      prefixes and tails of the bases split so far, the size found so far and
      the prefix size of base 0. It gives the prefixes (`None` for a null
      result), the bases as left and the size field. */
  function SplitFrom<T>(bases: seq<Option<Base<T>>>, i: nat, prefixes: seq<Option<Base<T>>>,
                        tails: seq<Option<Base<T>>>, size: int, prefixSize: int): (r: (Option<seq<Option<Base<T>>>>, seq<Option<Base<T>>>, int))
    requires i <= |bases| && |prefixes| == i && |tails| == i
    ensures |r.1| == |bases|
    decreases |bases| - i
  {
    if i == |bases| then (Some(prefixes), tails, size)
    else if bases[i].None? then (None, tails + bases[i..], size)
    else match BaseSplit(bases[i].value)
      case None => (None, tails + bases[i..], size)
      case Some(parts) =>
        var tails' := tails + [Some(parts.1)];
        var size' := if BaseEstimate(parts.1) < size then BaseEstimate(parts.1) else size;
        if i == 0 then SplitFrom(bases, 1, [Some(parts.0)], tails', size', BaseEstimate(parts.0))
        else if prefixSize != BaseEstimate(parts.0) then (None, tails' + bases[i + 1..], size')
        else SplitFrom(bases, i + 1, prefixes + [Some(parts.0)], tails', size', prefixSize)
  }

  /** The loop state after base `i` has split evenly. */
  lemma SplitStep<T>(bases: seq<Option<Base<T>>>, i: nat, tails: seq<Option<Base<T>>>, size: int)
    requires i < |bases| && |tails| == i && Splits(bases[i])
    requires forall j :: 0 <= j < i ==> tails[j] == Tail(bases[j])
    requires size == MinTail(bases, i)
    ensures var t := BaseSplit(bases[i].value).value.1;
            (forall j :: 0 <= j < i + 1 ==> (tails + [Some(t)])[j] == Tail(bases[j]))
            && (if BaseEstimate(t) < size then BaseEstimate(t) else size) == MinTail(bases, i + 1)
  {
  }

  /** The state of the split loop on reaching base `i`: every earlier base
      has split evenly, its prefix and tail recorded, the size the smallest
      tail estimate so far and the prefix size base 0's. */
  ghost predicate SplitInv<T>(bases: seq<Option<Base<T>>>, i: nat, prefixes: seq<Option<Base<T>>>,
                              tails: seq<Option<Base<T>>>, size: int, prefixSize: int)
  {
    i <= |bases| && i <= SplitStop(bases, 0) && |prefixes| == i && |tails| == i
    && (forall j :: 0 <= j < i ==> prefixes[j] == Prefix(bases[j]) && tails[j] == Tail(bases[j]))
    && size == MinTail(bases, i)
    && (i > 0 ==> prefixSize == Estimate(Prefix(bases[0])))
  }

  /** What the split loop leaves: a result exactly when every base splits
      evenly, holding the prefixes; the split bases replaced by their
      tails; the size the smallest tail estimate. */
  ghost predicate SplitMeaning<T>(bases: seq<Option<Base<T>>>, r: (Option<seq<Option<Base<T>>>>, seq<Option<Base<T>>>, int))
  {
    var n := SplitCount(bases);
    |r.1| == |bases|
    && (r.0.Some? <==> SplitStop(bases, 0) == |bases|)
    && (forall j :: 0 <= j < |bases| ==> r.1[j] == if j < n then Tail(bases[j]) else bases[j])
    && r.2 == MinTail(bases, n)
    && (r.0.Some? ==> |r.0.value| == |bases| && forall j :: 0 <= j < |bases| ==> r.0.value[j] == Prefix(bases[j]))
  }

  /** One turn of the split loop at a base that splits evenly: the loop
      goes on from base `i + 1` in the state it returns. */
  lemma SplitTurn<T>(bases: seq<Option<Base<T>>>, i: nat, prefixes: seq<Option<Base<T>>>,
                     tails: seq<Option<Base<T>>>, size: int, prefixSize: int)
    returns (prefixes': seq<Option<Base<T>>>, tails': seq<Option<Base<T>>>, size': int, prefixSize': int)
    requires SplitInv(bases, i, prefixes, tails, size, prefixSize) && i < SplitStop(bases, 0)
    ensures SplitInv(bases, i + 1, prefixes', tails', size', prefixSize')
    ensures SplitFrom(bases, i, prefixes, tails, size, prefixSize) == SplitFrom(bases, i + 1, prefixes', tails', size', prefixSize')
  {
    assert SplitsEvenly(bases, i);
    var parts := BaseSplit(bases[i].value).value;
    SplitStep(bases, i, tails, size);
    prefixes', tails' := prefixes + [Some(parts.0)], tails + [Some(parts.1)];
    size' := if BaseEstimate(parts.1) < size then BaseEstimate(parts.1) else size;
    prefixSize' := if i == 0 then BaseEstimate(parts.0) else prefixSize;
    if i == 0 {
      assert prefixes' == [Some(parts.0)];
    }
  }

  /** The loop stopping at base `i`: the bases as left and the size. */
  lemma SplitHalt<T>(bases: seq<Option<Base<T>>>, i: nat, prefixes: seq<Option<Base<T>>>,
                     tails: seq<Option<Base<T>>>, size: int, prefixSize: int)
    requires SplitInv(bases, i, prefixes, tails, size, prefixSize) && i == SplitStop(bases, 0) < |bases|
    ensures SplitMeaning(bases, SplitFrom(bases, i, prefixes, tails, size, prefixSize))
  {
    var r := SplitFrom(bases, i, prefixes, tails, size, prefixSize);
    if Splits(bases[i]) {
      SplitHaltUneven(bases, i, prefixes, tails, size, prefixSize);
    } else {
      assert r.1 == tails + bases[i..];
      assert SplitCount(bases) == i;
    }
  }

  /** The loop stopping at a base whose prefix has another size: that base
      is left with its tail. */
  lemma SplitHaltUneven<T>(bases: seq<Option<Base<T>>>, i: nat, prefixes: seq<Option<Base<T>>>,
                           tails: seq<Option<Base<T>>>, size: int, prefixSize: int)
    requires SplitInv(bases, i, prefixes, tails, size, prefixSize) && i == SplitStop(bases, 0) < |bases|
    requires Splits(bases[i])
    ensures SplitMeaning(bases, SplitFrom(bases, i, prefixes, tails, size, prefixSize))
  {
    var r := SplitFrom(bases, i, prefixes, tails, size, prefixSize);
    var parts := BaseSplit(bases[i].value).value;
    assert i > 0;
    assert prefixSize != BaseEstimate(parts.0);
    SplitStep(bases, i, tails, size);
    assert SplitCount(bases) == i + 1;
    assert r == (None, tails + [Some(parts.1)] + bases[i + 1..], if BaseEstimate(parts.1) < size then BaseEstimate(parts.1) else size);
    forall j | 0 <= j < |bases|
      ensures r.1[j] == if j < i + 1 then Tail(bases[j]) else bases[j]
    {
      if j < i + 1 {
        assert r.1[j] == (tails + [Some(parts.1)])[j];
      }
    }
  }

  /** The split loop having passed every base. */
  lemma SplitDone<T>(bases: seq<Option<Base<T>>>, prefixes: seq<Option<Base<T>>>,
                     tails: seq<Option<Base<T>>>, size: int, prefixSize: int)
    requires SplitInv(bases, |bases|, prefixes, tails, size, prefixSize) && SplitStop(bases, 0) == |bases|
    ensures SplitMeaning(bases, SplitFrom(bases, |bases|, prefixes, tails, size, prefixSize))
  {
  }

  /** What the split loop computes, by induction from base `i`. */
  lemma {:induction false} SplitFromMeaning<T>(bases: seq<Option<Base<T>>>, i: nat, prefixes: seq<Option<Base<T>>>,
                                               tails: seq<Option<Base<T>>>, size: int, prefixSize: int)
    requires SplitInv(bases, i, prefixes, tails, size, prefixSize)
    ensures SplitMeaning(bases, SplitFrom(bases, i, prefixes, tails, size, prefixSize))
    decreases |bases| - i
  {
    if i == SplitStop(bases, 0) {
      if i == |bases| {
        SplitDone(bases, prefixes, tails, size, prefixSize);
      } else {
        SplitHalt(bases, i, prefixes, tails, size, prefixSize);
      }
    } else {
      var prefixes', tails', size', prefixSize' := SplitTurn(bases, i, prefixes, tails, size, prefixSize);
      SplitFromMeaning(bases, i + 1, prefixes', tails', size', prefixSize');
    }
  }

  /** The outcome of `trySplit()`: the spliterator handed out (`None` for
      null) or the exception, and the receiver as left. */
  datatype SplitOutcome<!T> = SplitOutcome(result: Result<Option<TupleSplit<T>>, Fault>, receiver: TupleSplit<T>)

  /** `trySplit()`. A null array throws. The size field is first set to
      `Long.MAX_VALUE` and lowered to each tail's estimate as the bases are
      split in order; the first null base, base that declines, or prefix of
      another size than base 0's ends the loop with null, the bases split
      so far keeping only their tails. When every base splits evenly the
      result is a new tuple spliterator over the prefixes. */
  function TrySplit<T>(s: TupleSplit<T>): (r: SplitOutcome<T>)
    ensures s.bases.None? ==> r == SplitOutcome(Failure(NullPointer), s)
    ensures s.bases.Some? ==> var bases := s.bases.value; var n := SplitCount(bases);
              r.result.Success?
              && (r.result.value.Some? <==> SplitStop(bases, 0) == |bases|)
              && r.receiver.characteristics == s.characteristics
              && r.receiver.size == MinTail(bases, n)
              && r.receiver.bases.Some? && |r.receiver.bases.value| == |bases|
              && (forall j :: 0 <= j < |bases| ==> r.receiver.bases.value[j] == if j < n then Tail(bases[j]) else bases[j])
              && (r.result.value.Some? ==>
                    r.result.value.value == NewTupleSplit(Some(seq(|bases|, j requires 0 <= j < |bases| => Prefix(bases[j])))))
  {
    match s.bases
    case None => SplitOutcome(Failure(NullPointer), s)
    case Some(bases) =>
      SplitFromMeaning(bases, 0, [], [], LongMax, -1);
      var r := SplitFrom(bases, 0, [], [], LongMax, -1);
      var receiver := s.(bases := Some(r.1), size := r.2);
      match r.0
      case None => SplitOutcome(Success(None), receiver)
      case Some(prefixes) =>
        assert prefixes == seq(|bases|, j requires 0 <= j < |bases| => Prefix(bases[j]));
        SplitOutcome(Success(Some(NewTupleSplit(Some(prefixes)))), receiver)
  }

  /** `estimateSize()`. */
  function EstimateSize<T>(s: TupleSplit<T>): int {
    s.size
  }

  /** An ordered, sized base whose splits hand out its first three
      elements. */
  function SplitAtThree(elems: seq<string>): Base<string> {
    Base(elems, Ordered | Sized | Subsized, _ => Some(3), _ => 0)
  }

  /** The second example of the `trySplit` documentation: bases
      `1, 2, 3, 4, 5, 6` and `a, b, c, d`, both splitting after three
      elements. */
  function DocBases(): seq<Option<Base<string>>> {
    [Some(SplitAtThree(["1", "2", "3", "4", "5", "6"])), Some(SplitAtThree(["a", "b", "c", "d"]))]
  }

  lemma DocSplitLoop()
    ensures SplitStop(DocBases(), 0) == 2 && SplitCount(DocBases()) == 2 && MinTail(DocBases(), 2) == 1
    ensures Estimate(Prefix(DocBases()[0])) == 3 && Estimate(Prefix(DocBases()[1])) == 3
    ensures Tail(DocBases()[0]).value.elems == ["4", "5", "6"] && Tail(DocBases()[1]).value.elems == ["d"]
  {
    var bases := DocBases();
    assert BaseSplit(bases[0].value).value.1.elems == ["4", "5", "6"];
    assert BaseSplit(bases[1].value).value.1.elems == ["d"];
    assert SplitsEvenly(bases, 0) && SplitsEvenly(bases, 1);
  }

  /** Two bases that both split evenly into three-element prefixes, one
      tail having a single element. */
  lemma SplitOfTwo<T>(bases: seq<Option<Base<T>>>)
    requires |bases| == 2 && SplitStop(bases, 0) == 2 && SplitCount(bases) == 2 && MinTail(bases, 2) == 1
    requires Estimate(Prefix(bases[0])) == 3 && Estimate(Prefix(bases[1])) == 3
    ensures var r := TrySplit(NewTupleSplit(Some(bases)));
            r.result.Success? && r.result.value.Some? && r.result.value.value.size == 3 && r.receiver.size == 1
            && r.receiver.bases.Some? && |r.receiver.bases.value| == 2
            && r.receiver.bases.value[0] == Tail(bases[0]) && r.receiver.bases.value[1] == Tail(bases[1])
  {
    var prefixes := seq(|bases|, j requires 0 <= j < |bases| => Prefix(bases[j]));
    assert Estimate(prefixes[0]) == 3 && Estimate(prefixes[1]) == 3;
    assert MinEstimate(prefixes) == 3;
  }

  /** A receiver left with `4, 5, 6` and `d` gives the tuple `(4, d)` and
      then no more. */
  lemma AdvanceLeftovers(s: TupleSplit<string>)
    requires s.bases.Some? && |s.bases.value| == 2
    requires s.bases.value[0].Some? && s.bases.value[0].value.elems == ["4", "5", "6"]
    requires s.bases.value[1].Some? && s.bases.value[1].value.elems == ["d"]
    ensures TryAdvance(s).0 == Some(["4", "d"]) && TryAdvance(TryAdvance(s).1).0 == None
  {
    var bases := s.bases.value;
    assert FirstStuck(bases, 0) == 2;
    var a := TryAdvance(s);
    assert a.0.value == ["4", "d"];
    var left := a.1.bases.value;
    assert left[1] == Advanced(bases[1]);
    assert Stuck(left, 1);
  }

  /** The documented outcome: the split takes three tuples, the receiver
      keeps an estimate of one and gives the one tuple `(4, d)`. */
  lemma DocumentedSplit()
    ensures var r := TrySplit(NewTupleSplit(Some(DocBases())));
            r.result.Success? && r.result.value.Some? && r.result.value.value.size == 3 && r.receiver.size == 1
            && TryAdvance(r.receiver).0 == Some(["4", "d"])
            && TryAdvance(TryAdvance(r.receiver).1).0 == None
  {
    DocSplitLoop();
    SplitOfTwo(DocBases());
    AdvanceLeftovers(TrySplit(NewTupleSplit(Some(DocBases()))).receiver);
  }
}
